=== FILE: README.md ===
# A verified model of the Enigma chess engine

This project models the core of Enigma, a bitboard chess engine written in C++,
together with its two Python helper scripts. It is written in Dafny, and the
verifier proves the contracts and lemmas about the model. Layer by layer:

- **Encodings** (`types.dfy`, `squares.dfy`, `bitboards.dfy`, `squaresets.dfy`,
  `movecodec.dfy`):
  - the square enumeration, directions, castling bits, move types and flags;
  - rank/file arithmetic and algebraic square names;
  - 64-bit bitboards with their edge-clipped shifts, and the sets of squares they stand for;
  - the 16-bit move word.
- **Precomputed attack maps** (`precompute.dfy`): `explore<D>` and the bishop, knight,
  rook, queen and king maps, each with a geometric characterisation.
- **Board state** (`boards.dfy`, `fen.dfy`, `movelist.dfy`):
  - `reset`;
  - `make_move` / `unmake_move` over a 64-cell board, with the saved `State` stack;
  - `load_from_fen`;
  - the fixed-capacity `MoveList`.
- **Legal-move filtering** (`checks.dfy`, `movegen.dfy`):
  - `CheckInfo`: checkers, pins, `must_cover` and `unsafe`, over an abstract ray walk;
  - the legal move generator in its three modes.
- **Move ordering** (`selector.dfy`): `CAPTURE_SCORE`, both sorts,
  `mark_killer_if_legal` and the `next_move` phase machine. It is modelled twice:
  as written, and with captures generated once.
- **Counters and scorers**:
  - `perft` and `perft_phased` (`perft.dfy`), over an abstract engine;
  - `evaluate` (`evaluate.dfy`);
  - `negamax` and the iterative-deepening `search` (`search.dfy`), with the stop check
    as an oracle.
- **Small parsers and tools**:
  - the perft test-line parser and `run_bench` (`bench.dfy`), over the text model of
    `std::stoi` and stream extraction in `numbers.dfy`;
  - `save_version.py` (`versions.dfy`);
  - `run_match.py` (`match.dfy`);
  - the shared y/N prompt (`replies.dfy`).

Several headers come from different iterations of the engine and disagree with
each other. The model takes `include/types.hpp` as the type layer and the free
functions of `include/move.hpp` as the move accessors. It reads `shift<D>` as the
matching `shift_*` function of `include/utils.hpp`.

## Model

| member | source | states |
|---|---|---|
| Types.SquareEnumIsRankFile | include/types.hpp:23-32 | the enumerator at position i names file i % 8 and rank i / 8, so every square's value is rank * 8 + file, with A1 = 0 and H8 = 63 |
| Types.NamedSquaresMatchEnum | include/types.hpp:23-32 | the castling squares the engine names (A1, C1, ..., H8) carry their enumerators' values |
| Types.DirectionOffsets | include/types.hpp:34-47 | every direction's offset is 8 * rank step + file step; opposite directions negate it; the diagonals are ±7 and ±9 and the double pushes ±16 |
| Types.CastlingRightsAreBits | include/types.hpp:87-92 | the four rights are distinct single bits: every combination is below 16, each right reads back, and different combinations are different values |
| Types.EnumsFitMoveFields | include/types.hpp:94-107 | every move type fits the 1-bit field and every flag the 3-bit field |
| Types.PromotedPiece | src/board.cpp:288-305 | a promotion flag turns the pawn into a piece that is neither a pawn nor a king |
| Types.NoSquareIsOffBoard | include/types.hpp:138 | NO_SQUARE is -1 stored in a uint8_t, i.e. 255, outside 0..63 |
| Squares.RankFileDecompose | include/utils.hpp:30-31 | get_rank and get_file of a square are in 0..7 and rank * 8 + file gives the square back |
| Squares.RankFileInjective | include/utils.hpp:30-31 | two squares with the same rank and file are equal |
| Squares.GetRank | include/utils.hpp:30 | defines get_rank as the C++ quotient of the square by 8, rounded toward zero; specified by RankFileDecompose, RankFileInjective and GetSquareRoundTrip |
| Squares.GetFile | include/utils.hpp:31 | defines get_file as the C++ remainder of the square by 8; specified by RankFileDecompose, RankFileInjective and GetSquareRoundTrip |
| Squares.GetSquare | src/utils.cpp:6-8 | the uint8_t result equals rank * 8 + file and lies on the board for in-range rank and file |
| Squares.GetSquareRoundTrip | src/utils.cpp:6-8 | get_rank and get_file recover rank and file from get_square |
| Squares.AlgebraicToIndex | src/utils.cpp:10-19 | any string of length two or more gives some uint8_t value: nothing is validated |
| Squares.AlgebraicToIndexOfName | src/utils.cpp:10-19 | a well-formed name maps to get_square(s[1] - '1', s[0] - 'a'), whose rank and file are those characters' offsets |
| Squares.NameThenIndex | src/utils.cpp:10-19 | naming a square and reading the name back gives the square |
| Squares.IndexThenName | src/utils.cpp:10-19 | reading a well-formed name and naming the result gives the name back |
| Squares.SquareName | src/utils.cpp:10-19 | the name built for a square is a well-formed name: a file letter a-h and a rank digit 1-8 |
| Squares.AlgebraicExamples | src/utils.cpp:10-19 | "a1" is 0, "e4" is 28 and "h8" is 63 |
| Squares.AlgebraicUnvalidated | src/utils.cpp:10-19 | without validation "a9" is 64 (off the board), "i1" aliases "a2", and "a0" wraps to 248 |
| Squares.Step | include/utils.hpp:20-27 | a one-square step exists exactly when the moved rank and file stay in 0..7, and then it moves them by the direction's steps |
| Squares.StepAddsOffset | include/types.hpp:34-47 | on the board a step adds the direction's offset to the square index |
| Squares.StepInverse | include/types.hpp:34-47 | t is one step from s in d exactly when s is one step from t in the opposite direction |
| Bitboards.RankMaskBits | include/types.hpp:118-125 | bit sq of RANK_r_MASK is set exactly when sq lies on rank r |
| Bitboards.FileMaskBits | include/types.hpp:127-134 | bit sq of X_FILE_MASK is set exactly when sq lies on that file |
| Bitboards.MasksPartitionBoard | include/types.hpp:118-134 | every square lies in exactly one rank mask and exactly one file mask |
| Bitboards.MasksTileBoard | include/types.hpp:118-134 | the eight rank masks are pairwise disjoint and their union is all 64 bits, and so are the eight file masks |
| Bitboards.GetMask | include/utils.hpp:29 | defines get_mask as the bitboard with the square's bit set; specified by GetMaskSingleBit and GetMaskSquares |
| Bitboards.ShiftNorth | include/utils.hpp:20 | defines shift_north as a left shift by 8; specified by ShiftsDropRanks and, through Shift, ShiftHas and ShiftSquares (each square moves one step, squares stepping off the board are dropped) |
| Bitboards.ShiftSouth | include/utils.hpp:21 | defines shift_south as a right shift by 8; specified by ShiftsDropRanks and, through Shift, ShiftHas and ShiftSquares (each square moves one step, squares stepping off the board are dropped) |
| Bitboards.ShiftEast | include/utils.hpp:22 | defines shift_east as a left shift by 1 masked with NOT_A_FILE; specified by ShiftsClipFiles and, through Shift, ShiftHas and ShiftSquares (each square moves one step, squares stepping off the board are dropped) |
| Bitboards.ShiftNortheast | include/utils.hpp:23 | defines shift_northeast as a left shift by 9 masked with NOT_A_FILE; specified by ShiftsClipFiles and, through Shift, ShiftHas and ShiftSquares (each square moves one step, squares stepping off the board are dropped) |
| Bitboards.ShiftSoutheast | include/utils.hpp:24 | defines shift_southeast as a right shift by 7 masked with NOT_A_FILE; specified by ShiftsClipFiles and, through Shift, ShiftHas and ShiftSquares (each square moves one step, squares stepping off the board are dropped) |
| Bitboards.ShiftWest | include/utils.hpp:25 | defines shift_west as a right shift by 1 masked with NOT_H_FILE; specified by ShiftsClipFiles and, through Shift, ShiftHas and ShiftSquares (each square moves one step, squares stepping off the board are dropped) |
| Bitboards.ShiftNorthwest | include/utils.hpp:26 | defines shift_northwest as a left shift by 7 masked with NOT_H_FILE; specified by ShiftsClipFiles and, through Shift, ShiftHas and ShiftSquares (each square moves one step, squares stepping off the board are dropped) |
| Bitboards.ShiftSouthwest | include/utils.hpp:27 | defines shift_southwest as a right shift by 9 masked with NOT_H_FILE; specified by ShiftsClipFiles and, through Shift, ShiftHas and ShiftSquares (each square moves one step, squares stepping off the board are dropped) |
| Bitboards.GetMaskSingleBit | include/utils.hpp:29 | get_mask(sq) has exactly one bit set, bit sq |
| Bitboards.GetMaskSquares | include/utils.hpp:29 | as a set of squares get_mask(sq) is {sq} |
| Bitboards.ShiftsClipFiles | include/utils.hpp:9-10 | the eastward shifts never produce an A-file bit and the westward shifts never produce an H-file bit |
| Bitboards.ShiftsDropRanks | include/utils.hpp:20-21 | shift_north loses the rank-8 bits and shift_south the rank-1 bits, so their values do not matter |
| Bitboards.ShiftHas | include/utils.hpp:20-27 | bit t of a shifted bitboard is bit (t - offset) of the input when that step stays on the board, and clear otherwise |
| Bitboards.ShiftSquares | include/utils.hpp:20-27 | a shift moves each square of the bitboard one step in its direction and drops the squares whose step leaves the board |
| Bitboards.ShiftMask | include/utils.hpp:20-29 | a single-square mask shifts to the mask of the neighbouring square, or to the empty bitboard at the clipped edge |
| Bitboards.SquaresOfInjective | include/types.hpp:9 | a 64-bit bitboard is determined by the squares it holds, so a set of squares stands for it faithfully |
| SquareSets.Lowest | include/checkinfo.hpp:139-140 | get_lsb of a non-empty set is a member no other member lies below |
| SquareSets.LowestOfSingleton | include/checkinfo.hpp:139-140 | get_lsb of a one-square bitboard is that square |
| SquareSets.Ascending | src/movegen.cpp:43-44 | a pop_lsb loop visits the squares of the set, each once, lowest first |
| SquareSets.SizeOneIsSingleton | include/checkinfo.hpp:139-140 | a bitboard with popcount 1 is the singleton of its one square, which get_lsb finds |
| MoveCodec.GetFrom | include/move.hpp:18 | the origin field of any 16-bit word is in 0..63 |
| MoveCodec.GetTo | include/move.hpp:19 | the destination field of any 16-bit word is in 0..63 |
| MoveCodec.GetMType | include/move.hpp:20 | the type field of any 16-bit word is 0 or 1 |
| MoveCodec.GetFlag | include/move.hpp:21 | the flag field of any 16-bit word is in 0..7 |
| MoveCodec.NewMove | include/move.hpp:12-17 | defines new_move's packing of from, to, type and flag, with no masking; specified by DecodeNewMove, EncodeDecode, NewMoveInjective, FieldsDisjoint and OutOfRangeSpills |
| MoveCodec.Decode | include/move.hpp:18-21 | the four fields read from any word are all in range, so every word decodes to a valid field record |
| MoveCodec.DecodeNewMove | include/move.hpp:12-21 | get_from, get_to, get_mtype and get_flag recover f, t, m and g from new_move(f, t, m, g) when f, t < 64, m < 2 and g < 8 |
| MoveCodec.EncodeDecode | include/move.hpp:6-21 | new_move of the four decoded fields of any 16-bit word is that word, so the encoding is a bijection |
| MoveCodec.NewMoveInjective | include/move.hpp:12-17 | two in-range field tuples give the same move only if they are equal |
| MoveCodec.FieldsDisjoint | include/move.hpp:6-10 | the field ranges (bits 0-5, 6-11, 12 and 13-15) are pairwise disjoint and cover all sixteen bits |
| MoveCodec.OutOfRangeSpills | include/move.hpp:12-16 | new_move does not mask its inputs: an origin of 64 reads back as origin 0 with destination 1, and a type of 2 as flag 1 |
| MoveCodec.Encode | include/move.hpp:12-17 | a move built from on-board squares and in-range type and flag decodes to exactly those fields |
| MoveCodec.DecodePack | include/move.hpp:12-21 | decoding undoes packing for every valid field record |
| MoveCodec.PackDecode | include/move.hpp:12-21 | packing undoes decoding for every 16-bit move, so comparing field records is comparing moves |
| MoveLists.Fresh | include/movegen.hpp:12-14 | a new list has size 0 over its backing array |
| MoveLists.Add | include/movegen.hpp:16-19 | add writes at index size, counts one more and leaves every other slot alone; size < capacity is required |
| MoveLists.Pop | include/movegen.hpp:21-27 | pop on an empty list returns NULL_MOVE and changes nothing; otherwise it returns moves[size - 1] and decrements size |
| MoveLists.AddAppends | include/movegen.hpp:16-19 | the live range begin..end after add(m) is the old live range followed by m |
| MoveLists.PopSplits | include/movegen.hpp:21-27 | a pop splits the live range into the rest and its last entry |
| MoveLists.AddThenPop | include/movegen.hpp:16-27 | add(m) then pop() returns m and leaves the same live entries |
| MoveLists.AddAll | include/movegen.hpp:16-19 | adding n moves one by one leaves the capacity alone and raises the size by n |
| MoveLists.PopEmpty | include/movegen.hpp:21-22 | popping an empty list any number of times keeps returning NULL_MOVE |
| MoveLists.AddAllItems | include/movegen.hpp:34-37 | iterating a list filled from empty visits exactly the added moves, in order |
| MoveLists.PopAllReverses | include/movegen.hpp:21-27 | draining a list by pop yields its live entries in reverse order |
| MoveLists.IsEmptyAsWritten | include/movegen.hpp:29-31 | defines is_empty as written, which compares the array's capacity with zero; specified by IsEmptyAsWrittenIgnoresSize |
| MoveLists.IsEmpty | include/movegen.hpp:29-31 | defines is_empty as evidently intended, no live entry; specified by IsEmptyMeansNothingLive |
| MoveLists.IsEmptyAsWrittenIgnoresSize | include/movegen.hpp:29-31 | for any positive capacity is_empty is false on a list with nothing live, and gives the same answer before and after an add |
| MoveLists.IsEmptyMeansNothingLive | include/movegen.hpp:29-31 | the intended test (size == 0) holds exactly when the live range is empty and exactly when pop returns NULL_MOVE |
| Precompute.Explore | include/precompute.hpp:8-17 | explore<D>(sq) is the set of squares along d from sq up to the edge; the loop runs once per such square |
| Precompute.RayIsAlong | include/precompute.hpp:8-17 | the ray is exactly the squares reached by repeated steps in the direction |
| Precompute.RaySize | include/precompute.hpp:8-17 | explore<D>(sq) never contains sq and holds one square per step to the edge, at most 7 |
| Precompute.BishopAttacks | include/precompute.hpp:19-29 | defines a BISHOP_ATTACK_MAP entry as the union of the four diagonal explores; specified by BishopAttacksAreDiagonals and BishopEntry |
| Precompute.RookAttacks | include/precompute.hpp:49-59 | defines a ROOK_ATTACK_MAP entry as the union of the four orthogonal explores; specified by RookAttacksAreLines and RookEntry |
| Precompute.KnightAttacks | include/precompute.hpp:31-46 | defines a KNIGHT_ATTACK_MAP entry as the eight two-shift terms; specified by KnightAttacksAreJumps and KnightAttacksSymmetric |
| Precompute.KingAttacks | include/precompute.hpp:69-83 | defines a KING_ATTACK_MAP entry as the eight one-step shifts; specified by KingAttacksAreNeighbours and KingAttackCounts |
| Precompute.BishopAttacksAreDiagonals | include/precompute.hpp:19-29 | BISHOP_ATTACK_MAP[sq] holds exactly the other squares on sq's two diagonals |
| Precompute.RookAttacksAreLines | include/precompute.hpp:49-59 | ROOK_ATTACK_MAP[sq] holds exactly the other squares on sq's rank or file |
| Precompute.KnightAttacksAreJumps | include/precompute.hpp:31-46 | KNIGHT_ATTACK_MAP[sq] holds exactly the on-board (±1, ±2) and (±2, ±1) jumps |
| Precompute.KnightAttacksSymmetric | include/precompute.hpp:31-46 | a is a knight's jump from b exactly when b is one from a |
| Precompute.KingAttacksAreNeighbours | include/precompute.hpp:69-83 | KING_ATTACK_MAP[sq] holds exactly the squares at Chebyshev distance 1 |
| Precompute.KingAttackCounts | include/precompute.hpp:69-83 | a king attacks 3 squares from a corner, 5 from another edge square and 8 from the interior |
| Precompute.BuildBishopMap | include/precompute.hpp:19-29 | the table loop stores the four diagonal explores of every square |
| Precompute.BishopEntry | include/precompute.hpp:22-27 | one entry's four explores together are the other squares on the square's diagonals |
| Precompute.BuildRookMap | include/precompute.hpp:49-59 | the table loop stores the four orthogonal explores of every square |
| Precompute.RookEntry | include/precompute.hpp:52-57 | one entry's four explores together are the other squares on the square's rank and file |
| Precompute.BuildQueenMap | include/precompute.hpp:61-67 | QUEEN_ATTACK_MAP[sq] is BISHOP_ATTACK_MAP[sq] joined with ROOK_ATTACK_MAP[sq] for every square |
| Precompute.BuildAllMaps | include/precompute.hpp:61-67 | built from the bishop and rook tables, each queen entry holds the squares on sq's lines and diagonals |
| Boards.Reset | src/board.cpp:17-33 | after reset no piece is placed, piece_map is NO_PIECE everywhere, both king squares are NO_SQUARE, no side is to move and the counters are 0 |
| Boards.HandleCapture | src/board.cpp:283-285 | defines what handle_capture does: the victim leaves its square, its value leaves the opponent's material, and its kind is reported; the capture branch of UnmakePlacement undoes it, as PlacementRoundTrip and MaterialRoundTrip state |
| Boards.HandleCastle | src/board.cpp:311-313 | defines handle_castle's rook move for the four castling destinations; UnmakePlacement moves the rook back, as PlacementRoundTrip states |
| Boards.MakePlacement | src/board.cpp:279-313 | defines the pieces and material part of make_move; specified by PlacementRoundTrip and MaterialRoundTrip |
| Boards.UnmakePlacement | src/board.cpp:351-401 | defines the pieces and material part of unmake_move; specified by PlacementRoundTrip and MaterialRoundTrip, which say it undoes MakePlacement |
| Boards.Make | src/board.cpp:262-324 | halfmoves become 0 after a pawn move and grow by one otherwise; fullmoves grow iff Black moved; the side flips; the move and the state before it go on the stacks at the old ply |
| Boards.Unmake | src/board.cpp:326-406 | the ply drops by one and the en-passant target, castling rights and halfmoves come back from the saved state |
| Boards.UnmakeSpecialMoves | src/board.cpp:357-401 | a promotion puts a pawn back and its material back; a capture restores the victim, one rank behind the target for en passant; a castle moves the rook back from D1/F1/D8/F8 to A1/H1/A8/H8 |
| Boards.PlacementRoundTrip | src/board.cpp:351-401 | unmaking a fitting move puts every square back as it was |
| Boards.MaterialRoundTrip | src/board.cpp:355-379 | unmaking a fitting move gives both sides their material back |
| Boards.UnmakeUndoesMake | src/board.cpp:262-406 | unmake_move after make_move gives the board back field for field, for a fitting move and a halfmove clock below 256 |
| Boards.HalfmovesSurviveIff | src/board.cpp:337-343 | the saved clock is a uint8_t, so the halfmove clock comes back exactly when it was below 256 |
| Fen.Words | src/board.cpp:39-49 | the parts are the non-empty space-separated items |
| Fen.WordsOfJoin | src/board.cpp:39-49 | splitting words joined by blanks gives the words back |
| Fen.WordsSkipLeadingSpace | src/board.cpp:44-48 | extra spaces produce no empty part |
| Fen.FieldsOf | src/board.cpp:51-56 | the placement is parts[0] and each missing trailing field takes its default |
| Fen.FieldDefaults | src/board.cpp:51-56 | a placement alone reads as "w", "-", "-", "0", "1"; a six-field FEN reads its own fields |
| Fen.LettersArePieces | src/board.cpp:77-99 | exactly the twelve letters PNBRQK / pnbrqk denote pieces, upper case white, one letter per piece |
| Fen.CastlingOf | src/board.cpp:109-125 | the castling rights are the combination of exactly the rights whose letters occur in the field |
| Fen.CursorCounts | src/board.cpp:58-73 | before each character the rank is 7 minus the slashes read and the file is the width of the current rank's text |
| Fen.ScanChar | src/board.cpp:61-104 | one character either moves the cursor or places its piece on the cursor's square and adds its value to its colour's material |
| Fen.ParsePlacement | src/board.cpp:58-104 | the loop succeeds exactly on well-formed placements; then each letter's piece stands on get_square(rank, file) of its cursor and every occupied square comes from a letter |
| Fen.CastlingField | src/board.cpp:109-125 | the rights are below 16 and hold each right exactly when its letter K, Q, k or q occurs; '-' and other characters are ignored |
| Fen.SideOf | src/board.cpp:107 | exactly "w" gives White to move; any other text gives Black |
| Fen.LoadFields | src/board.cpp:58-136 | once the FEN is split, loading fails exactly when the placement is malformed or std::stoi rejects a clock; a loaded board carries the fields as read, the placed letters and their material, at ply 0 |
| Fen.LoadFromFen | src/board.cpp:35-137 | a FEN with no fields, where the source would read past an empty vector, is reported as an error; otherwise the board is the parsed placement, side, rights, en-passant target and std::stoi of both clocks, failing exactly where a part fails |
| Checks.FirstBlocker | include/checkinfo.hpp:41-44 | pop_next<D> on a ray meets the first occupied square walking from the king |
| Checks.FirstBlockerIsNearest | include/checkinfo.hpp:41-44 | the first blocker is occupied, on the ray, and no occupied ray square lies before it |
| Checks.FirstBlockerNone | include/checkinfo.hpp:41-42 | there is no blocker exactly when the ray holds no occupied square |
| Checks.RayUntil | include/movegen.hpp:50-63 | a slider's reach along a direction is part of the precomputed ray |
| Checks.ReachMeetsBlocker | include/movegen.hpp:50-63 | the only occupied square a slider reaches along a ray is the ray's first blocker |
| Checks.RayUntilCutsAtBlocker | include/movegen.hpp:50-63 | a slider reaches the whole ray up to and including its first blocker, and nothing past it |
| Checks.ReachOfEmptyBoard | include/movegen.hpp:50-63 | on an empty board the slider attacks are the precomputed attack maps, and over any occupancy they stay inside them |
| Checks.FreshInfo | include/checkinfo.hpp:15-21 | a new CheckInfo has no pins and no checkers, must_cover holds all 64 squares and unsafe is empty |
| Checks.SlidingChecksAndPins | include/checkinfo.hpp:29-61 | the first blocker joins checkers if it is a relevant enemy slider; a friendly first blocker with a relevant enemy slider second joins pinned, with pins[first] = LINES[king][second]; nothing else changes |
| Checks.SlidingChecks | include/checkinfo.hpp:113-120 | the eight calls add exactly the checkers and pinned pieces found along some direction, and leave must_cover and unsafe alone |
| Checks.SlidingChecksPins | include/checkinfo.hpp:113-120 | after the eight directions each pinned square holds the line to its pinner, and every other square keeps its old pin line |
| Checks.NonSliderCheckers | include/checkinfo.hpp:123-125 | the non-sliding checkers are enemy pawns, knights and the enemy king on the corresponding attack squares of the king |
| Checks.PawnAttackMask | include/checkinfo.hpp:70-75 | defines compute_attack_mask<C, PAWN> as the enemy pawns shifted one step diagonally toward our side; specified by PawnAttackMaskIsPawnReach |
| Checks.PawnAttackMaskIsPawnReach | include/checkinfo.hpp:70-75 | a square is in the pawn attack mask exactly when an enemy pawn stands on a neighbouring file one rank further from our side, that is, where an enemy pawn captures |
| Checks.AttackMask | include/checkinfo.hpp:128-134 | defines unsafe as the union of compute_attack_mask over the six kinds; specified by ComputeCheckInfo (it is the unsafe field) and CheckLineIsUnsafe |
| Checks.ToggleTwice | include/checkinfo.hpp:80-99 | toggling our king out of occupied and back restores occupied |
| Checks.XRayOccupancy | include/checkinfo.hpp:77-80 | the attack masks are computed over the occupancy without our king |
| Checks.CheckLineIsUnsafe | include/checkinfo.hpp:77-99 | when a slider checks along a ray, the square behind the king on that ray is unsafe, so the king cannot retreat along the line |
| Checks.Checkers | include/checkinfo.hpp:112-125 | the checkers are the relevant enemy sliders first on a ray from the king plus the attacking enemy pawns, knights and king, all enemy pieces |
| Checks.MustCover | include/checkinfo.hpp:136-148 | with exactly one checker must_cover is LINES[king][checker] for a slider and the checker alone otherwise; with 0 or 2 checkers every square |
| Checks.ComputeCheckInfo | include/checkinfo.hpp:104-149 | the computed checkers, unsafe mask and must_cover are those of the definitions above, for the side to move's king |
| Checks.CheckInfoPins | include/checkinfo.hpp:41-60 | the pinned squares are exactly our pieces pinned along some direction, each with the line to its pinner; other squares have no pin line |
| Checks.CheckerIsReached | include/checkinfo.hpp:56-59 | a slider checks along d exactly when the king's ray in d first meets it and it is an enemy slider moving along d |
| Checks.CheckersAreHits | include/checkinfo.hpp:112-125 | the checkers are the sliders hit from the king square together with the non-sliding checkers |
| Checks.InCheck | src/board.cpp:409-433 | defines Board::in_check; specified by InCheckIffCheckers |
| Checks.InCheckIffCheckers | src/board.cpp:409-433 | in_check holds exactly when compute_check_info finds a checker |
| MoveGen.AttackedBySliderIff | src/movegen.cpp:8-34 | is_attacked_by_slider holds exactly when some direction's first blocker is a relevant enemy slider |
| MoveGen.Targets | src/movegen.cpp:46-63 | a piece's targets are its attacks, without our pieces, inside must_cover unless it is the king, inside unsafe's complement for the king and inside the pin line when pinned |
| MoveGen.KingCaptures | src/movegen.cpp:73-89 | the king captures an enemy piece only if no slider attacks the target once the king has left its square |
| MoveGen.QuietMovesFrom | src/movegen.cpp:65-71 | the quiet moves go to the empty targets, lowest square first |
| MoveGen.CapturesFrom | src/movegen.cpp:73-89 | the captures go to the targets holding an enemy piece, lowest square first |
| MoveGen.OriginMoves | src/movegen.cpp:43-91 | one piece's moves all start on its square with flag NORMAL, and are exactly its quiet moves and captures as the mode asks |
| MoveGen.PieceMoves | src/movegen.cpp:36-92 | generate_piece_moves emits each piece's quiet moves, then its captures, for the modes that ask for them, lowest origin first |
| MoveGen.PlainEncode | src/movegen.cpp:94-155 | each target's pawn stands at to - D; a pinned pawn leaving its pin line is skipped; each kept target gives one move |
| MoveGen.PromotionEncode | src/movegen.cpp:112-116 | a promotion target gives exactly four moves with one origin, target and type, flags queen, rook, bishop, knight in that order |
| MoveGen.EnPassantEncode | src/movegen.cpp:118-149 | an en-passant capture is emitted only if it takes the checker or blocks the line when in check, and no slider attacks the king afterwards |
| MoveGen.DoublePushOrigins | src/movegen.cpp:174-175 | a double push's target lies two steps from a non-promoting pawn, over an empty square |
| MoveGen.PawnMoves | src/movegen.cpp:157-212 | defines generate_pawn_moves<C, M>; its moves are constrained by NeverOntoOwnPiece, PinnedStayOnLine, OthersCoverCheck, EnPassantObeysRules, DoublePushIsClear and LoudQuietIsPromotionPush |
| MoveGen.CastlingFacts | src/movegen.cpp:214-254 | a castle is emitted exactly when there is no checker, the right bit is held, the path is empty and the king's two transit squares are not unsafe |
| MoveGen.CastlingMoves | src/movegen.cpp:214-254 | defines generate_castling_moves<C>; specified by CastlingFacts, CastleComesFromCastling and CastlingIsGenerated |
| MoveGen.GenerateImpl | src/movegen.cpp:256-276 | defines generate_moves_impl<C, M>; specified by DoubleCheckOnlyKing, KingMovesAreSafe, NeverOntoOwnPiece, OthersCoverCheck, PinnedStayOnLine, QuietOnlyIsQuiet, CapturesAreLoud and PhasesPartitionAll |
| MoveGen.Generate | src/movegen.cpp:278-292 | defines generate_moves<M> as generate_moves_impl over the side to move's compute_check_info, so the GenerateImpl lemmas apply with ComputeCheckInfo's contract; Perft.Generators and MoveSelection.SelectorYieldsAllMoves build on it |
| MoveGen.DoubleCheckOnlyKing | src/movegen.cpp:259-262 | with two checkers only king moves are generated, and no castle |
| MoveGen.KingMovesAreSafe | src/movegen.cpp:46-86 | the king never moves onto an unsafe square or captures onto a square a slider would attack once it has left |
| MoveGen.NeverOntoOwnPiece | src/movegen.cpp:55 | no move other than a castle lands on a friendly piece |
| MoveGen.OthersCoverCheck | src/movegen.cpp:57-59 | every move but the king's, a castle and en passant lands inside must_cover |
| MoveGen.PinnedStayOnLine | src/movegen.cpp:61-110 | a pinned piece or pawn moves only along its pin line |
| MoveGen.EnPassantObeysRules | src/movegen.cpp:118-149 | every generated en-passant capture obeys the check and exposure rules |
| MoveGen.DoublePushIsClear | src/movegen.cpp:174-175 | a double push crosses an empty square and lands on an empty square of rank 4 (White) or rank 5 (Black) |
| MoveGen.EnPassantOccupancyMoves | src/movegen.cpp:138-142 | the temporary occupancy has the capturing pawn on the target and the captured pawn gone |
| MoveGen.EnPassantOccupancyRestored | src/movegen.cpp:144-146 | toggling the three masks back in reverse order restores occupied |
| MoveGen.CastleComesFromCastling | src/movegen.cpp:265-267 | only the castling part flags a move CASTLE, and only in the quiet modes |
| MoveGen.CastlingIsGenerated | src/movegen.cpp:265-267 | every castle the castling part emits is generated in QUIET_ONLY and ALL |
| MoveGen.QuietOnlyIsQuiet | src/movegen.cpp:173-182 | QUIET_ONLY emits quiet moves only: no capture, promotion or en passant |
| MoveGen.CapturesAreLoud | src/movegen.cpp:184-211 | CAPTURES_AND_PROMOTIONS emits captures and promotions only, and no castle |
| MoveGen.LoudQuietIsPromotionPush | src/movegen.cpp:189-204 | the only quiet moves of CAPTURES_AND_PROMOTIONS are promotion pushes onto empty squares |
| MoveGen.PromotionOrderFlags | src/movegen.cpp:112-116 | the four emitted flags are exactly the promotion flags |
| MoveGen.PhasesPartitionAll | src/movegen.cpp:256-276 | as a multiset, ALL is QUIET_ONLY together with CAPTURES_AND_PROMOTIONS |
| MoveGen.PartOf | src/movegen.cpp:256-276 | every generated move comes from the castling part in a quiet mode, the pawn part or one piece kind's part, and in double check only from the king's |
| MoveSelection.CaptureScore | include/move_selector.hpp:13-20 | CAPTURE_SCORE[attacker][victim] is 100 * (victim + 1) + 6 - attacker, and 0 for the king column |
| MoveSelection.Initial | include/move_selector.hpp:29-35 | defines the constructor's state: TRANSPOSITION, empty lists, killer_count 0; YieldsEachMoveOnce, SelectorYieldsAllMoves and CapturesBestFirst state what a selector started from it yields |
| MoveSelection.VictimThenAttacker | include/move_selector.hpp:11-20 | a more valuable victim always scores higher, and for one victim the cheaper attacker scores higher |
| MoveSelection.SortBy | include/move_selector.hpp:109-121 | the result is sorted ascending by the score and a permutation of the input |
| MoveSelection.CaptureKey | include/move_selector.hpp:110-117 | the key of a scorable move is CAPTURE_SCORE of its attacker and victim |
| MoveSelection.SortCaptures | include/move_selector.hpp:109-121 | the captures are a permutation sorted ascending by CAPTURE_SCORE |
| MoveSelection.SortQuiets | include/move_selector.hpp:123-137 | the quiet moves are a permutation sorted ascending by their history score |
| MoveSelection.PromotionPushIsNotScorable | include/move_selector.hpp:110-117 | a promotion push lands on an empty square, whose NO_PIECE would index past the score table |
| MoveSelection.FirstIndex | include/move_selector.hpp:140-144 | the search finds the first entry holding the killer, or none exactly when the killer is not generated |
| MoveSelection.MarkKiller | include/move_selector.hpp:139-148 | it reports true exactly when the killer is a generated quiet move, keeps the moves and marks nothing else |
| MoveSelection.MarkKillerPending | include/move_selector.hpp:139-148 | marking an unmarked killer takes one copy of it off the quiet moves still to come |
| MoveSelection.PopQuiet | include/move_selector.hpp:76-79 | the pop loop skips marked entries and yields the last unmarked one, or NULL_MOVE when none is left |
| MoveSelection.QuietStep | include/move_selector.hpp:75-85 | QUIET_MOVE yields the last unmarked quiet move, or moves on to BAD_CAPTURE and NULL_MOVE |
| MoveSelection.KillerStep | include/move_selector.hpp:56-74 | KILLER yields killer 1, then killer 2, each only if it is a generated quiet move, then falls through |
| MoveSelection.NextMove | include/move_selector.hpp:37-91 | the phase never moves backwards, BAD_CAPTURE returns NULL_MOVE and stays, and NULL_MOVE comes only from BAD_CAPTURE |
| MoveSelection.CaptureStep | include/move_selector.hpp:44-55 | GOOD_CAPTURE as written pops the best capture, generating the list whenever it is empty |
| MoveSelection.PopCapture | include/move_selector.hpp:44-55 | GOOD_CAPTURE with captures generated once: the phase never moves backwards, and when nothing is yielded the selector has reached BAD_CAPTURE |
| MoveSelection.CaptureCallStays | include/move_selector.hpp:44-52 | with a capture to generate, a call yields a capture and stays in GOOD_CAPTURE |
| MoveSelection.NeverLeavesCaptures | include/move_selector.hpp:44-55 | with any capture in the position, no number of calls leaves the capture phases |
| MoveSelection.StaysInCaptures | include/move_selector.hpp:44-55 | from any selector in the capture phases holding a front part of the sorted captures, every number of calls keeps it there |
| MoveSelection.CapturesPopped | include/move_selector.hpp:44-55 | after k calls (1 <= k <= number of captures) the selector is in GOOD_CAPTURE holding the sorted captures less the k best |
| MoveSelection.BestCaptureRepeats | include/move_selector.hpp:46-49 | once the last capture is popped, the next call yields the best capture again |
| MoveSelection.EqualKillersRepeat | include/move_selector.hpp:61-71 | two equal legal killers are both yielded, because the second search finds the entry the first one marked (with Move equality ignoring the killer mark) |
| MoveSelection.NextMoveFixed | include/move_selector.hpp:37-91 | with captures generated on entering GOOD_CAPTURE the phase still only advances and ends in BAD_CAPTURE |
| MoveSelection.Drain | include/move_selector.hpp:37-91 | the corrected selector yields each move still to come exactly once and then NULL_MOVE |
| MoveSelection.YieldsEachMoveOnce | include/move_selector.hpp:37-91 | from construction to NULL_MOVE the corrected selector yields every generated capture and quiet move exactly once |
| MoveSelection.CapturesBestFirst | include/move_selector.hpp:48-49 | the first moves yielded are the captures, highest CAPTURE_SCORE first |
| MoveSelection.ListsOf | include/move_selector.hpp:95-107 | the lists the selector reads are the two generator phases, sorted by their scores |
| MoveSelection.SelectorYieldsAllMoves | include/move_selector.hpp:95-107 | with distinct killers the corrected selector yields exactly the moves of generate_moves<ALL>, as a multiset |
| Perft.Perft | include/perft.hpp:11-39 | defines perft; specified by PerftCountsPaths (it counts the move sequences of length depth) and PerftRestores |
| Perft.PerftPhased | include/perft.hpp:44-81 | defines perft_phased; specified by PhasedEqualsPerft |
| Perft.PerftCountsPaths | include/perft.hpp:11-39 | perft(depth) counts the sequences of depth generated moves, so depth 1 is the move list's size |
| Perft.PerftRestores | include/perft.hpp:22-27 | with make/unmake reversible the loop leaves the board as it found it, and the count is the pure one |
| Perft.ChildrenConcat | include/perft.hpp:62-72 | summing over two lists one after the other is summing over their concatenation |
| Perft.ChildrenPermute | include/perft.hpp:22-27 | the sum over the moves does not depend on their order |
| Perft.PhasedEqualsPerft | include/perft.hpp:44-81 | perft_phased equals perft wherever quiet ++ captures is a permutation of the ALL list |
| Perft.PhasedChildrenAgree | include/perft.hpp:62-72 | the phased loops sum to what perft's loop sums over the same moves |
| Perft.Generators | include/perft.hpp:53-56 | the engine's three lists are the three generator modes over one CheckInfo |
| Perft.GeneratorsPartitioned | include/perft.hpp:53-56 | the two phases split the ALL list on every board, so perft_phased counts what perft counts |
| Evaluation.MaterialIsCounted | src/evaluate.cpp:8-11 | the popcount sum over PAWN..QUEEN equals the pieces of those kinds counted square by square |
| Evaluation.PopcountIsCount | src/evaluate.cpp:9-10 | popcount of a piece bitboard is the number of squares holding that piece |
| Evaluation.EvaluateIsSquareSum | src/evaluate.cpp:4-15 | the score is the signed sum of the non-king piece values on the squares, from the side to move's view |
| Evaluation.FlipSideNegates | src/evaluate.cpp:14 | flipping only the side to move negates the score |
| Evaluation.KingsOnlyScoreZero | src/evaluate.cpp:8-11 | a board holding only kings scores 0 whatever PIECE_VALUE holds |
| Evaluation.EvaluateIgnoresSquares | src/evaluate.cpp:8-11 | the score depends only on how many pieces of each kind each side has, not where they stand |
| Evaluation.MaterialFrom | src/evaluate.cpp:8-11 | defines the material loop of evaluate; specified by MaterialIsCounted and PopcountIsCount |
| Evaluation.Evaluate | src/evaluate.cpp:4-15 | defines evaluate; specified by EvaluateIsSquareSum, FlipSideNegates, KingsOnlyScoreZero and EvaluateIgnoresSquares |
| Search.Negamax | src/search.cpp:29-39 | a stop check comes first and a stopped call returns MIN_SCORE with nothing else done; at depth 0 it returns evaluate |
| Search.NegaLoop | src/search.cpp:41-50 | the loop's score never falls below the score it starts from, and an empty loop makes no stop check and keeps the board |
| Search.BestOf | src/search.cpp:41-50 | the best score of a node is never below MIN_SCORE |
| Search.BestOfIsMaximum | src/search.cpp:41-50 | the loop's result is the maximum of MIN_SCORE and the negated child scores: no child beats it and it is one of them or MIN_SCORE |
| Search.NegamaxComputesValue | src/search.cpp:29-51 | with no stop during the call, negamax returns the negamax value and gives the board back |
| Search.NegaLoopComputesBest | src/search.cpp:43-48 | with no stop, the loop makes, searches and unmakes each child and ends on the same board |
| Search.Keep | src/search.cpp:71-74 | a move becomes the best only if its score is strictly greater than the best so far, and the best score becomes the larger of the two |
| Search.RootLoop | src/search.cpp:64-76 | the root loop makes at least one stop check whenever there is a root move |
| Search.RootBestFrom | src/search.cpp:62-76 | the move the root settles on is the previous best or one of the root moves, with a score no lower than before |
| Search.RootBestIsFirstMaximum | src/search.cpp:62-76 | the root keeps the first move whose score strictly beats all before it, so no move scores above it |
| Search.RootLoopFindsBest | src/search.cpp:60-81 | a depth with no stop completes with that first best move and the board restored |
| Search.StoppedDepthKeepsPrevious | src/search.cpp:66-67 | a stop inside a depth returns the best move of the depth before |
| Search.CompletedDepthIsKept | src/search.cpp:78-81 | a completed depth replaces the best move with its own, which a stop right after returns |
| Search.UnstoppedNeverReturns | src/search.cpp:60-82 | search leaves its loop only through a stop check |
| Search.Deepen | src/search.cpp:60-82 | defines the iterative-deepening loop of search; specified by StoppedDepthKeepsPrevious, CompletedDepthIsKept, UnstoppedNeverReturns and NoMovesNeverReturns |
| Search.SearchMove | src/search.cpp:54-83 | defines search as Deepen from depth 1 with no best move; StoppedSubtreeIsChosen exhibits the stopped-subtree finding on it |
| Search.StoppedSubtreeIsChosen | src/search.cpp:31-35 | a child search stopped mid-way returns MIN_SCORE, the root negates it into the best score and the stopped move is chosen over the completed depth's best |
| Search.NegamaxFixed | src/search.cpp:29-51 | the corrected negamax makes at least one stop check, and when its first check fires it reports a stop instead of a score, with the board untouched |
| Search.NegaLoopFixed | src/search.cpp:41-50 | the stop checks counted never go back through the corrected loop |
| Search.RootLoopFixed | src/search.cpp:64-76 | the corrected root loop makes at least one stop check whenever there is a root move |
| Search.NoMovesNeverReturns | src/search.cpp:60-82 | with no root move there is no stop check, so search never returns whatever the oracle says |
| Search.FixedScoreIsValue | src/search.cpp:29-51 | a negamax that reports being stopped instead of a score only reports true values, and always restores the board |
| Search.FixedRootFindsBest | src/search.cpp:60-81 | a completed depth of the corrected root loop finds the first best move |
| Search.FixedReturnsCompletedBest | src/search.cpp:60-81 | the corrected search returns only the best move of a depth it searched completely, or no move |
| Search.FixedSearchReturns | src/search.cpp:60-82 | once the stop fires and stays set, the corrected search returns within a bounded number of depths, with or without moves |
| Numbers.StoiOfDigits | src/bench.cpp:56 | std::stoi skips white space, reads an optional sign and a digit run, ignores what follows, and fails outside int |
| Numbers.Stoi | src/bench.cpp:56 | a value std::stoi returns fits in int |
| Numbers.StoiOfIntToString | src/bench.cpp:56 | std::stoi of a written integer is that integer when int holds it and out_of_range otherwise |
| Numbers.StoiReadsIntToString | src/bench.cpp:56 | std::stoi reads back every written int |
| Numbers.StoiRejectsOutOfRange | src/bench.cpp:56 | a written value outside int makes std::stoi throw |
| Numbers.StoiNeedsADigit | src/bench.cpp:56 | text with no digit after the optional sign makes std::stoi throw |
| Numbers.NextToken | src/bench.cpp:52-55 | the extracted token has no white space and is taken from the front of the stream |
| Numbers.NextTokenOf | src/bench.cpp:52-55 | `>>` into a string reads a blank-free token up to the white space after it |
| Numbers.ReadU64 | src/bench.cpp:58-59 | a value `>>` stores into a uint64_t lies in 0..2^64 - 1 |
| Numbers.ReadU64StoresNothing | src/bench.cpp:58-59 | `>>` into a uint64_t stores nothing exactly when only blanks are left in the stream |
| Numbers.ReadU64OfNonNumber | src/bench.cpp:58-59 | a text starting with something other than a blank, sign or digit makes `>>` store 0 |
| Numbers.ReadU64OfDecimal | src/bench.cpp:58-59 | `>>` into a uint64_t reads back every written count the type holds |
| Bench.FindChar | src/bench.cpp:48 | find returns the first index of the character, or npos (-1) exactly when it does not occur |
| Bench.SplitLine | src/bench.cpp:48-50 | the FEN is the text before the first ';' and the rest is what follows it; with no ';' both are the whole line |
| Bench.ReadCounts | src/bench.cpp:52-59 | a successful read gives an int depth and a uint64_t count |
| Bench.ReadCountsNeedsCount | src/bench.cpp:52-59 | a count is read only when some non-blank text follows the depth token, and reported missing only when nothing but blanks follows it |
| Bench.MissingCountIsMalformed | src/bench.cpp:52-59 | a line ending, up to blanks, with its depth token leaves the count unread and is reported as malformed |
| Bench.ParseLine | src/bench.cpp:47-63 | the FEN is a ';'-free prefix of the line followed by ';' when shorter, and the depth and count are within their types |
| Bench.ParseFormattedLine | src/bench.cpp:47-63 | a line written as FEN;<tag><depth> <count>... parses back to exactly that FEN, depth and count |
| Bench.RunBenchFrom | src/bench.cpp:72-85 | the bench passes exactly when every line parses and matches, and otherwise reports the first mismatching or malformed line, all earlier lines having passed |
| Bench.RunBench | src/bench.cpp:65-91 | run_bench succeeds exactly when every line parses and its perft count matches; otherwise it stops at the first line that is malformed or whose count differs, with that line's fen, depth, expected and found counts, and every earlier line passes |
| SaveVersion.VersionOf | scripts/save_version.py:21-23 | a name that matches carries a 'v' first and has room for digits, '_' and one more character |
| SaveVersion.VersionOfName | scripts/save_version.py:21-23 | every name v<digits>_<text not starting with a newline> carries its digits' value |
| SaveVersion.Latest | scripts/save_version.py:16-26 | the latest version is -1, with no file, exactly when no name matches v<digits>_<rest>; otherwise it is the greatest version in the listing, and the file is the first name in listing order that carries it |
| SaveVersion.IgnoredNames | scripts/save_version.py:20-22 | names without 'v', without digits, without '_', without a character after it, with a newline after it or not anchored at the start are ignored |
| SaveVersion.LatestUpTo | scripts/save_version.py:16-26 | the scan finds the greatest version, -1 exactly when no name matches, and the first-listed name carrying it |
| SaveVersion.Save | scripts/save_version.py:28-45 | with a name the file is v<latest + 1>_<name>; without one, no version exits 1, a reply other than y/Y exits 0, and y/Y overwrites the latest file |
| SaveVersion.NewFileCarriesNextVersion | scripts/save_version.py:29-32 | the new file's name is read back as version latest + 1 |
| SaveVersion.NewFileIsNextLatest | scripts/save_version.py:17-32 | wherever the new file appears in the next listing, the next scan finds it as the latest |
| SaveVersion.LatestOfExample | scripts/save_version.py:16-26 | the listing v0_a, v2_b, v1_c has v2_b as its latest |
| SaveVersion.TieKeepsFirst | scripts/save_version.py:24-26 | of two names with the same version the first listed is kept |
| SaveVersion.EmptyDirectory | scripts/save_version.py:17-37 | with nothing saved the first version is v0_<name>, and overwriting exits 1 |
| RunMatch.MatchesUpTo | scripts/run_match.py:14-18 | the matches are listed names starting with the prefix; none, one or several exactly as the listing has none, one or several |
| RunMatch.FindBinary | scripts/run_match.py:13-29 | not found exactly when no name starts with prefix_; ambiguous exactly when two do; otherwise the one matching name |
| RunMatch.VersionPrefixIsExact | scripts/run_match.py:17 | the file of version a matches the prefix of version b exactly when a == b, so "v1" never matches "v10_x" |
| RunMatch.ShortPrefixExample | scripts/run_match.py:13-29 | "v1" finds v1_new next to v10_old, and nothing when only v10_old exists |
| RunMatch.Resolve | scripts/run_match.py:35-41 | time and games are required and the increment defaults to 0 |
| RunMatch.BaseName | scripts/run_match.py:58-59 | an engine's name is the last component of its resolved path: a suffix without '/' that follows the last '/' |
| RunMatch.Command | scripts/run_match.py:56-66 | defines the cutechess-cli argument list; specified by CommandReadsBack |
| RunMatch.CommandReadsBack | scripts/run_match.py:56-66 | the command carries the tool, both engines' paths and names, tc=T+I, the game count, -repeat, and -debug last exactly when debug is set, all recoverable from it |
| RunMatch.Run | scripts/run_match.py:9-74 | a missing tool variable exits 1, a usage error 2, a missing or ambiguous version 1; the command runs exactly when everything resolves and the reply is y/Y, otherwise the script aborts; a launched command reads back to the normalised tool path and the two found engines |

## Left out

- Terminal output is not modelled: board printing and debugging, perft's root output, the bench's messages, timing and NPS, and the scripts' prints. Neither are the UCI loop, `main` or the test driver.
- The magic-bitboard lookup of `generate_sliding_attack_mask` is modelled as a walk along a ray to the first occupied square. `get_ray_map`, `pop_next`, `is_relevant_sliding_piece` and `is_slider` are modelled by that walk and by piece kinds. `LINES`, `PAWN_ATTACK_MAPS` and the castle paths are table parameters, because their definitions are not part of this model.
- `set_en_passant_target` and `update_castling_rights` are parameters of `make_move`: their bodies are not part of this model, and `unmake_move` restores both fields from the saved state. `handle_capture` and `handle_castle` are defined as the mirrors of `unmake_move`'s undo steps. `place_piece` and `remove_piece` are cell writes.
- `MAX_MOVES` is the length of the backing sequence and `NULL_MOVE` is `None`; `PIECE_VALUE` and `MIN_SCORE` are parameters.
- `should_stop_search` (atomic flag and wall clock) is an oracle: the answer to the i-th stop check is `stop(i)`.
- Search.Deepen: the search's endless depth loop runs under a fuel bound. Running out of fuel is its own result (`OutOfFuel`), so nothing beyond the fuel is claimed.
- Integer widths are not modelled where the source would overflow. This covers the negation of an `INT_MIN` `MIN_SCORE`, material sums, and `uint64_t` perft totals. All are unbounded here.
- Perft.PerftCountsPaths: depth 0 is not a base case in `perft`, so depth ≥ 1 is a precondition here. The same holds for the bench: parse_line does not guarantee depth ≥ 1, and the perft count per line is a parameter of `run_bench`.
- The bench's file and directory reading are inputs: the lines are a sequence.
- MoveSelection.SortBy: `std::sort` is not stable. The model keeps equal scores in list order, which is one of the orders `std::sort` may produce.
- MoveSelection.SortCaptures: a promotion push or en-passant entry would index `CAPTURE_SCORE` with `NO_PIECE`. Scoring such a move is outside the contract, as `PromotionPushIsNotScorable` shows.
- MoveSelection.YieldsEachMoveOnce: requires two distinct killers. With equal killers, and Move equality read as below, the source yields the killer twice, as `EqualKillersRepeat` shows.
- MoveSelection.MarkKiller: the `Move` class with its `is_killer` field is not part of this model. The comparison `move == killer_move` is taken to compare the encoded move and ignore `is_killer`. If it also compared `is_killer`, an already marked entry would not be found again, and equal killers would be yielded once.
- The transposition phase and the bad-capture phase hold no logic in the source, so they are not modelled beyond falling through and returning `NULL_MOVE`.
- Fen.LoadFromFen: an empty FEN (no fields), an unknown piece letter, a square off the board or a second piece on a square is an error here. The source would index out of range or corrupt its state. `uci_to_index` is a parameter.
- MoveGen.EnPassantTarget: an en-passant target between 64 and 254 would be an out-of-range shift in the source. It is taken as no target.
- Randomness and the Zobrist/transposition table are not part of this model.
- Squares.AlgebraicToIndex: strings are sequences of Unicode code points, while the source indexes the bytes of a `std::string`. Only ASCII text, one byte per character, reads the same. The same holds for every other string parser here: `Fen.LoadFromFen`, `Numbers.Stoi`, `Numbers.ReadU64`, `Bench.ParseLine` and the scripts' name matching.
- Bench.ReadCounts: when nothing but blanks follows the depth token, the source compares perft against an uninitialised `uint64_t`. The model reports the line as malformed (`NoCountToken`) and promises nothing about what the source would print.
- SaveVersion.VersionOf: `\d` in Python also matches non-ASCII digits; only ASCII digits are modelled.
- RunMatch.Run: these are inputs rather than effects:
  - the environment variable read (an `Option`);
  - the directory listing (empty when the directory is missing);
  - `Path.resolve` (a function parameter);
  - `str(Path(...))` of the tool variable (a function parameter), which normalises the text, so `./cutechess-cli` becomes `cutechess-cli`;
  - the confirmation reply.
- RunMatch.Run: argparse's own text parsing is taken as done. Arguments arrive typed, and a bad integer is one more usage error with exit code 2.
- The copy, `mkdir` and `subprocess.run` effects are not modelled. The save outcome names the destination file, and the match outcome carries the command list.
- The preview prints in `run_match.py` use nested quotes inside f-strings, which parse only on Python 3.12 and later. The model treats the script as running.

## Findings

| source | as written | input that shows it | evidently intended | confidence | as-written member | corrected member |
|---|---|---|---|---|---|---|
| include/move_selector.hpp:46 | GOOD_CAPTURE regenerates the captures whenever the capture list is empty | any position with a capture: after the last capture is popped, the next call regenerates the list and yields the best capture again, for ever | generate the captures once, on entering the phase, as the comment says | high, not executed | MoveSelection.BestCaptureRepeats | MoveSelection.YieldsEachMoveOnce |
| src/search.cpp:33-35 | a stopped negamax returns MIN_SCORE, and every caller negates it into the best possible score | two root moves of equal value, MIN_SCORE = -1000: at depth 1 the stop fires on the entry check of the second move's child search, the root negates the returned MIN_SCORE to 1000, and search returns the unsearched second move where the completed search keeps the first; this needs -MIN_SCORE to fit in an int | a stopped subtree is never chosen, as the comment at lines 31-32 claims | high, not executed | Search.StoppedSubtreeIsChosen | Search.FixedReturnsCompletedBest |
| src/search.cpp:60-82 | the only exit from the depth loop is the stop check inside the loop over root moves | a checkmate or stalemate root: there is no move, so no stop check, and search never returns | return no move once stopped, even with no root move | medium, not executed | Search.NoMovesNeverReturns | Search.FixedSearchReturns |
| include/movegen.hpp:29-31 | is_empty compares the array's capacity (MAX_MOVES) with zero, not size | a new list with size 0 and MAX_MOVES > 0 reports non-empty | size == 0 | high, not executed | MoveLists.IsEmptyAsWrittenIgnoresSize | MoveLists.IsEmptyMeansNothingLive |

=== FILE: bench.dfy ===
/** The perft bench: reading a test line (a FEN, then after ';' a depth tag
    and the expected node count) and checking every line's count in turn. */
module Bench {
  import opened Outcomes
  import opened Numbers

  /** std::string::find of one character: its first index, or -1 for npos. */
  function FindChar(s: string, c: char): (r: int)
    ensures -1 <= r < |s|
    ensures r == -1 <==> c !in s
    ensures r >= 0 ==> s[r] == c && c !in s[..r]
  {
    if s == [] then -1
    else if s[0] == c then 0
    else
      var r := FindChar(s[1..], c);
      assert s[1..] == s[1..];
      if r == -1 then -1
      else
        assert s[..r + 1] == [s[0]] + s[1..][..r];
        r + 1
  }

  /** One parsed test line. */
  datatype TestLine = TestLine(fen: string, depth: int, nodes: int)

  /** Where parse_line throws: no token after ';' (substr(1) of an empty
      string is out of range) or a depth std::stoi rejects. NoCountToken is
      a line with nothing but blanks after the depth token: `>>` then stores
      nothing and the node count is never initialised, so the line has no
      defined expected count. */
  datatype ParseError = NoDepthToken | BadDepth | NoCountToken

  /** The text before the first ';' and the text after it. Without a ';',
      find returns npos and substr(npos + 1) is substr(0): the whole line. */
  function SplitLine(line: string): (r: (string, string))
    ensures |r.0| <= |line| && r.0 == line[..|r.0|] && ';' !in r.0
    ensures |r.0| < |line| ==> line[|r.0|] == ';' && r.1 == line[|r.0| + 1..]
    ensures |r.0| == |line| ==> r.1 == line
  {
    var pos := FindChar(line, ';');
    if pos < 0 then (line, line) else (line[..pos], line[pos + 1..])
  }

  /** The depth and node count after the ';': std::stoi of the first token
      without its first character, then a uint64_t read from what follows. */
  function ReadCounts(rest: string): (r: Result<(int, int), ParseError>)
    ensures r.Ok? ==> INT_MIN <= r.value.0 <= INT_MAX && 0 <= r.value.1 <= U64_MAX
  {
    var (token, after) := NextToken(rest);
    if token == [] then Err(NoDepthToken)
    else
      match Stoi(token[1..])
      case None => Err(BadDepth)
      case Some(depth) =>
        match ReadU64(after)
        case None => Err(NoCountToken)
        case Some(nodes) => Ok((depth, nodes))
  }

  /** parse_line: the FEN is the text before the first ';' (the whole line if
      there is none), then the depth and the node count. */
  function ParseLine(line: string): (r: Result<TestLine, ParseError>)
    ensures r.Ok? ==> |r.value.fen| <= |line| && r.value.fen == line[..|r.value.fen|]
    ensures r.Ok? ==> ';' !in r.value.fen && (|r.value.fen| < |line| ==> line[|r.value.fen|] == ';')
    ensures r.Ok? ==> INT_MIN <= r.value.depth <= INT_MAX && 0 <= r.value.nodes <= U64_MAX
  {
    var (fen, rest) := SplitLine(line);
    match ReadCounts(rest)
    case Err(e) => Err(e)
    case Ok((depth, nodes)) => Ok(TestLine(fen, depth, nodes))
  }

  /** The line a test file holds for a position: the FEN, ';', a one-letter
      depth tag with the depth, a blank, the node count and anything after a
      blank (the deeper counts, which parse_line does not read). */
  function FormatLine(fen: string, tag: char, depth: int, nodes: nat, tail: string): string
  {
    fen + ";" + ([tag] + IntToString(depth)) + (" " + Decimal(nodes) + tail)
  }

  lemma IntToStringHasNoBlank(n: int)
    ensures forall i :: 0 <= i < |IntToString(n)| ==> !IsSpace(IntToString(n)[i])
  {
    var s := IntToString(n);
    var d := Decimal(if n < 0 then -n else n);
    assert s == if n < 0 then "-" + d else d;
    forall i | 0 <= i < |s| ensures !IsSpace(s[i]) {
      if n < 0 && i > 0 {
        assert s[i] == d[i - 1];
      }
    }
  }

  /** The first ';' after a FEN without one splits the line there. */
  lemma SplitAfterFen(fen: string, rest: string)
    requires ';' !in fen
    ensures SplitLine(fen + ";" + rest) == (fen, rest)
  {
    var line := fen + ";" + rest;
    var r := SplitLine(line);
    assert line[|fen|] == ';';
    assert forall i :: 0 <= i < |fen| ==> line[i] == fen[i];
    assert |r.0| == |fen|;
    assert line[..|fen|] == fen && line[|fen| + 1..] == rest;
  }

  /** The depth token: a tag letter and a written int, with no blank. */
  lemma DepthTokenIsRead(tag: char, depth: int, after: string)
    requires !IsSpace(tag)
    requires after == [] || IsSpace(after[0])
    ensures NextToken(([tag] + IntToString(depth)) + after) == ([tag] + IntToString(depth), after)
  {
    var token := [tag] + IntToString(depth);
    IntToStringHasNoBlank(depth);
    assert forall i :: 0 <= i < |token| ==> !IsSpace(token[i]) by {
      forall i | 0 <= i < |token| ensures !IsSpace(token[i]) {
        if i > 0 {
          assert token[i] == IntToString(depth)[i - 1];
        }
      }
    }
    assert [] + token + after == token + after;
    NextTokenOf([], token, after);
  }

  /** The depth token and the count are read back. */
  lemma ReadFormattedCounts(tag: char, depth: int, nodes: nat, tail: string)
    requires !IsSpace(tag)
    requires INT_MIN <= depth <= INT_MAX && nodes <= U64_MAX
    requires tail == [] || IsSpace(tail[0])
    ensures ReadCounts(([tag] + IntToString(depth)) + (" " + Decimal(nodes) + tail)) == Ok((depth, nodes))
  {
    var token := [tag] + IntToString(depth);
    var after := " " + Decimal(nodes) + tail;
    DepthTokenIsRead(tag, depth, after);
    assert token[1..] == IntToString(depth);
    StoiReadsIntToString(depth);
    ReadU64OfDecimal(" ", nodes, tail);
    assert NextToken(token + after) == (token, after);
    assert Stoi(token[1..]) == Some(depth) && ReadU64(after) == Some(nodes);
  }

  /** A line that ends, up to blanks, with its depth token (";D1" or
      ";D1 ") has no count to read: parse_line is left without an expected
      node count, and the model reports the line as malformed. */
  lemma MissingCountIsMalformed(fen: string, tag: char, depth: int, w: string)
    requires ';' !in fen && !IsSpace(tag)
    requires INT_MIN <= depth <= INT_MAX
    requires AllSpaces(w)
    ensures ParseLine(fen + ";" + ([tag] + IntToString(depth)) + w) == Err(NoCountToken)
  {
    var token := [tag] + IntToString(depth);
    SplitAfterFen(fen, token + w);
    assert fen + ";" + token + w == fen + ";" + (token + w);
    DepthTokenIsRead(tag, depth, w);
    assert token[1..] == IntToString(depth);
    StoiReadsIntToString(depth);
    ReadU64StoresNothing(w);
  }

  /** parse_line reads back every line written in that shape: the FEN, the
      depth and the node count, for every depth int holds and every count
      uint64_t holds. */
  lemma ParseFormattedLine(fen: string, tag: char, depth: int, nodes: nat, tail: string)
    requires ';' !in fen && !IsSpace(tag)
    requires INT_MIN <= depth <= INT_MAX && nodes <= U64_MAX
    requires tail == [] || IsSpace(tail[0])
    ensures ParseLine(FormatLine(fen, tag, depth, nodes, tail)) == Ok(TestLine(fen, depth, nodes))
  {
    var rest := ([tag] + IntToString(depth)) + (" " + Decimal(nodes) + tail);
    assert FormatLine(fen, tag, depth, nodes, tail) == fen + ";" + rest;
    SplitAfterFen(fen, rest);
    ReadFormattedCounts(tag, depth, nodes, tail);
  }

  // ---------------------------------------------------------------------------
  // run_bench

  /** How run_bench ends: every line matched, the first line whose count
      differs, or the first line parse_line throws on or leaves without a
      count. */
  datatype BenchOutcome =
    | Passed
    | Mismatch(index: nat, fen: string, depth: int, expected: int, found: int)
    | Malformed(index: nat)

  /** A line parses and its position's perft count is the expected one. */
  predicate Passes(line: string, count: (string, int) -> int)
  {
    ParseLine(line).Ok? && count(ParseLine(line).value.fen, ParseLine(line).value.depth) == ParseLine(line).value.nodes
  }

  /** The pass test for one perft count function. */
  function PassTest(count: (string, int) -> int): string -> bool
  {
    line => Passes(line, count)
  }

  /** Every line from i up to k satisfies ok. */
  predicate AllOf(lines: seq<string>, ok: string -> bool, i: nat, k: nat)
    requires i <= k <= |lines|
  {
    forall j :: i <= j < k ==> ok(lines[j])
  }

  /** Every line from i up to k passes. */
  predicate AllPass(lines: seq<string>, count: (string, int) -> int, i: nat, k: nat)
    requires i <= k <= |lines|
  {
    AllOf(lines, PassTest(count), i, k)
  }

  /** run_bench's loop from line i on. count(fen, depth) is perft(depth) of
      the board reset and loaded from fen, a parameter here. */
  function RunBenchFrom(lines: seq<string>, count: (string, int) -> int, i: nat): (r: BenchOutcome)
    requires i <= |lines|
    ensures r == Passed <==> AllPass(lines, count, i, |lines|)
    ensures r.Mismatch? ==>
              && i <= r.index < |lines|
              && AllPass(lines, count, i, r.index)
              && ParseLine(lines[r.index]) == Ok(TestLine(r.fen, r.depth, r.expected))
              && r.found == count(r.fen, r.depth) && r.found != r.expected
    ensures r.Malformed? ==>
              && i <= r.index < |lines|
              && AllPass(lines, count, i, r.index)
              && ParseLine(lines[r.index]).Err?
    decreases |lines| - i
  {
    if i == |lines| then Passed
    else
      AllPassStep(lines, count, i, |lines|);
      match ParseLine(lines[i])
      case Err(_) => Malformed(i)
      case Ok(t) =>
        var found := count(t.fen, t.depth);
        if found != t.nodes then Mismatch(i, t.fen, t.depth, t.nodes, found)
        else
          var r := RunBenchFrom(lines, count, i + 1);
          if r.Passed? then r
          else
            AllPassStep(lines, count, i, r.index);
            r
  }

  /** A count is missing exactly where nothing but blanks follows a depth
      token std::stoi accepts; a read count needs some other text there. */
  lemma ReadCountsNeedsCount(rest: string)
    ensures ReadCounts(rest) == Err(NoCountToken) ==> AllSpaces(NextToken(rest).1)
    ensures ReadCounts(rest).Ok? ==> !AllSpaces(NextToken(rest).1)
  {
    var (token, after) := NextToken(rest);
    ReadU64StoresNothing(after);
    if token != [] && Stoi(token[1..]).Some? {
      assert ReadCounts(rest).Ok? <==> ReadU64(after).Some?;
    } else {
      assert ReadCounts(rest).Err? && ReadCounts(rest) != Err(NoCountToken);
    }
  }

  /** Lines i up to k pass exactly when line i does and lines i + 1 up to
      k do. */
  lemma AllPassStep(lines: seq<string>, count: (string, int) -> int, i: nat, k: nat)
    requires i < k <= |lines|
    ensures AllPass(lines, count, i, k) <==> Passes(lines[i], count) && AllPass(lines, count, i + 1, k)
  {
    AllOfStep(lines, PassTest(count), i, k);
    assert PassTest(count)(lines[i]) == Passes(lines[i], count);
  }

  /** All the lines pass exactly when each line passes. */
  lemma AllPassMeansEvery(lines: seq<string>, count: (string, int) -> int)
    ensures AllPass(lines, count, 0, |lines|) <==> forall i :: 0 <= i < |lines| ==> Passes(lines[i], count)
  {
    assert forall i :: 0 <= i < |lines| ==> PassTest(count)(lines[i]) == Passes(lines[i], count);
  }

  lemma AllOfStep(lines: seq<string>, ok: string -> bool, i: nat, k: nat)
    requires i < k <= |lines|
    ensures AllOf(lines, ok, i, k) <==> ok(lines[i]) && AllOf(lines, ok, i + 1, k)
  {
  }

  /** run_bench over the lines of the test file: it passes exactly when every
      line parses and matches, and otherwise names the first line that does
      not, with every line before it passing. */
  function RunBench(lines: seq<string>, count: (string, int) -> int): (r: BenchOutcome)
    ensures r == Passed <==> forall i :: 0 <= i < |lines| ==> Passes(lines[i], count)
    ensures r.Mismatch? ==>
              && r.index < |lines| && AllPass(lines, count, 0, r.index)
              && ParseLine(lines[r.index]) == Ok(TestLine(r.fen, r.depth, r.expected))
              && r.found == count(r.fen, r.depth) && r.found != r.expected
    ensures r.Malformed? ==>
              && r.index < |lines| && AllPass(lines, count, 0, r.index)
              && ParseLine(lines[r.index]).Err?
  {
    AllPassMeansEvery(lines, count);
    RunBenchFrom(lines, count, 0)
  }
}

=== FILE: bitboards.dfy ===
/** 64-bit bitboards: bit i stands for square i. Rank and file masks, the
    single-square mask, and the eight edge-clipped shifts. */
module Bitboards {
  import opened Types
  import opened Outcomes
  import opened Squares

  type Bitboard = bv64

  /** The bit position of a square, as the shift count the engine's
      1ULL << square uses. Defined by counting up from zero so that sums of
      squares and sums of bit positions correspond step by step. */
  function BitIndex(n: Square): bv7
  {
    if n == 0 then 0 else BitIndex(n - 1) + 1
  }

  /** The bit position of a square is the square's number. */
  lemma {:induction false} BitIndexValue(n: Square)
    ensures BitIndex(n) < 64
    ensures BitIndex(n) as int == n
  {
    if n > 0 {
      BitIndexValue(n - 1);
    }
  }

  /** The bit position of a square is the square's number. */
  lemma BitIndexBound(n: Square)
    ensures BitIndex(n) < 64
  {
    BitIndexValue(n);
  }

  /** Adding squares adds their bit positions. */
  lemma {:induction false} BitIndexAdd(a: Square, b: Square)
    requires a + b < 64
    ensures BitIndex(a + b) == BitIndex(a) + BitIndex(b)
  {
    if b > 0 {
      BitIndexAdd(a, b - 1);
    }
  }

  lemma {:induction false} BitIndexTimesEight(r: int)
    requires 0 <= r < 8
    ensures BitIndex(8 * r) == BitIndex(r) << 3
  {
    if r > 0 {
      BitIndexTimesEight(r - 1);
      BitIndexAdd(8 * (r - 1), 8);
      BitIndexAdd(r - 1, 1);
      BitIndexValue(r - 1);
    }
  }

  /** The high three bits of a bit position are the rank, the low three the
      file. */
  lemma BitIndexRankFile(t: Square)
    ensures BitIndex(t) >> 3 == BitIndex(GetRank(t))
    ensures BitIndex(t) & 7 == BitIndex(GetFile(t))
  {
    RankFileDecompose(t);
    BitIndexAdd(8 * GetRank(t), GetFile(t));
    BitIndexTimesEight(GetRank(t));
    BitIndexValue(GetRank(t));
    BitIndexValue(GetFile(t));
  }

  lemma BitIndexInjective(a: Square, b: Square)
    ensures BitIndex(a) == BitIndex(b) <==> a == b
  {
    BitIndexValue(a);
    BitIndexValue(b);
  }

  /** The bitboard with only bit i set. */
  function Bit(i: bv7): Bitboard
    requires i < 64
  {
    (1 as bv64) << i
  }

  /** get_mask: the bitboard holding only the given square. */
  function GetMask(square: Square): Bitboard
  {
    BitIndexBound(square);
    Bit(BitIndex(square))
  }

  /** Bit i of b is 1. */
  predicate BitSet(b: Bitboard, i: bv7)
    requires i < 64
  {
    (b >> i) & 1 == 1
  }

  /** Square sq is set in b. */
  predicate Has(b: Bitboard, sq: Square)
  {
    BitIndexBound(sq);
    BitSet(b, BitIndex(sq))
  }

  /** The squares whose bits are set. */
  function SquaresOf(b: Bitboard): set<Square>
  {
    set sq: Square | Has(b, sq)
  }

  const EMPTY_BITBOARD: Bitboard := 0
  const ALL_SQUARES: Bitboard := 0xFFFF_FFFF_FFFF_FFFF

  const RANK_1_MASK: Bitboard := 0x00000000000000FF
  const RANK_2_MASK: Bitboard := 0x000000000000FF00
  const RANK_3_MASK: Bitboard := 0x0000000000FF0000
  const RANK_4_MASK: Bitboard := 0x00000000FF000000
  const RANK_5_MASK: Bitboard := 0x000000FF00000000
  const RANK_6_MASK: Bitboard := 0x0000FF0000000000
  const RANK_7_MASK: Bitboard := 0x00FF000000000000
  const RANK_8_MASK: Bitboard := 0xFF00000000000000

  const A_FILE_MASK: Bitboard := 0x0101010101010101
  const B_FILE_MASK: Bitboard := 0x0202020202020202
  const C_FILE_MASK: Bitboard := 0x0404040404040404
  const D_FILE_MASK: Bitboard := 0x0808080808080808
  const E_FILE_MASK: Bitboard := 0x1010101010101010
  const F_FILE_MASK: Bitboard := 0x2020202020202020
  const G_FILE_MASK: Bitboard := 0x4040404040404040
  const H_FILE_MASK: Bitboard := 0x8080808080808080

  function RankMask(r: int): Bitboard
    requires 0 <= r < 8
  {
    [RANK_1_MASK, RANK_2_MASK, RANK_3_MASK, RANK_4_MASK,
     RANK_5_MASK, RANK_6_MASK, RANK_7_MASK, RANK_8_MASK][r]
  }

  function FileMask(f: int): Bitboard
    requires 0 <= f < 8
  {
    [A_FILE_MASK, B_FILE_MASK, C_FILE_MASK, D_FILE_MASK,
     E_FILE_MASK, F_FILE_MASK, G_FILE_MASK, H_FILE_MASK][f]
  }

  const NOT_A_FILE: Bitboard := 0xfefefefefefefefe
  const NOT_H_FILE: Bitboard := 0x7f7f7f7f7f7f7f7f

  // ---------------------------------------------------------------------------
  // Bit-level facts, on bv7 bit indices.

  lemma BitOfRankMask(r: bv7, i: bv7)
    requires r < 8 && i < 64
    ensures BitSet((0xFF as bv64) << (8 * r), i) <==> i >> 3 == r
  {
  }

  lemma BitOfFileMask(f: bv7, i: bv7)
    requires f < 8 && i < 64
    ensures BitSet((0x0101010101010101 as bv64) << f, i) <==> i & 7 == f
  {
  }

  lemma RankMaskShape(r: int)
    requires 0 <= r < 8
    ensures RankMask(r) == (0xFF as bv64) << (8 * (r as bv7))
  {
  }

  lemma FileMaskShape(f: int)
    requires 0 <= f < 8
    ensures FileMask(f) == (0x0101010101010101 as bv64) << (f as bv7)
  {
  }

  /** Below 8, the bit position is the plain conversion. */
  lemma SmallBitIndex(r: int)
    requires 0 <= r < 8
    ensures BitIndex(r) == r as bv7
  {
    if r == 0 {
    } else if r == 1 {
    } else if r == 2 {
    } else if r == 3 {
    } else if r == 4 {
    } else if r == 5 {
    } else if r == 6 {
    } else {
    }
  }

  /** Bit sq of a rank mask is set exactly on that rank. */
  lemma RankMaskBits(r: int, sq: Square)
    requires 0 <= r < 8
    ensures Has(RankMask(r), sq) <==> GetRank(sq) == r
  {
    RankMaskShape(r);
    SmallBitIndex(r);
    BitIndexRankFile(sq);
    BitIndexBound(sq);
    BitIndexBound(r);
    BitIndexInjective(GetRank(sq), r);
    BitOfRankMask(BitIndex(r), BitIndex(sq));
  }

  /** Bit sq of a file mask is set exactly on that file. */
  lemma FileMaskBits(f: int, sq: Square)
    requires 0 <= f < 8
    ensures Has(FileMask(f), sq) <==> GetFile(sq) == f
  {
    FileMaskShape(f);
    SmallBitIndex(f);
    BitIndexRankFile(sq);
    BitIndexBound(sq);
    BitIndexBound(f);
    BitIndexInjective(GetFile(sq), f);
    BitOfFileMask(BitIndex(f), BitIndex(sq));
  }

  /** Every square lies in exactly one rank mask and exactly one file mask. */
  lemma MasksPartitionBoard(i: int, j: int, sq: Square)
    requires 0 <= i < 8 && 0 <= j < 8
    ensures Has(RankMask(GetRank(sq)), sq) && Has(FileMask(GetFile(sq)), sq)
    ensures Has(RankMask(i), sq) && Has(RankMask(j), sq) ==> i == j
    ensures Has(FileMask(i), sq) && Has(FileMask(j), sq) ==> i == j
  {
    RankFileDecompose(sq);
    RankMaskBits(GetRank(sq), sq);
    FileMaskBits(GetFile(sq), sq);
    RankMaskBits(i, sq);
    RankMaskBits(j, sq);
    FileMaskBits(i, sq);
    FileMaskBits(j, sq);
  }

  /** The eight rank masks are pairwise disjoint and together cover all 64
      bits, and so are the eight file masks. */
  lemma MasksTileBoard(i: int, j: int)
    requires 0 <= i < 8 && 0 <= j < 8
    ensures i != j ==> RankMask(i) & RankMask(j) == 0 && FileMask(i) & FileMask(j) == 0
    ensures RankMask(0) | RankMask(1) | RankMask(2) | RankMask(3)
          | RankMask(4) | RankMask(5) | RankMask(6) | RankMask(7) == ALL_SQUARES
    ensures FileMask(0) | FileMask(1) | FileMask(2) | FileMask(3)
          | FileMask(4) | FileMask(5) | FileMask(6) | FileMask(7) == ALL_SQUARES
  {
    RankMaskShape(i);
    RankMaskShape(j);
    FileMaskShape(i);
    FileMaskShape(j);
  }

  // ---------------------------------------------------------------------------
  // Single-square masks.

  /** get_mask sets exactly one bit: the bit of its square. */
  lemma GetMaskSingleBit(sq: Square, t: Square)
    ensures Has(GetMask(sq), t) <==> t == sq
  {
    BitIndexBound(sq);
    BitIndexBound(t);
    SingleBitBv(BitIndex(sq), BitIndex(t));
    BitIndexInjective(sq, t);
  }

  /** As a set of squares, get_mask(sq) is {sq}. */
  lemma GetMaskSquares(sq: Square)
    ensures SquaresOf(GetMask(sq)) == {sq}
  {
    forall u: Square
      ensures u in SquaresOf(GetMask(sq)) <==> u == sq
    {
      GetMaskSingleBit(sq, u);
    }
  }

  lemma SingleBitBv(s: bv7, u: bv7)
    requires s < 64 && u < 64
    ensures BitSet(Bit(s), u) <==> u == s
  {
  }

  // ---------------------------------------------------------------------------
  // Edge-clipped shifts.

  function ShiftNorth(b: Bitboard): Bitboard { b << 8 }
  function ShiftSouth(b: Bitboard): Bitboard { b >> 8 }
  function ShiftEast(b: Bitboard): Bitboard { (b << 1) & NOT_A_FILE }
  function ShiftNortheast(b: Bitboard): Bitboard { (b << 9) & NOT_A_FILE }
  function ShiftSoutheast(b: Bitboard): Bitboard { (b >> 7) & NOT_A_FILE }
  function ShiftWest(b: Bitboard): Bitboard { (b >> 1) & NOT_H_FILE }
  function ShiftNorthwest(b: Bitboard): Bitboard { (b << 7) & NOT_H_FILE }
  function ShiftSouthwest(b: Bitboard): Bitboard { (b >> 9) & NOT_H_FILE }

  /** The shift the engine's shift<D> template performs for direction d. */
  function Shift(d: Dir, b: Bitboard): Bitboard
  {
    match d
    case N => ShiftNorth(b)
    case S => ShiftSouth(b)
    case E => ShiftEast(b)
    case W => ShiftWest(b)
    case NE => ShiftNortheast(b)
    case NW => ShiftNorthwest(b)
    case SE => ShiftSoutheast(b)
    case SW => ShiftSouthwest(b)
  }

  /** Eastward shifts never produce an A-file bit and westward shifts never
      produce an H-file bit. */
  lemma ShiftsClipFiles(b: Bitboard)
    ensures ShiftEast(b) & A_FILE_MASK == 0
    ensures ShiftNortheast(b) & A_FILE_MASK == 0
    ensures ShiftSoutheast(b) & A_FILE_MASK == 0
    ensures ShiftWest(b) & H_FILE_MASK == 0
    ensures ShiftNorthwest(b) & H_FILE_MASK == 0
    ensures ShiftSouthwest(b) & H_FILE_MASK == 0
  {
  }

  /** Shifting north drops the rank-8 bits and shifting south drops the
      rank-1 bits: the result is the same whether or not they were set. */
  lemma ShiftsDropRanks(b: Bitboard)
    ensures ShiftNorth(b) == ShiftNorth(b & !RANK_8_MASK)
    ensures ShiftSouth(b) == ShiftSouth(b & !RANK_1_MASK)
    ensures ShiftNorth(RANK_8_MASK) == 0 && ShiftSouth(RANK_1_MASK) == 0
  {
  }

  // Bit t of each shift, with t split into rank (t >> 3) and file (t & 7).

  lemma ShiftNorthBit(b: Bitboard, t: bv7)
    requires t < 64
    ensures BitSet(ShiftNorth(b), t) <==> t >> 3 != 0 && BitSet(b, t - 8)
  {
  }

  lemma ShiftSouthBit(b: Bitboard, t: bv7)
    requires t < 64
    ensures BitSet(ShiftSouth(b), t) <==> t >> 3 != 7 && BitSet(b, t + 8)
  {
  }

  lemma ShiftEastBit(b: Bitboard, t: bv7)
    requires t < 64
    ensures BitSet(ShiftEast(b), t) <==> t & 7 != 0 && BitSet(b, t - 1)
  {
  }

  lemma ShiftWestBit(b: Bitboard, t: bv7)
    requires t < 64
    ensures BitSet(ShiftWest(b), t) <==> t & 7 != 7 && BitSet(b, t + 1)
  {
  }

  lemma ShiftNortheastBit(b: Bitboard, t: bv7)
    requires t < 64
    ensures BitSet(ShiftNortheast(b), t) <==> t & 7 != 0 && t >> 3 != 0 && BitSet(b, t - 9)
  {
  }

  lemma ShiftNorthwestBit(b: Bitboard, t: bv7)
    requires t < 64
    ensures BitSet(ShiftNorthwest(b), t) <==> t & 7 != 7 && t >> 3 != 0 && BitSet(b, t - 7)
  {
  }

  lemma ShiftSoutheastBit(b: Bitboard, t: bv7)
    requires t < 64
    ensures BitSet(ShiftSoutheast(b), t) <==> t & 7 != 0 && t >> 3 != 7 && BitSet(b, t + 7)
  {
  }

  lemma ShiftSouthwestBit(b: Bitboard, t: bv7)
    requires t < 64
    ensures BitSet(ShiftSouthwest(b), t) <==> t & 7 != 7 && t >> 3 != 7 && BitSet(b, t + 9)
  {
  }

  lemma SmallBitIndices()
    ensures BitIndex(0) == 0 && BitIndex(1) == 1 && BitIndex(7) == 7
    ensures BitIndex(8) == 8 && BitIndex(9) == 9
  {
  }

  /** The rank edge tests of the shift lemmas, read as rank tests. */
  lemma RankEdgeBits(t: Square)
    ensures BitIndex(t) >> 3 != 0 <==> GetRank(t) != 0
    ensures BitIndex(t) >> 3 != 7 <==> GetRank(t) != 7
  {
    RankFileDecompose(t);
    BitIndexRankFile(t);
    SmallBitIndices();
    BitIndexInjective(GetRank(t), 0);
    BitIndexInjective(GetRank(t), 7);
  }

  /** The file edge tests of the shift lemmas, read as file tests. */
  lemma FileEdgeBits(t: Square)
    ensures BitIndex(t) & 7 != 0 <==> GetFile(t) != 0
    ensures BitIndex(t) & 7 != 7 <==> GetFile(t) != 7
  {
    RankFileDecompose(t);
    BitIndexRankFile(t);
    SmallBitIndices();
    BitIndexInjective(GetFile(t), 0);
    BitIndexInjective(GetFile(t), 7);
  }

  /** Facts every direction's case of ShiftHas starts from. */
  lemma ShiftHasSetup(d: Dir, t: Square)
    ensures BitIndex(t) < 64
    ensures BitIndex(t) >> 3 != 0 <==> GetRank(t) != 0
    ensures BitIndex(t) >> 3 != 7 <==> GetRank(t) != 7
    ensures BitIndex(t) & 7 != 0 <==> GetFile(t) != 0
    ensures BitIndex(t) & 7 != 7 <==> GetFile(t) != 7
    ensures Step(t, d.Opposite()).Some? ==> Step(t, d.Opposite()).value == t - d.Offset()
    ensures d.Offset() == 8 * d.DRank() + d.DFile()
  {
    BitIndexBound(t);
    RankEdgeBits(t);
    FileEdgeBits(t);
    DirectionOffsets(d);
    if Step(t, d.Opposite()).Some? {
      StepAddsOffset(t, d.Opposite());
    }
  }

  lemma ShiftHasN(b: Bitboard, t: Square)
    ensures Has(Shift(N, b), t) <==>
      Step(t, N.Opposite()).Some? && Has(b, Step(t, N.Opposite()).value)
  {
    ShiftHasSetup(N, t);
    ShiftNorthBit(b, BitIndex(t));
    if Step(t, N.Opposite()).Some? {
      SmallBitIndices();
      BitIndexAdd(t - 8, 8);
    }
  }

  lemma ShiftHasS(b: Bitboard, t: Square)
    ensures Has(Shift(S, b), t) <==>
      Step(t, S.Opposite()).Some? && Has(b, Step(t, S.Opposite()).value)
  {
    ShiftHasSetup(S, t);
    ShiftSouthBit(b, BitIndex(t));
    if Step(t, S.Opposite()).Some? {
      SmallBitIndices();
      BitIndexAdd(t, 8);
    }
  }

  lemma ShiftHasE(b: Bitboard, t: Square)
    ensures Has(Shift(E, b), t) <==>
      Step(t, E.Opposite()).Some? && Has(b, Step(t, E.Opposite()).value)
  {
    ShiftHasSetup(E, t);
    ShiftEastBit(b, BitIndex(t));
    if Step(t, E.Opposite()).Some? {
      SmallBitIndices();
      BitIndexAdd(t - 1, 1);
    }
  }

  lemma ShiftHasW(b: Bitboard, t: Square)
    ensures Has(Shift(W, b), t) <==>
      Step(t, W.Opposite()).Some? && Has(b, Step(t, W.Opposite()).value)
  {
    ShiftHasSetup(W, t);
    ShiftWestBit(b, BitIndex(t));
    if Step(t, W.Opposite()).Some? {
      SmallBitIndices();
      BitIndexAdd(t, 1);
    }
  }

  lemma ShiftHasNE(b: Bitboard, t: Square)
    ensures Has(Shift(NE, b), t) <==>
      Step(t, NE.Opposite()).Some? && Has(b, Step(t, NE.Opposite()).value)
  {
    ShiftHasSetup(NE, t);
    ShiftNortheastBit(b, BitIndex(t));
    if Step(t, NE.Opposite()).Some? {
      SmallBitIndices();
      BitIndexAdd(t - 9, 9);
    }
  }

  lemma ShiftHasNW(b: Bitboard, t: Square)
    ensures Has(Shift(NW, b), t) <==>
      Step(t, NW.Opposite()).Some? && Has(b, Step(t, NW.Opposite()).value)
  {
    ShiftHasSetup(NW, t);
    ShiftNorthwestBit(b, BitIndex(t));
    if Step(t, NW.Opposite()).Some? {
      SmallBitIndices();
      BitIndexAdd(t - 7, 7);
    }
  }

  lemma ShiftHasSE(b: Bitboard, t: Square)
    ensures Has(Shift(SE, b), t) <==>
      Step(t, SE.Opposite()).Some? && Has(b, Step(t, SE.Opposite()).value)
  {
    ShiftHasSetup(SE, t);
    ShiftSoutheastBit(b, BitIndex(t));
    if Step(t, SE.Opposite()).Some? {
      SmallBitIndices();
      BitIndexAdd(t, 7);
    }
  }

  lemma ShiftHasSW(b: Bitboard, t: Square)
    ensures Has(Shift(SW, b), t) <==>
      Step(t, SW.Opposite()).Some? && Has(b, Step(t, SW.Opposite()).value)
  {
    ShiftHasSetup(SW, t);
    ShiftSouthwestBit(b, BitIndex(t));
    if Step(t, SW.Opposite()).Some? {
      SmallBitIndices();
      BitIndexAdd(t, 9);
    }
  }

  /** Bit t of a shifted bitboard is the bit one step back against the
      direction, and is clear when that step leaves the board: the shift moves
      every square one step in its direction and drops the squares that would
      wrap around or fall off. */
  lemma ShiftHas(d: Dir, b: Bitboard, t: Square)
    ensures Has(Shift(d, b), t) <==>
      Step(t, d.Opposite()).Some? && Has(b, Step(t, d.Opposite()).value)
  {
    match d
    case N => ShiftHasN(b, t);
    case S => ShiftHasS(b, t);
    case E => ShiftHasE(b, t);
    case W => ShiftHasW(b, t);
    case NE => ShiftHasNE(b, t);
    case NW => ShiftHasNW(b, t);
    case SE => ShiftHasSE(b, t);
    case SW => ShiftHasSW(b, t);
  }

  // ---------------------------------------------------------------------------
  // Bitboards as sets of squares.

  /** A bitboard with no square set is zero. */
  lemma NoSquaresIsZero(b: Bitboard)
    requires forall sq: Square :: !Has(b, sq)
    ensures b == 0
  {
    assert !Has(b, 0);
    assert !Has(b, 1);
    assert !Has(b, 2);
    assert !Has(b, 3);
    assert !Has(b, 4);
    assert !Has(b, 5);
    assert !Has(b, 6);
    assert !Has(b, 7);
    assert !Has(b, 8);
    assert !Has(b, 9);
    assert !Has(b, 10);
    assert !Has(b, 11);
    assert !Has(b, 12);
    assert !Has(b, 13);
    assert !Has(b, 14);
    assert !Has(b, 15);
    assert !Has(b, 16);
    assert !Has(b, 17);
    assert !Has(b, 18);
    assert !Has(b, 19);
    assert !Has(b, 20);
    assert !Has(b, 21);
    assert !Has(b, 22);
    assert !Has(b, 23);
    assert !Has(b, 24);
    assert !Has(b, 25);
    assert !Has(b, 26);
    assert !Has(b, 27);
    assert !Has(b, 28);
    assert !Has(b, 29);
    assert !Has(b, 30);
    assert !Has(b, 31);
    assert !Has(b, 32);
    assert !Has(b, 33);
    assert !Has(b, 34);
    assert !Has(b, 35);
    assert !Has(b, 36);
    assert !Has(b, 37);
    assert !Has(b, 38);
    assert !Has(b, 39);
    assert !Has(b, 40);
    assert !Has(b, 41);
    assert !Has(b, 42);
    assert !Has(b, 43);
    assert !Has(b, 44);
    assert !Has(b, 45);
    assert !Has(b, 46);
    assert !Has(b, 47);
    assert !Has(b, 48);
    assert !Has(b, 49);
    assert !Has(b, 50);
    assert !Has(b, 51);
    assert !Has(b, 52);
    assert !Has(b, 53);
    assert !Has(b, 54);
    assert !Has(b, 55);
    assert !Has(b, 56);
    assert !Has(b, 57);
    assert !Has(b, 58);
    assert !Has(b, 59);
    assert !Has(b, 60);
    assert !Has(b, 61);
    assert !Has(b, 62);
    assert !Has(b, 63);
  }

  lemma BitOr(a: Bitboard, b: Bitboard, i: bv7)
    requires i < 64
    ensures BitSet(a | b, i) <==> BitSet(a, i) || BitSet(b, i)
  {
  }

  lemma BitXor(a: Bitboard, b: Bitboard, i: bv7)
    requires i < 64
    ensures BitSet(a ^ b, i) <==> BitSet(a, i) != BitSet(b, i)
  {
  }

  /** Or and exclusive-or are union and symmetric difference of squares. */
  lemma HasOr(a: Bitboard, b: Bitboard, sq: Square)
    ensures Has(a | b, sq) <==> Has(a, sq) || Has(b, sq)
  {
    BitIndexBound(sq);
    BitOr(a, b, BitIndex(sq));
  }

  lemma HasXor(a: Bitboard, b: Bitboard, sq: Square)
    ensures Has(a ^ b, sq) <==> Has(a, sq) != Has(b, sq)
  {
    BitIndexBound(sq);
    BitXor(a, b, BitIndex(sq));
  }

  lemma NoBitOfEmpty(i: bv7)
    requires i < 64
    ensures !BitSet(EMPTY_BITBOARD, i)
  {
  }

  lemma SquaresOfEmpty()
    ensures SquaresOf(EMPTY_BITBOARD) == {}
  {
    forall sq: Square
      ensures !Has(EMPTY_BITBOARD, sq)
    {
      BitIndexBound(sq);
      NoBitOfEmpty(BitIndex(sq));
    }
  }

  lemma SquaresOfOr(a: Bitboard, b: Bitboard)
    ensures SquaresOf(a | b) == SquaresOf(a) + SquaresOf(b)
  {
    forall sq: Square
      ensures sq in SquaresOf(a | b) <==> sq in SquaresOf(a) + SquaresOf(b)
    {
      HasOr(a, b, sq);
    }
  }

  /** A bitboard is determined by the squares it holds. */
  lemma SquaresOfInjective(a: Bitboard, b: Bitboard)
    ensures SquaresOf(a) == SquaresOf(b) <==> a == b
  {
    if SquaresOf(a) == SquaresOf(b) {
      var c := a ^ b;
      forall sq: Square
        ensures !Has(c, sq)
      {
        HasXor(a, b, sq);
        assert sq in SquaresOf(a) <==> sq in SquaresOf(b);
      }
      NoSquaresIsZero(c);
    }
  }

  /** The squares one step from a square of s in direction d. */
  function StepImage(s: set<Square>, d: Dir): set<Square>
  {
    set sq <- s | Step(sq, d).Some? :: Step(sq, d).value
  }

  /** A square is one step from s in direction d exactly when some square of
      s lies the direction's rank and file change away from it. */
  lemma InStepImage(s: set<Square>, d: Dir, u: Square)
    ensures u in StepImage(s, d) <==>
              exists p :: p in s && GetRank(p) + d.DRank() == GetRank(u) && GetFile(p) + d.DFile() == GetFile(u)
  {
    if u in StepImage(s, d) {
      var p :| p in s && Step(p, d) == Some(u);
      assert GetRank(p) + d.DRank() == GetRank(u) && GetFile(p) + d.DFile() == GetFile(u);
    }
    if exists p :: p in s && GetRank(p) + d.DRank() == GetRank(u) && GetFile(p) + d.DFile() == GetFile(u) {
      var p :| p in s && GetRank(p) + d.DRank() == GetRank(u) && GetFile(p) + d.DFile() == GetFile(u);
      RankFileDecompose(u);
      var t := Step(p, d);
      assert t.Some?;
      RankFileInjective(t.value, u);
      assert Step(p, d) == Some(u);
    }
  }

  /** Shifting a bitboard moves each of its squares one step in the
      direction; squares whose step leaves the board are dropped. */
  lemma ShiftSquares(d: Dir, b: Bitboard)
    ensures SquaresOf(Shift(d, b)) == StepImage(SquaresOf(b), d)
  {
    forall t: Square
      ensures t in SquaresOf(Shift(d, b)) <==> t in StepImage(SquaresOf(b), d)
    {
      ShiftHas(d, b, t);
      var back := Step(t, d.Opposite());
      if back.Some? {
        StepInverse(back.value, t, d);
        assert d.Opposite().Opposite() == d;
      }
      if t in StepImage(SquaresOf(b), d) {
        var s :| s in SquaresOf(b) && Step(s, d).Some? && Step(s, d).value == t;
        StepInverse(s, t, d);
      }
    }
  }

  /** A single-square mask shifts to the mask of the square one step away,
      or to the empty bitboard when that step leaves the board. */
  lemma ShiftMask(d: Dir, sq: Square)
    ensures Shift(d, GetMask(sq)) ==
      if Step(sq, d).Some? then GetMask(Step(sq, d).value) else EMPTY_BITBOARD
  {
    GetMaskSquares(sq);
    ShiftSquares(d, GetMask(sq));
    SquaresOfEmpty();
    if Step(sq, d).Some? {
      GetMaskSquares(Step(sq, d).value);
      SquaresOfInjective(Shift(d, GetMask(sq)), GetMask(Step(sq, d).value));
    } else {
      SquaresOfInjective(Shift(d, GetMask(sq)), EMPTY_BITBOARD);
    }
  }
}

=== FILE: boards.dfy ===
/** The board: piece placement, material, side to move, castling rights, the
    en-passant target, the move clocks and the make/unmake stacks, with
    make_move and unmake_move. */
module Boards {
  import opened Types
  import opened Outcomes
  import opened MoveCodec

  /** What stands on one square. The engine keeps the same information in
      piece_map, the per-piece and per-colour bitboards, occupied and
      king_squares; the model keeps one cell per square and derives those. */
  datatype Cell = Empty | Occupant(color: Side, kind: PieceKind)

  /** The irreversible state saved by make_move: four uint8_t values. */
  datatype State = State(enPassant: int, castling: CastlingRights, halfmoves: int, captured: int)
  {
    predicate Valid()
    {
      0 <= enPassant < 256 && 0 <= halfmoves < 256 && 0 <= captured < 256
    }
  }

  /** The board. `moves` and `states` are the live part (indices below ply)
      of the engine's move and state stacks. */
  datatype Board = Board(
    cells: seq<Cell>,
    material: seq<int>,
    toMove: int,
    castling: CastlingRights,
    enPassant: int,
    halfmoves: int,
    fullmoves: int,
    ply: int,
    moves: seq<Mv>,
    states: seq<State>)
  {
    /** One cell per square, a material entry per colour, a uint8_t en-passant
        target and stacks as deep as ply. */
    predicate Valid()
    {
      |cells| == 64 && |material| == 2 && 0 <= enPassant < 256
      && ply == |moves| && ply == |states|
      && forall i :: 0 <= i < |states| ==> states[i].Valid()
    }
  }

  /** The colour that does not move: to_move ^ 1 for a real side. */
  function Other(c: Side): (r: Side)
    ensures r != c
  {
    1 - c
  }

  // ---------------------------------------------------------------------------
  // The engine's redundant views, derived from the cells.

  /** piece_map[sq]: the kind standing there, or NO_PIECE. */
  function PieceAt(b: Board, sq: Square): (p: int)
    requires b.Valid()
    ensures 0 <= p <= NO_PIECE
    ensures p == NO_PIECE <==> b.cells[sq] == Empty
  {
    match b.cells[sq]
    case Empty => NO_PIECE
    case Occupant(_, k) => k
  }

  /** pieces[c][k]: the squares holding a piece of colour c and kind k. */
  function Pieces(b: Board, c: Side, k: PieceKind): set<Square>
    requires b.Valid()
  {
    set sq: Square | b.cells[sq] == Occupant(c, k)
  }

  /** colors[c]: the squares holding a piece of colour c. */
  function ColorSquares(b: Board, c: Side): set<Square>
    requires b.Valid()
  {
    set sq: Square | b.cells[sq].Occupant? && b.cells[sq].color == c
  }

  /** occupied: the squares holding any piece. */
  function Occupied(b: Board): set<Square>
    requires b.Valid()
  {
    set sq: Square | b.cells[sq] != Empty
  }

  /** The first square from k on holding cell c, or NO_SQUARE. */
  function FindFrom(cells: seq<Cell>, c: Cell, k: nat): (r: int)
    requires |cells| == 64 && k <= 64
    ensures r == NO_SQUARE || (k <= r < 64 && cells[r] == c)
    ensures r == NO_SQUARE <==> forall sq :: k <= sq < 64 ==> cells[sq] != c
    decreases 64 - k
  {
    if k == 64 then NO_SQUARE
    else if cells[k] == c then k
    else FindFrom(cells, c, k + 1)
  }

  /** king_squares[c]: where the king of colour c stands, or NO_SQUARE. */
  function KingSquare(b: Board, c: Side): (r: int)
    requires b.Valid()
    ensures r == NO_SQUARE || (0 <= r < 64 && b.cells[r] == Occupant(c, KING))
    ensures r == NO_SQUARE <==> Pieces(b, c, KING) == {}
  {
    var r := FindFrom(b.cells, Occupant(c, KING), 0);
    assert r != NO_SQUARE ==> r in Pieces(b, c, KING);
    r
  }

  // ---------------------------------------------------------------------------
  // reset

  /** The board reset() leaves: nothing placed, no side to move, no rights,
      no en-passant target and all counters at zero. */
  function Reset(): (b: Board)
    ensures b.Valid()
    ensures forall c: Side, k: PieceKind :: Pieces(b, c, k) == {}
    ensures forall c: Side :: ColorSquares(b, c) == {} && KingSquare(b, c) == NO_SQUARE
    ensures Occupied(b) == {} && forall sq: Square :: PieceAt(b, sq) == NO_PIECE
    ensures b.material == [0, 0] && b.toMove == NO_COLOR
    ensures b.castling == NO_CASTLING_RIGHTS && b.enPassant == NO_SQUARE
    ensures b.halfmoves == 0 && b.fullmoves == 0 && b.ply == 0
  {
    Board(seq(64, _ => Empty), [0, 0], NO_COLOR, NO_CASTLING_RIGHTS, NO_SQUARE, 0, 0, 0, [], [])
  }

  // ---------------------------------------------------------------------------
  // make_move and unmake_move

  /** The engine's tables and helpers whose definitions are not part of this
      model: PIECE_VALUE, set_en_passant_target and update_castling_rights.
      Whatever they compute is saved in State and restored by unmake_move. */
  datatype Helpers = Helpers(
    value: int -> int,
    enPassantAfter: (Side, int, Square, Square) -> int,
    castlingAfter: (CastlingRights, Square, Square) -> CastlingRights)

  /** The square an en-passant capture removes: one rank behind the
      destination from the mover's point of view. */
  function EnPassantVictim(mover: Side, to: Square): int
  {
    if mover == WHITE then to - 8 else to + 8
  }

  /** Where a capture takes its victim. */
  function CaptureSquare(mover: Side, m: Mv): int
  {
    if m.flag == EN_PASSANT then EnPassantVictim(mover, m.to) else m.to
  }

  /** The rook's corner and its square after castling, for each king
      destination; None for any other destination. */
  function CastleRook(to: Square): Option<(Square, Square)>
  {
    if to == C1 then Some((A1, D1))
    else if to == G1 then Some((H1, F1))
    else if to == C8 then Some((A8, D8))
    else if to == G8 then Some((H8, F8))
    else None
  }

  /** handle_capture: removes the victim from its square, takes its value off
      the opponent's material and reports the captured kind. */
  function HandleCapture(h: Helpers, cells: seq<Cell>, material: seq<int>, mover: Side, m: Mv)
    : (r: (int, seq<Cell>, seq<int>))
    requires |cells| == 64 && |material| == 2
    requires 0 <= CaptureSquare(mover, m) < 64 && cells[CaptureSquare(mover, m)] != Empty
    ensures |r.1| == 64 && |r.2| == 2 && 0 <= r.0 < NO_PIECE
  {
    var sq := CaptureSquare(mover, m);
    var victim := cells[sq].kind;
    var them := Other(mover);
    (victim, cells[sq := Empty], material[them := material[them] - h.value(victim)])
  }

  /** handle_castle: moves the rook of the castling side from its corner to
      the square the king passed over. */
  function HandleCastle(cells: seq<Cell>, mover: Side, to: Square): (r: seq<Cell>)
    requires |cells| == 64
    ensures |r| == 64
  {
    match CastleRook(to)
    case None => cells
    case Some((corner, inner)) => cells[corner := Empty][inner := Occupant(mover, ROOK)]
  }

  /** The board cannot make a move whose origin is empty or whose capture has
      nothing to take; with no side to move the engine indexes past its
      arrays. */
  predicate CanMake(b: Board, m: Mv)
  {
    b.Valid() && m.Valid() && 0 <= b.toMove < 2 && b.cells[m.from] != Empty
    && (m.mtype == CAPTURE ==>
          0 <= CaptureSquare(b.toMove, m) < 64 && CaptureSquare(b.toMove, m) != m.from
          && b.cells[CaptureSquare(b.toMove, m)] != Empty)
  }

  /** What make_move does to the pieces and the material, with the kind it
      captured (NO_PIECE for a quiet move). */
  datatype Placement = Placement(cells: seq<Cell>, material: seq<int>, captured: int)

  function MakePlacement(h: Helpers, b: Board, m: Mv): (p: Placement)
    requires CanMake(b, m)
    ensures |p.cells| == 64 && |p.material| == 2 && 0 <= p.captured <= NO_PIECE
  {
    var mover: Side := b.toMove;
    var piece := b.cells[m.from].kind;
    var cells1 := b.cells[m.from := Empty];
    var captured := if m.mtype == CAPTURE then HandleCapture(h, cells1, b.material, mover, m)
                    else (NO_PIECE, cells1, b.material);
    var placed := if IsPromotionFlag(m.flag) then PromotedPiece(m.flag) else piece;
    var material := if IsPromotionFlag(m.flag)
                    then captured.2[mover := captured.2[mover] + h.value(placed) - h.value(PAWN)]
                    else captured.2;
    var cells2 := captured.1[m.to := Occupant(mover, placed)];
    var cells3 := if m.flag == CASTLE then HandleCastle(cells2, mover, m.to) else cells2;
    Placement(cells3, material, captured.0)
  }

  /** make_move: clocks, en-passant target, pieces, castling rights, side to
      move, and a push of the move and the saved state. */
  function Make(h: Helpers, b: Board, m: Mv): (r: Board)
    requires CanMake(b, m)
    ensures r.Valid()
    ensures r.halfmoves == (if PieceAt(b, m.from) == PAWN then 0 else b.halfmoves + 1)
    ensures r.fullmoves == (if b.toMove == BLACK then b.fullmoves + 1 else b.fullmoves)
    ensures 0 <= r.toMove < 2 && r.toMove == Other(b.toMove)
    ensures r.ply == b.ply + 1 && r.moves == b.moves + [m]
    ensures r.states[..b.ply] == b.states
    ensures r.states[b.ply].enPassant == b.enPassant && r.states[b.ply].castling == b.castling
    ensures r.states[b.ply].halfmoves == ToU8(b.halfmoves)
  {
    var p := MakePlacement(h, b, m);
    var piece := b.cells[m.from].kind;
    var state := State(b.enPassant, b.castling, ToU8(b.halfmoves), p.captured);
    var r := Board(p.cells, p.material, Other(b.toMove), h.castlingAfter(b.castling, m.from, m.to),
                   ToU8(h.enPassantAfter(b.toMove, piece, m.from, m.to)),
                   if piece == PAWN then 0 else b.halfmoves + 1,
                   if b.toMove == BLACK then b.fullmoves + 1 else b.fullmoves,
                   b.ply + 1, b.moves + [m], b.states + [state]);
    assert r.states[..b.ply] == b.states;
    r
  }

  /** The board cannot unmake a move with nothing on its destination or with a
      capture whose saved victim is NO_PIECE or lands off the board. */
  predicate CanUnmake(b: Board, m: Mv)
  {
    b.Valid() && m.Valid() && 0 <= b.toMove < 2 && b.ply > 0 && b.cells[m.to] != Empty
    && (m.mtype == CAPTURE ==>
          0 <= CaptureSquare(Other(b.toMove), m) < 64
          && 0 <= b.states[b.ply - 1].captured < NO_PIECE)
  }

  /** What unmake_move does to the pieces and the material, given the kind
      the move captured. */
  function UnmakePlacement(h: Helpers, cells: seq<Cell>, material: seq<int>, mover: Side, m: Mv, captured: int)
    : (p: Placement)
    requires |cells| == 64 && |material| == 2 && cells[m.to] != Empty
    requires m.mtype == CAPTURE ==> 0 <= CaptureSquare(mover, m) < 64 && 0 <= captured < NO_PIECE
    ensures |p.cells| == 64 && |p.material| == 2
  {
    var piece := cells[m.to].kind;
    var cells1 := cells[m.to := Empty];
    var material1 := if IsPromotionFlag(m.flag)
                     then material[mover := material[mover] - (h.value(piece) - h.value(PAWN))]
                     else material;
    var original := if IsPromotionFlag(m.flag) then PAWN else piece;
    var cells2 := cells1[m.from := Occupant(mover, original)];
    var them := Other(mover);
    var cells3 := if m.mtype == CAPTURE
                  then cells2[CaptureSquare(mover, m) := Occupant(them, captured)]
                  else cells2;
    var material2 := if m.mtype == CAPTURE
                     then material1[them := material1[them] + h.value(captured)]
                     else material1;
    var cells4 := if m.flag == CASTLE then UndoCastle(cells3, mover, m.to) else cells3;
    Placement(cells4, material2, captured)
  }

  /** unmake_move: restores the saved state, moves the piece back (a pawn if
      the move promoted), puts the victim back on its square and the castling
      rook back in its corner, and pops the stacks. */
  function Unmake(h: Helpers, b: Board, m: Mv): (r: Board)
    requires CanUnmake(b, m)
    ensures r.Valid()
    ensures r.ply == b.ply - 1 && r.moves == b.moves[..b.ply - 1] && r.states == b.states[..b.ply - 1]
    ensures r.enPassant == b.states[b.ply - 1].enPassant
    ensures r.castling == b.states[b.ply - 1].castling
    ensures r.halfmoves == b.states[b.ply - 1].halfmoves
    ensures r.toMove == Other(b.toMove)
    ensures r.fullmoves == (if Other(b.toMove) == BLACK then b.fullmoves - 1 else b.fullmoves)
  {
    var prev := b.states[b.ply - 1];
    var p := UnmakePlacement(h, b.cells, b.material, Other(b.toMove), m, prev.captured);
    Board(p.cells, p.material, Other(b.toMove), prev.castling, prev.enPassant, prev.halfmoves,
          if Other(b.toMove) == BLACK then b.fullmoves - 1 else b.fullmoves,
          b.ply - 1, b.moves[..b.ply - 1], b.states[..b.ply - 1])
  }

  /** The castling rook goes back from the square the king passed over to its
      corner. */
  function UndoCastle(cells: seq<Cell>, mover: Side, to: Square): (r: seq<Cell>)
    requires |cells| == 64
    ensures |r| == 64
  {
    match CastleRook(to)
    case None => cells
    case Some((corner, inner)) => cells[inner := Empty][corner := Occupant(mover, ROOK)]
  }

  /** Undoing special moves: a promotion puts a pawn back on the origin, a
      capture puts the saved victim back on its square (one rank behind the
      destination for en passant) and a castle moves the rook from the square
      the king passed over back to its corner. */
  lemma UnmakeSpecialMoves(h: Helpers, b: Board, m: Mv)
    requires CanUnmake(b, m)
    ensures var r := Unmake(h, b, m);
            var mover := Other(b.toMove);
            && (IsPromotionFlag(m.flag) && (m.mtype == CAPTURE ==> CaptureSquare(mover, m) != m.from) ==>
                  r.cells[m.from] == Occupant(mover, PAWN))
            && (m.mtype == CAPTURE && m.flag != CASTLE ==>
                  r.cells[CaptureSquare(mover, m)] == Occupant(b.toMove, b.states[b.ply - 1].captured))
            && (m.mtype == CAPTURE && m.flag == EN_PASSANT ==>
                  CaptureSquare(mover, m) == (if mover == WHITE then m.to - 8 else m.to + 8))
            && (m.flag == CASTLE && CastleRook(m.to).Some? ==>
                  r.cells[CastleRook(m.to).value.0] == Occupant(mover, ROOK)
                  && r.cells[CastleRook(m.to).value.1] == Empty)
  {
  }

  // ---------------------------------------------------------------------------
  // Reversibility

  /** A move the board can make and then unmake exactly: the mover's piece
      stands on the origin; a quiet move lands on an empty square; a capture
      takes an enemy piece (from an empty destination's neighbour for en
      passant); a promotion moves a pawn; a castle is quiet and finds its rook
      in the corner and the inner square free. */
  predicate Fits(b: Board, m: Mv)
  {
    CanMake(b, m) && m.from != m.to
    && b.cells[m.from].color == b.toMove
    && (m.mtype == QUIET ==> b.cells[m.to] == Empty)
    && (m.mtype == CAPTURE ==>
          b.cells[CaptureSquare(b.toMove, m)].color == Other(b.toMove)
          && (m.flag == EN_PASSANT ==> b.cells[m.to] == Empty))
    && (IsPromotionFlag(m.flag) ==> b.cells[m.from].kind == PAWN)
    && (m.flag == CASTLE ==>
          m.mtype == QUIET
          && (CastleRook(m.to).Some? ==>
                var (corner, inner) := CastleRook(m.to).value;
                b.cells[corner] == Occupant(b.toMove, ROOK) && b.cells[inner] == Empty
                && corner != m.from && inner != m.from))
  }

  /** The pieces: unmaking a fitting move puts every square back. */
  lemma PlacementRoundTrip(h: Helpers, b: Board, m: Mv)
    requires Fits(b, m)
    ensures var p := MakePlacement(h, b, m);
            && p.cells[m.to] != Empty
            && (m.mtype == CAPTURE ==> 0 <= p.captured < NO_PIECE)
            && UnmakePlacement(h, p.cells, p.material, b.toMove, m, p.captured).cells == b.cells
  {
    var p := MakePlacement(h, b, m);
    var u := UnmakePlacement(h, p.cells, p.material, b.toMove, m, p.captured);
    forall k | 0 <= k < 64
      ensures u.cells[k] == b.cells[k]
    {
    }
  }

  /** The material: unmaking a fitting move gives both sides their totals back. */
  lemma MaterialRoundTrip(h: Helpers, b: Board, m: Mv)
    requires Fits(b, m)
    ensures var p := MakePlacement(h, b, m);
            p.cells[m.to] != Empty && (m.mtype == CAPTURE ==> 0 <= p.captured < NO_PIECE)
            && UnmakePlacement(h, p.cells, p.material, b.toMove, m, p.captured).material == b.material
  {
    PlacementRoundTrip(h, b, m);
    var p := MakePlacement(h, b, m);
    var u := UnmakePlacement(h, p.cells, p.material, b.toMove, m, p.captured);
    assert u.material[0] == b.material[0];
    assert u.material[1] == b.material[1];
  }

  /** unmake_move undoes make_move: for a fitting move and a halfmove clock
      that fits its uint8_t slot, the board comes back field for field. */
  lemma UnmakeUndoesMake(h: Helpers, b: Board, m: Mv)
    requires Fits(b, m) && 0 <= b.halfmoves < 256
    ensures CanUnmake(Make(h, b, m), m)
    ensures Unmake(h, Make(h, b, m), m) == b
  {
    PlacementRoundTrip(h, b, m);
    MaterialRoundTrip(h, b, m);
    var a := Make(h, b, m);
    assert a.states[b.ply].captured == MakePlacement(h, b, m).captured;
    assert (b.moves + [m])[..b.ply] == b.moves;
  }

  /** The saved clock is a uint8_t: after make and unmake the halfmove clock
      is back exactly when it was below 256. */
  lemma HalfmovesSurviveIff(h: Helpers, b: Board, m: Mv)
    requires Fits(b, m)
    ensures CanUnmake(Make(h, b, m), m)
    ensures Unmake(h, Make(h, b, m), m).halfmoves == b.halfmoves <==> 0 <= b.halfmoves < 256
  {
    PlacementRoundTrip(h, b, m);
  }
}

=== FILE: checks.dfy ===
/** Check information computed at the start of move generation: the pieces
    giving check, the pinned pieces with their pin lines, the squares a piece
    must move to when in single check, and the squares the enemy attacks. */
module Checks {
  import opened Types
  import opened Outcomes
  import opened Squares
  import opened Precompute
  import opened Bitboards
  import opened Boards
  import opened SquareSets

  /** Tables whose construction is not part of this model: LINES[a][b] (the
      line between two squares), PAWN_ATTACK_MAPS[c][sq], and the squares
      that must be empty to castle short or long (the colour's
      SHORT_CASTLE_PATH and LONG_CASTLE_PATH). */
  datatype Tables = Tables(
    lines: (Square, Square) -> set<Square>,
    pawnAttacks: (Side, Square) -> set<Square>,
    shortPath: Side -> set<Square>,
    longPath: Side -> set<Square>)

  // ---------------------------------------------------------------------------
  // Walking a ray over an occupancy.

  /** The squares of a ray lie ever closer to the board's edge. */
  lemma {:induction false} RayApproachesEdge(sq: Square, d: Dir, u: Square)
    requires u in Ray(sq, d)
    ensures EdgeDistance(u, d) < EdgeDistance(sq, d)
    decreases EdgeDistance(sq, d)
  {
    StepEdgeDistance(sq, d);
    var t := Step(sq, d).value;
    if u != t {
      RayApproachesEdge(t, d, u);
    }
  }

  /** pop_next<D> on a ray intersected with the occupancy: the first occupied
      square met walking from sq in direction d. */
  function FirstBlocker(occ: set<Square>, sq: Square, d: Dir): (r: Option<Square>)
    ensures r.Some? ==> r.value in occ && r.value in Ray(sq, d)
    decreases EdgeDistance(sq, d)
  {
    match Step(sq, d)
    case None => None
    case Some(t) =>
      StepEdgeDistance(sq, d);
      if t in occ then Some(t) else FirstBlocker(occ, t, d)
  }

  /** sq is the nearest occupied square of the ray: every other occupied square
      of the ray lies beyond it. */
  predicate Nearest(occ: set<Square>, from: Square, d: Dir, sq: Square)
  {
    sq in Ray(from, d) && sq in occ
    && forall u :: u in Ray(from, d) && u in occ && u != sq ==> u in Ray(sq, d)
  }

  /** No square lies on its own ray, and two squares never lie on each
      other's ray in the same direction. */
  lemma RayIsOneWay(a: Square, b: Square, d: Dir)
    ensures a !in Ray(a, d)
    ensures a in Ray(b, d) ==> b !in Ray(a, d)
  {
    if a in Ray(a, d) {
      RayApproachesEdge(a, d, a);
    }
    if a in Ray(b, d) && b in Ray(a, d) {
      RayApproachesEdge(b, d, a);
      RayApproachesEdge(a, d, b);
    }
  }

  /** FirstBlocker finds the nearest occupied square of the ray. */
  lemma {:induction false} FirstBlockerIsNearest(occ: set<Square>, from: Square, d: Dir, sq: Square)
    ensures FirstBlocker(occ, from, d) == Some(sq) <==> Nearest(occ, from, d, sq)
    decreases EdgeDistance(from, d)
  {
    match Step(from, d)
    case None =>
    case Some(t) =>
      StepEdgeDistance(from, d);
      assert Ray(from, d) == {t} + Ray(t, d);
      if t in occ {
        RayIsOneWay(t, sq, d);
      } else {
        FirstBlockerIsNearest(occ, t, d, sq);
        assert forall u :: u in Ray(from, d) && u in occ <==> u in Ray(t, d) && u in occ;
      }
  }

  /** FirstBlocker finds nothing exactly when the ray holds no occupied
      square. */
  lemma {:induction false} FirstBlockerNone(occ: set<Square>, from: Square, d: Dir)
    ensures FirstBlocker(occ, from, d).None? <==> Ray(from, d) * occ == {}
    decreases EdgeDistance(from, d)
  {
    match Step(from, d)
    case None =>
    case Some(t) =>
      StepEdgeDistance(from, d);
      assert Ray(from, d) == {t} + Ray(t, d);
      if t in occ {
        assert t in Ray(from, d) * occ;
      } else {
        FirstBlockerNone(occ, t, d);
        assert Ray(from, d) * occ == Ray(t, d) * occ;
      }
  }

  /** The squares a slider on sq reaches in direction d: the ray up to and
      including the first occupied square. */
  function RayUntil(occ: set<Square>, sq: Square, d: Dir): (r: set<Square>)
    ensures r <= Ray(sq, d)
    decreases EdgeDistance(sq, d)
  {
    match Step(sq, d)
    case None => {}
    case Some(t) =>
      StepEdgeDistance(sq, d);
      {t} + if t in occ then {} else RayUntil(occ, t, d)
  }

  /** The only occupied square a slider reaches along a ray is the ray's first
      blocker. */
  lemma {:induction false} ReachMeetsBlocker(occ: set<Square>, from: Square, d: Dir, sq: Square)
    ensures sq in RayUntil(occ, from, d) && sq in occ <==> FirstBlocker(occ, from, d) == Some(sq)
    decreases EdgeDistance(from, d)
  {
    match Step(from, d)
    case None =>
    case Some(t) =>
      StepEdgeDistance(from, d);
      if t !in occ {
        ReachMeetsBlocker(occ, t, d, sq);
      }
  }

  /** A slider reaches the whole ray up to its first blocker and nothing past
      it: the ray minus the squares beyond the blocker. */
  lemma {:induction false} RayUntilCutsAtBlocker(occ: set<Square>, from: Square, d: Dir)
    ensures RayUntil(occ, from, d) ==
      match FirstBlocker(occ, from, d)
      case None => Ray(from, d)
      case Some(f) => Ray(from, d) - Ray(f, d)
    decreases EdgeDistance(from, d)
  {
    match Step(from, d)
    case None =>
    case Some(t) =>
      StepEdgeDistance(from, d);
      RayIsOneWay(t, t, d);
      if t !in occ {
        RayUntilCutsAtBlocker(occ, t, d);
        match FirstBlocker(occ, t, d)
        case None =>
        case Some(f) =>
          RayIsOneWay(f, t, d);
      }
  }

  /** Walking on past an empty square the slider reaches. */
  lemma {:induction false} RayUntilExtends(occ: set<Square>, from: Square, d: Dir, s: Square, next: Square)
    requires s in RayUntil(occ, from, d) && s !in occ && Step(s, d) == Some(next)
    ensures next in RayUntil(occ, from, d)
    decreases EdgeDistance(from, d)
  {
    var t := Step(from, d).value;
    StepEdgeDistance(from, d);
    if t != s {
      RayUntilExtends(occ, t, d, s, next);
    }
  }

  /** Removing squares other than the first blocker from the occupancy keeps
      the first blocker. */
  lemma {:induction false} BlockerSurvivesRemoval(occ: set<Square>, less: set<Square>, from: Square, d: Dir, c: Square)
    requires less <= occ && c in less && FirstBlocker(occ, from, d) == Some(c)
    ensures FirstBlocker(less, from, d) == Some(c)
    decreases EdgeDistance(from, d)
  {
    var t := Step(from, d).value;
    StepEdgeDistance(from, d);
    if t != c {
      BlockerSurvivesRemoval(occ, less, t, d, c);
    }
  }

  /** Seen from the first blocker c of a ray, the ray's origin is reached
      walking back, when nothing between them is occupied. */
  lemma {:induction false} BlockerSeesOrigin(occ: set<Square>, from: Square, d: Dir, c: Square)
    requires FirstBlocker(occ, from, d) == Some(c)
    ensures from in RayUntil(occ, c, d.Opposite())
    decreases EdgeDistance(from, d)
  {
    var t := Step(from, d).value;
    StepEdgeDistance(from, d);
    StepInverse(from, t, d);
    if t == c {
      assert Step(c, d.Opposite()) == Some(from);
    } else {
      BlockerSeesOrigin(occ, t, d, c);
      RayUntilExtends(occ, c, d.Opposite(), t, from);
    }
  }

  // ---------------------------------------------------------------------------
  // Slider attacks over an occupancy: what generate_sliding_attack_mask
  // returns.

  /** A bishop's attacks on sq over the occupancy occ. */
  function BishopReach(occ: set<Square>, sq: Square): set<Square>
  {
    RayUntil(occ, sq, NE) + RayUntil(occ, sq, NW) + RayUntil(occ, sq, SE) + RayUntil(occ, sq, SW)
  }

  /** A rook's attacks on sq over the occupancy occ. */
  function RookReach(occ: set<Square>, sq: Square): set<Square>
  {
    RayUntil(occ, sq, N) + RayUntil(occ, sq, S) + RayUntil(occ, sq, E) + RayUntil(occ, sq, W)
  }

  lemma {:induction false} RayUntilOfEmpty(sq: Square, d: Dir)
    ensures RayUntil({}, sq, d) == Ray(sq, d)
    decreases EdgeDistance(sq, d)
  {
    match Step(sq, d)
    case None =>
    case Some(t) =>
      StepEdgeDistance(sq, d);
      RayUntilOfEmpty(t, d);
  }

  /** On an empty board the slider attacks are the precomputed attack maps,
      and over any occupancy they stay inside them. */
  lemma ReachOfEmptyBoard(occ: set<Square>, sq: Square)
    ensures BishopReach({}, sq) == BishopAttacks(sq) && RookReach({}, sq) == RookAttacks(sq)
    ensures BishopReach(occ, sq) <= BishopAttacks(sq) && RookReach(occ, sq) <= RookAttacks(sq)
  {
    RayUntilOfEmpty(sq, N);
    RayUntilOfEmpty(sq, S);
    RayUntilOfEmpty(sq, E);
    RayUntilOfEmpty(sq, W);
    RayUntilOfEmpty(sq, NE);
    RayUntilOfEmpty(sq, NW);
    RayUntilOfEmpty(sq, SE);
    RayUntilOfEmpty(sq, SW);
  }

  /** The squares a slider of the given kind reaches along direction d. */
  function SliderRay(occ: set<Square>, sq: Square, d: Dir, kind: int): set<Square>
  {
    if Relevant(d, kind) then RayUntil(occ, sq, d) else {}
  }

  /** is_relevant_sliding_piece<D>: rooks and queens slide along ranks and
      files, bishops and queens along diagonals. */
  predicate Relevant(d: Dir, kind: int)
  {
    if d.IsOrthogonal() then kind == ROOK || kind == QUEEN else kind == BISHOP || kind == QUEEN
  }

  /** is_slider: bishops, rooks and queens. */
  predicate IsSlider(kind: int)
  {
    kind == BISHOP || kind == ROOK || kind == QUEEN
  }

  // ---------------------------------------------------------------------------
  // CheckInfo

  /** The CheckInfo record; pins holds one pin line per square. */
  datatype CheckInfo = CheckInfo(
    pinned: set<Square>,
    pins: seq<set<Square>>,
    checkers: set<Square>,
    mustCover: set<Square>,
    unsafe: set<Square>)

  /** Every square of the board (the bitboard ~0ULL). */
  function AllSquares(): (s: set<Square>)
    ensures forall sq: Square :: sq in s
  {
    SquaresFrom(0)
  }

  function SquaresFrom(k: int): (s: set<Square>)
    requires 0 <= k <= 64
    ensures forall sq: Square :: sq in s <==> sq >= k
    decreases 64 - k
  {
    if k == 64 then {} else {k} + SquaresFrom(k + 1)
  }

  /** A default-constructed CheckInfo: nothing pinned, no checkers, every
      square acceptable to cover and nothing known to be unsafe. */
  function FreshInfo(): (ci: CheckInfo)
    ensures ci.pinned == {} && ci.checkers == {} && ci.unsafe == {}
    ensures |ci.pins| == 64 && forall sq: Square :: ci.pins[sq] == {}
    ensures forall sq: Square :: sq in ci.mustCover
  {
    CheckInfo({}, seq(64, _ => {}), {}, AllSquares(), {})
  }

  /** sq is an enemy slider of the right kind and the first piece on the ray
      from the king in direction d. */
  predicate Checker(b: Board, us: Side, king: Square, d: Dir, sq: Square)
    requires b.Valid()
  {
    FirstBlocker(Occupied(b), king, d) == Some(sq)
    && sq in ColorSquares(b, Other(us)) && Relevant(d, PieceAt(b, sq))
  }

  /** sq is our own piece, first on the ray from the king in direction d, and
      the next piece beyond it is an enemy slider of the right kind. */
  predicate Pinned(b: Board, us: Side, king: Square, d: Dir, sq: Square)
    requires b.Valid()
  {
    FirstBlocker(Occupied(b), king, d) == Some(sq) && sq in ColorSquares(b, us)
    && match FirstBlocker(Occupied(b), sq, d)
       case None => false
       case Some(p) => p in ColorSquares(b, Other(us)) && Relevant(d, PieceAt(b, p))
  }

  /** The enemy slider pinning sq along direction d. */
  function Pinner(b: Board, us: Side, king: Square, d: Dir, sq: Square): Square
    requires b.Valid() && Pinned(b, us, king, d, sq)
  {
    FirstBlocker(Occupied(b), sq, d).value
  }

  /** compute_sliding_checks_and_pins for one direction: the first piece on
      the ray is a checker if it is a relevant enemy slider; if it is ours and
      the second piece is a relevant enemy slider, the first is pinned along
      the line to that second piece. Nothing else changes. */
  function SlidingChecksAndPins(t: Tables, b: Board, us: Side, king: Square, d: Dir, ci: CheckInfo): (r: CheckInfo)
    requires b.Valid() && |ci.pins| == 64
    ensures |r.pins| == 64 && r.mustCover == ci.mustCover && r.unsafe == ci.unsafe
    ensures forall sq: Square :: sq in r.checkers <==> sq in ci.checkers || Checker(b, us, king, d, sq)
    ensures forall sq: Square :: sq in r.pinned <==> sq in ci.pinned || Pinned(b, us, king, d, sq)
    ensures forall sq: Square ::
      r.pins[sq] == (if Pinned(b, us, king, d, sq) then t.lines(king, Pinner(b, us, king, d, sq)) else ci.pins[sq])
  {
    var occ := Occupied(b);
    match FirstBlocker(occ, king, d)
    case None => ci
    case Some(first) =>
      var second := FirstBlocker(occ, first, d);
      if second.Some? && first in ColorSquares(b, us) then
        if second.value in ColorSquares(b, Other(us)) && Relevant(d, PieceAt(b, second.value)) then
          ci.(pinned := ci.pinned + {first}, pins := ci.pins[first := t.lines(king, second.value)])
        else ci
      else if first in ColorSquares(b, Other(us)) && Relevant(d, PieceAt(b, first)) then
        ci.(checkers := ci.checkers + {first})
      else ci
  }

  /** The directions compute_check_info visits, in its order. */
  const DIRECTIONS: seq<Dir> := [N, S, E, W, NE, NW, SE, SW]

  /** sq gives check along one of the directions dirs. */
  predicate CheckerIn(b: Board, us: Side, king: Square, dirs: seq<Dir>, sq: Square)
    requires b.Valid()
  {
    exists i :: 0 <= i < |dirs| && Checker(b, us, king, dirs[i], sq)
  }

  /** sq is pinned along one of the directions dirs. */
  predicate PinnedIn(b: Board, us: Side, king: Square, dirs: seq<Dir>, sq: Square)
    requires b.Valid()
  {
    exists i :: 0 <= i < |dirs| && Pinned(b, us, king, dirs[i], sq)
  }

  /** The eight compute_sliding_checks_and_pins calls, one after another. */
  function SlidingChecks(t: Tables, b: Board, us: Side, king: Square, dirs: seq<Dir>, ci: CheckInfo): (r: CheckInfo)
    requires b.Valid() && |ci.pins| == 64
    ensures |r.pins| == 64 && r.mustCover == ci.mustCover && r.unsafe == ci.unsafe
    ensures forall sq: Square :: sq in r.checkers <==> sq in ci.checkers || CheckerIn(b, us, king, dirs, sq)
    ensures forall sq: Square :: sq in r.pinned <==> sq in ci.pinned || PinnedIn(b, us, king, dirs, sq)
    decreases |dirs|
  {
    if dirs == [] then ci
    else
      var next := SlidingChecksAndPins(t, b, us, king, dirs[0], ci);
      var r := SlidingChecks(t, b, us, king, dirs[1..], next);
      SlidingChecksStep(b, us, king, dirs);
      r
  }

  /** After the eight calls, a square pinned along some direction holds the
      line to its pinner along one such direction, and every other square
      keeps its old pin line. */
  lemma {:induction false} SlidingChecksPins(t: Tables, b: Board, us: Side, king: Square, dirs: seq<Dir>, ci: CheckInfo, sq: Square)
    requires b.Valid() && |ci.pins| == 64
    ensures PinnedIn(b, us, king, dirs, sq) ==>
      exists i :: 0 <= i < |dirs| && Pinned(b, us, king, dirs[i], sq)
        && SlidingChecks(t, b, us, king, dirs, ci).pins[sq] == t.lines(king, Pinner(b, us, king, dirs[i], sq))
    ensures !PinnedIn(b, us, king, dirs, sq) ==> SlidingChecks(t, b, us, king, dirs, ci).pins[sq] == ci.pins[sq]
    decreases |dirs|
  {
    if dirs != [] {
      var next := SlidingChecksAndPins(t, b, us, king, dirs[0], ci);
      var r := SlidingChecks(t, b, us, king, dirs, ci);
      assert r == SlidingChecks(t, b, us, king, dirs[1..], next);
      SlidingChecksPins(t, b, us, king, dirs[1..], next, sq);
      SlidingChecksStep(b, us, king, dirs);
      if PinnedIn(b, us, king, dirs[1..], sq) {
        var j :| 0 <= j < |dirs[1..]| && Pinned(b, us, king, dirs[1..][j], sq)
          && r.pins[sq] == t.lines(king, Pinner(b, us, king, dirs[1..][j], sq));
        assert dirs[1..][j] == dirs[j + 1];
      } else if Pinned(b, us, king, dirs[0], sq) {
        assert r.pins[sq] == t.lines(king, Pinner(b, us, king, dirs[0], sq));
      }
    }
  }

  lemma SlidingChecksStep(b: Board, us: Side, king: Square, dirs: seq<Dir>)
    requires b.Valid() && |dirs| > 0
    ensures forall sq: Square :: CheckerIn(b, us, king, dirs, sq) <==>
      Checker(b, us, king, dirs[0], sq) || CheckerIn(b, us, king, dirs[1..], sq)
    ensures forall sq: Square :: PinnedIn(b, us, king, dirs, sq) <==>
      Pinned(b, us, king, dirs[0], sq) || PinnedIn(b, us, king, dirs[1..], sq)
  {
    forall sq: Square
      ensures CheckerIn(b, us, king, dirs, sq) ==> Checker(b, us, king, dirs[0], sq) || CheckerIn(b, us, king, dirs[1..], sq)
      ensures PinnedIn(b, us, king, dirs, sq) ==> Pinned(b, us, king, dirs[0], sq) || PinnedIn(b, us, king, dirs[1..], sq)
    {
      if CheckerIn(b, us, king, dirs, sq) {
        var i :| 0 <= i < |dirs| && Checker(b, us, king, dirs[i], sq);
        if i > 0 {
          assert dirs[1..][i - 1] == dirs[i];
        }
      }
      if PinnedIn(b, us, king, dirs, sq) {
        var i :| 0 <= i < |dirs| && Pinned(b, us, king, dirs[i], sq);
        if i > 0 {
          assert dirs[1..][i - 1] == dirs[i];
        }
      }
    }
    forall sq: Square
      ensures CheckerIn(b, us, king, dirs[1..], sq) ==> CheckerIn(b, us, king, dirs, sq)
      ensures PinnedIn(b, us, king, dirs[1..], sq) ==> PinnedIn(b, us, king, dirs, sq)
    {
      if CheckerIn(b, us, king, dirs[1..], sq) {
        var i :| 0 <= i < |dirs| - 1 && Checker(b, us, king, dirs[1..][i], sq);
        assert Checker(b, us, king, dirs[i + 1], sq);
      }
      if PinnedIn(b, us, king, dirs[1..], sq) {
        var i :| 0 <= i < |dirs| - 1 && Pinned(b, us, king, dirs[1..][i], sq);
        assert Pinned(b, us, king, dirs[i + 1], sq);
      }
    }
  }

  // ---------------------------------------------------------------------------
  // Checks from the pieces that do not slide.

  /** The enemy pawns, knights and king attacking the king square. */
  function NonSliderCheckers(t: Tables, b: Board, us: Side, king: Square): (r: set<Square>)
    requires b.Valid()
    ensures r <= Pieces(b, Other(us), PAWN) + Pieces(b, Other(us), KNIGHT) + Pieces(b, Other(us), KING)
  {
    var them := Other(us);
    var pawns := Pieces(b, them, PAWN);
    var knights := Pieces(b, them, KNIGHT);
    var kings := Pieces(b, them, KING);
    MeetsWithin(t.pawnAttacks(them, king), KnightAttacks(king), KingAttacks(king), pawns, knights, kings);
    (t.pawnAttacks(them, king) * pawns) + (KnightAttacks(king) * knights) + (KingAttacks(king) * kings)
  }

  /** Set algebra, stated over plain sets so that the attack maps are not
      unfolded: a union of intersections lies within the union of the
      intersected sets. */
  lemma MeetsWithin(a: set<Square>, b: set<Square>, c: set<Square>, p: set<Square>, n: set<Square>, k: set<Square>)
    ensures (a * p) + (b * n) + (c * k) <= p + n + k
  {
  }

  /** Set algebra: three subsets of a set have their union inside it. */
  lemma UnionWithin(p: set<Square>, n: set<Square>, k: set<Square>, all: set<Square>)
    requires p <= all && n <= all && k <= all
    ensures p + n + k <= all
  {
  }

  lemma PiecesAreColored(b: Board, c: Side, k: PieceKind)
    requires b.Valid()
    ensures Pieces(b, c, k) <= ColorSquares(b, c)
  {
  }

  /** Set algebra: reordering the terms of a union. */
  lemma UnionReorder(a: set<Square>, b: set<Square>, c: set<Square>, h: set<Square>)
    ensures a + b + c + h == (c + a + b) + h
  {
  }

  // ---------------------------------------------------------------------------
  // The enemy's attack mask.

  /** `occupied ^= mask`: the symmetric difference of two bitboards. */
  function Toggle(a: set<Square>, m: set<Square>): set<Square>
  {
    (a - m) + (m - a)
  }

  /** Toggling the same mask twice restores the occupancy, and toggling
      squares that are occupied removes them. */
  lemma ToggleTwice(a: set<Square>, m: set<Square>)
    ensures Toggle(Toggle(a, m), m) == a
    ensures m <= a ==> Toggle(a, m) == a - m
  {
  }

  /** The attacks of a piece of the given kind standing on from. Sliders stop
      at the first occupied square of each ray. */
  function PieceReach(occ: set<Square>, from: Square, kind: int): set<Square>
  {
    if kind == BISHOP then BishopReach(occ, from)
    else if kind == ROOK then RookReach(occ, from)
    else if kind == QUEEN then BishopReach(occ, from) + RookReach(occ, from)
    else if kind == KNIGHT then KnightAttacks(from)
    else if kind == KING then KingAttacks(from)
    else {}
  }

  /** compute_attack_mask<C, PAWN>: the enemy pawns shifted one step
      diagonally towards our side (south for White, north for Black). */
  function PawnAttackMask(b: Board, us: Side): set<Square>
    requires b.Valid()
  {
    var pawns := Pieces(b, Other(us), PAWN);
    if us == WHITE then StepImage(pawns, SW) + StepImage(pawns, SE)
    else StepImage(pawns, NE) + StepImage(pawns, NW)
  }

  /** A square is in the pawn part of the mask exactly when an enemy pawn
      stands on a neighbouring file one rank further from our side: where an
      enemy pawn captures. */
  lemma PawnAttackMaskIsPawnReach(b: Board, us: Side, u: Square)
    requires b.Valid()
    ensures u in PawnAttackMask(b, us) <==>
              exists p :: p in Pieces(b, Other(us), PAWN)
                          && GetRank(p) == GetRank(u) + (if us == WHITE then 1 else -1)
                          && (GetFile(p) == GetFile(u) + 1 || GetFile(p) == GetFile(u) - 1)
  {
    if us == WHITE {
      DiagonalPairReach(Pieces(b, Other(us), PAWN), SW, SE, u);
    } else {
      DiagonalPairReach(Pieces(b, Other(us), PAWN), NW, NE, u);
    }
  }

  /** The squares two diagonal steps of the same rank change reach from s. */
  lemma DiagonalPairReach(s: set<Square>, d1: Dir, d2: Dir, u: Square)
    requires d1.DRank() == d2.DRank() && d1.DFile() == -1 && d2.DFile() == 1
    ensures u in StepImage(s, d1) + StepImage(s, d2) <==>
              exists p :: p in s && GetRank(p) == GetRank(u) - d1.DRank()
                          && (GetFile(p) == GetFile(u) + 1 || GetFile(p) == GetFile(u) - 1)
  {
    InStepImage(s, d1, u);
    InStepImage(s, d2, u);
  }

  /** The occupancy the piece masks are computed over: our king removed, so
      that a slider's attack passes through the king's square. */
  function XRayOccupancy(b: Board, us: Side): (occ: set<Square>)
    requires b.Valid()
    ensures occ == Occupied(b) - Pieces(b, us, KING)
  {
    ToggleTwice(Occupied(b), Pieces(b, us, KING));
    Toggle(Occupied(b), Pieces(b, us, KING))
  }

  /** compute_attack_mask<C, P> for a non-pawn kind: the union of the attacks
      of every enemy piece of that kind over the x-ray occupancy. */
  function PieceAttackMask(b: Board, us: Side, kind: PieceKind): set<Square>
    requires b.Valid()
  {
    var occ := XRayOccupancy(b, us);
    set from, sq | from in Pieces(b, Other(us), kind) && sq in PieceReach(occ, from, kind) :: sq
  }

  /** checkInfo.unsafe: every square an enemy piece attacks. */
  function AttackMask(b: Board, us: Side): set<Square>
    requires b.Valid()
  {
    PawnAttackMask(b, us) + PieceAttackMask(b, us, BISHOP) + PieceAttackMask(b, us, KNIGHT)
    + PieceAttackMask(b, us, ROOK) + PieceAttackMask(b, us, QUEEN) + PieceAttackMask(b, us, KING)
  }

  /** The enemy sliders that move along direction d. */
  function SlidersAlong(b: Board, c: Side, d: Dir): set<Square>
    requires b.Valid()
  {
    if d.IsOrthogonal() then Pieces(b, c, ROOK) + Pieces(b, c, QUEEN)
    else Pieces(b, c, BISHOP) + Pieces(b, c, QUEEN)
  }

  lemma SlidersAlongAreRelevant(b: Board, c: Side, d: Dir, sq: Square)
    requires b.Valid()
    ensures sq in SlidersAlong(b, c, d) <==> sq in ColorSquares(b, c) && Relevant(d, PieceAt(b, sq))
  {
  }

  /** A slider's attack along d lies inside its reach whenever it moves
      along d. */
  lemma SliderRayInReach(occ: set<Square>, from: Square, d: Dir, kind: int)
    requires Relevant(d, kind)
    ensures RayUntil(occ, from, d) <= PieceReach(occ, from, kind)
  {
  }

  /** The x-ray rule: when a slider checks the king along a ray, the square
      behind the king on that ray is unsafe, so the king cannot step back
      along the line of the check. */
  lemma CheckLineIsUnsafe(b: Board, us: Side, king: Square, d: Dir, c: Square, u: Square)
    requires b.Valid() && b.cells[king] == Occupant(us, KING)
    requires Checker(b, us, king, d, c)
    requires Step(king, d.Opposite()) == Some(u)
    ensures u in AttackMask(b, us)
  {
    var occ := Occupied(b);
    var less := XRayOccupancy(b, us);
    var kind := PieceAt(b, c);
    BlockerSurvivesRemoval(occ, less, king, d, c);
    BlockerSeesOrigin(less, king, d, c);
    RayUntilExtends(less, c, d.Opposite(), king, u);
    assert Relevant(d.Opposite(), kind);
    SliderRayInReach(less, c, d.Opposite(), kind);
    assert c in Pieces(b, Other(us), kind);
    assert u in PieceAttackMask(b, us, kind);
  }

  // ---------------------------------------------------------------------------
  // compute_check_info and in_check

  /** The boards compute_check_info and in_check are defined on: a side to
      move whose king is on the board. */
  predicate HasKingToMove(b: Board)
  {
    b.Valid() && 0 <= b.toMove < 2 && KingSquare(b, b.toMove) != NO_SQUARE
  }

  /** The pieces giving check: the enemy sliders first on a ray from the
      king, then the enemy pawns, knights and king attacking it. All of them
      are enemy pieces. */
  function Checkers(t: Tables, b: Board, us: Side, king: Square): (r: set<Square>)
    requires b.Valid()
    ensures forall sq: Square :: sq in r <==>
      CheckerIn(b, us, king, DIRECTIONS, sq) || sq in NonSliderCheckers(t, b, us, king)
    ensures r <= ColorSquares(b, Other(us))
  {
    var r := SlidingChecks(t, b, us, king, DIRECTIONS, FreshInfo()).checkers + NonSliderCheckers(t, b, us, king);
    forall sq | sq in r
      ensures sq in ColorSquares(b, Other(us))
    {
      if CheckerIn(b, us, king, DIRECTIONS, sq) {
        var i :| 0 <= i < |DIRECTIONS| && Checker(b, us, king, DIRECTIONS[i], sq);
      } else {
        PiecesAreColored(b, Other(us), PAWN);
        PiecesAreColored(b, Other(us), KNIGHT);
        PiecesAreColored(b, Other(us), KING);
        UnionWithin(Pieces(b, Other(us), PAWN), Pieces(b, Other(us), KNIGHT), Pieces(b, Other(us), KING), ColorSquares(b, Other(us)));
      }
    }
    r
  }

  /** must_cover: in single check, the line from the king to a sliding
      checker, or the checker alone; otherwise every square. */
  function MustCover(t: Tables, b: Board, king: Square, checkers: set<Square>): (r: set<Square>)
    requires b.Valid()
    ensures |checkers| != 1 ==> forall sq: Square :: sq in r
    ensures forall c: Square :: checkers == {c} ==>
      r == (if IsSlider(PieceAt(b, c)) then t.lines(king, c) else {c})
  {
    if |checkers| == 1 then
      var c := Lowest(checkers);
      SizeOneIsSingleton(checkers, c);
      if IsSlider(PieceAt(b, c)) then t.lines(king, c) else checkers
    else AllSquares()
  }

  /** compute_check_info: the sliding checks and pins along the eight
      directions, then the non-sliding checkers, then the attack mask, then
      the squares to cover. */
  function ComputeCheckInfo(t: Tables, b: Board): (r: CheckInfo)
    requires HasKingToMove(b)
    ensures |r.pins| == 64
    ensures r.checkers == Checkers(t, b, b.toMove, KingSquare(b, b.toMove))
    ensures r.unsafe == AttackMask(b, b.toMove)
    ensures r.mustCover == MustCover(t, b, KingSquare(b, b.toMove), r.checkers)
  {
    var us: Side := b.toMove;
    var king: Square := KingSquare(b, us);
    var s := SlidingChecks(t, b, us, king, DIRECTIONS, FreshInfo());
    var checkers := Checkers(t, b, us, king);
    s.(checkers := checkers, unsafe := AttackMask(b, us), mustCover := MustCover(t, b, king, checkers))
  }

  /** The pinned pieces are exactly our pieces pinned along some direction,
      each holding the line to its pinner; no other square has a pin line. */
  lemma CheckInfoPins(t: Tables, b: Board, sq: Square)
    requires HasKingToMove(b)
    ensures sq in ComputeCheckInfo(t, b).pinned <==> PinnedIn(b, b.toMove, KingSquare(b, b.toMove), DIRECTIONS, sq)
    ensures sq in ComputeCheckInfo(t, b).pinned ==> sq in ColorSquares(b, b.toMove)
    ensures sq in ComputeCheckInfo(t, b).pinned ==>
      exists i :: 0 <= i < |DIRECTIONS| && Pinned(b, b.toMove, KingSquare(b, b.toMove), DIRECTIONS[i], sq)
        && ComputeCheckInfo(t, b).pins[sq] == t.lines(KingSquare(b, b.toMove), Pinner(b, b.toMove, KingSquare(b, b.toMove), DIRECTIONS[i], sq))
    ensures sq !in ComputeCheckInfo(t, b).pinned ==> ComputeCheckInfo(t, b).pins[sq] == {}
  {
    var king: Square := KingSquare(b, b.toMove);
    SlidingChecksPins(t, b, b.toMove, king, DIRECTIONS, FreshInfo(), sq);
  }

  /** Board::in_check: the knight, king and pawn attack maps of the king
      square, and the rook and bishop attacks from it over the occupancy,
      meet an enemy piece that attacks that way. */
  predicate InCheck(t: Tables, b: Board)
    requires HasKingToMove(b)
  {
    var king: Square := KingSquare(b, b.toMove);
    var them := Other(b.toMove);
    var occ := Occupied(b);
    (KnightAttacks(king) * Pieces(b, them, KNIGHT))
    + (KingAttacks(king) * Pieces(b, them, KING))
    + (t.pawnAttacks(them, king) * Pieces(b, them, PAWN))
    + SlidingHits(b, them, king)
    != {}
  }

  /** The enemy rooks, bishops and queens the slider attacks from the king
      square reach. */
  function SlidingHits(b: Board, them: Side, king: Square): set<Square>
    requires b.Valid()
  {
    (RookReach(Occupied(b), king) * (Pieces(b, them, ROOK) + Pieces(b, them, QUEEN)))
    + (BishopReach(Occupied(b), king) * (Pieces(b, them, BISHOP) + Pieces(b, them, QUEEN)))
  }

  /** A slider checks along d exactly when the king's ray in direction d
      reaches it and it is an enemy slider moving along d. */
  lemma CheckerIsReached(b: Board, us: Side, king: Square, d: Dir, sq: Square)
    requires b.Valid()
    ensures Checker(b, us, king, d, sq) <==>
      sq in RayUntil(Occupied(b), king, d) && sq in SlidersAlong(b, Other(us), d)
  {
    ReachMeetsBlocker(Occupied(b), king, d, sq);
    SlidersAlongAreRelevant(b, Other(us), d, sq);
  }

  /** Where a direction stands in DIRECTIONS. */
  function DirectionIndex(d: Dir): (i: int)
    ensures 0 <= i < |DIRECTIONS| && DIRECTIONS[i] == d
  {
    match d
    case N => 0
    case S => 1
    case E => 2
    case W => 3
    case NE => 4
    case NW => 5
    case SE => 6
    case SW => 7
  }

  /** The rook reach is the union of the orthogonal rays, the bishop reach
      that of the diagonal ones. */
  lemma RayInReach(occ: set<Square>, sq: Square, d: Dir)
    ensures d.IsOrthogonal() ==> RayUntil(occ, sq, d) <= RookReach(occ, sq)
    ensures !d.IsOrthogonal() ==> RayUntil(occ, sq, d) <= BishopReach(occ, sq)
  {
  }

  /** A slider hit from the king square is a checker along some direction. */
  lemma HitIsChecker(b: Board, us: Side, king: Square, sq: Square)
    requires b.Valid() && sq in SlidingHits(b, Other(us), king)
    ensures CheckerIn(b, us, king, DIRECTIONS, sq)
  {
    var occ := Occupied(b);
    var d: Dir;
    if sq in RookReach(occ, king) && sq in SlidersAlong(b, Other(us), N) {
      d := if sq in RayUntil(occ, king, N) then N
        else if sq in RayUntil(occ, king, S) then S
        else if sq in RayUntil(occ, king, E) then E
        else W;
    } else {
      d := if sq in RayUntil(occ, king, NE) then NE
        else if sq in RayUntil(occ, king, NW) then NW
        else if sq in RayUntil(occ, king, SE) then SE
        else SW;
    }
    CheckerIsReached(b, us, king, d, sq);
    var i := DirectionIndex(d);
  }

  /** A checker along some direction is a slider hit from the king square. */
  lemma CheckerIsHit(b: Board, us: Side, king: Square, sq: Square)
    requires b.Valid() && CheckerIn(b, us, king, DIRECTIONS, sq)
    ensures sq in SlidingHits(b, Other(us), king)
  {
    var i :| 0 <= i < |DIRECTIONS| && Checker(b, us, king, DIRECTIONS[i], sq);
    var d := DIRECTIONS[i];
    CheckerIsReached(b, us, king, d, sq);
    RayInReach(Occupied(b), king, d);
  }

  /** The checkers are the slider hits from the king square together with
      the non-sliding checkers. */
  lemma CheckersAreHits(t: Tables, b: Board, us: Side, king: Square)
    requires b.Valid()
    ensures Checkers(t, b, us, king) == NonSliderCheckers(t, b, us, king) + SlidingHits(b, Other(us), king)
  {
    var hits := SlidingHits(b, Other(us), king);
    var nonSliding := NonSliderCheckers(t, b, us, king);
    var checkers := Checkers(t, b, us, king);
    forall sq: Square
      ensures sq in checkers <==> sq in nonSliding + hits
    {
      if CheckerIn(b, us, king, DIRECTIONS, sq) {
        CheckerIsHit(b, us, king, sq);
      }
      if sq in hits {
        HitIsChecker(b, us, king, sq);
      }
    }
    SameMembers(checkers, nonSliding + hits);
  }

  /** Set algebra: sets with the same members are equal. */
  lemma SameMembers(a: set<Square>, b: set<Square>)
    requires forall sq: Square :: sq in a <==> sq in b
    ensures a == b
  {
  }

  /** in_check agrees with compute_check_info: the side to move is in check
      exactly when the computed checkers are not empty. */
  lemma InCheckIffCheckers(t: Tables, b: Board)
    requires HasKingToMove(b)
    ensures InCheck(t, b) <==> ComputeCheckInfo(t, b).checkers != {}
  {
    var us: Side := b.toMove;
    var them := Other(us);
    var king: Square := KingSquare(b, us);
    CheckersAreHits(t, b, us, king);
    UnionReorder(KnightAttacks(king) * Pieces(b, them, KNIGHT), KingAttacks(king) * Pieces(b, them, KING),
      t.pawnAttacks(them, king) * Pieces(b, them, PAWN), SlidingHits(b, them, king));
  }
}

=== FILE: evaluate.dfy ===
/** evaluate: material balance from the side to move's point of view. */
module Evaluation {
  import opened Types
  import opened Boards

  /** The summed PIECE_VALUE of colour c's pieces of kind k and above, up to
      and without the king: popcount(pieces[c][kind]) * PIECE_VALUE[kind]. */
  function MaterialFrom(value: int -> int, b: Board, c: Side, k: nat): int
    requires b.Valid()
    decreases KING - k
  {
    if k >= KING then 0 else |Pieces(b, c, k)| * value(k) + MaterialFrom(value, b, c, k + 1)
  }

  /** evaluate: white minus black material when White is to move, black minus
      white otherwise (also when no side is to move). PIECE_VALUE is a
      parameter; the king's entry is never read. */
  function Evaluate(value: int -> int, b: Board): (s: int)
    requires b.Valid()
  {
    var material := MaterialFrom(value, b, WHITE, PAWN) - MaterialFrom(value, b, BLACK, PAWN);
    if b.toMove == WHITE then material else -material
  }

  // ---------------------------------------------------------------------------
  // The reference: a sum over the squares.

  /** What one square adds to White's balance: a non-king piece's value, with
      the sign of its colour. */
  function Weight(value: int -> int, cell: Cell): int
  {
    match cell
    case Empty => 0
    case Occupant(c, k) => if k == KING then 0 else if c == WHITE then value(k) else -value(k)
  }

  /** The weights of the first n cells, summed. */
  function SumUpTo(value: int -> int, cells: seq<Cell>, n: nat): int
    requires n <= |cells|
  {
    if n == 0 then 0 else SumUpTo(value, cells, n - 1) + Weight(value, cells[n - 1])
  }

  /** How often x occurs among the first n cells. */
  function CountUpTo(cells: seq<Cell>, x: Cell, n: nat): (r: nat)
    requires n <= |cells|
  {
    if n == 0 then 0 else CountUpTo(cells, x, n - 1) + (if cells[n - 1] == x then 1 else 0)
  }

  /** The material of colour c counted on the first n cells, kinds k .. QUEEN. */
  function CountedFrom(value: int -> int, cells: seq<Cell>, c: Side, n: nat, k: nat): int
    requires n <= |cells|
    decreases KING - k
  {
    if k >= KING then 0
    else CountUpTo(cells, Occupant(c, k), n) * value(k) + CountedFrom(value, cells, c, n, k + 1)
  }

  /** What one cell adds to colour c's material over kinds k .. QUEEN. */
  function Contribution(value: int -> int, cell: Cell, c: Side, k: nat): int
  {
    if cell.Occupant? && cell.color == c && k <= cell.kind < KING then value(cell.kind) else 0
  }

  lemma {:induction false} CountedStep(value: int -> int, cells: seq<Cell>, c: Side, n: nat, k: nat)
    requires 0 < n <= |cells|
    ensures CountedFrom(value, cells, c, n, k)
            == CountedFrom(value, cells, c, n - 1, k) + Contribution(value, cells[n - 1], c, k)
    decreases KING - k
  {
    if k < KING {
      CountedStep(value, cells, c, n, k + 1);
      var x := Occupant(c, k);
      var before := CountUpTo(cells, x, n - 1);
      if cells[n - 1] == x {
        assert CountUpTo(cells, x, n) == before + 1;
        assert (before + 1) * value(k) == before * value(k) + value(k);
        assert Contribution(value, cells[n - 1], c, k) == value(k) + Contribution(value, cells[n - 1], c, k + 1);
      } else {
        assert CountUpTo(cells, x, n) == before;
        assert Contribution(value, cells[n - 1], c, k) == Contribution(value, cells[n - 1], c, k + 1);
      }
    }
  }

  /** The square sum is White's counted material minus Black's. */
  lemma {:induction false} SumIsBalance(value: int -> int, cells: seq<Cell>, n: nat)
    requires n <= |cells|
    ensures SumUpTo(value, cells, n)
            == CountedFrom(value, cells, WHITE, n, PAWN) - CountedFrom(value, cells, BLACK, n, PAWN)
  {
    if n > 0 {
      SumIsBalance(value, cells, n - 1);
      CountedStep(value, cells, WHITE, n, PAWN);
      CountedStep(value, cells, BLACK, n, PAWN);
    }
  }

  /** The squares among the first n that hold x. */
  function HoldersUpTo(cells: seq<Cell>, x: Cell, n: nat): set<int>
    requires n <= |cells|
  {
    set i | 0 <= i < n && cells[i] == x
  }

  lemma {:induction false} HoldersCount(cells: seq<Cell>, x: Cell, n: nat)
    requires n <= |cells|
    ensures |HoldersUpTo(cells, x, n)| == CountUpTo(cells, x, n)
  {
    if n > 0 {
      HoldersCount(cells, x, n - 1);
      var before := HoldersUpTo(cells, x, n - 1);
      if cells[n - 1] == x {
        assert HoldersUpTo(cells, x, n) == before + {n - 1};
        assert n - 1 !in before;
      } else {
        assert HoldersUpTo(cells, x, n) == before;
      }
    }
  }

  /** popcount of a piece bitboard is the number of cells holding that piece. */
  lemma PopcountIsCount(b: Board, c: Side, k: PieceKind)
    requires b.Valid()
    ensures |Pieces(b, c, k)| == CountUpTo(b.cells, Occupant(c, k), 64)
  {
    assert Pieces(b, c, k) == HoldersUpTo(b.cells, Occupant(c, k), 64);
    HoldersCount(b.cells, Occupant(c, k), 64);
  }

  lemma {:induction false} MaterialIsCounted(value: int -> int, b: Board, c: Side, k: nat)
    requires b.Valid()
    ensures MaterialFrom(value, b, c, k) == CountedFrom(value, b.cells, c, 64, k)
    decreases KING - k
  {
    if k < KING {
      PopcountIsCount(b, c, k);
      MaterialIsCounted(value, b, c, k + 1);
    }
  }

  /** evaluate is the signed sum of the piece values standing on the squares,
      kings counting nothing, seen from the side to move. */
  lemma EvaluateIsSquareSum(value: int -> int, b: Board)
    requires b.Valid()
    ensures Evaluate(value, b) == (if b.toMove == WHITE then 1 else -1) * SumUpTo(value, b.cells, 64)
  {
    MaterialIsCounted(value, b, WHITE, PAWN);
    MaterialIsCounted(value, b, BLACK, PAWN);
    SumIsBalance(value, b.cells, 64);
  }

  // ---------------------------------------------------------------------------
  // What follows from that.

  /** Handing the move to the other side, and nothing else, negates the
      score. */
  lemma FlipSideNegates(value: int -> int, b: Board)
    requires b.Valid() && (b.toMove == WHITE || b.toMove == BLACK)
    ensures Evaluate(value, b.(toMove := 1 - b.toMove)) == -Evaluate(value, b)
  {
    EvaluateIsSquareSum(value, b);
    EvaluateIsSquareSum(value, b.(toMove := 1 - b.toMove));
  }

  lemma {:induction false} KingsWeighNothing(value: int -> int, cells: seq<Cell>, n: nat)
    requires n <= |cells|
    requires forall i :: 0 <= i < n ==> cells[i].Empty? || cells[i].kind == KING
    ensures SumUpTo(value, cells, n) == 0
  {
    if n > 0 {
      KingsWeighNothing(value, cells, n - 1);
    }
  }

  /** A board with nothing but kings scores 0, whatever PIECE_VALUE holds. */
  lemma KingsOnlyScoreZero(value: int -> int, b: Board)
    requires b.Valid()
    requires forall sq :: 0 <= sq < 64 ==> b.cells[sq].Empty? || b.cells[sq].kind == KING
    ensures Evaluate(value, b) == 0
  {
    EvaluateIsSquareSum(value, b);
    KingsWeighNothing(value, b.cells, 64);
  }

  lemma {:induction false} CountIsMultiplicity(cells: seq<Cell>, x: Cell, n: nat)
    requires n <= |cells|
    ensures CountUpTo(cells, x, n) == multiset(cells[..n])[x]
  {
    if n > 0 {
      CountIsMultiplicity(cells, x, n - 1);
      assert cells[..n] == cells[..n - 1] + [cells[n - 1]];
    }
  }

  lemma {:induction false} SameCountsSameMaterial(value: int -> int, b: Board, b': Board, c: Side, k: nat)
    requires b.Valid() && b'.Valid() && multiset(b.cells) == multiset(b'.cells)
    ensures MaterialFrom(value, b, c, k) == MaterialFrom(value, b', c, k)
    decreases KING - k
  {
    if k < KING {
      PopcountIsCount(b, c, k);
      PopcountIsCount(b', c, k);
      CountIsMultiplicity(b.cells, Occupant(c, k), 64);
      CountIsMultiplicity(b'.cells, Occupant(c, k), 64);
      assert b.cells[..64] == b.cells && b'.cells[..64] == b'.cells;
      SameCountsSameMaterial(value, b, b', c, k + 1);
    }
  }

  /** The score depends on how many pieces of each kind each side has, not on
      where they stand: rearranging the cells leaves it unchanged. */
  lemma EvaluateIgnoresSquares(value: int -> int, b: Board, b': Board)
    requires b.Valid() && b'.Valid() && b.toMove == b'.toMove
    requires multiset(b.cells) == multiset(b'.cells)
    ensures Evaluate(value, b) == Evaluate(value, b')
  {
    SameCountsSameMaterial(value, b, b', WHITE, PAWN);
    SameCountsSameMaterial(value, b, b', BLACK, PAWN);
  }
}

=== FILE: fen.dfy ===
/** load_from_fen: the board a FEN string describes. */
module Fen {
  import opened Types
  import opened Outcomes
  import opened Numbers
  import opened Boards
  import Squares

  // ---------------------------------------------------------------------------
  // Splitting the string on single spaces (getline with ' '), dropping the
  // empty items that runs of spaces produce.

  /** A non-empty item without a space. */
  predicate IsWord(w: string)
  {
    |w| > 0 && forall i :: 0 <= i < |w| ==> w[i] != ' '
  }

  /** The length of the item at the front of s: the characters before the
      first space. */
  function ItemLength(s: string): (n: nat)
    ensures n <= |s|
    ensures forall i :: 0 <= i < n ==> s[i] != ' '
    ensures n < |s| ==> s[n] == ' '
  {
    if s == [] || s[0] == ' ' then 0 else 1 + ItemLength(s[1..])
  }

  /** The non-empty space-separated items of s, in order. */
  function Words(s: string): (ws: seq<string>)
    ensures forall k :: 0 <= k < |ws| ==> IsWord(ws[k])
    decreases |s|
  {
    if s == [] then []
    else
      var n := ItemLength(s);
      if n == 0 then Words(s[1..]) else [s[..n]] + Words(s[n..])
  }

  /** The items joined with single spaces. */
  function Join(ws: seq<string>): string
  {
    if ws == [] then "" else if |ws| == 1 then ws[0] else ws[0] + " " + Join(ws[1..])
  }

  lemma ItemLengthOfWord(w: string, rest: string)
    requires IsWord(w)
    requires rest == [] || rest[0] == ' '
    ensures ItemLength(w + rest) == |w| && (w + rest)[..|w|] == w && (w + rest)[|w|..] == rest
    decreases |w|
  {
    if |w| > 1 {
      assert (w + rest)[1..] == w[1..] + rest;
      ItemLengthOfWord(w[1..], rest);
    } else {
      assert (w + rest)[1..] == rest;
    }
  }

  /** Splitting undoes joining for any list of words. */
  lemma {:induction false} WordsOfJoin(ws: seq<string>)
    requires forall k :: 0 <= k < |ws| ==> IsWord(ws[k])
    ensures Words(Join(ws)) == ws
    decreases |ws|
  {
    if |ws| == 1 {
      ItemLengthOfWord(ws[0], []);
      assert ws[0] + [] == ws[0];
    } else if |ws| > 1 {
      var rest := " " + Join(ws[1..]);
      assert Join(ws) == ws[0] + rest;
      ItemLengthOfWord(ws[0], rest);
      assert rest[1..] == Join(ws[1..]);
      WordsOfJoin(ws[1..]);
      assert Words(Join(ws)) == [ws[0]] + Words(rest);
    }
  }

  /** Spaces in front of the first field change nothing. */
  lemma WordsSkipLeadingSpace(s: string)
    ensures Words(" " + s) == Words(s)
  {
    assert (" " + s)[1..] == s;
  }

  // ---------------------------------------------------------------------------
  // The six fields and their defaults.

  datatype Fields = Fields(position: string, toMove: string, castling: string,
                           enPassant: string, halfmoves: string, fullmoves: string)

  /** The fields of a split FEN; a missing trailing field takes its default
      ("w", "-", "-", "0", "1"). parts[0] is read unchecked, so there must be
      at least one item. */
  function FieldsOf(parts: seq<string>): (f: Fields)
    requires |parts| > 0
    ensures f.position == parts[0]
  {
    Fields(parts[0],
           if |parts| > 1 then parts[1] else "w",
           if |parts| > 2 then parts[2] else "-",
           if |parts| > 3 then parts[3] else "-",
           if |parts| > 4 then parts[4] else "0",
           if |parts| > 5 then parts[5] else "1")
  }

  /** A FEN holding only a placement reads as White to move, no castling
      rights, no en-passant target, halfmove clock 0 and move number 1; a
      full six-field FEN reads its own fields. */
  lemma FieldDefaults(position: string, rest: seq<string>)
    requires IsWord(position)
    requires forall k :: 0 <= k < |rest| ==> IsWord(rest[k])
    ensures FieldsOf(Words(position)) == Fields(position, "w", "-", "-", "0", "1")
    ensures |rest| == 5 ==>
              FieldsOf(Words(Join([position] + rest))) ==
              Fields(position, rest[0], rest[1], rest[2], rest[3], rest[4])
  {
    WordsOfJoin([position]);
    assert Join([position]) == position;
    var all := [position] + rest;
    assert forall k :: 0 <= k < |all| ==> IsWord(all[k]);
    WordsOfJoin(all);
  }

  // ---------------------------------------------------------------------------
  // The piece letters.

  function ToUpper(c: char): char
  {
    if 'a' <= c <= 'z' then (c as int - 32) as char else c
  }

  predicate IsUpper(c: char)
  {
    'A' <= c <= 'Z'
  }

  /** The piece a FEN letter denotes: the kind from the upper-case letter, the
      colour white for an upper-case letter and black otherwise. */
  function PieceOf(c: char): (r: Option<Cell>)
    ensures r.Some? ==> r.value.Occupant?
  {
    var u := ToUpper(c);
    var color: Side := if IsUpper(c) then WHITE else BLACK;
    if u == 'P' then Some(Occupant(color, PAWN))
    else if u == 'B' then Some(Occupant(color, BISHOP))
    else if u == 'N' then Some(Occupant(color, KNIGHT))
    else if u == 'R' then Some(Occupant(color, ROOK))
    else if u == 'Q' then Some(Occupant(color, QUEEN))
    else if u == 'K' then Some(Occupant(color, KING))
    else None
  }

  /** The FEN letter of a piece. */
  function Letter(color: Side, kind: PieceKind): char
  {
    var u := ["P", "N", "B", "R", "Q", "K"][kind][0];
    if color == WHITE then u else (u as int + 32) as char
  }

  /** Exactly the twelve piece letters denote pieces, one letter per piece. */
  lemma LettersArePieces(c: char, color: Side, kind: PieceKind)
    ensures PieceOf(Letter(color, kind)) == Some(Occupant(color, kind))
    ensures PieceOf(c) == Some(Occupant(color, kind)) ==> c == Letter(color, kind)
  {
  }

  // ---------------------------------------------------------------------------
  // The placement field.

  /** Where the next piece goes: a 0-based rank and file. */
  datatype Cursor = Cursor(rank: int, file: int)

  /** One character's effect on the cursor: '/' moves to file 0 of the rank
      below, a digit skips that many files and any other character takes one
      file. */
  function Advance(c: Cursor, ch: char): Cursor
  {
    if ch == '/' then Cursor(c.rank - 1, 0)
    else if IsDigit(ch) then Cursor(c.rank, c.file + DigitValue(ch))
    else Cursor(c.rank, c.file + 1)
  }

  /** The cursor before each character of s and after the last, from c. */
  function CursorsFrom(c: Cursor, s: string): (r: seq<Cursor>)
    ensures |r| == |s| + 1 && r[0] == c
    decreases |s|
  {
    if s == [] then [c] else [c] + CursorsFrom(Advance(c, s[0]), s[1..])
  }

  lemma {:induction false} CursorsFromStep(c: Cursor, s: string, k: int)
    requires 0 <= k < |s|
    ensures CursorsFrom(c, s)[k + 1] == Advance(CursorsFrom(c, s)[k], s[k])
    decreases |s|
  {
    if k > 0 {
      CursorsFromStep(Advance(c, s[0]), s[1..], k - 1);
    }
  }

  /** The cursor before each character of a placement field, which is read
      from rank 7, file 0. */
  function Cursors(p: string): (r: seq<Cursor>)
    ensures |r| == |p| + 1 && r[0] == Cursor(7, 0)
  {
    CursorsFrom(Cursor(7, 0), p)
  }

  /** Each character advances the cursor by its own effect. */
  lemma CursorsStep(p: string, k: int)
    requires 0 <= k < |p|
    ensures Cursors(p)[k + 1] == Advance(Cursors(p)[k], p[k])
  {
    CursorsFromStep(Cursor(7, 0), p, k);
  }

  /** The number of '/' in s. */
  function Slashes(s: string): nat
  {
    if s == [] then 0 else (if s[0] == '/' then 1 else 0) + Slashes(s[1..])
  }

  /** The files a rank's text spans: digits count their value, letters one. */
  function Width(s: string): int
  {
    if s == [] then 0 else (if IsDigit(s[0]) then DigitValue(s[0]) else 1) + Width(s[1..])
  }

  /** The text after the last '/' (all of s when it has none). */
  function LastRank(s: string): (r: string)
    ensures |r| <= |s| && r == s[|s| - |r|..]
    ensures forall i :: 0 <= i < |r| ==> r[i] != '/'
    ensures |r| < |s| ==> s[|s| - |r| - 1] == '/'
  {
    if s == [] || s[|s| - 1] == '/' then []
    else LastRank(s[..|s| - 1]) + [s[|s| - 1]]
  }

  lemma {:induction false} SlashesSnoc(s: string, c: char)
    ensures Slashes(s + [c]) == Slashes(s) + (if c == '/' then 1 else 0)
    decreases |s|
  {
    if s != [] {
      assert (s + [c])[1..] == s[1..] + [c];
      SlashesSnoc(s[1..], c);
    }
  }

  lemma {:induction false} WidthSnoc(s: string, c: char)
    ensures Width(s + [c]) == Width(s) + (if IsDigit(c) then DigitValue(c) else 1)
    decreases |s|
  {
    if s != [] {
      assert (s + [c])[1..] == s[1..] + [c];
      WidthSnoc(s[1..], c);
    } else {
      assert [c][1..] == [];
    }
  }

  /** The cursor counts ranks down from 7 by the slashes read, and files by
      the width of the current rank's text. */
  lemma {:induction false} CursorCounts(p: string, k: int)
    requires 0 <= k <= |p|
    ensures Cursors(p)[k] == Cursor(7 - Slashes(p[..k]), Width(LastRank(p[..k])))
    decreases k
  {
    if k > 0 {
      var q := p[..k - 1];
      var c := p[k - 1];
      assert p[..k] == q + [c];
      assert p[..k][..k - 1] == q;
      assert LastRank(p[..k]) == if c == '/' then [] else LastRank(q) + [c];
      CursorCounts(p, k - 1);
      CursorsStep(p, k - 1);
      SlashesSnoc(q, c);
      if c != '/' {
        WidthSnoc(LastRank(q), c);
      }
    }
  }

  /** The square the piece at index i of p is placed on: get_square of the
      cursor, as the uint8_t Square the engine stores. */
  function Target(p: string, i: int): int
    requires 0 <= i <= |p|
  {
    var c := Cursors(p)[i];
    Squares.GetSquare(c.rank, c.file)
  }

  /** Character i of p is acceptable: a '/', a digit, or a piece letter whose
      square is on the board and not taken by an earlier piece. Anything else
      makes the engine read an uninitialised piece, shift past 63 or stack two
      pieces on one square. */
  predicate CharOk(p: string, i: int)
    requires 0 <= i < |p|
  {
    p[i] == '/' || IsDigit(p[i])
    || (PieceOf(p[i]).Some? && Target(p, i) < 64
        && forall j :: 0 <= j < i && PieceOf(p[j]).Some? ==> Target(p, j) != Target(p, i))
  }

  predicate WellFormed(p: string)
  {
    forall i :: 0 <= i < |p| ==> CharOk(p, i)
  }

  /** The running material of one colour before each character of s and
      after the last, from m. */
  function TotalsFrom(h: Helpers, color: Side, m: int, s: string): (r: seq<int>)
    ensures |r| == |s| + 1 && r[0] == m
    decreases |s|
  {
    if s == [] then [m] else [m] + TotalsFrom(h, color, m + Worth(h, s[0], color), s[1..])
  }

  lemma {:induction false} TotalsStep(h: Helpers, color: Side, m: int, s: string, k: int)
    requires 0 <= k < |s|
    ensures TotalsFrom(h, color, m, s)[k + 1] == TotalsFrom(h, color, m, s)[k] + Worth(h, s[k], color)
    decreases |s|
  {
    if k > 0 {
      TotalsStep(h, color, m + Worth(h, s[0], color), s[1..], k - 1);
    }
  }

  /** The material a placement adds for one colour: PIECE_VALUE of each of
      its letters of that colour. */
  function MaterialOf(h: Helpers, p: string, color: Side): int
  {
    TotalsFrom(h, color, 0, p)[|p|]
  }

  /** PIECE_VALUE of the piece a letter denotes, if it has the given colour. */
  function Worth(h: Helpers, ch: char, color: Side): int
  {
    match PieceOf(ch)
    case Some(Occupant(c, k)) => if c == color then h.value(k) else 0
    case _ => 0
  }

  /** The first i characters of p are acceptable and have put exactly their
      pieces on their squares. */
  predicate Placed(p: string, i: int, cells: seq<Cell>)
  {
    |cells| == 64 && 0 <= i <= |p|
    && (forall k :: 0 <= k < i ==> CharOk(p, k))
    && (forall k :: 0 <= k < i && PieceOf(p[k]).Some? ==>
          0 <= Target(p, k) < 64 && cells[Target(p, k)] == PieceOf(p[k]).value)
    && (forall sq :: 0 <= sq < 64 && cells[sq] != Empty ==>
          exists k :: 0 <= k < i && PieceOf(p[k]).Some? && Target(p, k) == sq)
  }

  lemma PlacedStart(p: string, cells: seq<Cell>)
    requires cells == seq(64, _ => Empty)
    ensures Placed(p, 0, cells)
  {
  }

  lemma PlacedAll(h: Helpers, p: string, cells: seq<Cell>)
    requires Placed(p, |p|, cells)
    ensures WellFormed(p) && |cells| == 64
    ensures forall k :: 0 <= k < |p| && PieceOf(p[k]).Some? ==>
              0 <= Target(p, k) < 64 && cells[Target(p, k)] == PieceOf(p[k]).value
    ensures forall sq :: 0 <= sq < 64 && cells[sq] != Empty ==>
              exists k :: 0 <= k < |p| && PieceOf(p[k]).Some? && Target(p, k) == sq
  {
  }

  lemma PlaceMark(p: string, i: int, cells: seq<Cell>)
    requires Placed(p, i, cells) && i < |p| && (p[i] == '/' || IsDigit(p[i]))
    ensures Placed(p, i + 1, cells)
  {
    assert PieceOf(p[i]).None?;
    assert CharOk(p, i);
    forall sq | 0 <= sq < 64 && cells[sq] != Empty
      ensures exists k :: 0 <= k < i + 1 && PieceOf(p[k]).Some? && Target(p, k) == sq
    {
      var k :| 0 <= k < i && PieceOf(p[k]).Some? && Target(p, k) == sq;
    }
  }

  lemma PlacePiece(p: string, i: int, cells: seq<Cell>)
    requires Placed(p, i, cells) && i < |p| && PieceOf(p[i]).Some?
    requires 0 <= Target(p, i) < 64 && cells[Target(p, i)] == Empty
    ensures Placed(p, i + 1, cells[Target(p, i) := PieceOf(p[i]).value])
  {
    var t := Target(p, i);
    var cells' := cells[t := PieceOf(p[i]).value];
    forall j | 0 <= j < i && PieceOf(p[j]).Some?
      ensures Target(p, j) != t
    {
    }
    assert CharOk(p, i);
    forall sq | 0 <= sq < 64 && cells'[sq] != Empty
      ensures exists k :: 0 <= k < i + 1 && PieceOf(p[k]).Some? && Target(p, k) == sq
    {
      if sq == t {
        assert PieceOf(p[i]).Some? && Target(p, i) == sq;
      }
    }
  }

  lemma PlaceFails(p: string, i: int, cells: seq<Cell>)
    requires Placed(p, i, cells) && i < |p| && p[i] != '/' && !IsDigit(p[i])
    requires PieceOf(p[i]).None? || !(0 <= Target(p, i) < 64) || cells[Target(p, i)] != Empty
    ensures !WellFormed(p)
  {
    if PieceOf(p[i]).Some? && 0 <= Target(p, i) < 64 {
      var k :| 0 <= k < i && PieceOf(p[k]).Some? && Target(p, k) == Target(p, i);
    }
    assert !CharOk(p, i);
  }

  /** The pieces and material a placement field sets up. */
  datatype Setup = Setup(cells: seq<Cell>, material: seq<int>)

  /** Why a FEN cannot be loaded. */
  datatype FenError =
    | NoFields              // parts[0] of an empty vector
    | BadChar(at: nat)      // a character that is no piece letter: piece is never assigned
    | OffBoard(at: nat)     // get_square outside 0..63
    | SquareTaken(at: nat)  // a second piece on one square
    | BadNumber(field: string)  // std::stoi throws

  /** What the placement loop carries from one character to the next. */
  datatype Scan = Scan(cur: Cursor, cells: seq<Cell>, white: int, black: int)

  /** The loop state after the first i characters of p. */
  predicate Scanned(h: Helpers, p: string, i: int, st: Scan)
  {
    Placed(p, i, st.cells) && st.cur == Cursors(p)[i]
    && st.white == TotalsFrom(h, WHITE, 0, p)[i] && st.black == TotalsFrom(h, BLACK, 0, p)[i]
  }

  /** One character of the placement loop: '/' and digits move the cursor; a
      piece letter goes on the cursor's square, its value onto its colour's
      material, and the cursor moves one file. */
  method ScanChar(h: Helpers, p: string, i: int, st: Scan) returns (r: Result<Scan, FenError>)
    requires Scanned(h, p, i, st) && i < |p|
    ensures r.Err? ==> !WellFormed(p)
    ensures r.Ok? ==> Scanned(h, p, i + 1, r.value)
  {
    var ch := p[i];
    if ch == '/' || IsDigit(ch) {
      ScanMark(h, p, i, st);
      return Ok(st.(cur := Advance(st.cur, ch)));
    }
    r := ScanPiece(h, p, i, st);
  }

  lemma ScanMark(h: Helpers, p: string, i: int, st: Scan)
    requires Scanned(h, p, i, st) && i < |p| && (p[i] == '/' || IsDigit(p[i]))
    ensures Scanned(h, p, i + 1, st.(cur := Advance(st.cur, p[i])))
  {
    PlaceMark(p, i, st.cells);
    CursorsStep(p, i);
    TotalsStep(h, WHITE, 0, p, i);
    TotalsStep(h, BLACK, 0, p, i);
    assert Worth(h, p[i], WHITE) == 0 && Worth(h, p[i], BLACK) == 0;
  }

  /** One piece letter of the placement loop: the piece goes on the cursor's
      square and its value onto its colour's material. */
  method ScanPiece(h: Helpers, p: string, i: int, st: Scan) returns (r: Result<Scan, FenError>)
    requires Scanned(h, p, i, st) && i < |p| && p[i] != '/' && !IsDigit(p[i])
    ensures r.Err? ==> !WellFormed(p)
    ensures r.Ok? ==> Scanned(h, p, i + 1, r.value)
  {
    var ch := p[i];
    CursorsStep(p, i);
    TotalsStep(h, WHITE, 0, p, i);
    TotalsStep(h, BLACK, 0, p, i);
    var piece := PieceOf(ch);
    var sq := Squares.GetSquare(st.cur.rank, st.cur.file);
    if piece.None? || sq >= 64 || st.cells[sq] != Empty {
      PlaceFails(p, i, st.cells);
      return if piece.None? then Err(BadChar(i))
             else if sq >= 64 then Err(OffBoard(i))
             else Err(SquareTaken(i));
    }
    PlacePiece(p, i, st.cells);
    return Ok(Scan(Advance(st.cur, ch), st.cells[sq := piece.value],
                   st.white + Worth(h, ch, WHITE), st.black + Worth(h, ch, BLACK)));
  }

  /** Each piece letter of p has put its piece on the square its cursor
      stood on. */
  predicate LettersPlaced(p: string, cells: seq<Cell>)
    requires |cells| == 64
  {
    forall k :: 0 <= k < |p| && PieceOf(p[k]).Some? ==>
      0 <= Target(p, k) < 64 && cells[Target(p, k)] == PieceOf(p[k]).value
  }

  /** Every occupied square was filled by a piece letter of p. */
  predicate OnlyLetters(p: string, cells: seq<Cell>)
    requires |cells| == 64
  {
    forall sq :: 0 <= sq < 64 && cells[sq] != Empty ==>
      exists k :: 0 <= k < |p| && PieceOf(p[k]).Some? && Target(p, k) == sq
  }

  /** The placement loop of load_from_fen. */
  method ParsePlacement(h: Helpers, p: string) returns (r: Result<Setup, FenError>)
    ensures r.Ok? <==> WellFormed(p)
    ensures r.Ok? ==> |r.value.cells| == 64
    ensures r.Ok? ==> LettersPlaced(p, r.value.cells) && OnlyLetters(p, r.value.cells)
    ensures r.Ok? ==> r.value.material == [MaterialOf(h, p, WHITE), MaterialOf(h, p, BLACK)]
  {
    var st := Scan(Cursor(7, 0), seq(64, _ => Empty), 0, 0);
    var i := 0;
    PlacedStart(p, st.cells);
    while i < |p|
      invariant 0 <= i <= |p| && Scanned(h, p, i, st)
    {
      var next := ScanChar(h, p, i, st);
      if next.Err? {
        return Err(next.error);
      }
      st := next.value;
      i := i + 1;
    }
    PlacedAll(h, p, st.cells);
    return Ok(Setup(st.cells, [st.white, st.black]));
  }
  // ---------------------------------------------------------------------------
  // The other fields.

  function RightOf(c: char): CastlingRights
  {
    if c == 'K' then WHITE_SHORT
    else if c == 'Q' then WHITE_LONG
    else if c == 'k' then BLACK_SHORT
    else if c == 'q' then BLACK_LONG
    else NO_CASTLING_RIGHTS
  }

  /** The castling field: each of K, Q, k and q ORs in its right; every other
      character, '-' included, is ignored. */
  function CastlingOf(s: string): (r: CastlingRights)
    ensures r == RightsOf('K' in s, 'Q' in s, 'k' in s, 'q' in s)
    decreases |s|
  {
    if s == [] then NO_CASTLING_RIGHTS
    else
      var q := s[..|s| - 1];
      assert s == q + [s[|s| - 1]];
      CastlingOf(q) | RightOf(s[|s| - 1])
  }

  /** The castling value is below 16 and holds a right exactly when its
      letter appears in the field. */
  lemma CastlingField(s: string)
    ensures CastlingOf(s) < 16
    ensures (CastlingOf(s) & WHITE_SHORT != 0) <==> 'K' in s
    ensures (CastlingOf(s) & WHITE_LONG != 0) <==> 'Q' in s
    ensures (CastlingOf(s) & BLACK_SHORT != 0) <==> 'k' in s
    ensures (CastlingOf(s) & BLACK_LONG != 0) <==> 'q' in s
  {
    CastlingRightsAreBits('K' in s, 'Q' in s, 'k' in s, 'q' in s, false, false, false, false);
  }

  /** The side to move: exactly "w" is White, any other text Black. */
  function SideOf(s: string): (c: Side)
    ensures c == WHITE <==> s == "w"
  {
    if s == "w" then WHITE else BLACK
  }

  /** load_from_fen once the FEN is split: the placement loop, the side,
      castling and en-passant fields, then std::stoi of both clocks. */
  method LoadFields(h: Helpers, squareOf: string -> int, f: Fields) returns (r: Result<Board, FenError>)
    ensures r.Ok? <==> WellFormed(f.position) && Stoi(f.halfmoves).Some? && Stoi(f.fullmoves).Some?
    ensures r.Ok? ==>
              var b := r.value;
              b.Valid() && b.ply == 0 && b.moves == [] && b.states == []
              && b.toMove == SideOf(f.toMove)
              && b.castling == CastlingOf(f.castling)
              && b.enPassant == (if f.enPassant == "-" then NO_SQUARE else ToU8(squareOf(f.enPassant)))
              && b.halfmoves == Stoi(f.halfmoves).value
              && b.fullmoves == Stoi(f.fullmoves).value
              && b.material == [MaterialOf(h, f.position, WHITE), MaterialOf(h, f.position, BLACK)]
    ensures r.Ok? ==> LettersPlaced(f.position, r.value.cells) && OnlyLetters(f.position, r.value.cells)
  {
    var setup := ParsePlacement(h, f.position);
    if setup.Err? {
      return Err(setup.error);
    }
    var halfmoves := Stoi(f.halfmoves);
    if halfmoves.None? {
      return Err(BadNumber(f.halfmoves));
    }
    var fullmoves := Stoi(f.fullmoves);
    if fullmoves.None? {
      return Err(BadNumber(f.fullmoves));
    }
    var ep := if f.enPassant == "-" then NO_SQUARE else ToU8(squareOf(f.enPassant));
    r := Ok(Board(setup.value.cells, setup.value.material, SideOf(f.toMove), CastlingOf(f.castling),
                  ep, halfmoves.value, fullmoves.value, 0, [], []));
  }

  /** load_from_fen. `squareOf` stands for uci_to_index, which is not part of
      this model; its result is stored in the uint8_t en-passant target. The
      board starts from reset(): ply 0, empty stacks. */
  method LoadFromFen(h: Helpers, squareOf: string -> int, fen: string) returns (r: Result<Board, FenError>)
    ensures Words(fen) == [] ==> r == Err(NoFields)
    ensures r.Ok? <==>
              Words(fen) != [] && WellFormed(Words(fen)[0])
              && Stoi(FieldsOf(Words(fen)).halfmoves).Some?
              && Stoi(FieldsOf(Words(fen)).fullmoves).Some?
    ensures r.Ok? ==>
              var f := FieldsOf(Words(fen));
              var b := r.value;
              b.Valid() && b.ply == 0 && b.moves == [] && b.states == []
              && b.toMove == SideOf(f.toMove)
              && b.castling == CastlingOf(f.castling)
              && b.enPassant == (if f.enPassant == "-" then NO_SQUARE else ToU8(squareOf(f.enPassant)))
              && b.halfmoves == Stoi(f.halfmoves).value
              && b.fullmoves == Stoi(f.fullmoves).value
              && b.material == [MaterialOf(h, f.position, WHITE), MaterialOf(h, f.position, BLACK)]
    ensures r.Ok? ==> LettersPlaced(Words(fen)[0], r.value.cells) && OnlyLetters(Words(fen)[0], r.value.cells)
  {
    var parts := Words(fen);
    if parts == [] {
      return Err(NoFields);
    }
    r := LoadFields(h, squareOf, FieldsOf(parts));
  }
}

=== FILE: match.dfy ===
/** run_match.py: finds two saved engine builds by version prefix and builds
    the cutechess-cli command that plays them against each other. The
    environment variable, the directory listing, path resolution and the
    reply to the confirmation prompt are inputs; printing and running the
    command are left out. */
module RunMatch {
  import opened Outcomes
  import opened Numbers
  import opened Replies

  predicate StartsWith(s: string, p: string)
  {
    |p| <= |s| && s[..|p|] == p
  }

  /** The names among the first n that start with p, in listing order. */
  function MatchesUpTo(names: seq<string>, p: string, n: nat): (r: seq<string>)
    requires n <= |names|
    ensures forall k :: 0 <= k < |r| ==> StartsWith(r[k], p) && r[k] in names[..n]
    ensures |r| == 0 <==> forall i :: 0 <= i < n ==> !StartsWith(names[i], p)
    ensures |r| >= 2 <==> exists i, j :: 0 <= i < j < n && StartsWith(names[i], p) && StartsWith(names[j], p)
    ensures |r| == 1 ==> exists i :: 0 <= i < n && names[i] == r[0] && StartsWith(names[i], p)
                                 && forall j :: 0 <= j < n && j != i ==> !StartsWith(names[j], p)
  {
    if n == 0 then []
    else
      var prev := MatchesUpTo(names, p, n - 1);
      assert names[..n - 1] <= names[..n];
      if StartsWith(names[n - 1], p) then prev + [names[n - 1]] else prev
  }

  /** Why find_binary exits with status 1. */
  datatype FindError = NotFound | Ambiguous(matches: seq<string>)

  /** find_binary: the one listed name starting with the prefix and '_'. The
      listing is empty when the versions directory does not exist. */
  function FindBinary(prefix: string, names: seq<string>): (r: Result<string, FindError>)
    ensures r == Err(NotFound) <==> forall i :: 0 <= i < |names| ==> !StartsWith(names[i], prefix + "_")
    ensures r.Err? && r.error.Ambiguous? <==>
              exists i, j :: 0 <= i < j < |names| && StartsWith(names[i], prefix + "_") && StartsWith(names[j], prefix + "_")
    ensures r.Ok? ==> exists i :: 0 <= i < |names| && names[i] == r.value && StartsWith(names[i], prefix + "_")
                              && forall j :: 0 <= j < |names| && j != i ==> !StartsWith(names[j], prefix + "_")
  {
    var matches := MatchesUpTo(names, prefix + "_", |names|);
    if |matches| == 0 then Err(NotFound)
    else if |matches| > 1 then Err(Ambiguous(matches))
    else Ok(matches[0])
  }

  /** Digits are split off at the '_' after them in one way only. */
  lemma DigitsBeforeSeparator(da: string, db: string, ra: string, rb: string)
    requires AllDigits(da) && AllDigits(db)
    requires da + "_" + ra == db + "_" + rb
    ensures da == db
  {
    var x := da + "_" + ra;
    assert x == da + ("_" + ra) && x == db + ("_" + rb);
    DigitRunPrefix(da, "_" + ra);
    DigitRunPrefix(db, "_" + rb);
  }

  /** The separator makes a version prefix exact: the file of version a
      matches the prefix of version b only if a == b, so "v1" never picks
      up "v10_...". */
  lemma VersionPrefixIsExact(a: nat, b: nat, rest: string)
    ensures StartsWith("v" + Decimal(a) + "_" + rest, "v" + Decimal(b) + "_") <==> a == b
  {
    var da, db := Decimal(a), Decimal(b);
    var name := "v" + da + "_" + rest;
    var p := "v" + db + "_";
    if StartsWith(name, p) {
      var rb := name[|p|..];
      assert name == p + rb;
      assert name[1..] == da + "_" + rest;
      assert name[1..] == db + "_" + rb;
      DigitsBeforeSeparator(da, db, rest, rb);
      DecimalValue(a);
      DecimalValue(b);
    }
    if a == b {
      assert name == p + rest;
    }
  }

  /** The prefix of version 1 finds v1_new and not v10_old. */
  lemma ShortPrefixExample()
    ensures FindBinary("v1", ["v10_old", "v1_new"]) == Ok("v1_new")
    ensures FindBinary("v1", ["v10_old"]) == Err(NotFound)
  {
    var names := ["v10_old", "v1_new"];
    assert !StartsWith(names[0], "v1_") by { assert names[0][..3][2] == '0'; }
    assert StartsWith(names[1], "v1_") by { assert names[1][..3] == "v1_"; }
    assert MatchesUpTo(names, "v1_", 1) == [];
    assert MatchesUpTo(["v10_old"], "v1_", 1) == [];
  }

  // ---------------------------------------------------------------------------
  // Arguments and the command.

  /** The parsed command line: the two version prefixes and the options, with
      None for an option not given. */
  datatype Args = Args(versionA: string, versionB: string, time: Option<int>,
                       increment: Option<int>, games: Option<int>, debug: bool)

  /** The time control, game count and debug switch the command carries. */
  datatype Settings = Settings(time: int, increment: int, games: int, debug: bool)

  /** -t and -g are required; -i defaults to 0. */
  function Resolve(a: Args): (r: Option<Settings>)
    ensures r.Some? <==> a.time.Some? && a.games.Some?
    ensures r.Some? ==> r.value.time == a.time.value && r.value.games == a.games.value && r.value.debug == a.debug
    ensures r.Some? ==> r.value.increment == (if a.increment.Some? then a.increment.value else 0)
  {
    if a.time.None? || a.games.None? then None
    else Some(Settings(a.time.value, if a.increment.Some? then a.increment.value else 0, a.games.value, a.debug))
  }

  /** An engine as the command names it: its resolved path and the last
      component of that path. */
  datatype EngineRef = EngineRef(path: string, name: string)

  /** Path.name: the text after the last '/'. */
  function BaseName(path: string): (r: string)
    ensures |r| <= |path| && r == path[|path| - |r|..]
    ensures '/' !in r
    ensures |r| < |path| ==> path[|path| - |r| - 1] == '/'
  {
    if path == [] || path[|path| - 1] == '/' then []
    else BaseName(path[..|path| - 1]) + [path[|path| - 1]]
  }

  /** The cutechess-cli command: both engines, the UCI protocol, the time
      control time+increment, the game count and -repeat, then -debug when
      asked for. */
  function Command(tool: string, a: EngineRef, b: EngineRef, s: Settings): seq<string>
  {
    [tool, "-engine", "cmd=" + a.path, "name=" + a.name,
     "-engine", "cmd=" + b.path, "name=" + b.name,
     "-each", "proto=uci", "tc=" + IntToString(s.time) + "+" + IntToString(s.increment),
     "-games", IntToString(s.games), "-repeat"]
    + (if s.debug then ["-debug"] else [])
  }

  // ---------------------------------------------------------------------------
  // Reading a command back: the partner of Command.

  /** Decimal text of an int with an optional '-', as str() writes it. */
  function ReadInt(s: string): (r: Option<int>)
  {
    if |s| > 0 && s[0] == '-' then
      if |s| > 1 && AllDigits(s[1..]) then Some(0 - DigitsValue(s[1..]) as int) else None
    else if |s| > 0 && AllDigits(s) then Some(DigitsValue(s))
    else None
  }

  /** The length of the int text at the front of s. */
  function IntLength(s: string): (n: nat)
    ensures n <= |s|
  {
    if |s| > 0 && s[0] == '-' then 1 + DigitRun(s[1..]) else DigitRun(s)
  }

  /** "time+increment". */
  function ReadTimeControl(s: string): Option<(int, int)>
  {
    var n := IntLength(s);
    if n >= |s| || s[n] != '+' then None
    else match (ReadInt(s[..n]), ReadInt(s[n + 1..]))
      case (Some(t), Some(i)) => Some((t, i))
      case _ => None
  }

  /** The text after a fixed tag, when s starts with it. */
  function After(s: string, tag: string): Option<string>
  {
    if StartsWith(s, tag) then Some(s[|tag|..]) else None
  }

  /** An engine's "cmd=<path>" and "name=<name>" pair. */
  function ReadEngine(cmd: string, name: string): Option<EngineRef>
  {
    match (After(cmd, "cmd="), After(name, "name="))
    case (Some(path), Some(n)) => Some(EngineRef(path, n))
    case _ => None
  }

  /** "tc=<time>+<increment>", the game count and whether -debug follows. */
  function ReadSettings(tc: string, games: string, debug: bool): Option<Settings>
  {
    match (After(tc, "tc="), ReadInt(games))
    case (Some(t), Some(g)) =>
      (match ReadTimeControl(t)
       case Some((time, inc)) => Some(Settings(time, inc, g, debug))
       case None => None)
    case _ => None
  }

  /** The tool, the engines and the settings a command line stands for. */
  function ReadCommand(c: seq<string>): (r: Option<(string, EngineRef, EngineRef, Settings)>)
  {
    if !(|c| == 13 || (|c| == 14 && c[13] == "-debug")) then None
    else if c[1] != "-engine" || c[4] != "-engine" || c[7] != "-each" || c[8] != "proto=uci"
         || c[10] != "-games" || c[12] != "-repeat" then None
    else match (ReadEngine(c[2], c[3]), ReadEngine(c[5], c[6]), ReadSettings(c[9], c[11], |c| == 14))
      case (Some(a), Some(b), Some(s)) => Some((c[0], a, b, s))
      case _ => None
  }

  lemma ReadIntOfIntToString(n: int, rest: string)
    requires rest == [] || !IsDigit(rest[0])
    ensures IntLength(IntToString(n) + rest) == |IntToString(n)|
    ensures ReadInt(IntToString(n)) == Some(n)
  {
    var d := Decimal(if n < 0 then -n else n);
    DecimalValue(if n < 0 then -n else n);
    DigitRunPrefix(d, rest);
    if n < 0 {
      assert IntToString(n) == "-" + d;
      assert (IntToString(n) + rest)[1..] == d + rest;
      assert IntToString(n)[1..] == d;
    } else {
      assert IntToString(n) == d;
      assert d[0] != '-' by { assert IsDigit(d[0]); }
    }
  }

  lemma ReadTimeControlOf(time: int, inc: int)
    ensures ReadTimeControl(IntToString(time) + "+" + IntToString(inc)) == Some((time, inc))
  {
    var s := IntToString(time) + "+" + IntToString(inc);
    ReadIntOfIntToString(time, "+" + IntToString(inc));
    ReadIntOfIntToString(inc, []);
    assert s == IntToString(time) + ("+" + IntToString(inc));
    var n := |IntToString(time)|;
    assert s[..n] == IntToString(time) && s[n] == '+' && s[n + 1..] == IntToString(inc);
  }

  lemma AfterTag(tag: string, x: string)
    ensures After(tag + x, tag) == Some(x)
  {
    assert (tag + x)[..|tag|] == tag && (tag + x)[|tag|..] == x;
  }

  lemma ReadEngineOf(e: EngineRef)
    ensures ReadEngine("cmd=" + e.path, "name=" + e.name) == Some(e)
  {
    AfterTag("cmd=", e.path);
    AfterTag("name=", e.name);
  }

  lemma ReadSettingsOf(s: Settings)
    ensures ReadSettings("tc=" + IntToString(s.time) + "+" + IntToString(s.increment), IntToString(s.games), s.debug) == Some(s)
  {
    var t := IntToString(s.time) + "+" + IntToString(s.increment);
    assert "tc=" + IntToString(s.time) + "+" + IntToString(s.increment) == "tc=" + t;
    AfterTag("tc=", t);
    ReadTimeControlOf(s.time, s.increment);
    ReadIntOfIntToString(s.games, []);
  }

  /** Reading the command back gives the tool, both engines (path and name),
      the time control, the game count and the debug switch it was built
      from: nothing is lost or mixed up, and -debug is there exactly when
      debug is on. */
  lemma CommandReadsBack(tool: string, a: EngineRef, b: EngineRef, s: Settings)
    ensures ReadCommand(Command(tool, a, b, s)) == Some((tool, a, b, s))
  {
    var c := Command(tool, a, b, s);
    assert |c| == (if s.debug then 14 else 13);
    assert c[2] == "cmd=" + a.path && c[3] == "name=" + a.name;
    assert c[5] == "cmd=" + b.path && c[6] == "name=" + b.name;
    assert c[9] == "tc=" + IntToString(s.time) + "+" + IntToString(s.increment);
    assert c[11] == IntToString(s.games);
    ReadEngineOf(a);
    ReadEngineOf(b);
    ReadSettingsOf(s);
  }

  // ---------------------------------------------------------------------------
  // The script.

  /** How the script ends: an exit status before anything runs (1 for the
      missing tool variable or a version not found once, 2 for argparse's
      usage error), the prompt declined (status 0), or the command run. */
  datatype MatchOutcome = Failed(code: int) | Aborted | Launch(command: seq<string>)

  /** The engine for a found file: the resolved path and its last component. */
  function EngineFor(resolve: string -> string, file: string): EngineRef
  {
    EngineRef(resolve(file), BaseName(resolve(file)))
  }

  /** The script: the cutechess_cli_binary variable (Path(None) throws before
      the arguments are parsed), the arguments, engine A's lookup, engine B's,
      then the confirmation. The command starts with str(Path(variable)),
      the variable's text as Path normalises it (normalise). */
  function Run(tool: Option<string>, args: Args, names: seq<string>,
               normalise: string -> string, resolve: string -> string, reply: string): (r: MatchOutcome)
    ensures tool.None? ==> r == Failed(1)
    ensures tool.Some? && Resolve(args).None? ==> r == Failed(2)
    ensures r.Launch? <==>
              && tool.Some? && Resolve(args).Some?
              && FindBinary(args.versionA, names).Ok? && FindBinary(args.versionB, names).Ok?
              && IsYes(reply)
    ensures r.Launch? ==>
              ReadCommand(r.command) == Some((normalise(tool.value),
                                              EngineFor(resolve, FindBinary(args.versionA, names).value),
                                              EngineFor(resolve, FindBinary(args.versionB, names).value),
                                              Resolve(args).value))
    ensures (tool.Some? && Resolve(args).Some?
             && (FindBinary(args.versionA, names).Err? || FindBinary(args.versionB, names).Err?)) ==> r == Failed(1)
    ensures r == Aborted <==>
              && tool.Some? && Resolve(args).Some?
              && FindBinary(args.versionA, names).Ok? && FindBinary(args.versionB, names).Ok?
              && !IsYes(reply)
  {
    if tool.None? then Failed(1)
    else match Resolve(args)
      case None => Failed(2)
      case Some(s) =>
        match (FindBinary(args.versionA, names), FindBinary(args.versionB, names))
        case (Ok(fa), Ok(fb)) =>
          var a, b := EngineFor(resolve, fa), EngineFor(resolve, fb);
          CommandReadsBack(normalise(tool.value), a, b, s);
          if IsYes(reply) then Launch(Command(normalise(tool.value), a, b, s)) else Aborted
        case _ => Failed(1)
  }
}

=== FILE: movecodec.dfy ===
/** The 16-bit move encoding: origin in bits 0-5, destination in bits 6-11,
    move type in bit 12 and move flag in bits 13-15. */
module MoveCodec {
  import opened Types

  type Move = bv16

  const FROM_BITS: bv16 := 0x003F
  const TO_BITS: bv16 := 0x0FC0
  const TYPE_BITS: bv16 := 0x1000
  const FLAG_BITS: bv16 := 0xE000

  /** Packs the four fields. Each argument is a uint16_t shifted into place
      without masking, so the bounds are the caller's obligation. */
  function NewMove(from: bv16, to: bv16, mtype: bv16, flag: bv16): Move
  {
    from | (to << 6) | (mtype << 12) | (flag << 13)
  }

  // The fields as 16-bit values, before the conversion to int.
  function FromField(m: Move): bv16 { m & 63 }
  function ToField(m: Move): bv16 { (m >> 6) & 63 }
  function TypeField(m: Move): bv16 { (m >> 12) & 1 }
  function FlagField(m: Move): bv16 { (m >> 13) & 7 }

  function GetFrom(m: Move): (r: int)
    ensures 0 <= r < 64
  {
    FromField(m) as int
  }

  function GetTo(m: Move): (r: int)
    ensures 0 <= r < 64
  {
    ToField(m) as int
  }

  function GetMType(m: Move): (r: int)
    ensures 0 <= r < 2
  {
    TypeField(m) as int
  }

  function GetFlag(m: Move): (r: int)
    ensures 0 <= r < 8
  {
    FlagField(m) as int
  }

  lemma BvIntRoundTrip(x: bv16)
    ensures (x as int) as bv16 == x
  {
  }

  /** A small field value as a 16-bit word, counted up from zero. */
  function Word(n: int): bv16
    requires 0 <= n < 64
  {
    if n == 0 then 0 else Word(n - 1) + 1
  }

  lemma {:induction false} WordValue(n: int)
    requires 0 <= n < 64
    ensures Word(n) < 64
    ensures Word(n) as int == n
  {
    if n > 0 {
      WordValue(n - 1);
    }
  }

  /** Decoding a packed move gives back each in-range field. */
  lemma DecodeNewMove(from: bv16, to: bv16, mtype: bv16, flag: bv16)
    requires from < 64 && to < 64 && mtype < 2 && flag < 8
    ensures GetFrom(NewMove(from, to, mtype, flag)) == from as int
    ensures GetTo(NewMove(from, to, mtype, flag)) == to as int
    ensures GetMType(NewMove(from, to, mtype, flag)) == mtype as int
    ensures GetFlag(NewMove(from, to, mtype, flag)) == flag as int
  {
  }

  /** Re-packing the decoded fields of any 16-bit value gives the value back,
      so the encoding is a bijection between field tuples and 16-bit moves. */
  lemma EncodeDecode(m: Move)
    ensures NewMove(GetFrom(m) as bv16, GetTo(m) as bv16, GetMType(m) as bv16, GetFlag(m) as bv16) == m
  {
    BvIntRoundTrip(FromField(m));
    BvIntRoundTrip(ToField(m));
    BvIntRoundTrip(TypeField(m));
    BvIntRoundTrip(FlagField(m));
    assert NewMove(FromField(m), ToField(m), TypeField(m), FlagField(m)) == m;
  }

  /** Two in-range field tuples give the same move only if they are equal. */
  lemma NewMoveInjective(f1: bv16, t1: bv16, m1: bv16, g1: bv16, f2: bv16, t2: bv16, m2: bv16, g2: bv16)
    requires f1 < 64 && t1 < 64 && m1 < 2 && g1 < 8
    requires f2 < 64 && t2 < 64 && m2 < 2 && g2 < 8
    requires NewMove(f1, t1, m1, g1) == NewMove(f2, t2, m2, g2)
    ensures f1 == f2 && t1 == t2 && m1 == m2 && g1 == g2
  {
    DecodeNewMove(f1, t1, m1, g1);
    DecodeNewMove(f2, t2, m2, g2);
  }

  /** The four fields occupy disjoint bit ranges that together cover all
      sixteen bits, and each in-range argument lands only in its own range. */
  lemma FieldsDisjoint(from: bv16, to: bv16, mtype: bv16, flag: bv16)
    requires from < 64 && to < 64 && mtype < 2 && flag < 8
    ensures FROM_BITS & TO_BITS == 0 && FROM_BITS & TYPE_BITS == 0 && FROM_BITS & FLAG_BITS == 0
    ensures TO_BITS & TYPE_BITS == 0 && TO_BITS & FLAG_BITS == 0 && TYPE_BITS & FLAG_BITS == 0
    ensures FROM_BITS | TO_BITS | TYPE_BITS | FLAG_BITS == 0xFFFF
    ensures NewMove(from, 0, 0, 0) & !FROM_BITS == 0
    ensures NewMove(0, to, 0, 0) & !TO_BITS == 0
    ensures NewMove(0, 0, mtype, 0) & !TYPE_BITS == 0
    ensures NewMove(0, 0, 0, flag) & !FLAG_BITS == 0
  {
  }

  /** Out-of-range fields spill into their neighbours: an origin of 64 reads
      back as origin 0 with destination 1, and a type of 2 reads back as flag 1. */
  lemma OutOfRangeSpills()
    ensures GetFrom(NewMove(64, 0, 0, 0)) == 0 && GetTo(NewMove(64, 0, 0, 0)) == 1
    ensures GetMType(NewMove(0, 0, 2, 0)) == 0 && GetFlag(NewMove(0, 0, 2, 0)) == 1
  {
  }

  /** The move the generator emits for an on-board origin and destination. */
  function Encode(from: Square, to: Square, mtype: int, flag: int): (m: Move)
    requires 0 <= mtype < 2 && 0 <= flag < 8
    ensures GetFrom(m) == from && GetTo(m) == to
    ensures GetMType(m) == mtype && GetFlag(m) == flag
  {
    WordValue(from);
    WordValue(to);
    WordValue(mtype);
    WordValue(flag);
    DecodeNewMove(Word(from), Word(to), Word(mtype), Word(flag));
    NewMove(Word(from), Word(to), Word(mtype), Word(flag))
  }

  /** True of moves carrying one of the four promotion flags. */
  predicate IsPromotion(m: Move)
  {
    IsPromotionFlag(GetFlag(m))
  }

  // ---------------------------------------------------------------------------
  // Moves by their fields, as the board, the generator and the search use them.

  /** A move as its four decoded fields: origin, destination, type and flag. */
  datatype Mv = Mv(from: Square, to: Square, mtype: int, flag: int)
  {
    /** The type fits its 1-bit field and the flag its 3-bit field. */
    predicate Valid()
    {
      0 <= mtype < 2 && 0 <= flag < 8
    }
  }

  /** The fields of a packed move. */
  function Decode(m: Move): (f: Mv)
    ensures f.Valid()
  {
    Mv(GetFrom(m), GetTo(m), GetMType(m), GetFlag(m))
  }

  /** The packed form of a move's fields. */
  function Pack(f: Mv): Move
    requires f.Valid()
  {
    Encode(f.from, f.to, f.mtype, f.flag)
  }

  lemma FieldWord(x: bv16)
    requires x < 64
    ensures Word(x as int) == x
  {
    WordValue(x as int);
    BvIntRoundTrip(Word(x as int));
    BvIntRoundTrip(x);
  }

  /** Decoding undoes packing for every valid field record. */
  lemma DecodePack(f: Mv)
    requires f.Valid()
    ensures Decode(Pack(f)) == f
  {
  }

  /** Packing undoes decoding for every 16-bit move, so valid field records and
      packed moves are in bijection and comparing records is comparing moves. */
  lemma PackDecode(m: Move)
    ensures Pack(Decode(m)) == m
  {
    FieldWord(FromField(m));
    FieldWord(ToField(m));
    FieldWord(TypeField(m));
    FieldWord(FlagField(m));
    var d := Decode(m);
    assert d.from == FromField(m) as int;
    assert Word(d.from) == FromField(m);
    assert Word(d.to) == ToField(m);
    assert Word(d.mtype) == TypeField(m);
    assert Word(d.flag) == FlagField(m);
    assert Pack(d) == NewMove(Word(d.from), Word(d.to), Word(d.mtype), Word(d.flag));
    assert NewMove(FromField(m), ToField(m), TypeField(m), FlagField(m)) == m;
  }
}

=== FILE: movegen.dfy ===
/** Legal move generation: the moves of the side to move, filtered with the
    CheckInfo computed for its king, in the order the engine emits them. */
module MoveGen {
  import opened Types
  import opened Outcomes
  import opened Squares
  import opened Precompute
  import opened Bitboards
  import opened Boards
  import opened MoveCodec
  import opened SquareSets
  import opened Checks

  /** MoveGenMode: which moves a call generates. */
  datatype Mode = QuietOnly | CapturesAndPromotions | All
  {
    /** QUIET_ONLY or ALL. */
    predicate Quiets()
    {
      QuietOnly? || All?
    }

    /** CAPTURES_AND_PROMOTIONS or ALL. */
    predicate Captures()
    {
      CapturesAndPromotions? || All?
    }
  }

  /** The boards move generation works on: a side to move with a king, and
      check information with one pin line per square. */
  predicate Ready(b: Board, ci: CheckInfo)
  {
    HasKingToMove(b) && |ci.pins| == 64
  }

  // ---------------------------------------------------------------------------
  // is_attacked_by_slider

  /** is_attacked_by_slider<D>: the first piece met from sq in direction d,
      over the occupancy occ, is an enemy slider that moves along d. */
  predicate SliderAttacks(b: Board, occ: set<Square>, sq: Square, d: Dir)
    requires HasKingToMove(b)
  {
    match FirstBlocker(occ, sq, d)
    case None => false
    case Some(f) => f in ColorSquares(b, Other(b.toMove)) && Relevant(d, PieceAt(b, f))
  }

  /** is_attacked_by_slider: some direction, tried in the engine's order,
      has an enemy slider first on its ray. */
  predicate AttackedBySlider(b: Board, occ: set<Square>, sq: Square)
    requires HasKingToMove(b)
  {
    SliderAttacks(b, occ, sq, N) || SliderAttacks(b, occ, sq, S)
    || SliderAttacks(b, occ, sq, E) || SliderAttacks(b, occ, sq, W)
    || SliderAttacks(b, occ, sq, NE) || SliderAttacks(b, occ, sq, NW)
    || SliderAttacks(b, occ, sq, SE) || SliderAttacks(b, occ, sq, SW)
  }

  /** The eight-way test holds exactly when one of the directions compute_check_info
      walks has an attacking slider first on its ray. */
  lemma AttackedBySliderIff(b: Board, occ: set<Square>, sq: Square)
    requires HasKingToMove(b)
    ensures AttackedBySlider(b, occ, sq) <==>
      exists i :: 0 <= i < |DIRECTIONS| && SliderAttacks(b, occ, sq, DIRECTIONS[i])
  {
    if AttackedBySlider(b, occ, sq) {
      var d :| d in {N, S, E, W, NE, NW, SE, SW} && SliderAttacks(b, occ, sq, d);
      assert SliderAttacks(b, occ, sq, DIRECTIONS[DirectionIndex(d)]);
    }
  }

  // ---------------------------------------------------------------------------
  // generate_piece_moves

  /** The attack mask of one bishop, knight, rook, queen or king on from,
      after the masking of generate_piece_moves: the king avoids unsafe
      squares, nobody lands on a friendly piece, non-king moves stay in
      must_cover, and a pinned piece stays on its pin line. */
  function Targets(b: Board, ci: CheckInfo, kind: PieceKind, from: Square): (r: set<Square>)
    requires Ready(b, ci)
    ensures forall sq :: sq in r ==> sq in PieceReach(Occupied(b), from, kind)
    ensures forall sq :: sq in r ==> sq !in ColorSquares(b, b.toMove)
    ensures kind == KING ==> forall sq :: sq in r ==> sq !in ci.unsafe
    ensures kind != KING ==> forall sq :: sq in r ==> sq in ci.mustCover
    ensures from in ci.pinned ==> forall sq :: sq in r ==> sq in ci.pins[from]
  {
    var attack := if kind == KING then KingAttacks(from) - ci.unsafe else PieceReach(Occupied(b), from, kind);
    var own := attack - ColorSquares(b, b.toMove);
    var covered := if kind != KING then own * ci.mustCover else own;
    if from in ci.pinned then covered * ci.pins[from] else covered
  }

  /** Moves from one square to each square of tos, in order. */
  function MovesTo(from: Square, tos: seq<Square>, mtype: int, flag: int): (r: seq<Mv>)
    ensures |r| == |tos|
    ensures forall i :: 0 <= i < |r| ==> r[i] == Mv(from, tos[i], mtype, flag)
    ensures forall m :: m in r <==> m.from == from && m.to in tos && m.mtype == mtype && m.flag == flag
  {
    if tos == [] then [] else [Mv(from, tos[0], mtype, flag)] + MovesTo(from, tos[1..], mtype, flag)
  }

  /** The king's captures, skipping each target a slider would attack once
      the king has left from. */
  function KingCaptures(b: Board, from: Square, tos: seq<Square>): (r: seq<Mv>)
    requires HasKingToMove(b)
    ensures forall m :: m in r <==>
      m.from == from && m.to in tos && m.mtype == CAPTURE && m.flag == NORMAL
      && !AttackedBySlider(b, Toggle(Occupied(b), {from}), m.to)
  {
    if tos == [] then []
    else
      var rest := KingCaptures(b, from, tos[1..]);
      if AttackedBySlider(b, Toggle(Occupied(b), {from}), tos[0]) then rest
      else [Mv(from, tos[0], CAPTURE, NORMAL)] + rest
  }

  /** The quiet moves of the piece on from: to its empty targets, lowest
      square first. */
  function QuietMovesFrom(b: Board, ci: CheckInfo, kind: PieceKind, from: Square): (r: seq<Mv>)
    requires Ready(b, ci)
    ensures forall m :: m in r <==>
      m.from == from && m.mtype == QUIET && m.flag == NORMAL
      && m.to in Targets(b, ci, kind, from) && m.to !in Occupied(b)
  {
    MovesTo(from, Ascending(Targets(b, ci, kind, from) - Occupied(b)), QUIET, NORMAL)
  }

  /** The captures of the piece on from: its targets holding an enemy piece,
      lowest square first; for the king, only those no slider would attack
      once the king has left from. */
  function CapturesFrom(b: Board, ci: CheckInfo, kind: PieceKind, from: Square): (r: seq<Mv>)
    requires Ready(b, ci)
    ensures forall m :: m in r <==>
      m.from == from && m.mtype == CAPTURE && m.flag == NORMAL
      && m.to in Targets(b, ci, kind, from) && m.to in ColorSquares(b, Other(b.toMove))
      && (kind == KING ==> !AttackedBySlider(b, Toggle(Occupied(b), {from}), m.to))
  {
    var captures := Ascending(Targets(b, ci, kind, from) * ColorSquares(b, Other(b.toMove)));
    if kind == KING then KingCaptures(b, from, captures)
    else MovesTo(from, captures, CAPTURE, NORMAL)
  }

  /** The moves of the piece on from: the quiet moves when the mode asks for
      them, then the captures when the mode asks for them. */
  function OriginMoves(b: Board, ci: CheckInfo, kind: PieceKind, from: Square, mode: Mode): (r: seq<Mv>)
    requires Ready(b, ci)
    ensures forall m :: m in r ==> m.from == from && m.flag == NORMAL
    ensures forall m :: m in r <==>
      (mode.Quiets() && m in QuietMovesFrom(b, ci, kind, from))
      || (mode.Captures() && m in CapturesFrom(b, ci, kind, from))
  {
    (if mode.Quiets() then QuietMovesFrom(b, ci, kind, from) else [])
    + (if mode.Captures() then CapturesFrom(b, ci, kind, from) else [])
  }

  /** The moves of the pieces standing on froms, one square after another. */
  function OriginsMoves(b: Board, ci: CheckInfo, kind: PieceKind, froms: seq<Square>, mode: Mode): (r: seq<Mv>)
    requires Ready(b, ci)
    ensures forall m :: m in r <==> m.from in froms && m in OriginMoves(b, ci, kind, m.from, mode)
  {
    if froms == [] then []
    else OriginMoves(b, ci, kind, froms[0], mode) + OriginsMoves(b, ci, kind, froms[1..], mode)
  }

  /** generate_piece_moves<P, M>: every piece of the kind, lowest square
      first. */
  function PieceMoves(b: Board, ci: CheckInfo, kind: PieceKind, mode: Mode): (r: seq<Mv>)
    requires Ready(b, ci)
    ensures forall m :: m in r <==>
      m.from in Pieces(b, b.toMove, kind) && m in OriginMoves(b, ci, kind, m.from, mode)
  {
    OriginsMoves(b, ci, kind, Ascending(Pieces(b, b.toMove, kind)), mode)
  }

  // ---------------------------------------------------------------------------
  // encode_pawn_moves

  /** The pawn directions of a colour: FWD, FWD_RIGHT, FWD_LEFT. */
  function Forward(c: Side): Dir
  {
    if c == WHITE then N else S
  }

  function ForwardRight(c: Side): Dir
  {
    if c == WHITE then NE else SW
  }

  function ForwardLeft(c: Side): Dir
  {
    if c == WHITE then NW else SE
  }

  /** FWD_FWD: the offset of a double push. */
  function ForwardTwice(c: Side): int
  {
    if c == WHITE then NORTH_NORTH else SOUTH_SOUTH
  }

  /** The promotions encode_pawn_moves emits for one pawn move, in order. */
  const PROMOTION_ORDER: seq<int> := [PROMOTION_QUEEN, PROMOTION_ROOK, PROMOTION_BISHOP, PROMOTION_KNIGHT]

  /** r is made of groups of four moves, each group sharing from, to and
      type and flagged queen, rook, bishop, knight in that order. */
  predicate InQuads(r: seq<Mv>)
    decreases |r|
  {
    r == [] ||
    (|r| >= 4
     && (forall k :: 0 <= k < 4 ==>
           r[k].from == r[0].from && r[k].to == r[0].to && r[k].mtype == r[0].mtype
           && r[k].flag == PROMOTION_ORDER[k])
     && InQuads(r[4..]))
  }

  /** The pin test of encode_pawn_moves: a pinned pawn's target must lie on
      its pin line. */
  predicate PinAllows(ci: CheckInfo, from: int, to: Square)
    requires |ci.pins| == 64 && 0 <= from < 64
  {
    from in ci.pinned ==> to in ci.pins[from]
  }

  /** The squares of the x-ray test for en passant: the occupancy with the
      capturing pawn moved from from to to and the captured pawn removed,
      each done by toggling its bit. */
  function EnPassantOccupancy(b: Board, from: Square, to: Square): set<Square>
    requires HasKingToMove(b)
  {
    Toggle(Toggle(Toggle(Occupied(b), {from}), {to}), StepImage({to}, Forward(b.toMove).Opposite()))
  }

  /** The en-passant rules of encode_pawn_moves: in check, the move must
      capture the checker or land on must_cover; and the king must not be
      attacked by a slider once both pawns have moved. */
  predicate EnPassantAllowed(b: Board, ci: CheckInfo, from: Square, to: Square)
    requires HasKingToMove(b)
  {
    var capture := StepImage({to}, Forward(b.toMove).Opposite());
    (ci.checkers != {} ==> capture * ci.checkers != {} || to in ci.mustCover)
    && !AttackedBySlider(b, EnPassantOccupancy(b, from, to), KingSquare(b, b.toMove))
  }

  /** encode_pawn_moves<C, D, MT> over the targets tos: each target's pawn
      stands at to - D, and a pinned pawn whose target leaves its pin line is
      skipped. The moves are plain pawn moves, flag NORMAL. */
  function PlainEncode(ci: CheckInfo, off: int, mtype: int, tos: seq<Square>): (r: seq<Mv>)
    requires |ci.pins| == 64
    requires forall i :: 0 <= i < |tos| ==> 0 <= tos[i] - off < 64
    ensures forall m :: m in r <==>
      m.to in tos && m.from == m.to - off && m.mtype == mtype && m.flag == NORMAL && PinAllows(ci, m.from, m.to)
    decreases |tos|
  {
    if tos == [] then []
    else
      var to := tos[0];
      var from: Square := to - off;
      var rest := PlainEncode(ci, off, mtype, tos[1..]);
      if PinAllows(ci, from, to) then [Mv(from, to, mtype, NORMAL)] + rest else rest
  }

  /** encode_pawn_moves<C, D, MT, true>: as PlainEncode, but each kept
      target gives the four promotions, queen first. */
  function PromotionEncode(ci: CheckInfo, off: int, mtype: int, tos: seq<Square>): (r: seq<Mv>)
    requires |ci.pins| == 64
    requires forall i :: 0 <= i < |tos| ==> 0 <= tos[i] - off < 64
    ensures InQuads(r)
    ensures forall m :: m in r <==>
      m.to in tos && m.from == m.to - off && m.mtype == mtype && m.flag in PROMOTION_ORDER
      && PinAllows(ci, m.from, m.to)
    decreases |tos|
  {
    if tos == [] then []
    else
      var to := tos[0];
      var from: Square := to - off;
      var rest := PromotionEncode(ci, off, mtype, tos[1..]);
      if !PinAllows(ci, from, to) then rest
      else
        var quad := [Mv(from, to, mtype, PROMOTION_QUEEN), Mv(from, to, mtype, PROMOTION_ROOK),
                     Mv(from, to, mtype, PROMOTION_BISHOP), Mv(from, to, mtype, PROMOTION_KNIGHT)];
        assert (quad + rest)[4..] == rest;
        quad + rest
  }

  /** encode_pawn_moves<C, D, CAPTURE, false, true>: as PlainEncode with
      flag EN_PASSANT, except that the first target breaking an en-passant
      rule ends the encoding (the source returns rather than continues). */
  function EnPassantEncode(b: Board, ci: CheckInfo, off: int, tos: seq<Square>): (r: seq<Mv>)
    requires Ready(b, ci)
    requires forall i :: 0 <= i < |tos| ==> 0 <= tos[i] - off < 64
    ensures forall m :: m in r ==>
      m.to in tos && m.from == m.to - off && m.mtype == CAPTURE && m.flag == EN_PASSANT
      && PinAllows(ci, m.from, m.to) && EnPassantAllowed(b, ci, m.from, m.to)
    decreases |tos|
  {
    if tos == [] then []
    else
      var to := tos[0];
      var from: Square := to - off;
      var rest := EnPassantEncode(b, ci, off, tos[1..]);
      if !PinAllows(ci, from, to) then rest
      else if EnPassantAllowed(b, ci, from, to) then [Mv(from, to, CAPTURE, EN_PASSANT)] + rest
      else []
  }

  // ---------------------------------------------------------------------------
  // generate_pawn_moves

  /** RANK_n_MASK: the squares of the rank with index r (0 is rank 1). */
  function RankSquares(r: int): set<Square>
  {
    set sq: Square | GetRank(sq) == r
  }

  /** The rank index of PROMO_MASK (rank 7 or rank 2) and of
      DOUBLE_PUSH_MASK (rank 4 or rank 5). */
  function PromotionRank(c: Side): int
  {
    if c == WHITE then 6 else 1
  }

  function DoublePushRank(c: Side): int
  {
    if c == WHITE then 3 else 4
  }

  /** The pawns about to promote, and the others. */
  function PromoPawns(b: Board, c: Side): set<Square>
    requires b.Valid()
  {
    Pieces(b, c, PAWN) * RankSquares(PromotionRank(c))
  }

  function NonPromoPawns(b: Board, c: Side): set<Square>
    requires b.Valid()
  {
    Pieces(b, c, PAWN) - RankSquares(PromotionRank(c))
  }

  /** The en-passant target as a mask: empty when there is none. A stored
      target from 64 to 254 would be shifted past the bitboard in the
      source; it is taken as no target. */
  function EnPassantTarget(b: Board): (r: set<Square>)
  {
    if 0 <= b.enPassant < 64 then {b.enPassant} else {}
  }

  /** A square of a shifted set came from its square minus the direction's
      offset, one step away. */
  lemma StepImageOrigin(s: set<Square>, d: Dir, sq: Square)
    requires sq in StepImage(s, d)
    ensures 0 <= sq - d.Offset() < 64 && sq - d.Offset() in s
    ensures Step(sq - d.Offset(), d) == Some(sq)
  {
    var p :| p in s && Step(p, d).Some? && Step(p, d).value == sq;
    StepAddsOffset(p, d);
  }

  /** Every square of a mask inside a shifted set came one step from a
      square of that set. */
  lemma ShiftedOrigins(s: set<Square>, d: Dir, mask: set<Square>)
    requires mask <= StepImage(s, d)
    ensures OnBoardBehind(mask, d.Offset())
  {
    forall sq | sq in mask
      ensures 0 <= sq - d.Offset() < 64
    {
      StepImageOrigin(s, d, sq);
    }
  }

  /** The mask of a pawn move set whose pawns stand off squares behind. */
  predicate OnBoardBehind(mask: set<Square>, off: int)
  {
    forall sq :: sq in mask ==> 0 <= sq - off < 64
  }

  /** encode_pawn_moves<C, D, MT> of a mask, lowest target first. */
  function PlainMask(ci: CheckInfo, off: int, mtype: int, mask: set<Square>): (r: seq<Mv>)
    requires |ci.pins| == 64 && OnBoardBehind(mask, off)
    ensures forall m :: m in r <==>
      m.to in mask && m.from == m.to - off && m.mtype == mtype && m.flag == NORMAL
      && PinAllows(ci, m.from, m.to)
  {
    PlainEncode(ci, off, mtype, Ascending(mask))
  }

  /** encode_pawn_moves<C, D, MT, true> of a mask. */
  function PromotionMask(ci: CheckInfo, off: int, mtype: int, mask: set<Square>): (r: seq<Mv>)
    requires |ci.pins| == 64 && OnBoardBehind(mask, off)
    ensures InQuads(r)
    ensures forall m :: m in r <==>
      m.to in mask && m.from == m.to - off && m.mtype == mtype && m.flag in PROMOTION_ORDER
      && PinAllows(ci, m.from, m.to)
  {
    PromotionEncode(ci, off, mtype, Ascending(mask))
  }

  /** encode_pawn_moves<C, D, CAPTURE, false, true> of a mask. */
  function EnPassantMask(b: Board, ci: CheckInfo, off: int, mask: set<Square>): (r: seq<Mv>)
    requires Ready(b, ci) && OnBoardBehind(mask, off)
    ensures forall m :: m in r ==>
      m.to in mask && m.from == m.to - off && m.mtype == CAPTURE && m.flag == EN_PASSANT
      && PinAllows(ci, m.from, m.to) && EnPassantAllowed(b, ci, m.from, m.to)
  {
    EnPassantEncode(b, ci, off, Ascending(mask))
  }

  /** The single pushes before must_cover is applied: a step forward from a
      pawn that is not about to promote, onto an empty square. */
  function SinglePushes(b: Board, c: Side): set<Square>
    requires b.Valid()
  {
    StepImage(NonPromoPawns(b, c), Forward(c)) - Occupied(b)
  }

  /** The quiet half of generate_pawn_moves: single pushes, then double
      pushes onto the fourth rank of the side, both inside must_cover. */
  function PawnPushes(b: Board, ci: CheckInfo): (r: seq<Mv>)
    requires Ready(b, ci)
  {
    var c: Side := b.toMove;
    ShiftedOrigins(NonPromoPawns(b, c), Forward(c), SinglePushMask(b, ci));
    DoublePushOrigins(b, ci, c);
    PlainMask(ci, Forward(c).Offset(), QUIET, SinglePushMask(b, ci))
    + PlainMask(ci, ForwardTwice(c), QUIET, DoublePushes(b, ci, c))
  }

  /** The single pushes inside must_cover. */
  function SinglePushMask(b: Board, ci: CheckInfo): set<Square>
    requires Ready(b, ci)
  {
    SinglePushes(b, b.toMove) * ci.mustCover
  }

  /** The double pushes: a second step forward from a single push, onto an
      empty square of the side's fourth rank inside must_cover. */
  function DoublePushes(b: Board, ci: CheckInfo, c: Side): set<Square>
    requires b.Valid()
  {
    (StepImage(SinglePushes(b, c), Forward(c)) - Occupied(b)) * RankSquares(DoublePushRank(c)) * ci.mustCover
  }

  /** A double push's target is two steps from a pawn that is not about to
      promote, over an empty square. */
  lemma DoublePushOrigins(b: Board, ci: CheckInfo, c: Side)
    requires b.Valid()
    ensures forall sq :: sq in DoublePushes(b, ci, c) ==>
      0 <= sq - ForwardTwice(c) < 64 && sq - Forward(c).Offset() in SinglePushes(b, c)
      && sq - ForwardTwice(c) in NonPromoPawns(b, c)
  {
    var fwd := Forward(c);
    forall sq | sq in DoublePushes(b, ci, c)
      ensures 0 <= sq - ForwardTwice(c) < 64 && sq - fwd.Offset() in SinglePushes(b, c)
      ensures sq - ForwardTwice(c) in NonPromoPawns(b, c)
    {
      StepImageOrigin(SinglePushes(b, c), fwd, sq);
      StepImageOrigin(NonPromoPawns(b, c), fwd, sq - fwd.Offset());
    }
  }

  /** The masks of the capture half: promoting captures, promoting pushes,
      ordinary captures (all inside must_cover) and en passant. */
  function PromoCaptureMask(b: Board, ci: CheckInfo, d: Dir): set<Square>
    requires Ready(b, ci)
  {
    StepImage(PromoPawns(b, b.toMove), d) * ColorSquares(b, Other(b.toMove)) * ci.mustCover
  }

  function PromoPushMask(b: Board, ci: CheckInfo): set<Square>
    requires Ready(b, ci)
  {
    (StepImage(PromoPawns(b, b.toMove), Forward(b.toMove)) - Occupied(b)) * ci.mustCover
  }

  function CaptureMask(b: Board, ci: CheckInfo, d: Dir): set<Square>
    requires Ready(b, ci)
  {
    StepImage(NonPromoPawns(b, b.toMove), d) * ColorSquares(b, Other(b.toMove)) * ci.mustCover
  }

  function EnPassantMaskOf(b: Board, d: Dir): set<Square>
    requires HasKingToMove(b)
  {
    StepImage(NonPromoPawns(b, b.toMove), d) * EnPassantTarget(b)
  }

  /** The promotions of generate_pawn_moves: capturing right, capturing
      left, then pushing. */
  function PromotionMoves(b: Board, ci: CheckInfo): (r: seq<Mv>)
    requires Ready(b, ci)
  {
    var c: Side := b.toMove;
    ShiftedOrigins(PromoPawns(b, c), ForwardRight(c), PromoCaptureMask(b, ci, ForwardRight(c)));
    ShiftedOrigins(PromoPawns(b, c), ForwardLeft(c), PromoCaptureMask(b, ci, ForwardLeft(c)));
    ShiftedOrigins(PromoPawns(b, c), Forward(c), PromoPushMask(b, ci));
    PromotionMask(ci, ForwardRight(c).Offset(), CAPTURE, PromoCaptureMask(b, ci, ForwardRight(c)))
    + PromotionMask(ci, ForwardLeft(c).Offset(), CAPTURE, PromoCaptureMask(b, ci, ForwardLeft(c)))
    + PromotionMask(ci, Forward(c).Offset(), QUIET, PromoPushMask(b, ci))
  }

  /** The ordinary pawn captures, right then left. */
  function PlainCaptures(b: Board, ci: CheckInfo): (r: seq<Mv>)
    requires Ready(b, ci)
  {
    var c: Side := b.toMove;
    ShiftedOrigins(NonPromoPawns(b, c), ForwardRight(c), CaptureMask(b, ci, ForwardRight(c)));
    ShiftedOrigins(NonPromoPawns(b, c), ForwardLeft(c), CaptureMask(b, ci, ForwardLeft(c)));
    PlainMask(ci, ForwardRight(c).Offset(), CAPTURE, CaptureMask(b, ci, ForwardRight(c)))
    + PlainMask(ci, ForwardLeft(c).Offset(), CAPTURE, CaptureMask(b, ci, ForwardLeft(c)))
  }

  /** The en-passant captures, right then left; must_cover is not applied
      to these masks (the check rule is inside encode_pawn_moves). */
  function EnPassantMoves(b: Board, ci: CheckInfo): (r: seq<Mv>)
    requires Ready(b, ci)
  {
    var c: Side := b.toMove;
    ShiftedOrigins(NonPromoPawns(b, c), ForwardRight(c), EnPassantMaskOf(b, ForwardRight(c)));
    ShiftedOrigins(NonPromoPawns(b, c), ForwardLeft(c), EnPassantMaskOf(b, ForwardLeft(c)));
    EnPassantMask(b, ci, ForwardRight(c).Offset(), EnPassantMaskOf(b, ForwardRight(c)))
    + EnPassantMask(b, ci, ForwardLeft(c).Offset(), EnPassantMaskOf(b, ForwardLeft(c)))
  }

  /** The capture half of generate_pawn_moves: promotions, captures, then
      en passant. */
  function PawnCaptures(b: Board, ci: CheckInfo): (r: seq<Mv>)
    requires Ready(b, ci)
  {
    PromotionMoves(b, ci) + PlainCaptures(b, ci) + EnPassantMoves(b, ci)
  }

  /** generate_pawn_moves<C, M>. */
  function PawnMoves(b: Board, ci: CheckInfo, mode: Mode): (r: seq<Mv>)
    requires Ready(b, ci)
  {
    (if mode.Quiets() then PawnPushes(b, ci) else [])
    + (if mode.Captures() then PawnCaptures(b, ci) else [])
  }

  /** What every move of the quiet half of generate_pawn_moves satisfies:
      a quiet, plain step or double step of a pawn that is not about to
      promote, onto an empty square of must_cover, along its pin line. */
  predicate PawnPushOk(b: Board, ci: CheckInfo, m: Mv)
    requires Ready(b, ci)
  {
    m.mtype == QUIET && m.flag == NORMAL
    && m.from in NonPromoPawns(b, b.toMove) && m.to !in Occupied(b) && m.to in ci.mustCover
    && PinAllows(ci, m.from, m.to)
    && (m.to == m.from + Forward(b.toMove).Offset() || m.to == m.from + ForwardTwice(b.toMove))
  }

  lemma PawnPushFacts(b: Board, ci: CheckInfo, m: Mv)
    requires Ready(b, ci) && m in PawnPushes(b, ci)
    ensures PawnPushOk(b, ci, m)
  {
    var c: Side := b.toMove;
    ShiftedOrigins(NonPromoPawns(b, c), Forward(c), SinglePushMask(b, ci));
    DoublePushOrigins(b, ci, c);
    if m in PlainMask(ci, Forward(c).Offset(), QUIET, SinglePushMask(b, ci)) {
      SinglePushFacts(b, ci, m);
    } else {
      DoublePushFacts(b, ci, m);
    }
  }

  lemma SinglePushFacts(b: Board, ci: CheckInfo, m: Mv)
    requires Ready(b, ci) && OnBoardBehind(SinglePushMask(b, ci), Forward(b.toMove).Offset())
    requires m in PlainMask(ci, Forward(b.toMove).Offset(), QUIET, SinglePushMask(b, ci))
    ensures PawnPushOk(b, ci, m)
  {
    var c: Side := b.toMove;
    assert m.to in SinglePushMask(b, ci) && m.from == m.to - Forward(c).Offset();
    SegmentOrigin(NonPromoPawns(b, c), Forward(c), SinglePushMask(b, ci), m);
    assert m.to !in Occupied(b) && m.to in ci.mustCover;
  }

  lemma DoublePushFacts(b: Board, ci: CheckInfo, m: Mv)
    requires Ready(b, ci) && OnBoardBehind(DoublePushes(b, ci, b.toMove), ForwardTwice(b.toMove))
    requires m in PlainMask(ci, ForwardTwice(b.toMove), QUIET, DoublePushes(b, ci, b.toMove))
    ensures PawnPushOk(b, ci, m)
  {
    var c: Side := b.toMove;
    assert m.to in DoublePushes(b, ci, c) && m.from == m.to - ForwardTwice(c);
    DoublePushOrigins(b, ci, c);
    assert m.to !in Occupied(b) && m.to in ci.mustCover;
  }

  /** What every move of the capture half of generate_pawn_moves satisfies:
      a pawn moves along its pin line; en passant obeys its rules; any other
      move lands in must_cover, a capture on an enemy piece, a promotion
      push on an empty square, and is a capture or a promotion. */
  predicate PawnCaptureOk(b: Board, ci: CheckInfo, m: Mv)
    requires Ready(b, ci)
  {
    m.from in Pieces(b, b.toMove, PAWN) && PinAllows(ci, m.from, m.to)
    && (m.flag == EN_PASSANT ==> m.mtype == CAPTURE && EnPassantAllowed(b, ci, m.from, m.to))
    && (m.flag != EN_PASSANT ==>
          m.to in ci.mustCover
          && (m.mtype == CAPTURE || (m.mtype == QUIET && m.flag in PROMOTION_ORDER))
          && (m.flag == NORMAL || m.flag in PROMOTION_ORDER)
          && (m.mtype == CAPTURE ==> m.to in ColorSquares(b, Other(b.toMove)))
          && (m.mtype == QUIET ==> m.to !in Occupied(b)))
  }

  lemma PawnCaptureFacts(b: Board, ci: CheckInfo, m: Mv)
    requires Ready(b, ci) && m in PawnCaptures(b, ci)
    ensures PawnCaptureOk(b, ci, m)
  {
    if m in PromotionMoves(b, ci) {
      PromotionFacts(b, ci, m);
    } else if m in PlainCaptures(b, ci) {
      PlainCaptureFacts(b, ci, m);
    } else {
      EnPassantFacts(b, ci, m);
    }
  }

  lemma PromotionFacts(b: Board, ci: CheckInfo, m: Mv)
    requires Ready(b, ci) && m in PromotionMoves(b, ci)
    ensures PawnCaptureOk(b, ci, m)
  {
    var c: Side := b.toMove;
    var promo := PromoPawns(b, c);
    ShiftedOrigins(promo, ForwardRight(c), PromoCaptureMask(b, ci, ForwardRight(c)));
    ShiftedOrigins(promo, ForwardLeft(c), PromoCaptureMask(b, ci, ForwardLeft(c)));
    ShiftedOrigins(promo, Forward(c), PromoPushMask(b, ci));
    if m in PromotionMask(ci, ForwardRight(c).Offset(), CAPTURE, PromoCaptureMask(b, ci, ForwardRight(c))) {
      SegmentOrigin(promo, ForwardRight(c), PromoCaptureMask(b, ci, ForwardRight(c)), m);
    } else if m in PromotionMask(ci, ForwardLeft(c).Offset(), CAPTURE, PromoCaptureMask(b, ci, ForwardLeft(c))) {
      SegmentOrigin(promo, ForwardLeft(c), PromoCaptureMask(b, ci, ForwardLeft(c)), m);
    } else {
      SegmentOrigin(promo, Forward(c), PromoPushMask(b, ci), m);
    }
  }

  lemma PlainCaptureFacts(b: Board, ci: CheckInfo, m: Mv)
    requires Ready(b, ci) && m in PlainCaptures(b, ci)
    ensures PawnCaptureOk(b, ci, m)
  {
    var c: Side := b.toMove;
    var other := NonPromoPawns(b, c);
    ShiftedOrigins(other, ForwardRight(c), CaptureMask(b, ci, ForwardRight(c)));
    ShiftedOrigins(other, ForwardLeft(c), CaptureMask(b, ci, ForwardLeft(c)));
    if m in PlainMask(ci, ForwardRight(c).Offset(), CAPTURE, CaptureMask(b, ci, ForwardRight(c))) {
      SegmentOrigin(other, ForwardRight(c), CaptureMask(b, ci, ForwardRight(c)), m);
    } else {
      SegmentOrigin(other, ForwardLeft(c), CaptureMask(b, ci, ForwardLeft(c)), m);
    }
  }

  lemma EnPassantFacts(b: Board, ci: CheckInfo, m: Mv)
    requires Ready(b, ci) && m in EnPassantMoves(b, ci)
    ensures PawnCaptureOk(b, ci, m)
  {
    var c: Side := b.toMove;
    var other := NonPromoPawns(b, c);
    ShiftedOrigins(other, ForwardRight(c), EnPassantMaskOf(b, ForwardRight(c)));
    ShiftedOrigins(other, ForwardLeft(c), EnPassantMaskOf(b, ForwardLeft(c)));
    if m in EnPassantMask(b, ci, ForwardRight(c).Offset(), EnPassantMaskOf(b, ForwardRight(c))) {
      SegmentOrigin(other, ForwardRight(c), EnPassantMaskOf(b, ForwardRight(c)), m);
    } else {
      SegmentOrigin(other, ForwardLeft(c), EnPassantMaskOf(b, ForwardLeft(c)), m);
    }
  }

  /** A move of a shifted mask starts on a square of the shifted set. */
  lemma SegmentOrigin(s: set<Square>, d: Dir, mask: set<Square>, m: Mv)
    requires mask <= StepImage(s, d) && m.to in mask && m.from == m.to - d.Offset()
    ensures m.from in s
  {
    StepImageOrigin(s, d, m.to);
  }

  // ---------------------------------------------------------------------------
  // generate_castling_moves

  /** One castle of one side: the rights bit it needs, the king's target,
      and the two squares the king crosses and lands on. */
  datatype Castle = Castle(right: CastlingRights, to: Square, transit: set<Square>)

  function ShortCastle(c: Side): Castle
  {
    if c == WHITE then Castle(WHITE_SHORT, G1, {F1, G1}) else Castle(BLACK_SHORT, G8, {F8, G8})
  }

  function LongCastle(c: Side): Castle
  {
    if c == WHITE then Castle(WHITE_LONG, C1, {D1, C1}) else Castle(BLACK_LONG, C8, {D8, C8})
  }

  /** KING_SQUARE: where the king castles from. */
  function KingHome(c: Side): Square
  {
    if c == WHITE then E1 else E8
  }

  /** The conditions of one castle: no check, the right held, the castle
      path empty and the king's two squares not attacked. */
  predicate CastleAllowed(b: Board, ci: CheckInfo, castle: Castle, path: set<Square>)
    requires b.Valid()
  {
    ci.checkers == {} && b.castling & castle.right != 0
    && Occupied(b) * path == {} && castle.transit * ci.unsafe == {}
  }

  /** generate_castling_moves<C>: the short castle, then the long one. */
  function CastlingMoves(t: Tables, b: Board, ci: CheckInfo): (r: seq<Mv>)
    requires Ready(b, ci)
  {
    var c: Side := b.toMove;
    var short := ShortCastle(c);
    var long := LongCastle(c);
    if |ci.checkers| != 0 then []
    else
      (if b.castling & short.right != 0 && Occupied(b) * t.shortPath(c) == {} && short.transit * ci.unsafe == {}
       then [Mv(KingHome(c), short.to, QUIET, CASTLE)] else [])
      + (if b.castling & long.right != 0 && Occupied(b) * t.longPath(c) == {} && long.transit * ci.unsafe == {}
         then [Mv(KingHome(c), long.to, QUIET, CASTLE)] else [])
  }

  // ---------------------------------------------------------------------------
  // generate_moves_impl and generate_moves

  /** generate_moves_impl<C, M>: in double check only king moves; otherwise
      castling (for quiet modes), pawns, bishops, knights, rooks, queens and
      the king. */
  function GenerateImpl(t: Tables, b: Board, ci: CheckInfo, mode: Mode): (r: seq<Mv>)
    requires Ready(b, ci)
  {
    if |ci.checkers| == 2 then PieceMoves(b, ci, KING, mode)
    else (if mode.Quiets() then CastlingMoves(t, b, ci) else []) + NonCastles(b, ci, mode)
  }

  /** The moves of generate_moves_impl after the castles: the pawns', then
      the other kinds' in PIECE_ORDER. */
  function NonCastles(b: Board, ci: CheckInfo, mode: Mode): (r: seq<Mv>)
    requires Ready(b, ci)
  {
    PawnMoves(b, ci, mode) + KindsMoves(b, ci, PIECE_ORDER, mode)
  }

  /** The order of the generate_piece_moves calls after the pawns. */
  const PIECE_ORDER: seq<PieceKind> := [BISHOP, KNIGHT, ROOK, QUEEN, KING]

  /** generate_piece_moves for each kind of kinds in turn. */
  function KindsMoves(b: Board, ci: CheckInfo, kinds: seq<PieceKind>, mode: Mode): (r: seq<Mv>)
    requires Ready(b, ci)
  {
    if kinds == [] then [] else PieceMoves(b, ci, kinds[0], mode) + KindsMoves(b, ci, kinds[1..], mode)
  }

  /** The kind whose generate_piece_moves call emitted a move. */
  lemma {:induction false} KindOf(b: Board, ci: CheckInfo, kinds: seq<PieceKind>, mode: Mode, m: Mv)
    returns (k: PieceKind)
    requires Ready(b, ci) && m in KindsMoves(b, ci, kinds, mode)
    ensures k in kinds && m in PieceMoves(b, ci, k, mode)
    decreases |kinds|
  {
    if m in PieceMoves(b, ci, kinds[0], mode) {
      k := kinds[0];
    } else {
      k := KindOf(b, ci, kinds[1..], mode, m);
    }
  }

  /** Every kind's moves are among KindsMoves. */
  lemma {:induction false} KindsInclude(b: Board, ci: CheckInfo, kinds: seq<PieceKind>, mode: Mode, k: PieceKind, m: Mv)
    requires Ready(b, ci) && k in kinds && m in PieceMoves(b, ci, k, mode)
    ensures m in KindsMoves(b, ci, kinds, mode)
    decreases |kinds|
  {
    if kinds[0] != k {
      KindsInclude(b, ci, kinds[1..], mode, k, m);
    }
  }

  /** generate_moves<M>: the check information of the side to move, then
      its moves. */
  function Generate(t: Tables, b: Board, mode: Mode): (r: seq<Mv>)
    requires HasKingToMove(b)
  {
    GenerateImpl(t, b, ComputeCheckInfo(t, b), mode)
  }

  // ---------------------------------------------------------------------------
  // What the generated moves satisfy.

  /** What every move of generate_piece_moves satisfies: a plain move of one
      of our pieces of that kind, off our own pieces and along its pin line;
      the king stays off unsafe squares and off squares a slider would attack
      once it has left, the others land in must_cover; quiet moves go to
      empty squares and captures onto enemy pieces, as the mode asks. */
  predicate PieceMoveOk(b: Board, ci: CheckInfo, kind: PieceKind, mode: Mode, m: Mv)
    requires Ready(b, ci)
  {
    m.from in Pieces(b, b.toMove, kind) && m.flag == NORMAL
    && m.to !in ColorSquares(b, b.toMove) && PinAllows(ci, m.from, m.to)
    && (kind == KING ==> m.to !in ci.unsafe)
    && (kind != KING ==> m.to in ci.mustCover)
    && ((m.mtype == QUIET && mode.Quiets() && m.to !in Occupied(b))
        || (m.mtype == CAPTURE && mode.Captures() && m.to in ColorSquares(b, Other(b.toMove))))
    && (kind == KING && m.mtype == CAPTURE ==> !AttackedBySlider(b, Toggle(Occupied(b), {m.from}), m.to))
  }

  lemma PieceMoveFacts(b: Board, ci: CheckInfo, kind: PieceKind, mode: Mode, m: Mv)
    requires Ready(b, ci) && m in PieceMoves(b, ci, kind, mode)
    ensures PieceMoveOk(b, ci, kind, mode, m)
  {
    assert m in OriginMoves(b, ci, kind, m.from, mode);
  }

  /** The castling moves are the castles whose conditions hold, each from
      the king's home square to its target. */
  lemma CastlingFacts(t: Tables, b: Board, ci: CheckInfo, m: Mv)
    requires Ready(b, ci)
    ensures m in CastlingMoves(t, b, ci) <==>
      m.from == KingHome(b.toMove) && m.mtype == QUIET && m.flag == CASTLE
      && ((m.to == ShortCastle(b.toMove).to && CastleAllowed(b, ci, ShortCastle(b.toMove), t.shortPath(b.toMove)))
          || (m.to == LongCastle(b.toMove).to && CastleAllowed(b, ci, LongCastle(b.toMove), t.longPath(b.toMove))))
  {
    if |ci.checkers| != 0 {
      assert ci.checkers != {};
      assert CastlingMoves(t, b, ci) == [];
    } else {
      assert ci.checkers == {};
    }
  }

  /** Which part of generate_moves_impl emitted a move. */
  datatype Part = CastlingPart | PawnPart | PiecePart(kind: PieceKind)

  /** Every generated move comes from the castling part (quiet modes, not in
      double check), the pawn part (not in double check) or the part of one
      piece kind (only the king in double check). */
  lemma PartOf(t: Tables, b: Board, ci: CheckInfo, mode: Mode, m: Mv) returns (p: Part)
    requires Ready(b, ci) && m in GenerateImpl(t, b, ci, mode)
    ensures p.CastlingPart? ==> mode.Quiets() && |ci.checkers| != 2 && m in CastlingMoves(t, b, ci)
    ensures p.PawnPart? ==> |ci.checkers| != 2 && m in PawnMoves(b, ci, mode)
    ensures p.PiecePart? ==> p.kind != PAWN && m in PieceMoves(b, ci, p.kind, mode)
    ensures p.PiecePart? && |ci.checkers| == 2 ==> p.kind == KING
  {
    if |ci.checkers| == 2 {
      p := PiecePart(KING);
    } else if mode.Quiets() && m in CastlingMoves(t, b, ci) {
      p := CastlingPart;
    } else if m in PawnMoves(b, ci, mode) {
      p := PawnPart;
    } else {
      var k := KindOf(b, ci, PIECE_ORDER, mode, m);
      p := PiecePart(k);
    }
  }

  /** With two checkers only the king moves, and it does not castle. */
  lemma DoubleCheckOnlyKing(t: Tables, b: Board, ci: CheckInfo, mode: Mode, m: Mv)
    requires Ready(b, ci) && |ci.checkers| == 2 && m in GenerateImpl(t, b, ci, mode)
    ensures m.from in Pieces(b, b.toMove, KING) && m.flag == NORMAL
  {
    PieceMoveFacts(b, ci, KING, mode, m);
  }

  /** The king never moves onto an unsafe square, and never captures onto a
      square a slider would attack once the king has left its square. */
  lemma KingMovesAreSafe(t: Tables, b: Board, ci: CheckInfo, mode: Mode, m: Mv)
    requires Ready(b, ci) && m in GenerateImpl(t, b, ci, mode)
    requires m.from in Pieces(b, b.toMove, KING) && m.flag != CASTLE
    ensures m.to !in ci.unsafe
    ensures m.mtype == CAPTURE ==> !AttackedBySlider(b, Toggle(Occupied(b), {m.from}), m.to)
  {
    GeneratedFacts(t, b, ci, mode, m);
    CastlingFacts(t, b, ci, m);
  }

  /** No move other than a castle or en passant lands on a friendly piece. */
  lemma NeverOntoOwnPiece(t: Tables, b: Board, ci: CheckInfo, mode: Mode, m: Mv)
    requires Ready(b, ci) && m in GenerateImpl(t, b, ci, mode)
    requires m.flag != CASTLE && m.flag != EN_PASSANT
    ensures m.to !in ColorSquares(b, b.toMove)
  {
    NotOurs(b, b.toMove, m.to);
    GeneratedFacts(t, b, ci, mode, m);
    CastlingFacts(t, b, ci, m);
  }

  /** Every move but the king's, a castle and en passant lands inside
      must_cover. */
  lemma OthersCoverCheck(t: Tables, b: Board, ci: CheckInfo, mode: Mode, m: Mv)
    requires Ready(b, ci) && m in GenerateImpl(t, b, ci, mode)
    requires m.from !in Pieces(b, b.toMove, KING) && m.flag != CASTLE && m.flag != EN_PASSANT
    ensures m.to in ci.mustCover
  {
    GeneratedFacts(t, b, ci, mode, m);
    CastlingFacts(t, b, ci, m);
  }

  /** A pinned piece moves only along its pin line. */
  lemma PinnedStayOnLine(t: Tables, b: Board, ci: CheckInfo, mode: Mode, m: Mv)
    requires Ready(b, ci) && m in GenerateImpl(t, b, ci, mode) && m.flag != CASTLE
    ensures m.from in ci.pinned ==> m.to in ci.pins[m.from]
  {
    GeneratedFacts(t, b, ci, mode, m);
    CastlingFacts(t, b, ci, m);
  }

  /** An en-passant capture obeys the en-passant rules: in check it takes
      the checker or lands on must_cover, and it leaves no slider attacking
      the king. */
  lemma EnPassantObeysRules(t: Tables, b: Board, ci: CheckInfo, mode: Mode, m: Mv)
    requires Ready(b, ci) && m in GenerateImpl(t, b, ci, mode) && m.flag == EN_PASSANT
    ensures EnPassantAllowed(b, ci, m.from, m.to)
  {
    GeneratedFacts(t, b, ci, mode, m);
    CastlingFacts(t, b, ci, m);
  }

  /** A pawn move starts on a pawn. */
  lemma PawnOrigin(b: Board, ci: CheckInfo, mode: Mode, m: Mv)
    requires Ready(b, ci) && m in PawnMoves(b, ci, mode)
    ensures m.from in Pieces(b, b.toMove, PAWN)
  {
    if mode.Quiets() && m in PawnPushes(b, ci) {
      PawnPushFacts(b, ci, m);
    } else {
      PawnCaptureFacts(b, ci, m);
    }
  }

  /** What any generated move satisfies, by the part that emitted it: a
      castle the castling part allows, a pawn push or pawn capture with their
      facts, or a piece move of one kind (the king's in double check). */
  lemma GeneratedFacts(t: Tables, b: Board, ci: CheckInfo, mode: Mode, m: Mv)
    requires Ready(b, ci) && m in GenerateImpl(t, b, ci, mode)
    ensures || (mode.Quiets() && |ci.checkers| != 2 && m in CastlingMoves(t, b, ci))
            || (mode.Quiets() && |ci.checkers| != 2 && PawnPushOk(b, ci, m))
            || (mode.Captures() && |ci.checkers| != 2 && PawnCaptureOk(b, ci, m))
            || (exists k: PieceKind :: k != PAWN && (|ci.checkers| == 2 ==> k == KING) && PieceMoveOk(b, ci, k, mode, m))
  {
    var p := PartOf(t, b, ci, mode, m);
    if p.PawnPart? {
      if mode.Quiets() && m in PawnPushes(b, ci) {
        PawnPushFacts(b, ci, m);
      } else {
        PawnCaptureFacts(b, ci, m);
      }
    } else if p.PiecePart? {
      PieceMoveFacts(b, ci, p.kind, mode, m);
    }
  }

  /** An empty square or an enemy piece is not one of ours. */
  lemma NotOurs(b: Board, c: Side, sq: Square)
    requires b.Valid()
    ensures sq !in Occupied(b) ==> sq !in ColorSquares(b, c)
    ensures sq in ColorSquares(b, Other(c)) ==> sq !in ColorSquares(b, c)
  {
  }

  // ---------------------------------------------------------------------------
  // Castles, double pushes and the en-passant occupancy.

  /** Only the castling part flags a move CASTLE, and only in the quiet
      modes. */
  lemma CastleComesFromCastling(t: Tables, b: Board, ci: CheckInfo, mode: Mode, m: Mv)
    requires Ready(b, ci) && m.flag == CASTLE && m in GenerateImpl(t, b, ci, mode)
    ensures mode.Quiets() && m in CastlingMoves(t, b, ci)
  {
    PromotionOrderFlags();
    GeneratedFacts(t, b, ci, mode, m);
    CastlingFacts(t, b, ci, m);
  }

  /** Every castle the castling part emits is generated in the quiet
      modes. */
  lemma CastlingIsGenerated(t: Tables, b: Board, ci: CheckInfo, mode: Mode, m: Mv)
    requires Ready(b, ci) && mode.Quiets() && m in CastlingMoves(t, b, ci)
    ensures m in GenerateImpl(t, b, ci, mode)
  {
    CastlingFacts(t, b, ci, m);
    assert |ci.checkers| == 0;
  }

  /** A double push crosses an empty square and lands on an empty square of
      the side's fourth rank. */
  lemma DoublePushIsClear(b: Board, ci: CheckInfo, m: Mv)
    requires Ready(b, ci) && m in PawnPushes(b, ci) && m.to == m.from + ForwardTwice(b.toMove)
    ensures m.from + Forward(b.toMove).Offset() !in Occupied(b)
    ensures m.to !in Occupied(b) && m.to in RankSquares(DoublePushRank(b.toMove))
  {
    var c: Side := b.toMove;
    ShiftedOrigins(NonPromoPawns(b, c), Forward(c), SinglePushMask(b, ci));
    DoublePushOrigins(b, ci, c);
    assert ForwardTwice(c) == 2 * Forward(c).Offset();
    if m in PlainMask(ci, Forward(c).Offset(), QUIET, SinglePushMask(b, ci)) {
      assert false;
    }
    assert m.to in DoublePushes(b, ci, c) && m.from == m.to - ForwardTwice(c);
    DoubleStepFacts(b, ci, m);
  }

  lemma DoubleStepFacts(b: Board, ci: CheckInfo, m: Mv)
    requires Ready(b, ci) && m.to in DoublePushes(b, ci, b.toMove)
    requires m.from + Forward(b.toMove).Offset() == m.to - Forward(b.toMove).Offset()
    ensures m.from + Forward(b.toMove).Offset() !in Occupied(b)
    ensures m.to !in Occupied(b) && m.to in RankSquares(DoublePushRank(b.toMove))
  {
    var c: Side := b.toMove;
    assert m.to in StepImage(SinglePushes(b, c), Forward(c));
    StepImageOrigin(SinglePushes(b, c), Forward(c), m.to);
    SinglePushIsEmpty(b, c, m.to - Forward(c).Offset());
  }

  lemma SinglePushIsEmpty(b: Board, c: Side, sq: int)
    requires b.Valid() && sq in SinglePushes(b, c)
    ensures sq !in Occupied(b)
  {
  }

  /** The en-passant occupancy is the board's with the capturing pawn moved
      to the target and the captured pawn gone. */
  lemma EnPassantOccupancyMoves(b: Board, from: Square, to: Square)
    requires HasKingToMove(b) && from in Occupied(b) && to !in Occupied(b)
    requires StepImage({to}, Forward(b.toMove).Opposite()) <= Occupied(b)
    requires from !in StepImage({to}, Forward(b.toMove).Opposite())
    ensures EnPassantOccupancy(b, from, to)
      == Occupied(b) - {from} - StepImage({to}, Forward(b.toMove).Opposite()) + {to}
  {
    var cap := StepImage({to}, Forward(b.toMove).Opposite());
    var occ := Occupied(b);
    ToggleTwice(occ, {from});
    assert Toggle(occ, {from}) == occ - {from};
    assert Toggle(occ - {from}, {to}) == occ - {from} + {to};
    assert cap <= occ - {from} + {to};
    ToggleTwice(occ - {from} + {to}, cap);
  }

  /** Toggling the three masks back, in reverse order, restores the board's
      occupancy. */
  lemma EnPassantOccupancyRestored(b: Board, from: Square, to: Square)
    requires HasKingToMove(b)
    ensures Toggle(Toggle(Toggle(EnPassantOccupancy(b, from, to),
      StepImage({to}, Forward(b.toMove).Opposite())), {to}), {from}) == Occupied(b)
  {
    var cap := StepImage({to}, Forward(b.toMove).Opposite());
    var occ := Occupied(b);
    ToggleTwice(Toggle(Toggle(occ, {from}), {to}), cap);
    ToggleTwice(Toggle(occ, {from}), {to});
    ToggleTwice(occ, {from});
  }

  // ---------------------------------------------------------------------------
  // The two phases of the move selector.

  /** QUIET_ONLY generates quiet moves only: plain moves and castles, no
      capture, promotion or en passant. */
  lemma QuietOnlyIsQuiet(t: Tables, b: Board, ci: CheckInfo, m: Mv)
    requires Ready(b, ci) && m in GenerateImpl(t, b, ci, QuietOnly)
    ensures m.mtype == QUIET && (m.flag == NORMAL || m.flag == CASTLE)
  {
    GeneratedFacts(t, b, ci, QuietOnly, m);
    CastlingFacts(t, b, ci, m);
  }

  /** CAPTURES_AND_PROMOTIONS generates captures and promotions only, and
      never a castle. */
  lemma CapturesAreLoud(t: Tables, b: Board, ci: CheckInfo, m: Mv)
    requires Ready(b, ci) && m in GenerateImpl(t, b, ci, CapturesAndPromotions)
    ensures m.mtype == CAPTURE || IsPromotionFlag(m.flag)
    ensures m.flag != CASTLE
  {
    PromotionOrderFlags();
    GeneratedFacts(t, b, ci, CapturesAndPromotions, m);
  }

  /** The only quiet moves of CAPTURES_AND_PROMOTIONS are promotion pushes,
      onto empty squares. */
  lemma LoudQuietIsPromotionPush(t: Tables, b: Board, ci: CheckInfo, m: Mv)
    requires Ready(b, ci) && m in GenerateImpl(t, b, ci, CapturesAndPromotions) && m.mtype == QUIET
    ensures IsPromotionFlag(m.flag) && m.to !in Occupied(b)
  {
    PromotionOrderFlags();
    GeneratedFacts(t, b, ci, CapturesAndPromotions, m);
  }

  /** PROMOTION_ORDER holds the four promotion flags and nothing else. */
  lemma PromotionOrderFlags()
    ensures forall f :: f in PROMOTION_ORDER <==> IsPromotionFlag(f)
  {
  }

  /** Splitting two move lists into quiet and capture parts splits their
      concatenation. */
  lemma ConcatSplit(a: seq<Mv>, b: seq<Mv>, aq: seq<Mv>, bq: seq<Mv>, ac: seq<Mv>, bc: seq<Mv>)
    requires multiset(a) == multiset(aq) + multiset(ac)
    requires multiset(b) == multiset(bq) + multiset(bc)
    ensures multiset(a + b) == multiset(aq + bq) + multiset(ac + bc)
  {
  }

  /** For one origin square, ALL emits the quiet moves and then the
      captures. */
  lemma OriginSplit(b: Board, ci: CheckInfo, kind: PieceKind, from: Square)
    requires Ready(b, ci)
    ensures multiset(OriginMoves(b, ci, kind, from, All))
      == multiset(OriginMoves(b, ci, kind, from, QuietOnly))
       + multiset(OriginMoves(b, ci, kind, from, CapturesAndPromotions))
  {
    assert OriginMoves(b, ci, kind, from, QuietOnly) == QuietMovesFrom(b, ci, kind, from) + [];
    assert OriginMoves(b, ci, kind, from, CapturesAndPromotions) == [] + CapturesFrom(b, ci, kind, from);
  }

  lemma {:induction false} OriginsSplit(b: Board, ci: CheckInfo, kind: PieceKind, froms: seq<Square>)
    requires Ready(b, ci)
    ensures multiset(OriginsMoves(b, ci, kind, froms, All))
      == multiset(OriginsMoves(b, ci, kind, froms, QuietOnly))
       + multiset(OriginsMoves(b, ci, kind, froms, CapturesAndPromotions))
    decreases |froms|
  {
    if froms != [] {
      OriginsSplit(b, ci, kind, froms[1..]);
      OriginSplit(b, ci, kind, froms[0]);
      ConcatSplit(OriginMoves(b, ci, kind, froms[0], All), OriginsMoves(b, ci, kind, froms[1..], All),
        OriginMoves(b, ci, kind, froms[0], QuietOnly), OriginsMoves(b, ci, kind, froms[1..], QuietOnly),
        OriginMoves(b, ci, kind, froms[0], CapturesAndPromotions),
        OriginsMoves(b, ci, kind, froms[1..], CapturesAndPromotions));
    }
  }

  lemma {:induction false} KindsSplit(b: Board, ci: CheckInfo, kinds: seq<PieceKind>)
    requires Ready(b, ci)
    ensures multiset(KindsMoves(b, ci, kinds, All))
      == multiset(KindsMoves(b, ci, kinds, QuietOnly)) + multiset(KindsMoves(b, ci, kinds, CapturesAndPromotions))
    decreases |kinds|
  {
    if kinds != [] {
      var k := kinds[0];
      KindsSplit(b, ci, kinds[1..]);
      OriginsSplit(b, ci, k, Ascending(Pieces(b, b.toMove, k)));
      ConcatSplit(PieceMoves(b, ci, k, All), KindsMoves(b, ci, kinds[1..], All),
        PieceMoves(b, ci, k, QuietOnly), KindsMoves(b, ci, kinds[1..], QuietOnly),
        PieceMoves(b, ci, k, CapturesAndPromotions), KindsMoves(b, ci, kinds[1..], CapturesAndPromotions));
    }
  }

  lemma PawnSplit(b: Board, ci: CheckInfo)
    requires Ready(b, ci)
    ensures multiset(PawnMoves(b, ci, All))
      == multiset(PawnMoves(b, ci, QuietOnly)) + multiset(PawnMoves(b, ci, CapturesAndPromotions))
  {
    assert PawnMoves(b, ci, QuietOnly) == PawnPushes(b, ci) + [];
    assert PawnMoves(b, ci, CapturesAndPromotions) == [] + PawnCaptures(b, ci);
  }

  /** ALL generates, as a multiset, the QUIET_ONLY moves and the
      CAPTURES_AND_PROMOTIONS moves together: the two phases of the move
      selector see each legal move exactly once. */
  lemma PhasesPartitionAll(t: Tables, b: Board, ci: CheckInfo)
    requires Ready(b, ci)
    ensures multiset(GenerateImpl(t, b, ci, All))
      == multiset(GenerateImpl(t, b, ci, QuietOnly)) + multiset(GenerateImpl(t, b, ci, CapturesAndPromotions))
  {
    if |ci.checkers| == 2 {
      OriginsSplit(b, ci, KING, Ascending(Pieces(b, b.toMove, KING)));
    } else {
      PawnSplit(b, ci);
      KindsSplit(b, ci, PIECE_ORDER);
      ConcatSplit(PawnMoves(b, ci, All), KindsMoves(b, ci, PIECE_ORDER, All),
        PawnMoves(b, ci, QuietOnly), KindsMoves(b, ci, PIECE_ORDER, QuietOnly),
        PawnMoves(b, ci, CapturesAndPromotions), KindsMoves(b, ci, PIECE_ORDER, CapturesAndPromotions));
      var castles := CastlingMoves(t, b, ci);
      ConcatSplit(castles, NonCastles(b, ci, All), castles, NonCastles(b, ci, QuietOnly),
        [], NonCastles(b, ci, CapturesAndPromotions));
    }
  }
}

=== FILE: movelist.dfy ===
/** The generator's move stack: a fixed-capacity array with a count of the
    live entries at its front. */
module MoveLists {
  import opened Outcomes

  /** `moves` is the whole backing array, so its length is the capacity, and
      `size` counts the live entries. Pop reports NULL_MOVE as None. */
  datatype MoveList<T> = MoveList(moves: seq<T>, size: int)
  {
    predicate Valid()
    {
      0 <= size <= |moves|
    }
  }

  /** A default-constructed list over a given backing array: nothing live. */
  function Fresh<T>(backing: seq<T>): (l: MoveList<T>)
    ensures l.Valid() && l.size == 0 && |l.moves| == |backing|
  {
    MoveList(backing, 0)
  }

  /** The range begin() .. end(): the live entries, in insertion order. */
  function Items<T>(l: MoveList<T>): seq<T>
    requires l.Valid()
  {
    l.moves[..l.size]
  }

  /** Writes at index size and counts one more; the array must have room. */
  function Add<T>(l: MoveList<T>, m: T): (r: MoveList<T>)
    requires l.Valid() && l.size < |l.moves|
    ensures r.Valid() && r.size == l.size + 1 && |r.moves| == |l.moves|
    ensures r.moves[l.size] == m
    ensures forall i :: 0 <= i < |l.moves| && i != l.size ==> r.moves[i] == l.moves[i]
  {
    MoveList(l.moves[l.size := m], l.size + 1)
  }

  /** Returns the last live entry and drops it, or NULL_MOVE (None) with the
      list unchanged when nothing is live. */
  function Pop<T>(l: MoveList<T>): (r: (Option<T>, MoveList<T>))
    requires l.Valid()
    ensures r.1.Valid() && r.1.moves == l.moves
    ensures l.size == 0 ==> r.0 == None && r.1 == l
    ensures l.size > 0 ==> r.0 == Some(l.moves[l.size - 1]) && r.1.size == l.size - 1
  {
    if l.size == 0 then (None, l)
    else (Some(l.moves[l.size - 1]), MoveList(l.moves, l.size - 1))
  }

  /** operator[]: any index of the backing array, live or not. */
  function At<T>(l: MoveList<T>, index: int): T
    requires 0 <= index < |l.moves|
  {
    l.moves[index]
  }

  /** Adding appends to the live range and leaves the earlier entries alone. */
  lemma AddAppends<T>(l: MoveList<T>, m: T)
    requires l.Valid() && l.size < |l.moves|
    ensures Items(Add(l, m)) == Items(l) + [m]
  {
    assert Items(Add(l, m)) == Items(l) + [m];
  }

  /** Popping takes the live range apart into the rest and its last entry. */
  lemma PopSplits<T>(l: MoveList<T>)
    requires l.Valid() && l.size > 0
    ensures Items(Pop(l).1) + [Pop(l).0.value] == Items(l)
  {
    assert Items(Pop(l).1) + [Pop(l).0.value] == Items(l);
  }

  /** Stack discipline: add(m) then pop() returns m and gives back a list with
      the same live entries (the array keeps m in the freed slot). */
  lemma AddThenPop<T>(l: MoveList<T>, m: T)
    requires l.Valid() && l.size < |l.moves|
    ensures Pop(Add(l, m)).0 == Some(m)
    ensures Pop(Add(l, m)).1.size == l.size
    ensures Items(Pop(Add(l, m)).1) == Items(l)
  {
    AddAppends(l, m);
  }

  /** Popping an empty list any number of times keeps returning NULL_MOVE. */
  lemma PopEmpty<T>(l: MoveList<T>)
    requires l.Valid() && l.size == 0
    ensures Pop(l).0 == None && Pop(Pop(l).1).0 == None && Pop(l).1.size == 0
  {
  }

  /** Adding the entries of xs one by one. */
  function AddAll<T>(l: MoveList<T>, xs: seq<T>): (r: MoveList<T>)
    requires l.Valid() && l.size + |xs| <= |l.moves|
    ensures r.Valid() && |r.moves| == |l.moves| && r.size == l.size + |xs|
    decreases |xs|
  {
    if xs == [] then l else AddAll(Add(l, xs[0]), xs[1..])
  }

  /** Adding a sequence leaves exactly that sequence after the old entries, so
      iterating a list filled from empty visits what was added, in order. */
  lemma {:induction false} AddAllItems<T>(l: MoveList<T>, xs: seq<T>)
    requires l.Valid() && l.size + |xs| <= |l.moves|
    ensures Items(AddAll(l, xs)) == Items(l) + xs
    decreases |xs|
  {
    if xs != [] {
      AddAppends(l, xs[0]);
      AddAllItems(Add(l, xs[0]), xs[1..]);
      assert Items(l) + [xs[0]] + xs[1..] == Items(l) + xs;
    }
  }

  /** Popping a full run of n entries returns them last-in first-out. */
  function PopAll<T>(l: MoveList<T>): (r: seq<T>)
    requires l.Valid()
    decreases l.size
  {
    match Pop(l).0
    case None => []
    case Some(m) => [m] + PopAll(Pop(l).1)
  }

  function Reverse<T>(xs: seq<T>): (r: seq<T>)
    ensures |r| == |xs|
  {
    if xs == [] then [] else Reverse(xs[1..]) + [xs[0]]
  }

  /** Draining by pop yields the live entries in reverse order. */
  lemma {:induction false} PopAllReverses<T>(l: MoveList<T>)
    requires l.Valid()
    ensures PopAll(l) == Reverse(Items(l))
    decreases l.size
  {
    if l.size > 0 {
      PopSplits(l);
      PopAllReverses(Pop(l).1);
      ReverseSnoc(Items(Pop(l).1), Pop(l).0.value);
    }
  }

  lemma {:induction false} ReverseSnoc<T>(xs: seq<T>, x: T)
    ensures Reverse(xs + [x]) == [x] + Reverse(xs)
  {
    if xs != [] {
      assert (xs + [x])[1..] == xs[1..] + [x];
      ReverseSnoc(xs[1..], x);
    }
  }

  // ---------------------------------------------------------------------------
  // is_empty compares the array's capacity with zero, not the live count.

  /** is_empty as written: true only when the backing array has no slots. */
  predicate IsEmptyAsWritten<T>(l: MoveList<T>)
  {
    |l.moves| == 0
  }

  /** For any positive capacity, a list with nothing live reports non-empty,
      and a list that is full reports the same as one that is empty. */
  lemma IsEmptyAsWrittenIgnoresSize<T>(backing: seq<T>, m: T)
    requires |backing| > 0
    ensures Items(Fresh(backing)) == [] && !IsEmptyAsWritten(Fresh(backing))
    ensures IsEmptyAsWritten(Add(Fresh(backing), m)) == IsEmptyAsWritten(Fresh(backing))
  {
  }

  /** is_empty as evidently intended: nothing live. */
  predicate IsEmpty<T>(l: MoveList<T>)
  {
    l.size == 0
  }

  /** The intended test agrees with the live range and with pop. */
  lemma IsEmptyMeansNothingLive<T>(l: MoveList<T>)
    requires l.Valid()
    ensures IsEmpty(l) <==> Items(l) == []
    ensures IsEmpty(l) <==> Pop(l).0 == None
  {
  }
}

=== FILE: numbers.dfy ===
/** Decimal text: the C++ standard library's std::stoi and `>>` into strings
    and uint64_t as the engine uses them, and Python's str() of an int as the
    scripts use it. */
module Numbers {
  import opened Outcomes

  /** The characters isspace accepts in the "C" locale. */
  predicate IsSpace(c: char)
  {
    c == ' ' || c == '\t' || c == '\n' || c == '\r' || c == '\U{000B}' || c == '\U{000C}'
  }

  predicate IsDigit(c: char)
  {
    '0' <= c <= '9'
  }

  function DigitValue(c: char): (v: int)
    requires IsDigit(c)
    ensures 0 <= v < 10
  {
    c as int - '0' as int
  }

  predicate AllDigits(d: string)
  {
    forall i :: 0 <= i < |d| ==> IsDigit(d[i])
  }

  /** The value of a run of decimal digits, most significant first. */
  function DigitsValue(d: string): (v: nat)
    requires AllDigits(d)
    decreases |d|
  {
    if d == [] then 0 else DigitsValue(d[..|d| - 1]) * 10 + DigitValue(d[|d| - 1])
  }

  /** The length of the run of digits at the front of s. */
  function DigitRun(s: string): (n: nat)
    ensures n <= |s| && AllDigits(s[..n])
    ensures n < |s| ==> !IsDigit(s[n])
  {
    if s == [] || !IsDigit(s[0]) then 0
    else
      var n := 1 + DigitRun(s[1..]);
      assert s[..n] == [s[0]] + s[1..][..n - 1];
      n
  }

  /** s without its leading white space. */
  function DropSpaces(s: string): (t: string)
    ensures |t| <= |s| && t == s[|s| - |t|..]
    ensures t == [] || !IsSpace(t[0])
    ensures forall i :: 0 <= i < |s| - |t| ==> IsSpace(s[i])
  {
    if s == [] || !IsSpace(s[0]) then s else DropSpaces(s[1..])
  }

  const INT_MIN: int := -0x8000_0000
  const INT_MAX: int := 0x7FFF_FFFF
  const U64_MAX: int := 0xFFFF_FFFF_FFFF_FFFF

  /** Whether an optional leading sign is '-', and the text after the sign. */
  function SplitSign(t: string): (r: (bool, string))
    ensures |r.1| <= |t|
  {
    if |t| > 0 && t[0] == '-' then (true, t[1..])
    else if |t| > 0 && t[0] == '+' then (false, t[1..])
    else (false, t)
  }

  /** std::stoi: leading white space, an optional sign and at least one digit;
      anything after the digits is ignored. No digits, or a value outside int,
      throws (None). */
  function Stoi(s: string): (r: Option<int>)
    ensures r.Some? ==> INT_MIN <= r.value <= INT_MAX
  {
    var p := SplitSign(DropSpaces(s));
    var n := DigitRun(p.1);
    if n == 0 then None
    else InIntRange(Signed(p.0, DigitsValue(p.1[..n])))
  }

  /** A magnitude with its sign applied. */
  function Signed(negative: bool, x: nat): int
  {
    if negative then -(x as int) else x
  }

  /** The value if int can hold it; out_of_range (None) otherwise. */
  function InIntRange(v: int): (r: Option<int>)
    ensures r.Some? <==> INT_MIN <= v <= INT_MAX
    ensures r.Some? ==> r.value == v
  {
    if INT_MIN <= v <= INT_MAX then Some(v) else None
  }

  /** `>>` into a std::string: skips white space, then takes characters up to
      the next white space. Returns the token ("" when there is none) and what
      is left of the stream. */
  function NextToken(s: string): (r: (string, string))
    ensures forall i :: 0 <= i < |r.0| ==> !IsSpace(r.0[i])
    ensures |r.1| <= |s|
  {
    var t := DropSpaces(s);
    var n := TokenLength(t);
    (t[..n], t[n..])
  }

  function TokenLength(t: string): (n: nat)
    ensures n <= |t|
    ensures forall i :: 0 <= i < n ==> !IsSpace(t[i])
    ensures n < |t| ==> IsSpace(t[n])
  {
    if t == [] || IsSpace(t[0]) then 0 else 1 + TokenLength(t[1..])
  }

  /** `>>` into a uint64_t: white space, an optional sign, digits. When only
      white space is left the stream fails before reading anything and the
      variable keeps whatever it held: None. Otherwise, with no digits it
      stores 0; a value past the type stores its maximum; a minus sign
      negates modulo 2^64. */
  function ReadU64(s: string): (v: Option<int>)
    ensures v.Some? ==> 0 <= v.value <= U64_MAX
  {
    var t := DropSpaces(s);
    if t == [] then None
    else
      var (negative, u) := SplitSign(t);
      var n := DigitRun(u);
      if n == 0 then Some(0)
      else
        var x := DigitsValue(u[..n]);
        if x > U64_MAX then Some(U64_MAX)
        else if negative then Some((U64_MAX + 1 - x) % (U64_MAX + 1))
        else Some(x)
  }

  // ---------------------------------------------------------------------------
  // Writing integers, and the round trip with reading them.

  /** The decimal digits of n, without leading zeros ("0" for zero). */
  function Decimal(n: nat): (d: string)
    ensures |d| > 0 && AllDigits(d)
    decreases n
  {
    var last := [('0' as int + n % 10) as char];
    if n < 10 then last else Decimal(n / 10) + last
  }

  /** Python's str() of an int, and C++'s std::to_string. */
  function IntToString(n: int): (s: string)
    ensures |s| > 0
  {
    if n < 0 then "-" + Decimal(-n) else Decimal(n)
  }

  lemma {:induction false} DecimalValue(n: nat)
    ensures DigitsValue(Decimal(n)) == n
    decreases n
  {
    var d := Decimal(n);
    if n >= 10 {
      DecimalValue(n / 10);
      assert d[..|d| - 1] == Decimal(n / 10);
    }
  }

  predicate AllSpaces(w: string)
  {
    forall i :: 0 <= i < |w| ==> IsSpace(w[i])
  }

  /** The white space in front of a non-blank text is what DropSpaces removes. */
  lemma {:induction false} DropSpacesPrefix(w: string, t: string)
    requires AllSpaces(w) && |t| > 0 && !IsSpace(t[0])
    ensures DropSpaces(w + t) == t
    decreases |w|
  {
    if w == [] {
      assert w + t == t;
    } else {
      var s := w + t;
      assert s[0] == w[0] && IsSpace(w[0]);
      assert s[1..] == w[1..] + t;
      assert AllSpaces(w[1..]) by {
        forall i | 0 <= i < |w| - 1
          ensures IsSpace(w[1..][i])
        {
          assert w[1..][i] == w[i + 1];
        }
      }
      DropSpacesPrefix(w[1..], t);
      assert DropSpaces(s) == DropSpaces(s[1..]);
    }
  }

  /** The digit run of digits followed by a non-digit (or nothing) is exactly
      those digits. */
  lemma {:induction false} DigitRunPrefix(d: string, rest: string)
    requires AllDigits(d)
    requires rest == [] || !IsDigit(rest[0])
    ensures DigitRun(d + rest) == |d| && (d + rest)[..|d|] == d
    decreases |d|
  {
    if d == [] {
      assert d + rest == rest;
    } else {
      assert (d + rest)[1..] == d[1..] + rest;
      DigitRunPrefix(d[1..], rest);
    }
  }

  /** std::stoi of white space, an optional sign, digits and trailing text that
      does not start with a digit: the signed value of the digits if it fits in
      int, out_of_range otherwise. Leading blanks and trailing text are ignored. */
  lemma StoiOfDigits(w: string, sign: string, d: string, rest: string)
    requires AllSpaces(w)
    requires sign == "" || sign == "-" || sign == "+"
    requires |d| > 0 && AllDigits(d)
    requires rest == [] || !IsDigit(rest[0])
    ensures Stoi(w + sign + d + rest) == InIntRange(Signed(sign == "-", DigitsValue(d)))
  {
    var u := d + rest;
    var t := sign + u;
    Concat4(w, sign, d, rest);
    SignedText(sign, u);
    DropSpacesPrefix(w, t);
    DigitRunPrefix(d, rest);
    assert DigitRun(u) == |d| && u[..|d|] == d;
  }

  lemma Concat4(a: string, b: string, c: string, e: string)
    ensures a + b + c + e == a + (b + (c + e))
  {
  }

  lemma Concat3(a: string, b: string, c: string)
    ensures a + b + c == a + (b + c)
  {
  }

  lemma SignedText(sign: string, u: string)
    requires sign == "" || sign == "-" || sign == "+"
    requires u == [] || (u[0] != '-' && u[0] != '+' && !IsSpace(u[0]))
    ensures sign + u == [] || !IsSpace((sign + u)[0])
    ensures SplitSign(sign + u) == (sign == "-", u)
  {
    if sign == "" {
      assert sign + u == u;
    } else {
      assert (sign + u)[1..] == u;
    }
  }

  /** std::stoi of the text IntToString writes: the signed value of its
      digits, whether or not it fits. */
  lemma StoiOfIntToString(n: int)
    ensures Stoi(IntToString(n)) == InIntRange(n)
  {
    var sign := if n < 0 then "-" else "";
    var d := Decimal(if n < 0 then -n else n);
    DecimalValue(if n < 0 then -n else n);
    assert Signed(sign == "-", DigitsValue(d)) == n;
    StoiOfDigits([], sign, d, []);
    Bare(sign, d);
    assert IntToString(n) == sign + d;
  }

  lemma Bare(sign: string, d: string)
    ensures [] + sign + d + [] == sign + d
  {
  }

  /** Reading back a written integer gives it back, for every int value. */
  lemma StoiReadsIntToString(n: int)
    requires INT_MIN <= n <= INT_MAX
    ensures Stoi(IntToString(n)) == Some(n)
  {
    StoiOfIntToString(n);
  }

  /** A written integer outside int makes std::stoi throw out_of_range. */
  lemma StoiRejectsOutOfRange(n: int)
    requires n < INT_MIN || INT_MAX < n
    ensures Stoi(IntToString(n)) == None
  {
    StoiOfIntToString(n);
  }

  /** Text with no digit after the optional sign makes std::stoi throw. */
  lemma StoiNeedsADigit(w: string, sign: string, rest: string)
    requires AllSpaces(w)
    requires sign == "" || sign == "-" || sign == "+"
    requires rest == [] || (!IsDigit(rest[0]) && !IsSpace(rest[0]) && rest[0] != '-' && rest[0] != '+')
    ensures Stoi(w + sign + rest) == None
  {
    var t := sign + rest;
    Concat3(w, sign, rest);
    SignedText(sign, rest);
    if t == [] {
      assert w + t == w;
      DropSpacesAll(w);
    } else {
      DropSpacesPrefix(w, t);
    }
    assert DigitRun(rest) == 0;
  }

  lemma {:induction false} DropSpacesAll(w: string)
    requires AllSpaces(w)
    ensures DropSpaces(w) == []
    decreases |w|
  {
    if w != [] {
      DropSpacesAll(w[1..]);
    }
  }

  lemma {:induction false} TokenLengthPrefix(t: string, rest: string)
    requires forall i :: 0 <= i < |t| ==> !IsSpace(t[i])
    requires rest == [] || IsSpace(rest[0])
    ensures TokenLength(t + rest) == |t|
    decreases |t|
  {
    if t == [] {
      assert t + rest == rest;
    } else {
      assert (t + rest)[1..] == t[1..] + rest;
      TokenLengthPrefix(t[1..], rest);
    }
  }

  /** `>>` into a string reads a blank-free token up to the white space after
      it, leaving that white space in the stream. */
  lemma NextTokenOf(w: string, t: string, rest: string)
    requires AllSpaces(w) && |t| > 0
    requires forall i :: 0 <= i < |t| ==> !IsSpace(t[i])
    requires rest == [] || IsSpace(rest[0])
    ensures NextToken(w + t + rest) == (t, rest)
  {
    Concat3(w, t, rest);
    DropSpacesPrefix(w, t + rest);
    TokenLengthPrefix(t, rest);
    assert (t + rest)[..|t|] == t && (t + rest)[|t|..] == rest;
  }

  /** `>>` into a uint64_t reads back what Decimal wrote, for every value the
      type holds, after any white space and before any non-digit. */
  lemma ReadU64OfDecimal(w: string, n: nat, rest: string)
    requires AllSpaces(w) && n <= U64_MAX
    requires rest == [] || !IsDigit(rest[0])
    ensures ReadU64(w + Decimal(n) + rest) == Some(n)
  {
    var d := Decimal(n);
    Concat3(w, d, rest);
    assert IsDigit((d + rest)[0]);
    DropSpacesPrefix(w, d + rest);
    SignedText("", d + rest);
    assert "" + (d + rest) == d + rest;
    DigitRunPrefix(d, rest);
    DecimalValue(n);
  }

  /** A text that starts with neither a blank, a sign nor a digit makes `>>`
      into a uint64_t fail after it has begun to read, and then it stores 0. */
  lemma ReadU64OfNonNumber(w: string, rest: string)
    requires AllSpaces(w) && rest != []
    requires !IsSpace(rest[0]) && !IsDigit(rest[0]) && rest[0] != '-' && rest[0] != '+'
    ensures ReadU64(w + rest) == Some(0)
  {
    DropSpacesPrefix(w, rest);
  }

  /** `>>` into a uint64_t stores nothing exactly when only white space is
      left in the stream. */
  lemma ReadU64StoresNothing(s: string)
    ensures ReadU64(s).None? <==> AllSpaces(s)
  {
    var t := DropSpaces(s);
    if t != [] {
      assert s[|s| - |t|] == t[0];
    }
  }
}

=== FILE: outcomes.dfy ===
/** Optional values and results with an error, used wherever the engine or its
    scripts can fail or find nothing. */
module Outcomes {

  datatype Option<+T> = None | Some(value: T)
  {
    function GetOr(default: T): T
    {
      match this
      case Some(v) => v
      case None => default
    }
  }

  datatype Result<+T, +E> = Ok(value: T) | Err(error: E)
}

=== FILE: perft.dfy ===
/** perft and perft_phased over an abstract engine: a move generator for each
    mode, make_move and unmake_move. */
module Perft {
  import opened MoveCodec
  import opened Boards
  import opened Checks
  import opened MoveGen

  /** What the counters use of the engine: generate_moves<ALL>, the two
      phase generators (from one CheckInfo), make_move and unmake_move. */
  datatype Engine<!B> = Engine(
    all: B -> seq<Mv>,
    quiets: B -> seq<Mv>,
    loud: B -> seq<Mv>,
    make: (B, Mv) -> B,
    unmake: (B, Mv) -> B)

  // ---------------------------------------------------------------------------
  // The reference: move sequences.

  /** Every path of ps with m put in front. */
  function Prefixed(m: Mv, ps: seq<seq<Mv>>): (r: seq<seq<Mv>>)
    ensures |r| == |ps| && forall i :: 0 <= i < |r| ==> r[i] == [m] + ps[i]
  {
    seq(|ps|, i requires 0 <= i < |ps| => [m] + ps[i])
  }

  /** The sequences of d generated moves playable from b, in generation
      order. */
  function Paths<B>(e: Engine<B>, b: B, d: nat): (r: seq<seq<Mv>>)
    ensures forall i :: 0 <= i < |r| ==> |r[i]| == d
    decreases d, 0
  {
    if d == 0 then [[]] else PathsVia(e, b, e.all(b), d - 1)
  }

  /** The paths that start with one of ms and go on for d more moves. */
  function PathsVia<B>(e: Engine<B>, b: B, ms: seq<Mv>, d: nat): (r: seq<seq<Mv>>)
    ensures forall i :: 0 <= i < |r| ==> |r[i]| == d + 1
    decreases d, 1, |ms|
  {
    if ms == [] then []
    else Prefixed(ms[0], Paths(e, e.make(b, ms[0]), d)) + PathsVia(e, b, ms[1..], d)
  }

  // ---------------------------------------------------------------------------
  // perft

  /** perft<Root>(b, depth): at depth 1 the size of the ALL list, otherwise
      the sum over the generated moves of the count below each. Depth 0 is
      no base case (it would recurse through negative depths), so depth is
      at least 1. The Root logging is left out. */
  function Perft<B>(e: Engine<B>, b: B, depth: int): (n: nat)
    requires depth >= 1
    decreases depth, 0
  {
    if depth == 1 then |e.all(b)| else Children(e, b, e.all(b), depth - 1)
  }

  /** The loop of perft: the counts below each of ms, summed. */
  function Children<B>(e: Engine<B>, b: B, ms: seq<Mv>, d: int): (n: nat)
    requires d >= 1
    decreases d, 1, |ms|
  {
    if ms == [] then 0 else Perft(e, e.make(b, ms[0]), d) + Children(e, b, ms[1..], d)
  }

  lemma {:induction false} PathsViaOne<B>(e: Engine<B>, b: B, ms: seq<Mv>)
    ensures |PathsVia(e, b, ms, 0)| == |ms|
    decreases |ms|
  {
    if ms != [] {
      PathsViaOne(e, b, ms[1..]);
    }
  }

  /** perft counts the move sequences of length depth. */
  lemma {:induction false} PerftCountsPaths<B>(e: Engine<B>, b: B, depth: int)
    requires depth >= 1
    ensures Perft(e, b, depth) == |Paths(e, b, depth)|
    decreases depth, 0
  {
    if depth == 1 {
      PathsViaOne(e, b, e.all(b));
    } else {
      ChildrenCountPaths(e, b, e.all(b), depth - 1);
    }
  }

  lemma {:induction false} ChildrenCountPaths<B>(e: Engine<B>, b: B, ms: seq<Mv>, d: int)
    requires d >= 1
    ensures Children(e, b, ms, d) == |PathsVia(e, b, ms, d)|
    decreases d, 1, |ms|
  {
    if ms != [] {
      PerftCountsPaths(e, e.make(b, ms[0]), d);
      ChildrenCountPaths(e, b, ms[1..], d);
    }
  }

  // ---------------------------------------------------------------------------
  // The board through perft's make/unmake pairs.

  /** perft with the board threaded through: the count and the board the
      loop leaves behind. */
  function PerftWalk<B>(e: Engine<B>, b: B, depth: int): (r: (nat, B))
    requires depth >= 1
    decreases depth, 0
  {
    if depth == 1 then (|e.all(b)|, b) else Loop(e, b, e.all(b), depth - 1, 0)
  }

  /** The loop body, move by move: make, count below, unmake. */
  function Loop<B>(e: Engine<B>, b: B, ms: seq<Mv>, d: int, total: nat): (r: (nat, B))
    requires d >= 1
    decreases d, 1, |ms|
  {
    if ms == [] then (total, b)
    else
      var below := PerftWalk(e, e.make(b, ms[0]), d);
      Loop(e, e.unmake(below.1, ms[0]), ms[1..], d, total + below.0)
  }

  /** unmake_move undoes make_move for every generated move. */
  ghost predicate Reversible<B(!new)>(e: Engine<B>)
  {
    forall b: B, m: Mv :: m in e.all(b) ==> e.unmake(e.make(b, m), m) == b
  }

  /** With make/unmake reversible, perft leaves the board as it found it and
      its count is the pure one. */
  lemma {:induction false} PerftRestores<B(!new)>(e: Engine<B>, b: B, depth: int)
    requires depth >= 1 && Reversible(e)
    ensures PerftWalk(e, b, depth) == (Perft(e, b, depth), b)
    decreases depth, 0
  {
    if depth > 1 {
      LoopRestores(e, b, e.all(b), depth - 1, 0);
    }
  }

  lemma {:induction false} LoopRestores<B(!new)>(e: Engine<B>, b: B, ms: seq<Mv>, d: int, total: nat)
    requires d >= 1 && Reversible(e)
    requires forall m :: m in ms ==> m in e.all(b)
    ensures Loop(e, b, ms, d, total) == (total + Children(e, b, ms, d), b)
    decreases d, 1, |ms|
  {
    if ms != [] {
      var child := e.make(b, ms[0]);
      PerftRestores(e, child, d);
      assert e.unmake(child, ms[0]) == b;
      LoopRestores(e, b, ms[1..], d, total + Perft(e, child, d));
    }
  }

  // ---------------------------------------------------------------------------
  // perft_phased

  /** _perft_phased: at depth 1 the sizes of the quiet and the capture lists,
      otherwise the counts below the quiet moves, then below the captures. */
  function PerftPhased<B>(e: Engine<B>, b: B, depth: int): (n: nat)
    requires depth >= 1
    decreases depth, 0
  {
    if depth == 1 then |e.quiets(b)| + |e.loud(b)|
    else PhasedChildren(e, b, e.quiets(b), depth - 1) + PhasedChildren(e, b, e.loud(b), depth - 1)
  }

  function PhasedChildren<B>(e: Engine<B>, b: B, ms: seq<Mv>, d: int): (n: nat)
    requires d >= 1
    decreases d, 1, |ms|
  {
    if ms == [] then 0 else PerftPhased(e, e.make(b, ms[0]), d) + PhasedChildren(e, b, ms[1..], d)
  }

  /** The two phase lists hold the ALL list's moves, as often as it does. */
  ghost predicate Partitioned<B(!new)>(e: Engine<B>)
  {
    forall b: B :: multiset(e.all(b)) == multiset(e.quiets(b)) + multiset(e.loud(b))
  }

  lemma {:induction false} ChildrenConcat<B>(e: Engine<B>, b: B, xs: seq<Mv>, ys: seq<Mv>, d: int)
    requires d >= 1
    ensures Children(e, b, xs + ys, d) == Children(e, b, xs, d) + Children(e, b, ys, d)
    decreases |xs|
  {
    if xs == [] {
      assert xs + ys == ys;
    } else {
      assert (xs + ys)[0] == xs[0] && (xs + ys)[1..] == xs[1..] + ys;
      ChildrenConcat(e, b, xs[1..], ys, d);
    }
  }

  /** Taking the first entry off xs and one equal entry out of ys keeps the
      two multisets equal. */
  lemma RemoveMatching(xs: seq<Mv>, ys: seq<Mv>, j: nat)
    requires |xs| > 0 && j < |ys| && ys[j] == xs[0] && multiset(xs) == multiset(ys)
    ensures multiset(xs[1..]) == multiset(ys[..j] + ys[j + 1..])
  {
    var x := xs[0];
    assert ys == ys[..j] + [x] + ys[j + 1..];
    assert xs == [x] + xs[1..];
    assert multiset(ys) == multiset(ys[..j]) + multiset{x} + multiset(ys[j + 1..]);
    assert multiset(xs) == multiset{x} + multiset(xs[1..]);
    calc {
      multiset(xs[1..]);
      multiset(xs) - multiset{x};
      multiset(ys[..j]) + multiset(ys[j + 1..]);
      multiset(ys[..j] + ys[j + 1..]);
    }
  }

  /** The sum over front + [x] + back is x's count plus the sum over the rest. */
  lemma ChildrenPick<B>(e: Engine<B>, b: B, front: seq<Mv>, x: Mv, back: seq<Mv>, d: int)
    requires d >= 1
    ensures Children(e, b, front + [x] + back, d) == Perft(e, e.make(b, x), d) + Children(e, b, front + back, d)
  {
    ChildrenConcat(e, b, front, back, d);
    ChildrenConcat(e, b, front + [x], back, d);
    ChildrenConcat(e, b, front, [x], d);
    assert [x][1..] == [];
  }

  /** The loop's sum depends only on which moves it visits, not their order. */
  lemma {:induction false} ChildrenPermute<B>(e: Engine<B>, b: B, xs: seq<Mv>, ys: seq<Mv>, d: int)
    requires d >= 1 && multiset(xs) == multiset(ys)
    ensures Children(e, b, xs, d) == Children(e, b, ys, d)
    decreases |xs|
  {
    if xs == [] {
      assert |ys| == |multiset(ys)| == 0;
    } else {
      var x := xs[0];
      assert x in multiset(ys);
      var j :| 0 <= j < |ys| && ys[j] == x;
      RemoveMatching(xs, ys, j);
      ChildrenPermute(e, b, xs[1..], ys[..j] + ys[j + 1..], d);
      ChildrenPick(e, b, ys[..j], x, ys[j + 1..], d);
      assert ys == ys[..j] + [x] + ys[j + 1..];
    }
  }

  /** The phased count and perft agree wherever the phase lists split the ALL
      list. */
  lemma {:induction false} PhasedEqualsPerft<B(!new)>(e: Engine<B>, b: B, depth: int)
    requires depth >= 1 && Partitioned(e)
    ensures PerftPhased(e, b, depth) == Perft(e, b, depth)
    decreases depth, 0
  {
    assert multiset(e.all(b)) == multiset(e.quiets(b)) + multiset(e.loud(b));
    if depth == 1 {
      assert |multiset(e.all(b))| == |multiset(e.quiets(b))| + |multiset(e.loud(b))|;
    } else {
      var q, c := e.quiets(b), e.loud(b);
      PhasedChildrenAgree(e, b, q, depth - 1);
      PhasedChildrenAgree(e, b, c, depth - 1);
      ChildrenConcat(e, b, q, c, depth - 1);
      ChildrenPermute(e, b, q + c, e.all(b), depth - 1);
    }
  }

  lemma {:induction false} PhasedChildrenAgree<B(!new)>(e: Engine<B>, b: B, ms: seq<Mv>, d: int)
    requires d >= 1 && Partitioned(e)
    ensures PhasedChildren(e, b, ms, d) == Children(e, b, ms, d)
    decreases d, 1, |ms|
  {
    if ms != [] {
      PhasedEqualsPerft(e, e.make(b, ms[0]), d);
      PhasedChildrenAgree(e, b, ms[1..], d);
    }
  }

  // ---------------------------------------------------------------------------
  // The engine of this model.

  /** The generators of MoveGen: for a board with a king to move, ALL,
      QUIET_ONLY and CAPTURES_AND_PROMOTIONS from one CheckInfo; nothing
      otherwise. */
  function Generators(t: Tables, mk: (Board, Mv) -> Board, unmk: (Board, Mv) -> Board): (e: Engine<Board>)
    ensures forall b :: HasKingToMove(b) ==> e.all(b) == Generate(t, b, All)
  {
    Engine(
      b => if HasKingToMove(b) then Generate(t, b, All) else [],
      b => if HasKingToMove(b) then Generate(t, b, QuietOnly) else [],
      b => if HasKingToMove(b) then Generate(t, b, CapturesAndPromotions) else [],
      mk, unmk)
  }

  /** generate_moves_impl's two phases split generate_moves<ALL> on every
      board, so perft_phased counts what perft counts. */
  lemma GeneratorsPartitioned(t: Tables, mk: (Board, Mv) -> Board, unmk: (Board, Mv) -> Board)
    ensures Partitioned(Generators(t, mk, unmk))
  {
    var e := Generators(t, mk, unmk);
    forall b: Board
      ensures multiset(e.all(b)) == multiset(e.quiets(b)) + multiset(e.loud(b))
    {
      if HasKingToMove(b) {
        PhasesPartitionAll(t, b, ComputeCheckInfo(t, b));
      }
    }
  }
}

=== FILE: precompute.dfy ===
/** The precomputed attack maps: for every square, the squares a bishop,
    knight, rook, queen or king standing there attacks on an empty board. */
module Precompute {
  import opened Types
  import opened Outcomes
  import opened Squares
  import opened Bitboards

  function Abs(x: int): nat
  {
    if x < 0 then -x else x
  }

  function Min(a: int, b: int): int
  {
    if a <= b then a else b
  }

  // ---------------------------------------------------------------------------
  // Rays on the empty board.

  /** How many steps a coordinate can move by delta before leaving 0..7. */
  function Room(coord: int, delta: int): int
  {
    if delta > 0 then 7 - coord else if delta < 0 then coord else 7
  }

  /** The number of squares between sq and the board's edge in direction d. */
  function EdgeDistance(sq: Square, d: Dir): (n: nat)
    ensures n <= 7
  {
    RankFileDecompose(sq);
    Min(Room(GetRank(sq), d.DRank()), Room(GetFile(sq), d.DFile()))
  }

  /** A step is possible exactly while there is room, and uses up one unit. */
  lemma StepEdgeDistance(sq: Square, d: Dir)
    ensures Step(sq, d).Some? <==> EdgeDistance(sq, d) > 0
    ensures Step(sq, d).Some? ==> EdgeDistance(Step(sq, d).value, d) == EdgeDistance(sq, d) - 1
  {
    RankFileDecompose(sq);
    if Step(sq, d).Some? {
      RankFileDecompose(Step(sq, d).value);
    }
  }

  /** The squares reached by repeated steps from sq in direction d, sq
      itself excluded: what explore<D> collects. */
  function Ray(sq: Square, d: Dir): set<Square>
    decreases EdgeDistance(sq, d)
  {
    match Step(sq, d)
    case None => {}
    case Some(t) =>
      StepEdgeDistance(sq, d);
      {t} + Ray(t, d)
  }

  /** The step count from (r0, f0) to (rt, ft) along (dr, df), read off the
      rank distance (or, for east and west, the file distance). */
  function AlongK(r0: int, f0: int, dr: int, df: int, rt: int, ft: int): int
  {
    if dr != 0 then (rt - r0) * dr else (ft - f0) * df
  }

  /** (rt, ft) is k >= 1 whole steps of (dr, df) from (r0, f0). */
  predicate AlongCoords(r0: int, f0: int, dr: int, df: int, rt: int, ft: int)
  {
    var k := AlongK(r0, f0, dr, df, rt, ft);
    k >= 1 && rt == r0 + k * dr && ft == f0 + k * df
  }

  lemma AlongCoordsStep(r0: int, f0: int, dr: int, df: int, rt: int, ft: int)
    requires -1 <= dr <= 1 && -1 <= df <= 1 && (dr != 0 || df != 0)
    ensures AlongCoords(r0, f0, dr, df, rt, ft) <==>
      (rt == r0 + dr && ft == f0 + df) || AlongCoords(r0 + dr, f0 + df, dr, df, rt, ft)
  {
    if dr == 1 {
    } else if dr == -1 {
    } else if df == 1 {
    } else {
    }
  }

  lemma AlongCoordsFirstStep(r0: int, f0: int, dr: int, df: int, rt: int, ft: int)
    requires -1 <= dr <= 1 && -1 <= df <= 1 && (dr != 0 || df != 0)
    requires 0 <= r0 < 8 && 0 <= f0 < 8 && 0 <= rt < 8 && 0 <= ft < 8
    requires AlongCoords(r0, f0, dr, df, rt, ft)
    ensures 0 <= r0 + dr < 8 && 0 <= f0 + df < 8
  {
    if dr == 1 {
    } else if dr == -1 {
    } else if df == 1 {
    } else {
    }
  }

  /** Geometric reading of a ray: t is a whole number k >= 1 of steps from sq
      in direction d. */
  predicate Along(sq: Square, d: Dir, t: Square)
  {
    AlongCoords(GetRank(sq), GetFile(sq), d.DRank(), d.DFile(), GetRank(t), GetFile(t))
  }

  /** Along from sq is "the next square, or along from the next square". */
  lemma AlongStep(sq: Square, d: Dir, t: Square)
    ensures Step(sq, d).Some? ==>
              (Along(sq, d, t) <==> t == Step(sq, d).value || Along(Step(sq, d).value, d, t))
    ensures Step(sq, d).None? ==> !Along(sq, d, t)
  {
    RankFileDecompose(sq);
    RankFileDecompose(t);
    AlongCoordsStep(GetRank(sq), GetFile(sq), d.DRank(), d.DFile(), GetRank(t), GetFile(t));
    if Step(sq, d).Some? {
      RankFileInjective(Step(sq, d).value, t);
    } else if Along(sq, d, t) {
      AlongCoordsFirstStep(GetRank(sq), GetFile(sq), d.DRank(), d.DFile(), GetRank(t), GetFile(t));
    }
  }

  /** The ray is exactly the set of squares along the direction. */
  lemma {:induction false} RayIsAlong(sq: Square, d: Dir, t: Square)
    ensures t in Ray(sq, d) <==> Along(sq, d, t)
    decreases EdgeDistance(sq, d)
  {
    AlongStep(sq, d, t);
    if Step(sq, d).Some? {
      StepEdgeDistance(sq, d);
      RayIsAlong(Step(sq, d).value, d, t);
    }
  }

  /** explore<D>(sq) never contains sq and holds one square per step up to the
      edge, so at most 7. */
  lemma {:induction false} RaySize(sq: Square, d: Dir)
    ensures sq !in Ray(sq, d)
    ensures |Ray(sq, d)| == EdgeDistance(sq, d) <= 7
    decreases EdgeDistance(sq, d)
  {
    StepEdgeDistance(sq, d);
    if Step(sq, d).Some? {
      var t := Step(sq, d).value;
      RaySize(t, d);
      RayIsAlong(sq, d, sq);
      RayIsAlong(t, d, t);
      AlongStep(sq, d, sq);
    } else {
      RayIsAlong(sq, d, sq);
    }
  }

  // ---------------------------------------------------------------------------
  // explore<D>, on squares. A bitboard is handled here as the set of squares
  // it holds; Bitboards proves that shift<D>, | and get_mask act on those sets
  // as StepImage, union and a singleton (ShiftSquares, SquaresOfOr,
  // GetMaskSquares), and that the empty set is the zero bitboard.

  /** A single square shifts to the square one step away, or to nothing. */
  lemma StepImageSingle(sq: Square, d: Dir)
    ensures StepImage({sq}, d) == if Step(sq, d).Some? then {Step(sq, d).value} else {}
  {
  }

  /** The state of explore<D>(sq) after reaching cur: mask holds the next
      square of the ray (if any) and attack the squares before it. */
  predicate ExploreState(sq: Square, d: Dir, cur: Square, attack: set<Square>, mask: set<Square>)
  {
    && mask == (if Step(cur, d).Some? then {Step(cur, d).value} else {})
    && attack + Ray(cur, d) == Ray(sq, d)
  }

  lemma ExploreAdvance(sq: Square, d: Dir, cur: Square, attack: set<Square>, mask: set<Square>)
    requires ExploreState(sq, d, cur, attack, mask) && mask != {}
    ensures Step(cur, d).Some?
    ensures ExploreState(sq, d, Step(cur, d).value, attack + mask, StepImage(mask, d))
    ensures EdgeDistance(Step(cur, d).value, d) < EdgeDistance(cur, d)
  {
    var next := Step(cur, d).value;
    StepEdgeDistance(cur, d);
    assert Ray(cur, d) == {next} + Ray(next, d);
    StepImageSingle(next, d);
  }

  lemma ExploreDone(sq: Square, d: Dir, cur: Square, attack: set<Square>)
    requires ExploreState(sq, d, cur, attack, {})
    ensures attack == Ray(sq, d)
  {
  }

  /** explore<D>(sq): shift the square's mask in direction d until it falls
      off the board, collecting every square it passes. The loop runs once per
      square of the ray, so at most 7 times. */
  method Explore(d: Dir, sq: Square) returns (attack: set<Square>)
    ensures attack == Ray(sq, d)
    ensures sq !in attack && |attack| <= 7
  {
    attack := {};
    var mask := StepImage({sq}, d);
    ghost var cur := sq;
    StepImageSingle(sq, d);
    while mask != {}
      invariant ExploreState(sq, d, cur, attack, mask)
      decreases EdgeDistance(cur, d)
    {
      ExploreAdvance(sq, d, cur, attack, mask);
      attack := attack + mask;
      mask := StepImage(mask, d);
      cur := Step(cur, d).value;
    }
    ExploreDone(sq, d, cur, attack);
    RaySize(sq, d);
  }

  // ---------------------------------------------------------------------------
  // Sliding-piece maps.

  /** Rank and file distance from a to b. */
  function RankDelta(a: Square, b: Square): int { GetRank(b) - GetRank(a) }
  function FileDelta(a: Square, b: Square): int { GetFile(b) - GetFile(a) }

  /** Lines through (r0, f0) in the four diagonal directions. */
  lemma DiagonalCoords(r0: int, f0: int, rt: int, ft: int)
    ensures ((rt != r0 || ft != f0) && Abs(rt - r0) == Abs(ft - f0)) <==>
      AlongCoords(r0, f0, 1, 1, rt, ft) || AlongCoords(r0, f0, 1, -1, rt, ft) ||
      AlongCoords(r0, f0, -1, 1, rt, ft) || AlongCoords(r0, f0, -1, -1, rt, ft)
  {
  }

  /** Lines through (r0, f0) in the four orthogonal directions. */
  lemma OrthogonalCoords(r0: int, f0: int, rt: int, ft: int)
    ensures ((rt != r0 || ft != f0) && (rt == r0 || ft == f0)) <==>
      AlongCoords(r0, f0, 1, 0, rt, ft) || AlongCoords(r0, f0, -1, 0, rt, ft) ||
      AlongCoords(r0, f0, 0, 1, rt, ft) || AlongCoords(r0, f0, 0, -1, rt, ft)
  {
  }

  /** A bishop's map entry: the union of the four diagonal explores. */
  function BishopAttacks(sq: Square): set<Square>
  {
    Ray(sq, NE) + Ray(sq, NW) + Ray(sq, SE) + Ray(sq, SW)
  }

  /** A rook's map entry: the union of the four orthogonal explores. */
  function RookAttacks(sq: Square): set<Square>
  {
    Ray(sq, N) + Ray(sq, S) + Ray(sq, E) + Ray(sq, W)
  }

  /** A queen's map entry: the bishop's and the rook's together. */
  function QueenAttacks(sq: Square): set<Square>
  {
    BishopAttacks(sq) + RookAttacks(sq)
  }

  /** BISHOP_ATTACK_MAP[sq] holds exactly the other squares on sq's two
      diagonals. */
  lemma BishopAttacksAreDiagonals(sq: Square, t: Square)
    ensures t in BishopAttacks(sq) <==> t != sq && Abs(RankDelta(sq, t)) == Abs(FileDelta(sq, t))
  {
    RayIsAlong(sq, NE, t);
    RayIsAlong(sq, NW, t);
    RayIsAlong(sq, SE, t);
    RayIsAlong(sq, SW, t);
    DiagonalCoords(GetRank(sq), GetFile(sq), GetRank(t), GetFile(t));
    RankFileInjective(sq, t);
  }

  /** ROOK_ATTACK_MAP[sq] holds exactly the other squares on sq's rank or
      file. */
  lemma RookAttacksAreLines(sq: Square, t: Square)
    ensures t in RookAttacks(sq) <==> t != sq && (GetRank(t) == GetRank(sq) || GetFile(t) == GetFile(sq))
  {
    RayIsAlong(sq, N, t);
    RayIsAlong(sq, S, t);
    RayIsAlong(sq, E, t);
    RayIsAlong(sq, W, t);
    OrthogonalCoords(GetRank(sq), GetFile(sq), GetRank(t), GetFile(t));
    RankFileInjective(sq, t);
  }

  // ---------------------------------------------------------------------------
  // Knight and king maps.

  /** shift<d2>(shift<d1>(mask)) applied to a square's mask. */
  function Shift2(sq: Square, d1: Dir, d2: Dir): set<Square>
  {
    StepImage(StepImage({sq}, d1), d2)
  }

  /** When both steps move the same way (or not at all) on each axis, the
      intermediate square is on the board whenever the final one is, so the
      two shifts reach exactly the square at the summed offset. */
  lemma Shift2Reaches(sq: Square, d1: Dir, d2: Dir, t: Square)
    requires d1.DRank() * d2.DRank() >= 0 && d1.DFile() * d2.DFile() >= 0
    ensures t in Shift2(sq, d1, d2) <==>
      RankDelta(sq, t) == d1.DRank() + d2.DRank() && FileDelta(sq, t) == d1.DFile() + d2.DFile()
  {
    StepImageSingle(sq, d1);
    RankFileDecompose(sq);
    RankFileDecompose(t);
    if Step(sq, d1).Some? {
      var m := Step(sq, d1).value;
      StepImageSingle(m, d2);
      RankFileDecompose(m);
      if Step(m, d2).Some? {
        RankFileInjective(Step(m, d2).value, t);
      }
    }
  }

  /** A knight's map entry, as the eight two-shift terms of the source. */
  function KnightAttacks(sq: Square): set<Square>
  {
    Shift2(sq, N, NE) + Shift2(sq, E, NE) + Shift2(sq, N, NW) + Shift2(sq, W, NW) +
    Shift2(sq, S, SE) + Shift2(sq, E, SE) + Shift2(sq, S, SW) + Shift2(sq, W, SW)
  }

  /** The knight's jump: one square along one axis and two along the other. */
  predicate KnightJump(a: Square, b: Square)
  {
    (Abs(RankDelta(a, b)) == 1 && Abs(FileDelta(a, b)) == 2) ||
    (Abs(RankDelta(a, b)) == 2 && Abs(FileDelta(a, b)) == 1)
  }

  /** KNIGHT_ATTACK_MAP[sq] holds exactly the on-board knight jumps from sq. */
  lemma KnightAttacksAreJumps(sq: Square, t: Square)
    ensures t in KnightAttacks(sq) <==> KnightJump(sq, t)
  {
    Shift2Reaches(sq, N, NE, t);
    Shift2Reaches(sq, E, NE, t);
    Shift2Reaches(sq, N, NW, t);
    Shift2Reaches(sq, W, NW, t);
    Shift2Reaches(sq, S, SE, t);
    Shift2Reaches(sq, E, SE, t);
    Shift2Reaches(sq, S, SW, t);
    Shift2Reaches(sq, W, SW, t);
  }

  /** The knight map is symmetric: a is a knight's jump from b exactly when b
      is one from a. */
  lemma KnightAttacksSymmetric(a: Square, b: Square)
    ensures a in KnightAttacks(b) <==> b in KnightAttacks(a)
  {
    KnightAttacksAreJumps(a, b);
    KnightAttacksAreJumps(b, a);
  }

  /** A king's map entry: the eight one-step shifts. */
  function KingAttacks(sq: Square): set<Square>
  {
    StepImage({sq}, N) + StepImage({sq}, S) + StepImage({sq}, E) + StepImage({sq}, W) +
    StepImage({sq}, NE) + StepImage({sq}, NW) + StepImage({sq}, SE) + StepImage({sq}, SW)
  }

  /** One shift of a single square reaches exactly the square at the
      direction's offset. */
  lemma StepImageReaches(sq: Square, d: Dir, t: Square)
    ensures t in StepImage({sq}, d) <==>
      RankDelta(sq, t) == d.DRank() && FileDelta(sq, t) == d.DFile()
  {
    StepImageSingle(sq, d);
    RankFileDecompose(sq);
    RankFileDecompose(t);
    if Step(sq, d).Some? {
      RankFileInjective(Step(sq, d).value, t);
    }
  }

  /** KING_ATTACK_MAP[sq] holds exactly the squares at Chebyshev distance 1. */
  lemma KingAttacksAreNeighbours(sq: Square, t: Square)
    ensures t in KingAttacks(sq) <==> t != sq && Abs(RankDelta(sq, t)) <= 1 && Abs(FileDelta(sq, t)) <= 1
  {
    RankFileInjective(sq, t);
    StepImageReaches(sq, N, t);
    StepImageReaches(sq, S, t);
    StepImageReaches(sq, E, t);
    StepImageReaches(sq, W, t);
    StepImageReaches(sq, NE, t);
    StepImageReaches(sq, NW, t);
    StepImageReaches(sq, SE, t);
    StepImageReaches(sq, SW, t);
  }

  /** The squares whose rank lies in r0..r1 and whose file lies in f0..f1. */
  function Box(r0: int, r1: int, f0: int, f1: int): set<Square>
  {
    set t: Square | r0 <= GetRank(t) <= r1 && f0 <= GetFile(t) <= f1
  }

  lemma {:induction false} RowSize(r: int, f0: int, f1: int)
    requires 0 <= r < 8 && 0 <= f0 <= f1 + 1 && f1 < 8
    ensures |Box(r, r, f0, f1)| == f1 - f0 + 1
    decreases f1 - f0
  {
    if f1 < f0 {
      assert Box(r, r, f0, f1) == {};
    } else {
      var last := r * 8 + f1;
      RankFileDecompose(last);
      forall t: Square
        ensures t in Box(r, r, f0, f1) <==> t in Box(r, r, f0, f1 - 1) + {last}
      {
        RankFileDecompose(t);
        RankFileInjective(t, last);
      }
      assert Box(r, r, f0, f1) == Box(r, r, f0, f1 - 1) + {last};
      RowSize(r, f0, f1 - 1);
    }
  }

  /** A box of ranks r0..r1 and files f0..f1 holds (r1-r0+1)*(f1-f0+1) squares. */
  lemma {:induction false} BoxSize(r0: int, r1: int, f0: int, f1: int)
    requires 0 <= r0 <= r1 + 1 && r1 < 8 && 0 <= f0 <= f1 + 1 && f1 < 8
    ensures |Box(r0, r1, f0, f1)| == (r1 - r0 + 1) * (f1 - f0 + 1)
    decreases r1 - r0
  {
    if r1 < r0 {
      assert Box(r0, r1, f0, f1) == {};
    } else {
      assert Box(r0, r1, f0, f1) == Box(r0, r1 - 1, f0, f1) + Box(r1, r1, f0, f1);
      assert Box(r0, r1 - 1, f0, f1) !! Box(r1, r1, f0, f1);
      BoxSize(r0, r1 - 1, f0, f1);
      RowSize(r1, f0, f1);
      assert (r1 - r0 + 1) * (f1 - f0 + 1) == (r1 - 1 - r0 + 1) * (f1 - f0 + 1) + (f1 - f0 + 1);
    }
  }

  function Max(a: int, b: int): int
  {
    if a >= b then a else b
  }

  /** A king square and its neighbours fill the box one rank and one file
      around it, clipped to the board. */
  lemma KingBoxMember(sq: Square, t: Square)
    ensures t in KingAttacks(sq) + {sq} <==> t in BoxAround(sq)
  {
    KingAttacksAreNeighbours(sq, t);
    RankFileDecompose(sq);
    RankFileDecompose(t);
    RankFileInjective(sq, t);
  }

  lemma KingBox(sq: Square)
    ensures KingAttacks(sq) + {sq} == BoxAround(sq)
    ensures sq !in KingAttacks(sq)
  {
    KingAttacksAreNeighbours(sq, sq);
    var around := KingAttacks(sq) + {sq};
    var box := BoxAround(sq);
    forall t: Square
      ensures t in around <==> t in box
    {
      KingBoxMember(sq, t);
    }
    SameSquares(around, box);
  }

  /** Sets of squares with the same members are equal. */
  lemma SameSquares(a: set<Square>, b: set<Square>)
    requires forall t: Square :: t in a <==> t in b
    ensures a == b
  {
  }

  /** The clipped box around a square. */
  function BoxAround(sq: Square): set<Square>
  {
    Box(Max(GetRank(sq) - 1, 0), Min(GetRank(sq) + 1, 7), Max(GetFile(sq) - 1, 0), Min(GetFile(sq) + 1, 7))
  }

  /** Spans are 2 on the edge ranks and files and 3 elsewhere. */
  function EdgeSpan(c: int): int
  {
    if c == 0 || c == 7 then 2 else 3
  }

  lemma BoxAroundSize(sq: Square)
    ensures |BoxAround(sq)| == EdgeSpan(GetRank(sq)) * EdgeSpan(GetFile(sq))
  {
    RankFileDecompose(sq);
    var r := GetRank(sq);
    var f := GetFile(sq);
    var r0, r1, f0, f1 := Max(r - 1, 0), Min(r + 1, 7), Max(f - 1, 0), Min(f + 1, 7);
    var h, w := EdgeSpan(r), EdgeSpan(f);
    assert r1 - r0 + 1 == h && f1 - f0 + 1 == w;
    BoxSize(r0, r1, f0, f1);
    assert |BoxAround(sq)| == h * w;
  }

  lemma KingCountIsBoxLessOne(sq: Square)
    ensures |KingAttacks(sq)| + 1 == |BoxAround(sq)|
  {
    KingBox(sq);
    assert |KingAttacks(sq) + {sq}| == |KingAttacks(sq)| + 1;
  }

  /** A king attacks 3 squares from a corner, 5 from another edge square and
      8 from the interior. */
  lemma KingAttackCounts(sq: Square)
    ensures (GetRank(sq) == 0 || GetRank(sq) == 7) && (GetFile(sq) == 0 || GetFile(sq) == 7) ==>
              |KingAttacks(sq)| == 3
    ensures (GetRank(sq) == 0 || GetRank(sq) == 7) != (GetFile(sq) == 0 || GetFile(sq) == 7) ==>
              |KingAttacks(sq)| == 5
    ensures 0 < GetRank(sq) < 7 && 0 < GetFile(sq) < 7 ==> |KingAttacks(sq)| == 8
  {
    RankFileDecompose(sq);
    KingCountIsBoxLessOne(sq);
    BoxAroundSize(sq);
  }

  // ---------------------------------------------------------------------------
  // The tables, filled square by square as the constexpr initialisers do.
  // KNIGHT_ATTACK_MAP[sq] and KING_ATTACK_MAP[sq] are KnightAttacks(sq) and
  // KingAttacks(sq) directly: their entries need no loop of their own.

  /** One entry of BISHOP_ATTACK_MAP: the union of four explores. */
  method BishopEntry(sq: Square) returns (entry: set<Square>)
    ensures entry == BishopAttacks(sq)
  {
    var ne := Explore(NE, sq);
    var nw := Explore(NW, sq);
    var se := Explore(SE, sq);
    var sw := Explore(SW, sq);
    entry := ne + nw + se + sw;
  }

  /** BISHOP_ATTACK_MAP: the four diagonal explores of every square. */
  method BuildBishopMap() returns (m: seq<set<Square>>)
    ensures |m| == NUM_SQUARES
    ensures forall sq: Square :: m[sq] == BishopAttacks(sq)
  {
    m := [];
    var sq := 0;
    while sq < NUM_SQUARES
      invariant 0 <= sq <= NUM_SQUARES && |m| == sq
      invariant forall s: Square :: s < sq ==> m[s] == BishopAttacks(s)
    {
      var entry := BishopEntry(sq);
      m := m + [entry];
      sq := sq + 1;
    }
  }

  /** One entry of ROOK_ATTACK_MAP: the union of four explores. */
  method RookEntry(sq: Square) returns (entry: set<Square>)
    ensures entry == RookAttacks(sq)
  {
    var n := Explore(N, sq);
    var s := Explore(S, sq);
    var e := Explore(E, sq);
    var w := Explore(W, sq);
    entry := n + s + e + w;
  }

  /** ROOK_ATTACK_MAP: the four orthogonal explores of every square. */
  method BuildRookMap() returns (m: seq<set<Square>>)
    ensures |m| == NUM_SQUARES
    ensures forall sq: Square :: m[sq] == RookAttacks(sq)
  {
    m := [];
    var sq := 0;
    while sq < NUM_SQUARES
      invariant 0 <= sq <= NUM_SQUARES && |m| == sq
      invariant forall s: Square :: s < sq ==> m[s] == RookAttacks(s)
    {
      var entry := RookEntry(sq);
      m := m + [entry];
      sq := sq + 1;
    }
  }

  /** QUEEN_ATTACK_MAP: the bishop and rook entries of every square, joined. */
  method BuildQueenMap(bishop: seq<set<Square>>, rook: seq<set<Square>>) returns (m: seq<set<Square>>)
    requires |bishop| == NUM_SQUARES && |rook| == NUM_SQUARES
    ensures |m| == NUM_SQUARES
    ensures forall sq: Square :: m[sq] == bishop[sq] + rook[sq]
  {
    m := [];
    var sq := 0;
    while sq < NUM_SQUARES
      invariant 0 <= sq <= NUM_SQUARES && |m| == sq
      invariant forall s: Square :: s < sq ==> m[s] == bishop[s] + rook[s]
    {
      m := m + [bishop[sq] + rook[sq]];
      sq := sq + 1;
    }
  }

  /** Built from the bishop and rook tables, the queen table holds every
      square's queen attacks. */
  method BuildAllMaps() returns (bishop: seq<set<Square>>, rook: seq<set<Square>>, queen: seq<set<Square>>)
    ensures |bishop| == |rook| == |queen| == NUM_SQUARES
    ensures forall sq: Square :: queen[sq] == QueenAttacks(sq) == bishop[sq] + rook[sq]
  {
    bishop := BuildBishopMap();
    rook := BuildRookMap();
    queen := BuildQueenMap(bishop, rook);
  }
}

=== FILE: replies.dfy ===
/** The confirmation prompts of the helper scripts. */
module Replies {
  /** `reply.lower() != 'y'` is false exactly for "y" and "Y": no other
      string lower-cases to the single letter y. */
  predicate IsYes(reply: string)
  {
    reply == "y" || reply == "Y"
  }
}

=== FILE: search.dfy ===
/** negamax and the iterative-deepening search over an abstract engine.
    should_stop_search (an atomic flag and a wall clock) is an oracle: the
    answer of its i-th call, counted from the start of the search. */
module Search {
  import opened Outcomes
  import opened MoveCodec
  import opened Perft

  function Max(a: int, b: int): (m: int)
    ensures m >= a && m >= b && (m == a || m == b)
  {
    if a >= b then a else b
  }

  /** What a negamax call hands back: its score, how many stop checks have
      been made once it returns, and the board it leaves. */
  datatype Scored<B> = Scored(score: int, checks: nat, board: B)

  /** negamax(b, depth), with the i-th stop check answered by stop(i) and t
      checks made before the call. The first thing it does is check for a
      stop, and a stopped call returns MIN_SCORE having done nothing else.
      Moves come from generate_moves (ALL); each child is searched between a
      make_move and an unmake_move. */
  function Negamax<B>(e: Engine<B>, eval: B -> int, minScore: int, stop: nat -> bool,
                      b: B, depth: nat, t: nat): (r: Scored<B>)
    ensures r.checks > t
    ensures stop(t) ==> r == Scored(minScore, t + 1, b)
    ensures !stop(t) && depth == 0 ==> r == Scored(eval(b), t + 1, b)
    decreases depth, 0
  {
    if stop(t) then Scored(minScore, t + 1, b)
    else if depth == 0 then Scored(eval(b), t + 1, b)
    else NegaLoop(e, eval, minScore, stop, b, e.all(b), depth - 1, t + 1, minScore)
  }

  /** negamax's loop over ms: best_score = max(best_score, -child score). */
  function NegaLoop<B>(e: Engine<B>, eval: B -> int, minScore: int, stop: nat -> bool,
                       b: B, ms: seq<Mv>, d: nat, t: nat, best: int): (r: Scored<B>)
    ensures r.checks >= t && r.score >= best
    ensures ms == [] ==> r == Scored(best, t, b)
    decreases d, 1, |ms|
  {
    if ms == [] then Scored(best, t, b)
    else
      var c := Negamax(e, eval, minScore, stop, e.make(b, ms[0]), d, t);
      NegaLoop(e, eval, minScore, stop, e.unmake(c.board, ms[0]), ms[1..], d, c.checks, Max(best, -c.score))
  }

  // ---------------------------------------------------------------------------
  // The reference: the negamax value of a position.

  /** The value negamax means to compute: the evaluation at depth 0, and
      otherwise the best negated child value, MIN_SCORE when nothing beats
      it (in particular with no moves). */
  function Value<B>(e: Engine<B>, eval: B -> int, minScore: int, b: B, depth: nat): int
    decreases depth, 0
  {
    if depth == 0 then eval(b) else BestOf(e, eval, minScore, b, e.all(b), depth - 1)
  }

  /** The greatest of minScore and the negated values of the children by ms. */
  function BestOf<B>(e: Engine<B>, eval: B -> int, minScore: int, b: B, ms: seq<Mv>, d: nat): (r: int)
    ensures r >= minScore
    decreases d, 1, |ms|
  {
    if ms == [] then minScore
    else Max(-Value(e, eval, minScore, e.make(b, ms[0]), d), BestOf(e, eval, minScore, b, ms[1..], d))
  }

  /** BestOf is the maximum: no child beats it, and it is MIN_SCORE or the
      negated value of one of the children. */
  lemma {:induction false} BestOfIsMaximum<B>(e: Engine<B>, eval: B -> int, minScore: int, b: B, ms: seq<Mv>, d: nat)
    ensures forall i :: 0 <= i < |ms| ==> BestOf(e, eval, minScore, b, ms, d) >= -Value(e, eval, minScore, e.make(b, ms[i]), d)
    ensures BestOf(e, eval, minScore, b, ms, d) == minScore
            || exists i :: 0 <= i < |ms| && BestOf(e, eval, minScore, b, ms, d) == -Value(e, eval, minScore, e.make(b, ms[i]), d)
    decreases |ms|
  {
    if ms != [] {
      BestOfIsMaximum(e, eval, minScore, b, ms[1..], d);
      assert forall i :: 1 <= i < |ms| ==> ms[i] == ms[1..][i - 1];
    }
  }

  /** A stop oracle that never fires from check t on. */
  ghost predicate Quiet(stop: nat -> bool, t: nat)
  {
    forall i: nat :: i >= t ==> !stop(i)
  }

  /** A stop oracle that does not fire at checks t .. u - 1. */
  ghost predicate QuietDuring(stop: nat -> bool, t: nat, u: nat)
  {
    forall i: nat :: t <= i < u ==> !stop(i)
  }

  /** With make/unmake reversible and no stop during the call, negamax
      computes the value and gives the board back unchanged. */
  lemma {:induction false} NegamaxComputesValue<B(!new)>(e: Engine<B>, eval: B -> int, minScore: int,
                                                        stop: nat -> bool, b: B, depth: nat, t: nat)
    requires Reversible(e)
    requires QuietDuring(stop, t, Negamax(e, eval, minScore, stop, b, depth, t).checks)
    ensures Negamax(e, eval, minScore, stop, b, depth, t).score == Value(e, eval, minScore, b, depth)
    ensures Negamax(e, eval, minScore, stop, b, depth, t).board == b
    decreases depth, 0
  {
    assert !stop(t);
    if depth > 0 {
      NegaLoopComputesBest(e, eval, minScore, stop, b, e.all(b), depth - 1, t + 1, minScore);
    }
  }

  lemma {:induction false} NegaLoopComputesBest<B(!new)>(e: Engine<B>, eval: B -> int, minScore: int,
      stop: nat -> bool, b: B, ms: seq<Mv>, d: nat, t: nat, best: int)
    requires Reversible(e) && best >= minScore
    requires QuietDuring(stop, t, NegaLoop(e, eval, minScore, stop, b, ms, d, t, best).checks)
    requires forall m :: m in ms ==> m in e.all(b)
    ensures NegaLoop(e, eval, minScore, stop, b, ms, d, t, best).score
            == Max(best, BestOf(e, eval, minScore, b, ms, d))
    ensures NegaLoop(e, eval, minScore, stop, b, ms, d, t, best).board == b
    decreases d, 1, |ms|
  {
    if ms != [] {
      var child := e.make(b, ms[0]);
      var c := Negamax(e, eval, minScore, stop, child, d, t);
      var next := Max(best, -c.score);
      var rest := NegaLoop(e, eval, minScore, stop, e.unmake(c.board, ms[0]), ms[1..], d, c.checks, next);
      assert NegaLoop(e, eval, minScore, stop, b, ms, d, t, best) == rest;
      NegamaxComputesValue(e, eval, minScore, stop, child, d, t);
      assert e.unmake(c.board, ms[0]) == b;
      NegaLoopComputesBest(e, eval, minScore, stop, b, ms[1..], d, c.checks, next);
    }
  }

  // ---------------------------------------------------------------------------
  // search: iterative deepening.

  /** One depth of search's root loop: it finished with the best move found
      (None while no move scored above MIN_SCORE; the engine leaves the
      variable uninitialised) or it was stopped. */
  datatype DepthRun<B> =
    | Stopped(checks: nat, board: B)
    | Completed(best: Option<Mv>, bestScore: int, checks: nat, board: B)

  /** The root's bookkeeping for one move: it becomes the best move only if
      its score is strictly greater than the best so far. */
  function Keep(m: Mv, score: int, best: Option<Mv>, bestScore: int): (r: (Option<Mv>, int))
    ensures r.1 == Max(score, bestScore)
    ensures r.0 == (if score > bestScore then Some(m) else best)
  {
    if score > bestScore then (Some(m), score) else (best, bestScore)
  }

  /** The root loop at one depth: a stop check before each move, then
      -negamax(child, depth - 1), kept if strictly better. */
  function RootLoop<B>(e: Engine<B>, eval: B -> int, minScore: int, stop: nat -> bool,
                       b: B, ms: seq<Mv>, depth: nat, t: nat, best: Option<Mv>, bestScore: int)
    : (r: DepthRun<B>)
    requires depth >= 1
    ensures r.checks >= t && (ms != [] ==> r.checks > t)
    decreases |ms|
  {
    if ms == [] then Completed(best, bestScore, t, b)
    else if stop(t) then Stopped(t + 1, b)
    else
      var c := Negamax(e, eval, minScore, stop, e.make(b, ms[0]), depth - 1, t + 1);
      var k := Keep(ms[0], -c.score, best, bestScore);
      RootLoop(e, eval, minScore, stop, e.unmake(c.board, ms[0]), ms[1..], depth, c.checks, k.0, k.1)
  }

  /** What search leaves with: the move it returns (None for the engine's
      uninitialised Move), or OutOfFuel when the modelled depths ran out while
      the engine would still be searching. */
  datatype SearchResult = Returned(move: Option<Mv>) | OutOfFuel

  /** search's outer loop from `depth` on, for at most fuel more depths.
      best_move is replaced only when a depth completes; a stop inside a
      depth returns the previous one's. */
  function Deepen<B>(e: Engine<B>, eval: B -> int, minScore: int, stop: nat -> bool,
                     b: B, depth: nat, fuel: nat, t: nat, best: Option<Mv>): (r: SearchResult)
    requires depth >= 1
    decreases fuel
  {
    if fuel == 0 then OutOfFuel
    else match RootLoop(e, eval, minScore, stop, b, e.all(b), depth, t, None, minScore)
      case Stopped(_, _) => Returned(best)
      case Completed(found, _, t', b') => Deepen(e, eval, minScore, stop, b', depth + 1, fuel - 1, t', found)
  }

  /** search(b): depths 1, 2, ... with no best move yet and no check made. */
  function SearchMove<B>(e: Engine<B>, eval: B -> int, minScore: int, stop: nat -> bool,
                         b: B, fuel: nat): SearchResult
  {
    Deepen(e, eval, minScore, stop, b, 1, fuel, 0, None)
  }

  /** The move the root loop means to choose at a depth: the first of the
      moves whose value is strictly the best, above MIN_SCORE. */
  function RootBestFrom<B>(e: Engine<B>, eval: B -> int, minScore: int, b: B, ms: seq<Mv>, d: nat,
                           best: Option<Mv>, bestScore: int): (r: (Option<Mv>, int))
    ensures r.1 >= bestScore
    ensures r.0 == best || (r.0.Some? && r.0.value in ms)
    decreases |ms|
  {
    if ms == [] then (best, bestScore)
    else
      var k := Keep(ms[0], -Value(e, eval, minScore, e.make(b, ms[0]), d), best, bestScore);
      RootBestFrom(e, eval, minScore, b, ms[1..], d, k.0, k.1)
  }

  /** No root move scores above the chosen score. */
  lemma {:induction false} RootBestIsMaximum<B>(e: Engine<B>, eval: B -> int, minScore: int, b: B,
      ms: seq<Mv>, d: nat, best: Option<Mv>, bestScore: int)
    ensures forall i :: 0 <= i < |ms| ==>
              RootBestFrom(e, eval, minScore, b, ms, d, best, bestScore).1 >= -Value(e, eval, minScore, e.make(b, ms[i]), d)
    decreases |ms|
  {
    if ms != [] {
      var v := -Value(e, eval, minScore, e.make(b, ms[0]), d);
      var k := Keep(ms[0], v, best, bestScore);
      RootBestIsMaximum(e, eval, minScore, b, ms[1..], d, k.0, k.1);
      var r := RootBestFrom(e, eval, minScore, b, ms[1..], d, k.0, k.1);
      assert RootBestFrom(e, eval, minScore, b, ms, d, best, bestScore) == r;
      forall i | 0 <= i < |ms|
        ensures r.1 >= -Value(e, eval, minScore, e.make(b, ms[i]), d)
      {
        if i > 0 {
          assert ms[i] == ms[1..][i - 1];
        }
      }
    }
  }

  /** When the score never rose above bestScore the earlier best move stays. */
  lemma {:induction false} RootBestKeepsEarlier<B>(e: Engine<B>, eval: B -> int, minScore: int, b: B,
      ms: seq<Mv>, d: nat, best: Option<Mv>, bestScore: int)
    ensures var r := RootBestFrom(e, eval, minScore, b, ms, d, best, bestScore);
            r.1 == bestScore ==> r.0 == best
    decreases |ms|
  {
    if ms != [] {
      var v := -Value(e, eval, minScore, e.make(b, ms[0]), d);
      var k := Keep(ms[0], v, best, bestScore);
      RootBestKeepsEarlier(e, eval, minScore, b, ms[1..], d, k.0, k.1);
    }
  }

  /** score is above the value of every root move before index i. */
  predicate AboveAllBefore<B>(e: Engine<B>, eval: B -> int, minScore: int, b: B, ms: seq<Mv>, d: nat,
                              i: nat, score: int)
    requires i <= |ms|
  {
    forall j :: 0 <= j < i ==> -Value(e, eval, minScore, e.make(b, ms[j]), d) < score
  }

  lemma AboveAllBeforeCons<B>(e: Engine<B>, eval: B -> int, minScore: int, b: B, ms: seq<Mv>, d: nat,
                              i: nat, score: int)
    requires 0 < |ms| && i < |ms|
    requires -Value(e, eval, minScore, e.make(b, ms[0]), d) < score
    requires AboveAllBefore(e, eval, minScore, b, ms[1..], d, i, score)
    ensures AboveAllBefore(e, eval, minScore, b, ms, d, i + 1, score)
  {
    forall j | 0 < j < i + 1
      ensures -Value(e, eval, minScore, e.make(b, ms[j]), d) < score
    {
      assert ms[j] == ms[1..][j - 1];
    }
  }

  /** When the score rose, the chosen move is the first move reaching it. */
  lemma {:induction false} RootBestIsFirst<B>(e: Engine<B>, eval: B -> int, minScore: int, b: B,
      ms: seq<Mv>, d: nat, best: Option<Mv>, bestScore: int)
    ensures var r := RootBestFrom(e, eval, minScore, b, ms, d, best, bestScore);
            r.1 > bestScore ==>
              exists i :: 0 <= i < |ms| && r.0 == Some(ms[i]) && r.1 == -Value(e, eval, minScore, e.make(b, ms[i]), d)
                          && AboveAllBefore(e, eval, minScore, b, ms, d, i, r.1)
    decreases |ms|
  {
    if ms != [] {
      var v := -Value(e, eval, minScore, e.make(b, ms[0]), d);
      var k := Keep(ms[0], v, best, bestScore);
      RootBestIsFirst(e, eval, minScore, b, ms[1..], d, k.0, k.1);
      RootBestKeepsEarlier(e, eval, minScore, b, ms[1..], d, k.0, k.1);
      var r := RootBestFrom(e, eval, minScore, b, ms[1..], d, k.0, k.1);
      assert RootBestFrom(e, eval, minScore, b, ms, d, best, bestScore) == r;
      if r.1 > bestScore {
        if r.1 == k.1 {
          assert r.0 == Some(ms[0]) && r.1 == v;
          assert AboveAllBefore(e, eval, minScore, b, ms, d, 0, r.1);
        } else {
          var i' :| 0 <= i' < |ms[1..]| && r.0 == Some(ms[1..][i']) && r.1 == -Value(e, eval, minScore, e.make(b, ms[1..][i']), d)
                    && AboveAllBefore(e, eval, minScore, b, ms[1..], d, i', r.1);
          assert ms[1..][i'] == ms[i' + 1];
          AboveAllBeforeCons(e, eval, minScore, b, ms, d, i', r.1);
        }
      }
    }
  }

  /** The chosen move is a first maximum: no move scores above it; if the
      score did not rise above bestScore the move is still best; otherwise
      it is the first move reaching that score. */
  lemma RootBestIsFirstMaximum<B>(e: Engine<B>, eval: B -> int, minScore: int, b: B,
      ms: seq<Mv>, d: nat, best: Option<Mv>, bestScore: int)
    ensures var r := RootBestFrom(e, eval, minScore, b, ms, d, best, bestScore);
            forall i :: 0 <= i < |ms| ==> r.1 >= -Value(e, eval, minScore, e.make(b, ms[i]), d)
    ensures var r := RootBestFrom(e, eval, minScore, b, ms, d, best, bestScore);
            r.1 == bestScore ==> r.0 == best
    ensures var r := RootBestFrom(e, eval, minScore, b, ms, d, best, bestScore);
            r.1 > bestScore ==>
              exists i :: 0 <= i < |ms| && r.0 == Some(ms[i]) && r.1 == -Value(e, eval, minScore, e.make(b, ms[i]), d)
                          && forall j :: 0 <= j < i ==> -Value(e, eval, minScore, e.make(b, ms[j]), d) < r.1
  {
    RootBestIsMaximum(e, eval, minScore, b, ms, d, best, bestScore);
    RootBestKeepsEarlier(e, eval, minScore, b, ms, d, best, bestScore);
    RootBestIsFirst(e, eval, minScore, b, ms, d, best, bestScore);
  }

  function RootBest<B>(e: Engine<B>, eval: B -> int, minScore: int, b: B, depth: nat): Option<Mv>
    requires depth >= 1
  {
    RootBestFrom(e, eval, minScore, b, e.all(b), depth - 1, None, minScore).0
  }

  /** With no stop during a depth, the root loop completes with RootBest and
      restores the board. */
  lemma {:induction false} RootLoopFindsBest<B(!new)>(e: Engine<B>, eval: B -> int, minScore: int,
      stop: nat -> bool, b: B, ms: seq<Mv>, depth: nat, t: nat, best: Option<Mv>, bestScore: int)
    requires depth >= 1 && Reversible(e)
    requires QuietDuring(stop, t, RootLoop(e, eval, minScore, stop, b, ms, depth, t, best, bestScore).checks)
    requires forall m :: m in ms ==> m in e.all(b)
    ensures RootLoop(e, eval, minScore, stop, b, ms, depth, t, best, bestScore)
            == Completed(RootBestFrom(e, eval, minScore, b, ms, depth - 1, best, bestScore).0,
                         RootBestFrom(e, eval, minScore, b, ms, depth - 1, best, bestScore).1,
                         RootLoop(e, eval, minScore, stop, b, ms, depth, t, best, bestScore).checks, b)
    decreases |ms|
  {
    if ms != [] {
      assert !stop(t);
      var child := e.make(b, ms[0]);
      var c := Negamax(e, eval, minScore, stop, child, depth - 1, t + 1);
      var k := Keep(ms[0], -c.score, best, bestScore);
      var rest := RootLoop(e, eval, minScore, stop, e.unmake(c.board, ms[0]), ms[1..], depth, c.checks, k.0, k.1);
      assert RootLoop(e, eval, minScore, stop, b, ms, depth, t, best, bestScore) == rest;
      NegamaxComputesValue(e, eval, minScore, stop, child, depth - 1, t + 1);
      assert e.unmake(c.board, ms[0]) == b;
      assert k == Keep(ms[0], -Value(e, eval, minScore, child, depth - 1), best, bestScore);
      assert RootBestFrom(e, eval, minScore, b, ms, depth - 1, best, bestScore)
          == RootBestFrom(e, eval, minScore, b, ms[1..], depth - 1, k.0, k.1);
      RootLoopFindsBest(e, eval, minScore, stop, b, ms[1..], depth, c.checks, k.0, k.1);
    }
  }

  /** search only leaves its loop through a stop check: with an oracle that
      never fires it is still searching after any number of depths. */
  lemma {:induction false} UnstoppedNeverReturns<B(!new)>(e: Engine<B>, eval: B -> int, minScore: int,
      stop: nat -> bool, b: B, depth: nat, fuel: nat, t: nat, best: Option<Mv>)
    requires depth >= 1 && Reversible(e) && Quiet(stop, t)
    ensures Deepen(e, eval, minScore, stop, b, depth, fuel, t, best) == OutOfFuel
    decreases fuel
  {
    if fuel > 0 {
      var run := RootLoop(e, eval, minScore, stop, b, e.all(b), depth, t, None, minScore);
      RootLoopFindsBest(e, eval, minScore, stop, b, e.all(b), depth, t, None, minScore);
      UnstoppedNeverReturns(e, eval, minScore, stop, b, depth + 1, fuel - 1, run.checks, run.best);
    }
  }

  /** A stop anywhere inside a depth returns the move of the depth before,
      untouched. */
  lemma StoppedDepthKeepsPrevious<B>(e: Engine<B>, eval: B -> int, minScore: int, stop: nat -> bool,
                                     b: B, depth: nat, fuel: nat, t: nat, best: Option<Mv>)
    requires depth >= 1 && fuel >= 1
    requires RootLoop(e, eval, minScore, stop, b, e.all(b), depth, t, None, minScore).Stopped?
    ensures Deepen(e, eval, minScore, stop, b, depth, fuel, t, best) == Returned(best)
  {
  }

  /** A depth that runs without a stop replaces the best move with its
      RootBest: a stop right after it returns that move. */
  lemma CompletedDepthIsKept<B(!new)>(e: Engine<B>, eval: B -> int, minScore: int, stop: nat -> bool,
                                      b: B, depth: nat, fuel: nat, t: nat, best: Option<Mv>)
    requires depth >= 1 && fuel >= 2 && Reversible(e) && e.all(b) != []
    requires QuietDuring(stop, t, RootLoop(e, eval, minScore, stop, b, e.all(b), depth, t, None, minScore).checks)
    requires stop(RootLoop(e, eval, minScore, stop, b, e.all(b), depth, t, None, minScore).checks)
    ensures Deepen(e, eval, minScore, stop, b, depth, fuel, t, best) == Returned(RootBest(e, eval, minScore, b, depth))
  {
    var run := RootLoop(e, eval, minScore, stop, b, e.all(b), depth, t, None, minScore);
    RootLoopFindsBest(e, eval, minScore, stop, b, e.all(b), depth, t, None, minScore);
    assert run.board == b;
    assert RootLoop(e, eval, minScore, stop, b, e.all(b), depth + 1, run.checks, None, minScore).Stopped?;
  }

  // ---------------------------------------------------------------------------
  // Finding: a stopped subtree can be chosen.

  /** A two-move position: the root (the empty path) has moves m1 and m2,
      every other position has none, and every position evaluates to 0. */
  function Toy(m1: Mv, m2: Mv): Engine<seq<Mv>>
  {
    Engine(p => if p == [] then [m1, m2] else [], p => [], p => [],
           (p, m) => p + [m], (p, m) => if p == [] then [] else p[..|p| - 1])
  }

  /** The stop fires inside the child search of the last root move at
      depth 1 (check 3) and stays set. negamax hands MIN_SCORE back, the root
      negates it into the best score there is, the depth then ends without
      another check, and search returns m2, although m1 came first with the
      same value and m2's subtree was never searched. */
  lemma StoppedSubtreeIsChosen(m1: Mv, m2: Mv)
    requires m1 != m2
    ensures SearchMove(Toy(m1, m2), p => 0, -1000, i => i >= 3, [], 2) == Returned(Some(m2))
    ensures RootBest(Toy(m1, m2), p => 0, -1000, [], 1) == Some(m1)
  {
    var e := Toy(m1, m2);
    var eval: seq<Mv> -> int := p => 0;
    var stop: nat -> bool := i => i >= 3;
    assert e.all([]) == [m1, m2];
    var c1 := Negamax(e, eval, -1000, stop, [m1], 0, 1);
    assert c1 == Scored(0, 2, [m1]);
    assert e.unmake([m1], m1) == [];
    var c2 := Negamax(e, eval, -1000, stop, [m2], 0, 3);
    assert c2 == Scored(-1000, 4, [m2]);
    assert e.unmake([m2], m2) == [];
    assert RootLoop(e, eval, -1000, stop, [], [m2], 1, 2, Some(m1), 0)
        == RootLoop(e, eval, -1000, stop, [], [], 1, 4, Some(m2), 1000);
    assert RootLoop(e, eval, -1000, stop, [], [m1, m2], 1, 0, None, -1000)
        == Completed(Some(m2), 1000, 4, []);
    assert [m1, m2][1..] == [m2];
    assert RootBestFrom(e, eval, -1000, [], [m2], 0, Some(m1), 0) == (Some(m1), 0);
  }

  // ---------------------------------------------------------------------------
  // Finding: no root moves, no return.

  /** With no legal root move the root loop makes no stop check, every depth
      completes at once, and search never returns, whatever the oracle says
      (here even one that always says stop). */
  lemma {:induction false} NoMovesNeverReturns<B>(e: Engine<B>, eval: B -> int, minScore: int,
      stop: nat -> bool, b: B, depth: nat, fuel: nat, t: nat, best: Option<Mv>)
    requires depth >= 1 && e.all(b) == []
    ensures Deepen(e, eval, minScore, stop, b, depth, fuel, t, best) == OutOfFuel
    decreases fuel
  {
    if fuel > 0 {
      NoMovesNeverReturns(e, eval, minScore, stop, b, depth + 1, fuel - 1, t, None);
    }
  }

  // ---------------------------------------------------------------------------
  // The corrected search: a stopped call reports no score, a depth with a
  // stopped subtree is discarded, and a position without moves returns at
  // once.

  /** negamax that says when it was stopped: None instead of a score. */
  datatype Searched<B> = Searched(score: Option<int>, checks: nat, board: B)

  function NegamaxFixed<B>(e: Engine<B>, eval: B -> int, minScore: int, stop: nat -> bool,
                           b: B, depth: nat, t: nat): (r: Searched<B>)
    ensures r.checks > t
    ensures stop(t) ==> r == Searched(None, t + 1, b)
    decreases depth, 0
  {
    if stop(t) then Searched(None, t + 1, b)
    else if depth == 0 then Searched(Some(eval(b)), t + 1, b)
    else NegaLoopFixed(e, eval, minScore, stop, b, e.all(b), depth - 1, t + 1, minScore)
  }

  /** The loop stops at the first stopped child, after unmaking it. */
  function NegaLoopFixed<B>(e: Engine<B>, eval: B -> int, minScore: int, stop: nat -> bool,
                            b: B, ms: seq<Mv>, d: nat, t: nat, best: int): (r: Searched<B>)
    ensures r.checks >= t
    decreases d, 1, |ms|
  {
    if ms == [] then Searched(Some(best), t, b)
    else
      var c := NegamaxFixed(e, eval, minScore, stop, e.make(b, ms[0]), d, t);
      var back := e.unmake(c.board, ms[0]);
      if c.score.None? then Searched(None, c.checks, back)
      else NegaLoopFixed(e, eval, minScore, stop, back, ms[1..], d, c.checks, Max(best, -c.score.value))
  }

  /** Whatever the oracle does, a score the corrected negamax reports is the
      value of the position, and the board always comes back. */
  lemma {:induction false} FixedScoreIsValue<B(!new)>(e: Engine<B>, eval: B -> int, minScore: int,
      stop: nat -> bool, b: B, depth: nat, t: nat)
    requires Reversible(e)
    ensures NegamaxFixed(e, eval, minScore, stop, b, depth, t).board == b
    ensures NegamaxFixed(e, eval, minScore, stop, b, depth, t).score.Some?
            ==> NegamaxFixed(e, eval, minScore, stop, b, depth, t).score.value == Value(e, eval, minScore, b, depth)
    decreases depth, 0
  {
    if !stop(t) && depth > 0 {
      FixedLoopIsBest(e, eval, minScore, stop, b, e.all(b), depth - 1, t + 1, minScore);
    }
  }

  lemma {:induction false} FixedLoopIsBest<B(!new)>(e: Engine<B>, eval: B -> int, minScore: int,
      stop: nat -> bool, b: B, ms: seq<Mv>, d: nat, t: nat, best: int)
    requires Reversible(e) && best >= minScore
    requires forall m :: m in ms ==> m in e.all(b)
    ensures NegaLoopFixed(e, eval, minScore, stop, b, ms, d, t, best).board == b
    ensures NegaLoopFixed(e, eval, minScore, stop, b, ms, d, t, best).score.Some?
            ==> NegaLoopFixed(e, eval, minScore, stop, b, ms, d, t, best).score.value
                == Max(best, BestOf(e, eval, minScore, b, ms, d))
    decreases d, 1, |ms|
  {
    if ms != [] {
      var child := e.make(b, ms[0]);
      var c := NegamaxFixed(e, eval, minScore, stop, child, d, t);
      FixedScoreIsValue(e, eval, minScore, stop, child, d, t);
      assert e.unmake(c.board, ms[0]) == b;
      if c.score.Some? {
        FixedLoopIsBest(e, eval, minScore, stop, b, ms[1..], d, c.checks, Max(best, -c.score.value));
      }
    }
  }

  function RootLoopFixed<B>(e: Engine<B>, eval: B -> int, minScore: int, stop: nat -> bool,
                            b: B, ms: seq<Mv>, depth: nat, t: nat, best: Option<Mv>, bestScore: int)
    : (r: DepthRun<B>)
    requires depth >= 1
    ensures r.checks >= t && (ms != [] ==> r.checks > t)
    decreases |ms|
  {
    if ms == [] then Completed(best, bestScore, t, b)
    else if stop(t) then Stopped(t + 1, b)
    else
      var c := NegamaxFixed(e, eval, minScore, stop, e.make(b, ms[0]), depth - 1, t + 1);
      var back := e.unmake(c.board, ms[0]);
      if c.score.None? then Stopped(c.checks, back)
      else
        var k := Keep(ms[0], -c.score.value, best, bestScore);
        RootLoopFixed(e, eval, minScore, stop, back, ms[1..], depth, c.checks, k.0, k.1)
  }

  function DeepenFixed<B>(e: Engine<B>, eval: B -> int, minScore: int, stop: nat -> bool,
                          b: B, depth: nat, fuel: nat, t: nat, best: Option<Mv>): (r: SearchResult)
    requires depth >= 1
    decreases fuel
  {
    if fuel == 0 then OutOfFuel
    else if e.all(b) == [] then Returned(best)
    else match RootLoopFixed(e, eval, minScore, stop, b, e.all(b), depth, t, None, minScore)
      case Stopped(_, _) => Returned(best)
      case Completed(found, _, t', b') => DeepenFixed(e, eval, minScore, stop, b', depth + 1, fuel - 1, t', found)
  }

  /** A completed depth of the corrected root loop found RootBest. */
  lemma {:induction false} FixedRootFindsBest<B(!new)>(e: Engine<B>, eval: B -> int, minScore: int,
      stop: nat -> bool, b: B, ms: seq<Mv>, depth: nat, t: nat, best: Option<Mv>, bestScore: int)
    requires depth >= 1 && Reversible(e)
    requires forall m :: m in ms ==> m in e.all(b)
    ensures RootLoopFixed(e, eval, minScore, stop, b, ms, depth, t, best, bestScore).board == b
    ensures RootLoopFixed(e, eval, minScore, stop, b, ms, depth, t, best, bestScore).Completed?
            ==> RootLoopFixed(e, eval, minScore, stop, b, ms, depth, t, best, bestScore).best
                == RootBestFrom(e, eval, minScore, b, ms, depth - 1, best, bestScore).0
    decreases |ms|
  {
    if ms != [] && !stop(t) {
      var child := e.make(b, ms[0]);
      var c := NegamaxFixed(e, eval, minScore, stop, child, depth - 1, t + 1);
      FixedScoreIsValue(e, eval, minScore, stop, child, depth - 1, t + 1);
      assert e.unmake(c.board, ms[0]) == b;
      if c.score.Some? {
        var k := Keep(ms[0], -c.score.value, best, bestScore);
        assert RootLoopFixed(e, eval, minScore, stop, b, ms, depth, t, best, bestScore)
            == RootLoopFixed(e, eval, minScore, stop, b, ms[1..], depth, c.checks, k.0, k.1);
        FixedRootFindsBest(e, eval, minScore, stop, b, ms[1..], depth, c.checks, k.0, k.1);
      }
    }
  }

  /** The corrected search only ever returns the best move of a depth it
      searched completely, or the initial no-move. */
  lemma {:induction false} FixedReturnsCompletedBest<B(!new)>(e: Engine<B>, eval: B -> int, minScore: int,
      stop: nat -> bool, b: B, depth: nat, fuel: nat, t: nat, best: Option<Mv>)
    requires depth >= 1 && Reversible(e)
    requires best == None || exists d :: 1 <= d < depth && best == RootBest(e, eval, minScore, b, d)
    ensures var r := DeepenFixed(e, eval, minScore, stop, b, depth, fuel, t, best);
            r.Returned? ==> r.move == None || exists d :: 1 <= d && r.move == RootBest(e, eval, minScore, b, d)
    decreases fuel
  {
    if fuel > 0 && e.all(b) != [] {
      FixedRootFindsBest(e, eval, minScore, stop, b, e.all(b), depth, t, None, minScore);
      var run := RootLoopFixed(e, eval, minScore, stop, b, e.all(b), depth, t, None, minScore);
      if run.Completed? {
        assert run.best == RootBest(e, eval, minScore, b, depth);
        FixedReturnsCompletedBest(e, eval, minScore, stop, b, depth + 1, fuel - 1, run.checks, run.best);
      }
    }
  }

  /** The corrected search ends: with an oracle that fires at check k and
      stays set, it has returned within k + 1 depths, moves or not. */
  lemma {:induction false} FixedSearchReturns<B>(e: Engine<B>, eval: B -> int, minScore: int,
      stop: nat -> bool, b: B, depth: nat, fuel: nat, t: nat, best: Option<Mv>, k: nat)
    requires depth >= 1 && fuel >= 1 && fuel > k - t
    requires forall i: nat :: i >= k ==> stop(i)
    ensures DeepenFixed(e, eval, minScore, stop, b, depth, fuel, t, best).Returned?
    decreases fuel
  {
    if e.all(b) != [] {
      var run := RootLoopFixed(e, eval, minScore, stop, b, e.all(b), depth, t, None, minScore);
      if run.Completed? {
        assert !stop(t);
        assert DeepenFixed(e, eval, minScore, stop, b, depth, fuel, t, best)
            == DeepenFixed(e, eval, minScore, stop, run.board, depth + 1, fuel - 1, run.checks, run.best);
        FixedSearchReturns(e, eval, minScore, stop, run.board, depth + 1, fuel - 1, run.checks, run.best, k);
      } else {
        assert DeepenFixed(e, eval, minScore, stop, b, depth, fuel, t, best) == Returned(best);
      }
    }
  }
}

=== FILE: selector.dfy ===
/** The move selector: CAPTURE_SCORE, the two sorts, mark_killer_if_legal
    and the next_move phase machine, as written and with captures generated
    once on entering their phase. */
module MoveSelection {
  import opened Types
  import opened Outcomes
  import opened Boards
  import opened MoveCodec
  import opened Checks
  import opened MoveGen

  // ---------------------------------------------------------------------------
  // CAPTURE_SCORE

  /** CAPTURE_SCORE[attacker][victim]. */
  const CAPTURE_SCORE: seq<seq<int>> := [
    [106, 206, 306, 406, 506, 0],
    [105, 205, 305, 405, 505, 0],
    [104, 204, 304, 404, 504, 0],
    [103, 203, 303, 403, 503, 0],
    [102, 202, 302, 402, 502, 0],
    [101, 201, 301, 401, 501, 0]
  ]

  /** A capture's score: a hundred per victim index above the pawn's, less
      one per attacker index, and nothing for taking the king. */
  function CaptureScore(attacker: PieceKind, victim: PieceKind): (s: int)
    ensures s == if victim == KING then 0 else 100 * (victim + 1) + 6 - attacker
  {
    CAPTURE_SCORE[attacker][victim]
  }

  /** Most valuable victim first: a more valuable victim (not the king)
      scores higher whatever the attackers; for one victim the cheaper
      attacker scores higher. */
  lemma VictimThenAttacker(a1: PieceKind, v1: PieceKind, a2: PieceKind, v2: PieceKind)
    ensures v1 < v2 < KING ==> CaptureScore(a1, v1) < CaptureScore(a2, v2)
    ensures v1 == v2 < KING && a1 < a2 ==> CaptureScore(a1, v1) > CaptureScore(a2, v2)
  {
  }

  // ---------------------------------------------------------------------------
  // Sorting by a score (std::sort with `score(m1) < score(m2)`).

  /** Each entry scores no more than the next. */
  predicate SortedBy(xs: seq<Mv>, key: Mv -> int)
  {
    forall i :: 0 <= i < |xs| - 1 ==> key(xs[i]) <= key(xs[i + 1])
  }

  /** In a sorted list every entry scores no more than any later one. */
  lemma {:induction false} SortedPairs(xs: seq<Mv>, key: Mv -> int, i: int, j: int)
    requires SortedBy(xs, key) && 0 <= i <= j < |xs|
    ensures key(xs[i]) <= key(xs[j])
    decreases j - i
  {
    if i < j {
      SortedPairs(xs, key, i + 1, j);
    }
  }

  /** x put before the first entry that does not score lower. */
  function Insert(x: Mv, xs: seq<Mv>, key: Mv -> int): (r: seq<Mv>)
    requires SortedBy(xs, key)
    ensures SortedBy(r, key)
    ensures multiset(r) == multiset(xs) + multiset{x}
    ensures |r| == |xs| + 1 && (r[0] == x || (|xs| > 0 && r[0] == xs[0]))
    decreases |xs|
  {
    if xs == [] || key(x) <= key(xs[0]) then [x] + xs
    else
      var rest := Insert(x, xs[1..], key);
      assert xs == [xs[0]] + xs[1..];
      [xs[0]] + rest
  }

  /** The entries of xs in ascending order of key. std::sort is not stable;
      this one keeps equal scores in list order, which is one of the orders
      std::sort may produce. */
  function SortBy(xs: seq<Mv>, key: Mv -> int): (r: seq<Mv>)
    ensures SortedBy(r, key)
    ensures multiset(r) == multiset(xs)
    decreases |xs|
  {
    if xs == [] then []
    else
      assert xs == [xs[0]] + xs[1..];
      Insert(xs[0], SortBy(xs[1..], key), key)
  }

  /** sort_captures reads piece_map at both squares and indexes CAPTURE_SCORE
      with what it finds; that is only inside the table when both squares
      hold a piece. */
  predicate Scorable(b: Board, m: Mv)
    requires b.Valid()
  {
    PieceAt(b, m.from) != NO_PIECE && PieceAt(b, m.to) != NO_PIECE
  }

  /** The capture score of a scorable move on b. */
  function CaptureKey(b: Board, m: Mv): (k: int)
    ensures b.Valid() && Scorable(b, m) ==> k == CaptureScore(PieceAt(b, m.from), PieceAt(b, m.to))
  {
    if |b.cells| == 64 && b.cells[m.from].Occupant? && b.cells[m.to].Occupant?
    then CaptureScore(b.cells[m.from].kind, b.cells[m.to].kind)
    else 0
  }

  /** sort_captures: the captures in ascending CAPTURE_SCORE order, so that
      popping from the back yields the best first. */
  function SortCaptures(b: Board, moves: seq<Mv>): (r: seq<Mv>)
    requires b.Valid() && forall m :: m in moves ==> Scorable(b, m)
    ensures multiset(r) == multiset(moves)
    ensures SortedBy(r, m => CaptureKey(b, m))
  {
    SortBy(moves, m => CaptureKey(b, m))
  }

  /** The history score sort_quiet_moves gives a quiet move:
      color_piece_to[to_move][piece][to] + from_to[from][to], with both
      tables given. */
  function QuietKey(b: Board, pieceTo: (int, int, Square) -> int, fromTo: (Square, Square) -> int, m: Mv): int
  {
    var piece := if |b.cells| == 64 && b.cells[m.from].Occupant? then b.cells[m.from].kind else NO_PIECE;
    pieceTo(b.toMove, piece, m.to) + fromTo(m.from, m.to)
  }

  /** sort_quiet_moves: the quiet moves in ascending history score. */
  function SortQuiets(b: Board, pieceTo: (int, int, Square) -> int, fromTo: (Square, Square) -> int, moves: seq<Mv>)
    : (r: seq<Mv>)
    ensures multiset(r) == multiset(moves)
    ensures SortedBy(r, m => QuietKey(b, pieceTo, fromTo, m))
  {
    SortBy(moves, m => QuietKey(b, pieceTo, fromTo, m))
  }

  // ---------------------------------------------------------------------------
  // The selector's state.

  /** MoveSelectorPhase, in the order of next_move's switch. */
  datatype Phase = Transposition | GoodCapture | Killer | QuietMove | BadCapture

  /** The position of a phase in the switch. */
  function Order(p: Phase): (n: nat)
    ensures n < 5
  {
    match p
    case Transposition => 0
    case GoodCapture => 1
    case Killer => 2
    case QuietMove => 3
    case BadCapture => 4
  }

  /** An entry of quiet_moves: a move and its is_killer mark. */
  datatype Quiet = Quiet(move: Mv, isKiller: bool)

  /** What next_move reads from the board and the search state: the
      captures and promotions as sort_captures leaves them, the quiet moves
      as sort_quiet_moves leaves them, and the two killers of the ply (None
      for NULL_MOVE). Generation is deterministic, so every regeneration in
      one position produces these same lists. */
  datatype Lists = Lists(captures: seq<Mv>, quiets: seq<Mv>, killer1: Option<Mv>, killer2: Option<Mv>)

  /** MoveSelector: the phase, the live entries of the two move lists and
      killer_count. */
  datatype Selector = Selector(phase: Phase, captures: seq<Mv>, quiets: seq<Quiet>, killerCount: int)

  /** The constructor: TRANSPOSITION, empty lists, no killer tried. */
  function Initial(): Selector
  {
    Selector(Transposition, [], [], 0)
  }

  /** Freshly generated quiet moves: none marked. */
  function Unmarked(ms: seq<Mv>): (r: seq<Quiet>)
    ensures |r| == |ms|
    ensures forall i :: 0 <= i < |r| ==> r[i] == Quiet(ms[i], false)
  {
    if ms == [] then [] else [Quiet(ms[0], false)] + Unmarked(ms[1..])
  }

  /** The moves of the entries, in order. */
  function Moves(qs: seq<Quiet>): (r: seq<Mv>)
    ensures |r| == |qs|
    ensures forall i :: 0 <= i < |r| ==> r[i] == qs[i].move
  {
    if qs == [] then [] else [qs[0].move] + Moves(qs[1..])
  }

  /** The moves of the entries not marked as killers, in order. */
  function Pending(qs: seq<Quiet>): (r: seq<Mv>)
  {
    if qs == [] then []
    else if qs[0].isKiller then Pending(qs[1..])
    else [qs[0].move] + Pending(qs[1..])
  }

  lemma {:induction false} PendingUnmarked(ms: seq<Mv>)
    ensures Pending(Unmarked(ms)) == ms
    decreases |ms|
  {
    if ms != [] {
      PendingUnmarked(ms[1..]);
      assert Unmarked(ms)[1..] == Unmarked(ms[1..]);
    }
  }

  /** Only entries holding k are marked (none at all when k is None). */
  predicate MarksOnly(qs: seq<Quiet>, k: Option<Mv>)
  {
    forall i :: 0 <= i < |qs| && qs[i].isKiller ==> k.Some? && qs[i].move == k.value
  }

  // ---------------------------------------------------------------------------
  // mark_killer_if_legal and popping quiet moves.

  /** The first entry holding k, or -1 when there is none. `move ==
      killer_move` compares the encoded moves; the killer mark takes no part
      in it. */
  function FirstIndex(qs: seq<Quiet>, k: Mv): (i: int)
    ensures -1 <= i < |qs|
    ensures i >= 0 ==> qs[i].move == k && forall j :: 0 <= j < i ==> qs[j].move != k
    ensures i < 0 <==> k !in Moves(qs)
    decreases |qs|
  {
    if qs == [] then -1
    else if qs[0].move == k then 0
    else
      var j := FirstIndex(qs[1..], k);
      assert Moves(qs) == [qs[0].move] + Moves(qs[1..]);
      if j < 0 then -1 else j + 1
  }

  /** mark_killer_if_legal: marks the first entry equal to the killer and
      reports whether there was one. NULL_MOVE (None) is taken to equal no
      generated move. */
  function MarkKiller(qs: seq<Quiet>, k: Option<Mv>): (r: (bool, seq<Quiet>))
    ensures r.0 <==> k.Some? && k.value in Moves(qs)
    ensures Moves(r.1) == Moves(qs)
    ensures !r.0 ==> r.1 == qs
    ensures forall i :: 0 <= i < |r.1| && r.1[i].isKiller ==> qs[i].isKiller || (k.Some? && qs[i].move == k.value)
  {
    if k.None? then (false, qs)
    else
      var i := FirstIndex(qs, k.value);
      if i < 0 then (false, qs) else (true, qs[i := qs[i].(isKiller := true)])
  }

  lemma {:induction false} PendingConcat(a: seq<Quiet>, b: seq<Quiet>)
    ensures Pending(a + b) == Pending(a) + Pending(b)
    decreases |a|
  {
    if a != [] {
      assert (a + b)[0] == a[0];
      assert (a + b)[1..] == a[1..] + b;
      PendingConcat(a[1..], b);
      var x := if a[0].isKiller then [] else [a[0].move];
      assert Pending(a + b) == x + Pending(a[1..] + b);
      assert x + (Pending(a[1..]) + Pending(b)) == (x + Pending(a[1..])) + Pending(b);
    } else {
      assert a + b == b;
    }
  }

  /** The moves an entry contributes to Pending. */
  function PendingOf(q: Quiet): seq<Mv>
  {
    if q.isKiller then [] else [q.move]
  }

  lemma {:induction false} PendingSplice(front: seq<Quiet>, q: Quiet, back: seq<Quiet>)
    ensures Pending(front + [q] + back) == Pending(front) + PendingOf(q) + Pending(back)
  {
    PendingConcat(front + [q], back);
    PendingConcat(front, [q]);
    assert [q][1..] == [];
  }

  /** Marking finds the first entry holding k and marks it in place. */
  lemma {:induction false} MarkKillerAt(qs: seq<Quiet>, k: Mv) returns (i: int)
    requires k in Moves(qs)
    ensures 0 <= i < |qs| && qs[i].move == k
    ensures qs == qs[..i] + [qs[i]] + qs[i + 1..]
    ensures MarkKiller(qs, Some(k)).1 == qs[..i] + [qs[i].(isKiller := true)] + qs[i + 1..]
  {
    i := FirstIndex(qs, k);
    var x := qs[i].(isKiller := true);
    assert MarkKiller(qs, Some(k)).1 == qs[i := x];
    SpliceAt(qs, i, x);
  }

  lemma SpliceAt(qs: seq<Quiet>, i: int, x: Quiet)
    requires 0 <= i < |qs|
    ensures qs == qs[..i] + [qs[i]] + qs[i + 1..]
    ensures qs[i := x] == qs[..i] + [x] + qs[i + 1..]
  {
  }

  /** Marking a killer no entry of which is marked yet takes one copy of it
      off the moves still to be yielded. */
  lemma {:induction false} MarkKillerPending(qs: seq<Quiet>, k: Mv)
    requires k in Moves(qs)
    requires forall i :: 0 <= i < |qs| && qs[i].isKiller ==> qs[i].move != k
    ensures multiset(Pending(MarkKiller(qs, Some(k)).1)) + multiset{k} == multiset(Pending(qs))
  {
    var i := MarkKillerAt(qs, k);
    var front, back := qs[..i], qs[i + 1..];
    var q := qs[i];
    PendingSplice(front, q, back);
    PendingSplice(front, q.(isKiller := true), back);
    assert PendingOf(q) == [k];
    assert PendingOf(q.(isKiller := true)) == [];
  }

  /** The pop loop of QUIET_MOVE: pops from the back, skipping marked
      entries, until an unmarked entry or NULL_MOVE (None). */
  function PopQuiet(qs: seq<Quiet>): (r: (Option<Mv>, seq<Quiet>))
    ensures |r.1| <= |qs| && r.1 == qs[..|r.1|]
    ensures r.0.None? ==> Pending(qs) == [] && r.1 == []
    ensures r.0.Some? ==> Pending(qs) == Pending(r.1) + [r.0.value]
    decreases |qs|
  {
    if qs == [] then (None, [])
    else
      var last := qs[|qs| - 1];
      var front := qs[..|qs| - 1];
      PendingSnoc(front, last);
      assert qs == front + [last];
      if last.isKiller then
        var r := PopQuiet(front);
        assert front[..|r.1|] == qs[..|r.1|];
        r
      else (Some(last.move), front)
  }

  lemma {:induction false} PendingSnoc(qs: seq<Quiet>, q: Quiet)
    ensures Pending(qs + [q]) == Pending(qs) + (if q.isKiller then [] else [q.move])
    decreases |qs|
  {
    if qs == [] {
      assert [] + [q] == [q];
    } else {
      assert (qs + [q])[1..] == qs[1..] + [q];
      PendingSnoc(qs[1..], q);
    }
  }

  // ---------------------------------------------------------------------------
  // next_move as written.

  /** next_move: TRANSPOSITION falls through to GOOD_CAPTURE, which falls
      through to KILLER, then QUIET_MOVE, then BAD_CAPTURE, which returns
      NULL_MOVE (None). The phase never moves backwards. */
  function NextMove(l: Lists, s: Selector): (r: (Option<Mv>, Selector))
    ensures Order(r.1.phase) >= Order(s.phase)
    ensures s.phase == BadCapture ==> r == (None, s)
    ensures r.0.None? ==> r.1.phase == BadCapture
  {
    match s.phase
    case Transposition => CaptureStep(l, s.(phase := GoodCapture))
    case GoodCapture => CaptureStep(l, s)
    case Killer => KillerStep(l, s)
    case QuietMove => QuietStep(s)
    case BadCapture => (None, s)
  }

  /** GOOD_CAPTURE as written: whenever the capture list is empty it is
      generated again; the best capture is popped from the back. */
  function CaptureStep(l: Lists, s: Selector): (r: (Option<Mv>, Selector))
    requires s.phase == GoodCapture
    ensures Order(r.1.phase) >= Order(s.phase)
    ensures r.0.None? ==> r.1.phase == BadCapture
  {
    var caps := if |s.captures| == 0 then l.captures else s.captures;
    if |caps| > 0 then (Some(caps[|caps| - 1]), s.(captures := caps[..|caps| - 1]))
    else KillerStep(l, s.(captures := caps, phase := Killer))
  }

  /** KILLER: generates the quiet moves if the list is empty; yields killer 1
      if no killer was tried and it is a generated quiet move, killer 2 if
      only killer 1 was yielded and killer 2 is a generated quiet move, and
      otherwise falls through to QUIET_MOVE. */
  function KillerStep(l: Lists, s: Selector): (r: (Option<Mv>, Selector))
    requires s.phase == Killer
    ensures Order(r.1.phase) >= Order(s.phase)
    ensures r.0.None? ==> r.1.phase == BadCapture
    ensures r.1.phase == Killer ==>
      (s.killerCount == 0 && r.1.killerCount == 1 && r.0 == l.killer1)
      || (s.killerCount == 1 && r.1.killerCount == 2 && r.0 == l.killer2)
  {
    var qs := if |s.quiets| == 0 then Unmarked(l.quiets) else s.quiets;
    var killer := if s.killerCount == 0 then l.killer1 else l.killer2;
    var marked := MarkKiller(qs, killer);
    if (s.killerCount == 0 || s.killerCount == 1) && marked.0
    then (killer, s.(quiets := marked.1, killerCount := s.killerCount + 1))
    else QuietStep(s.(quiets := qs, phase := QuietMove))
  }

  /** QUIET_MOVE: the next unmarked quiet move from the back, or on to
      BAD_CAPTURE and NULL_MOVE. */
  function QuietStep(s: Selector): (r: (Option<Mv>, Selector))
    requires s.phase == QuietMove
    ensures r.0.Some? ==> r.1.phase == QuietMove && Pending(s.quiets) == Pending(r.1.quiets) + [r.0.value]
    ensures r.0.None? ==> r.1.phase == BadCapture && Pending(s.quiets) == []
  {
    var p := PopQuiet(s.quiets);
    if p.0.Some? then (p.0, s.(quiets := p.1)) else (None, s.(quiets := p.1, phase := BadCapture))
  }

  // ---------------------------------------------------------------------------
  // As written, GOOD_CAPTURE never ends while a capture exists.

  /** The selector after n calls of next_move. */
  function Run(l: Lists, s: Selector, n: nat): Selector
    decreases n
  {
    if n == 0 then s else Run(l, NextMove(l, s).1, n - 1)
  }

  /** Still in the capture phases, holding a front part of the sorted
      captures. */
  predicate InCaptures(l: Lists, s: Selector)
  {
    (s.phase == Transposition || s.phase == GoodCapture)
    && |s.captures| <= |l.captures| && s.captures == l.captures[..|s.captures|]
  }

  /** With a capture to generate, a call in the capture phases yields a
      capture and stays in GOOD_CAPTURE. */
  lemma CaptureCallStays(l: Lists, s: Selector)
    requires l.captures != [] && InCaptures(l, s)
    ensures NextMove(l, s).0.Some? && NextMove(l, s).1.phase == GoodCapture
    ensures InCaptures(l, NextMove(l, s).1)
  {
    var caps := if |s.captures| == 0 then l.captures else s.captures;
    assert caps[..|caps| - 1] == l.captures[..|caps| - 1];
  }

  /** Whenever the position has a capture, no number of calls leads the
      as-written selector out of the capture phases: killers and quiet moves
      are never yielded and NULL_MOVE never comes. */
  lemma NeverLeavesCaptures(l: Lists, n: nat)
    requires l.captures != []
    ensures InCaptures(l, Run(l, Initial(), n))
    ensures NextMove(l, Run(l, Initial(), n)).0.Some?
  {
    StaysInCaptures(l, Initial(), n);
    CaptureCallStays(l, Run(l, Initial(), n));
  }

  /** Any number of calls from a capture-phase selector stays in the
      capture phases. */
  lemma {:induction false} StaysInCaptures(l: Lists, s: Selector, n: nat)
    requires l.captures != [] && InCaptures(l, s)
    ensures InCaptures(l, Run(l, s, n))
    decreases n
  {
    if n > 0 {
      CaptureCallStays(l, s);
      StaysInCaptures(l, NextMove(l, s).1, n - 1);
    }
  }

  /** From GOOD_CAPTURE holding the j best-last captures, k <= j calls pop
      the k best. */
  lemma {:induction false} Popped(l: Lists, j: nat, k: nat)
    requires k <= j <= |l.captures|
    ensures Run(l, Selector(GoodCapture, l.captures[..j], [], 0), k)
         == Selector(GoodCapture, l.captures[..j - k], [], 0)
  {
    if k > 0 {
      var caps := l.captures[..j];
      assert caps[..|caps| - 1] == l.captures[..j - 1];
      Popped(l, j - 1, k - 1);
    }
  }

  /** The state after k calls: the sorted captures less the k best. */
  lemma CapturesPopped(l: Lists, k: nat)
    requires 1 <= k <= |l.captures|
    ensures Run(l, Initial(), k) == Selector(GoodCapture, l.captures[..|l.captures| - k], [], 0)
  {
    var c := l.captures;
    assert c[..|c| - 1] == c[..|c|][..|c| - 1];
    assert NextMove(l, Initial()).1 == Selector(GoodCapture, c[..|c| - 1], [], 0);
    Popped(l, |c| - 1, k - 1);
  }

  /** Once the last capture is popped the list is empty again, so the next
      call generates the captures anew and yields the best one a second
      time. */
  lemma BestCaptureRepeats(l: Lists)
    requires l.captures != []
    ensures NextMove(l, Initial()).0 == Some(l.captures[|l.captures| - 1])
    ensures NextMove(l, Run(l, Initial(), |l.captures|)).0 == Some(l.captures[|l.captures| - 1])
  {
    CapturesPopped(l, |l.captures|);
  }

  /** With both killers equal and legal, KILLER yields that move twice: the
      second search finds the entry the first one marked, since equality
      ignores the mark. */
  lemma EqualKillersRepeat(l: Lists)
    requires l.killer1.Some? && l.killer2 == l.killer1 && l.killer1.value in l.quiets
    ensures KillerStep(l, Selector(Killer, [], [], 0)).0 == l.killer1
    ensures KillerStep(l, KillerStep(l, Selector(Killer, [], [], 0)).1).0 == l.killer1
  {
    var qs := Unmarked(l.quiets);
    assert Moves(qs) == l.quiets;
  }

  // ---------------------------------------------------------------------------
  // next_move with the captures generated once, on entering GOOD_CAPTURE.

  /** next_move with the capture list generated on the way from
      TRANSPOSITION into GOOD_CAPTURE, as the comment at that case says,
      instead of whenever the list is empty. */
  function NextMoveFixed(l: Lists, s: Selector): (r: (Option<Mv>, Selector))
    ensures Order(r.1.phase) >= Order(s.phase)
    ensures s.phase == BadCapture ==> r == (None, s)
    ensures r.0.None? ==> r.1.phase == BadCapture
  {
    match s.phase
    case Transposition => PopCapture(l, s.(phase := GoodCapture, captures := l.captures))
    case GoodCapture => PopCapture(l, s)
    case Killer => KillerStep(l, s)
    case QuietMove => QuietStep(s)
    case BadCapture => (None, s)
  }

  /** GOOD_CAPTURE without regeneration: pop the best capture, or fall
      through to KILLER. */
  function PopCapture(l: Lists, s: Selector): (r: (Option<Mv>, Selector))
    requires s.phase == GoodCapture
    ensures Order(r.1.phase) >= Order(s.phase)
    ensures r.0.None? ==> r.1.phase == BadCapture
  {
    if |s.captures| > 0 then (Some(s.captures[|s.captures| - 1]), s.(captures := s.captures[..|s.captures| - 1]))
    else KillerStep(l, s.(phase := Killer))
  }

  /** The killers of a ply are different moves (or killer 1 is NULL_MOVE). */
  predicate KillersDiffer(l: Lists)
  {
    l.killer1.None? || l.killer1 != l.killer2
  }

  /** The states the corrected selector passes through. */
  predicate Inv(l: Lists, s: Selector)
  {
    match s.phase
    case Transposition => s.quiets == [] && s.killerCount == 0
    case GoodCapture => s.quiets == [] && s.killerCount == 0
    case Killer =>
      (s.killerCount == 0 && s.quiets == [])
      || (s.killerCount == 1 && s.quiets != [] && Moves(s.quiets) == l.quiets && MarksOnly(s.quiets, l.killer1))
      || (s.killerCount == 2 && s.quiets != [] && Moves(s.quiets) == l.quiets)
    case QuietMove => true
    case BadCapture => true
  }

  /** The moves the selector has still to yield. */
  function Remaining(l: Lists, s: Selector): multiset<Mv>
  {
    match s.phase
    case Transposition => multiset(l.captures) + multiset(l.quiets)
    case GoodCapture => multiset(s.captures) + multiset(l.quiets)
    case Killer => if s.killerCount == 0 then multiset(l.quiets) else multiset(Pending(s.quiets))
    case QuietMove => multiset(Pending(s.quiets))
    case BadCapture => multiset{}
  }

  /** One step of accounting: the invariant is kept, a yielded move leaves
      the moves still to come, and NULL_MOVE comes only when none is left. */
  predicate Accounts(l: Lists, s: Selector, r: (Option<Mv>, Selector))
  {
    Inv(l, r.1)
    && (r.0.Some? ==> Remaining(l, s) == Remaining(l, r.1) + multiset{r.0.value})
    && (r.0.None? ==> Remaining(l, s) == multiset{})
  }

  lemma QuietAccount(l: Lists, s: Selector)
    requires s.phase == QuietMove
    ensures Accounts(l, s, QuietStep(s))
  {
  }

  /** KILLER with no killer tried yet: the quiet list is generated, with no
      entry marked, and killer 1 is searched in it. */
  lemma FirstKillerAccount(l: Lists, s: Selector)
    requires s.phase == Killer && s.killerCount == 0 && s.quiets == []
    ensures Accounts(l, s, KillerStep(l, s))
  {
    var qs := Unmarked(l.quiets);
    var marked := MarkKiller(qs, l.killer1);
    PendingUnmarked(l.quiets);
    if marked.0 {
      UnmarkedMoves(l.quiets);
      var t := s.(quiets := marked.1, killerCount := 1);
      assert KillerStep(l, s) == (l.killer1, t);
      assert MarksOnly(marked.1, l.killer1);
      assert Inv(l, t);
      MarkKillerPending(qs, l.killer1.value);
    } else {
      assert KillerStep(l, s) == QuietStep(s.(quiets := qs, phase := QuietMove));
      QuietAccount(l, s.(quiets := qs, phase := QuietMove));
    }
  }

  lemma UnmarkedMoves(ms: seq<Mv>)
    ensures Moves(Unmarked(ms)) == ms
    ensures forall i :: 0 <= i < |ms| ==> !Unmarked(ms)[i].isKiller
  {
  }

  /** KILLER after killer 1 was yielded: killer 2 differs from it, so its
      entry is not yet marked. */
  lemma SecondKillerAccount(l: Lists, s: Selector)
    requires s.phase == Killer && s.killerCount == 1 && s.quiets != []
    requires Moves(s.quiets) == l.quiets && MarksOnly(s.quiets, l.killer1) && KillersDiffer(l)
    ensures Accounts(l, s, KillerStep(l, s))
  {
    var marked := MarkKiller(s.quiets, l.killer2);
    if marked.0 {
      MarkKillerPending(s.quiets, l.killer2.value);
    } else {
      QuietAccount(l, s.(phase := QuietMove));
    }
  }

  lemma KillerAccount(l: Lists, s: Selector)
    requires s.phase == Killer && Inv(l, s) && KillersDiffer(l)
    ensures Accounts(l, s, KillerStep(l, s))
  {
    if s.killerCount == 0 {
      FirstKillerAccount(l, s);
    } else if s.killerCount == 1 {
      SecondKillerAccount(l, s);
    } else {
      QuietAccount(l, s.(phase := QuietMove));
    }
  }

  lemma CaptureAccount(l: Lists, s: Selector)
    requires s.phase == GoodCapture && Inv(l, s) && KillersDiffer(l)
    ensures Accounts(l, s, PopCapture(l, s))
  {
    if |s.captures| > 0 {
      var front := s.captures[..|s.captures| - 1];
      assert s.captures == front + [s.captures[|s.captures| - 1]];
    } else {
      KillerAccount(l, s.(phase := Killer));
    }
  }

  lemma StepAccount(l: Lists, s: Selector)
    requires Inv(l, s) && KillersDiffer(l)
    ensures Accounts(l, s, NextMoveFixed(l, s))
  {
    match s.phase
    case Transposition => CaptureAccount(l, s.(phase := GoodCapture, captures := l.captures));
    case GoodCapture => CaptureAccount(l, s);
    case Killer => KillerAccount(l, s);
    case QuietMove => QuietAccount(l, s);
    case BadCapture =>
  }

  /** The moves the corrected selector yields from s until NULL_MOVE: each
      move still to come exactly once, so the loop ends. */
  function Drain(l: Lists, s: Selector): (r: seq<Mv>)
    requires Inv(l, s) && KillersDiffer(l)
    ensures multiset(r) == Remaining(l, s)
    decreases |Remaining(l, s)|
  {
    var next := NextMoveFixed(l, s);
    StepAccount(l, s);
    if next.0.None? then [] else [next.0.value] + Drain(l, next.1)
  }

  /** From construction to NULL_MOVE the corrected selector yields every
      generated capture and quiet move exactly once (killers included, as
      they are skipped among the quiet moves). */
  lemma YieldsEachMoveOnce(l: Lists)
    requires KillersDiffer(l)
    ensures multiset(Drain(l, Initial())) == multiset(l.captures) + multiset(l.quiets)
  {
  }

  /** d begins with the elements of c from the back. */
  predicate StartsReversed(d: seq<Mv>, c: seq<Mv>)
  {
    |d| >= |c| && forall i :: 0 <= i < |c| ==> d[i] == c[|c| - 1 - i]
  }

  lemma StartsReversedCons(c: seq<Mv>, d: seq<Mv>)
    requires |c| > 0 && StartsReversed(d, c[..|c| - 1])
    ensures StartsReversed([c[|c| - 1]] + d, c)
  {
    var n := |c|;
    var front := c[..n - 1];
    var e := [c[n - 1]] + d;
    forall i | 0 <= i < n
      ensures e[i] == c[n - 1 - i]
    {
      if i > 0 {
        assert e[i] == d[i - 1] == front[n - 2 - (i - 1)];
      }
    }
  }

  /** In GOOD_CAPTURE the corrected selector yields the captures from the
      back, best first, before anything else. */
  lemma {:induction false} CapturesFirst(l: Lists, s: Selector)
    requires s.phase == GoodCapture && Inv(l, s) && KillersDiffer(l)
    ensures StartsReversed(Drain(l, s), s.captures)
    decreases |s.captures|
  {
    if |s.captures| > 0 {
      var next := s.(captures := s.captures[..|s.captures| - 1]);
      DrainPops(l, s);
      CapturesFirst(l, next);
      StartsReversedCons(s.captures, Drain(l, next));
    }
  }

  /** In GOOD_CAPTURE with captures left, the drain begins with the last. */
  lemma DrainPops(l: Lists, s: Selector)
    requires s.phase == GoodCapture && Inv(l, s) && KillersDiffer(l) && |s.captures| > 0
    ensures Inv(l, s.(captures := s.captures[..|s.captures| - 1]))
    ensures Drain(l, s) == [s.captures[|s.captures| - 1]] + Drain(l, s.(captures := s.captures[..|s.captures| - 1]))
  {
    assert NextMoveFixed(l, s) == PopCapture(l, s);
  }

  /** From construction, the first moves yielded are the sorted captures
      from the back: with captures sorted ascending by score, the highest
      score comes first. */
  lemma CapturesBestFirst(l: Lists, key: Mv -> int)
    requires KillersDiffer(l) && SortedBy(l.captures, key)
    ensures |Drain(l, Initial())| >= |l.captures|
    ensures forall i, j :: 0 <= i < j < |l.captures| ==> key(Drain(l, Initial())[i]) >= key(Drain(l, Initial())[j])
  {
    var g := Selector(GoodCapture, l.captures, [], 0);
    assert NextMoveFixed(l, Initial()) == NextMoveFixed(l, g);
    var d := Drain(l, Initial());
    assert d == Drain(l, g);
    CapturesFirst(l, g);
    BestFirst(d, l.captures, key);
  }

  lemma BestFirst(d: seq<Mv>, c: seq<Mv>, key: Mv -> int)
    requires StartsReversed(d, c) && SortedBy(c, key)
    ensures forall i, j :: 0 <= i < j < |c| ==> key(d[i]) >= key(d[j])
  {
    var n := |c|;
    forall i, j | 0 <= i < j < n
      ensures key(d[i]) >= key(d[j])
    {
      SortedPairs(c, key, n - 1 - j, n - 1 - i);
    }
  }

  // ---------------------------------------------------------------------------
  // The lists, from the generator.

  /** What the selector reads for b: generate_captures' list sorted by
      CAPTURE_SCORE, generate_quiet_moves' list sorted by the history
      scores, and the ply's killers. */
  function ListsOf(t: Tables, b: Board, pieceTo: (int, int, Square) -> int, fromTo: (Square, Square) -> int,
                   killer1: Option<Mv>, killer2: Option<Mv>): (l: Lists)
    requires HasKingToMove(b)
    requires forall m :: m in Generate(t, b, CapturesAndPromotions) ==> Scorable(b, m)
    ensures multiset(l.captures) == multiset(Generate(t, b, CapturesAndPromotions))
    ensures multiset(l.quiets) == multiset(Generate(t, b, QuietOnly))
    ensures SortedBy(l.captures, m => CaptureKey(b, m))
    ensures l.killer1 == killer1 && l.killer2 == killer2
  {
    Lists(SortCaptures(b, Generate(t, b, CapturesAndPromotions)),
          SortQuiets(b, pieceTo, fromTo, Generate(t, b, QuietOnly)), killer1, killer2)
  }

  /** With distinct killers, the corrected selector yields exactly the moves
      of generate_moves<ALL>, each as often as the generator emits it. */
  lemma SelectorYieldsAllMoves(t: Tables, b: Board, pieceTo: (int, int, Square) -> int, fromTo: (Square, Square) -> int,
                               killer1: Option<Mv>, killer2: Option<Mv>)
    requires HasKingToMove(b)
    requires forall m :: m in Generate(t, b, CapturesAndPromotions) ==> Scorable(b, m)
    requires killer1.None? || killer1 != killer2
    ensures multiset(Drain(ListsOf(t, b, pieceTo, fromTo, killer1, killer2), Initial())) == multiset(Generate(t, b, All))
  {
    var l := ListsOf(t, b, pieceTo, fromTo, killer1, killer2);
    YieldsEachMoveOnce(l);
    PhasesPartitionAll(t, b, ComputeCheckInfo(t, b));
  }

  /** A promotion push of the capture list lands on an empty square, so
      sort_captures would read NO_PIECE there and index past the table's
      six columns: Scorable is a real demand on the generated list. */
  lemma PromotionPushIsNotScorable(t: Tables, b: Board, m: Mv)
    requires HasKingToMove(b) && m in Generate(t, b, CapturesAndPromotions) && m.mtype == QUIET
    ensures IsPromotionFlag(m.flag)
    ensures !Scorable(b, m)
  {
    LoudQuietIsPromotionPush(t, b, ComputeCheckInfo(t, b), m);
  }
}

=== FILE: squares.dfy ===
/** Square arithmetic: rank and file of a square, the square of a rank and
    file, algebraic square names, and one-square steps in a compass direction. */
module Squares {
  import opened Types
  import opened Outcomes

  /** C++ integer division, which truncates toward zero. */
  function CDiv(a: int, b: int): int
    requires b > 0
  {
    if a >= 0 then a / b else -((-a) / b)
  }

  /** C++ integer remainder, which takes the sign of the dividend. */
  function CRem(a: int, b: int): int
    requires b > 0
  {
    a - CDiv(a, b) * b
  }

  function GetRank(square: int): int
  {
    CDiv(square, BOARD_SIZE)
  }

  function GetFile(square: int): int
  {
    CRem(square, BOARD_SIZE)
  }

  /** A square splits into its rank and file, both in 0..7. */
  lemma RankFileDecompose(sq: Square)
    ensures 0 <= GetRank(sq) < 8 && 0 <= GetFile(sq) < 8
    ensures GetRank(sq) * 8 + GetFile(sq) == sq
  {
  }

  /** A square has exactly one (rank, file) pair. */
  lemma RankFileInjective(a: Square, b: Square)
    ensures GetRank(a) == GetRank(b) && GetFile(a) == GetFile(b) ==> a == b
  {
    RankFileDecompose(a);
    RankFileDecompose(b);
  }

  /** The square index of a 0-based rank and file, as the uint8_t the engine
      returns. */
  function GetSquare(rank: int, file: int): (r: int)
    ensures 0 <= r < 256
    ensures 0 <= rank < 8 && 0 <= file < 8 ==> r < 64 && r == rank * 8 + file
  {
    ToU8(rank * BOARD_SIZE + file)
  }

  /** get_rank and get_file undo get_square on the board. */
  lemma GetSquareRoundTrip(rank: int, file: int)
    requires 0 <= rank < 8 && 0 <= file < 8
    ensures GetRank(GetSquare(rank, file)) == rank
    ensures GetFile(GetSquare(rank, file)) == file
  {
  }

  /** Character code arithmetic as C++ does it on char. */
  function Code(c: char): int
  {
    c as int
  }

  /** The square index of an algebraic name such as "e4". The engine does not
      validate: any string of length two or more gives some uint8_t value. */
  function AlgebraicToIndex(s: string): (r: int)
    requires |s| >= 2
    ensures 0 <= r < 256
  {
    var rank := Code(s[1]) - Code('1');
    var file := Code(s[0]) - Code('a');
    GetSquare(rank, file)
  }

  /** A well-formed square name: a file letter a-h then a rank digit 1-8. */
  predicate IsSquareName(s: string)
  {
    |s| == 2 && 'a' <= s[0] <= 'h' && '1' <= s[1] <= '8'
  }

  /** The algebraic name of a square (the inverse direction). */
  function SquareName(sq: Square): (s: string)
    ensures IsSquareName(s)
  {
    [(Code('a') + GetFile(sq)) as char, (Code('1') + GetRank(sq)) as char]
  }

  /** A well-formed name maps to rank * 8 + file of its characters. */
  lemma AlgebraicToIndexOfName(s: string)
    requires IsSquareName(s)
    ensures 0 <= AlgebraicToIndex(s) < 64
    ensures AlgebraicToIndex(s) == GetSquare(Code(s[1]) - Code('1'), Code(s[0]) - Code('a'))
    ensures GetRank(AlgebraicToIndex(s)) == Code(s[1]) - Code('1')
    ensures GetFile(AlgebraicToIndex(s)) == Code(s[0]) - Code('a')
  {
    GetSquareRoundTrip(Code(s[1]) - Code('1'), Code(s[0]) - Code('a'));
  }

  /** Naming a square and reading the name back gives the square. */
  lemma NameThenIndex(sq: Square)
    ensures AlgebraicToIndex(SquareName(sq)) == sq
  {
    RankFileDecompose(sq);
  }

  /** Reading a well-formed name and naming the square gives the name back. */
  lemma IndexThenName(s: string)
    requires IsSquareName(s)
    ensures SquareName(AlgebraicToIndex(s)) == s
  {
    AlgebraicToIndexOfName(s);
  }

  /** Worked values: "a1" is 0, "e4" is 28 and "h8" is 63. */
  lemma AlgebraicExamples()
    ensures AlgebraicToIndex("a1") == 0
    ensures AlgebraicToIndex("e4") == 28
    ensures AlgebraicToIndex("h8") == 63
  {
  }

  /** Without validation, out-of-range characters leave the board or alias
      another square: "a9" is 64, "i1" is the index of "a2", and "a0" wraps
      to 248. */
  lemma AlgebraicUnvalidated()
    ensures AlgebraicToIndex("a9") == 64
    ensures AlgebraicToIndex("i1") == AlgebraicToIndex("a2") == 8
    ensures AlgebraicToIndex("a0") == 248
  {
  }

  // ---------------------------------------------------------------------------
  // One step of a king in a compass direction, clipped at the board's edge.

  /** The square one step from sq in direction d, or None off the board. */
  function Step(sq: Square, d: Dir): (r: Option<Square>)
    ensures r.Some? <==> 0 <= GetRank(sq) + d.DRank() < 8 && 0 <= GetFile(sq) + d.DFile() < 8
    ensures r.Some? ==>
              GetRank(r.value) == GetRank(sq) + d.DRank() && GetFile(r.value) == GetFile(sq) + d.DFile()
  {
    var rank := GetRank(sq) + d.DRank();
    var file := GetFile(sq) + d.DFile();
    if 0 <= rank < 8 && 0 <= file < 8 then Some(rank * 8 + file) else None
  }

  /** On the board, a step adds the direction's offset to the square index. */
  lemma StepAddsOffset(sq: Square, d: Dir)
    requires Step(sq, d).Some?
    ensures Step(sq, d).value == sq + d.Offset()
  {
    RankFileDecompose(sq);
    DirectionOffsets(d);
  }

  /** Stepping back undoes a step: t is one step from s exactly when s is one
      step from t in the opposite direction. */
  lemma StepInverse(s: Square, t: Square, d: Dir)
    ensures Step(s, d) == Some(t) <==> Step(t, d.Opposite()) == Some(s)
  {
    RankFileDecompose(s);
    RankFileDecompose(t);
  }
}

=== FILE: squaresets.dfy ===
/** Sets of squares in the order the engine visits a bitboard's bits:
    pop_lsb takes the lowest square first. */
module SquareSets {
  import opened Types

  /** The squares of s from k upwards, lowest first. */
  function AscendingFrom(s: set<Square>, k: int): (r: seq<Square>)
    requires 0 <= k <= 64
    ensures forall i :: 0 <= i < |r| ==> r[i] in s && r[i] >= k
    ensures forall sq: Square :: sq in s && sq >= k ==> sq in r
    ensures forall i :: 0 <= i < |r| - 1 ==> r[i] < r[i + 1]
    decreases 64 - k
  {
    if k == 64 then []
    else if k in s then [k] + AscendingFrom(s, k + 1)
    else AscendingFrom(s, k + 1)
  }

  /** The order in which a pop_lsb loop visits the squares of a bitboard. */
  function Ascending(s: set<Square>): (r: seq<Square>)
    ensures forall i :: 0 <= i < |r| ==> r[i] in s
    ensures forall sq: Square :: sq in s ==> sq in r
    ensures forall i :: 0 <= i < |r| - 1 ==> r[i] < r[i + 1]
  {
    AscendingFrom(s, 0)
  }

  /** An increasing sequence holds no square twice. */
  lemma {:induction false} IncreasingIsDistinct(r: seq<Square>, i: int, j: int)
    requires forall k :: 0 <= k < |r| - 1 ==> r[k] < r[k + 1]
    requires 0 <= i < j < |r|
    ensures r[i] < r[j]
    decreases j - i
  {
    if j > i + 1 {
      IncreasingIsDistinct(r, i, j - 1);
    }
  }

  /** get_lsb: the lowest square of a non-empty set. */
  function Lowest(s: set<Square>): (sq: Square)
    requires s != {}
    ensures sq in s && forall t :: t in s ==> sq <= t
  {
    var r := Ascending(s);
    var some :| some in s;
    assert some in r;
    forall t | t in s
      ensures r[0] <= t
    {
      var j :| 0 <= j < |r| && r[j] == t;
      if j > 0 {
        IncreasingIsDistinct(r, 0, j);
      }
    }
    r[0]
  }

  /** A set with one square: get_lsb finds that square. */
  lemma LowestOfSingleton(s: set<Square>, sq: Square)
    requires s == {sq}
    ensures Lowest(s) == sq
  {
  }

  /** A set of one element (popcount 1) is that element's singleton. */
  lemma SizeOneIsSingleton(s: set<Square>, c: Square)
    requires |s| == 1 && c in s
    ensures s == {c}
  {
    assert |s - {c}| == 0;
  }
}

=== FILE: types.dfy ===
/** The engine's type layer: square enumeration, directions, colours, pieces,
    castling-right bits, move types and flags, and the sentinel values. */
module Types {

  /** A square index on the board, A1 = 0 … H8 = 63. */
  type Square = s: int | 0 <= s < 64

  const NUM_SQUARES: int := 64
  const NUM_COLORS: int := 2
  const NUM_PIECES: int := 6
  const BOARD_SIZE: int := 8

  /** The value an 8-bit unsigned variable holds once x is assigned to it. */
  function ToU8(x: int): (r: int)
    ensures 0 <= r < 256
    ensures (x - r) % 256 == 0
    ensures 0 <= x < 256 ==> r == x
  {
    x % 256
  }

  // ---------------------------------------------------------------------------
  // Square enumeration: the enumerators in declaration order, one row per rank.

  const SQUARE_ENUM_ROWS: seq<seq<string>> := [
    ["A1", "B1", "C1", "D1", "E1", "F1", "G1", "H1"],
    ["A2", "B2", "C2", "D2", "E2", "F2", "G2", "H2"],
    ["A3", "B3", "C3", "D3", "E3", "F3", "G3", "H3"],
    ["A4", "B4", "C4", "D4", "E4", "F4", "G4", "H4"],
    ["A5", "B5", "C5", "D5", "E5", "F5", "G5", "H5"],
    ["A6", "B6", "C6", "D6", "E6", "F6", "G6", "H6"],
    ["A7", "B7", "C7", "D7", "E7", "F7", "G7", "H7"],
    ["A8", "B8", "C8", "D8", "E8", "F8", "G8", "H8"]]

  function Flatten(rows: seq<seq<string>>): seq<string>
  {
    if rows == [] then [] else rows[0] + Flatten(rows[1..])
  }

  /** The enumerators of SquareEnum; an enumerator's value is its position here. */
  const SQUARE_ENUM: seq<string> := Flatten(SQUARE_ENUM_ROWS)

  const FILE_LETTERS: string := "ABCDEFGH"
  const RANK_DIGITS: string := "12345678"

  lemma {:induction false} FlattenIndex(rows: seq<seq<string>>, r: int, f: int)
    requires forall k :: 0 <= k < |rows| ==> |rows[k]| == 8
    requires 0 <= r < |rows| && 0 <= f < 8
    ensures |Flatten(rows)| == 8 * |rows|
    ensures Flatten(rows)[8 * r + f] == rows[r][f]
  {
    if r > 0 {
      FlattenIndex(rows[1..], r - 1, f);
    } else if |rows| > 1 {
      FlattenIndex(rows[1..], 0, f);
    }
  }

  /** Row r of the enumerator table lists the squares of rank r, files A to H. */
  lemma RowIsRank(r: int, f: int)
    requires 0 <= r < 8 && 0 <= f < 8
    ensures |SQUARE_ENUM_ROWS[r]| == 8
    ensures SQUARE_ENUM_ROWS[r][f] == [FILE_LETTERS[f], RANK_DIGITS[r]]
  {
    if r == 0 {
    } else if r == 1 {
    } else if r == 2 {
    } else if r == 3 {
    } else if r == 4 {
    } else if r == 5 {
    } else if r == 6 {
    } else {
    }
  }

  /** Every enumerator's value is rank * 8 + file: the enumerator at position i
      names file i % 8 and rank i / 8, so A1 = 0 and H8 = 63. */
  lemma SquareEnumIsRankFile()
    ensures |SQUARE_ENUM| == 64
    ensures forall i :: 0 <= i < 64 ==> SQUARE_ENUM[i] == [FILE_LETTERS[i % 8], RANK_DIGITS[i / 8]]
    ensures SQUARE_ENUM[0] == "A1" && SQUARE_ENUM[63] == "H8"
  {
    forall k | 0 <= k < |SQUARE_ENUM_ROWS|
      ensures |SQUARE_ENUM_ROWS[k]| == 8
    {
      RowIsRank(k, 0);
    }
    FlattenIndex(SQUARE_ENUM_ROWS, 0, 0);
    forall i | 0 <= i < 64
      ensures SQUARE_ENUM[i] == [FILE_LETTERS[i % 8], RANK_DIGITS[i / 8]]
    {
      FlattenIndex(SQUARE_ENUM_ROWS, i / 8, i % 8);
      RowIsRank(i / 8, i % 8);
    }
    FlattenIndex(SQUARE_ENUM_ROWS, 7, 7);
  }

  // The enumerators the engine names explicitly (castling squares).
  const A1: Square := 0
  const C1: Square := 2
  const D1: Square := 3
  const E1: Square := 4
  const F1: Square := 5
  const G1: Square := 6
  const H1: Square := 7
  const A8: Square := 56
  const C8: Square := 58
  const D8: Square := 59
  const E8: Square := 60
  const F8: Square := 61
  const G8: Square := 62
  const H8: Square := 63

  /** The named square constants are the positions of their enumerators. */
  lemma NamedSquaresMatchEnum()
    ensures SQUARE_ENUM[A1] == "A1" && SQUARE_ENUM[C1] == "C1" && SQUARE_ENUM[D1] == "D1"
    ensures SQUARE_ENUM[E1] == "E1" && SQUARE_ENUM[F1] == "F1" && SQUARE_ENUM[G1] == "G1"
    ensures SQUARE_ENUM[H1] == "H1" && SQUARE_ENUM[A8] == "A8" && SQUARE_ENUM[C8] == "C8"
    ensures SQUARE_ENUM[D8] == "D8" && SQUARE_ENUM[E8] == "E8" && SQUARE_ENUM[F8] == "F8"
    ensures SQUARE_ENUM[G8] == "G8" && SQUARE_ENUM[H8] == "H8"
  {
    SquareEnumIsRankFile();
  }

  // ---------------------------------------------------------------------------
  // Directions, as square-index offsets.

  const NORTH: int := 8
  const EAST: int := 1
  const SOUTH: int := -NORTH
  const WEST: int := -EAST
  const NORTHEAST: int := NORTH + EAST
  const NORTHWEST: int := NORTH + WEST
  const SOUTHEAST: int := SOUTH + EAST
  const SOUTHWEST: int := SOUTH + WEST
  const NORTH_NORTH: int := NORTH + NORTH
  const SOUTH_SOUTH: int := SOUTH + SOUTH

  /** The eight compass directions a bitboard can be shifted in. */
  datatype Dir = N | S | E | W | NE | NW | SE | SW
  {
    /** Rank change of one step in this direction. */
    function DRank(): int
    {
      match this
      case N | NE | NW => 1
      case S | SE | SW => -1
      case E | W => 0
    }

    /** File change of one step in this direction. */
    function DFile(): int
    {
      match this
      case E | NE | SE => 1
      case W | NW | SW => -1
      case N | S => 0
    }

    /** The engine's DirectionEnum value for this direction. */
    function Offset(): int
    {
      match this
      case N => NORTH
      case S => SOUTH
      case E => EAST
      case W => WEST
      case NE => NORTHEAST
      case NW => NORTHWEST
      case SE => SOUTHEAST
      case SW => SOUTHWEST
    }

    function Opposite(): Dir
    {
      match this
      case N => S
      case S => N
      case E => W
      case W => E
      case NE => SW
      case SW => NE
      case NW => SE
      case SE => NW
    }

    /** Rook directions move along a rank or a file; the others are diagonals. */
    predicate IsOrthogonal()
    {
      N? || S? || E? || W?
    }
  }

  /** NORTH is one rank (8 squares) and EAST one file; every direction's offset
      is 8 * rank change + file change, so the diagonals are +-7 and +-9 and the
      double pushes are +-16. */
  lemma DirectionOffsets(d: Dir)
    ensures d.Offset() == 8 * d.DRank() + d.DFile()
    ensures d.Opposite().Offset() == -d.Offset()
    ensures NORTHEAST == 9 && NORTHWEST == 7 && SOUTHEAST == -7 && SOUTHWEST == -9
    ensures NORTH_NORTH == 16 && SOUTH_SOUTH == -16
  {
  }

  // ---------------------------------------------------------------------------
  // Colours and pieces.

  const WHITE: int := 0
  const BLACK: int := 1
  const NO_COLOR: int := 2

  const PAWN: int := 0
  const KNIGHT: int := 1
  const BISHOP: int := 2
  const ROOK: int := 3
  const QUEEN: int := 4
  const KING: int := 5
  const NO_PIECE: int := 6

  /** A colour that has pieces on the board. */
  type Side = c: int | 0 <= c < 2

  /** A real piece kind, PAWN .. KING. */
  type PieceKind = p: int | 0 <= p < 6

  // ---------------------------------------------------------------------------
  // Castling rights: one bit per right in a uint8_t.

  type CastlingRights = bv8

  const WHITE_SHORT: CastlingRights := 0x1
  const WHITE_LONG: CastlingRights := 0x2
  const BLACK_SHORT: CastlingRights := 0x4
  const BLACK_LONG: CastlingRights := 0x8
  const NO_CASTLING_RIGHTS: CastlingRights := 0

  /** The rights value holding exactly the selected rights. */
  function RightsOf(ws: bool, wl: bool, bs: bool, bl: bool): CastlingRights
  {
    (if ws then WHITE_SHORT else 0) | (if wl then WHITE_LONG else 0)
    | (if bs then BLACK_SHORT else 0) | (if bl then BLACK_LONG else 0)
  }

  /** The four rights are distinct single bits: every combination is a
      different value below 16, and each right can be read back from it. */
  lemma CastlingRightsAreBits(ws: bool, wl: bool, bs: bool, bl: bool,
                              ws': bool, wl': bool, bs': bool, bl': bool)
    ensures RightsOf(ws, wl, bs, bl) < 16
    ensures (RightsOf(ws, wl, bs, bl) & WHITE_SHORT != 0) == ws
    ensures (RightsOf(ws, wl, bs, bl) & WHITE_LONG != 0) == wl
    ensures (RightsOf(ws, wl, bs, bl) & BLACK_SHORT != 0) == bs
    ensures (RightsOf(ws, wl, bs, bl) & BLACK_LONG != 0) == bl
    ensures RightsOf(ws, wl, bs, bl) == RightsOf(ws', wl', bs', bl') ==>
              ws == ws' && wl == wl' && bs == bs' && bl == bl'
  {
  }

  // ---------------------------------------------------------------------------
  // Move types and flags.

  const QUIET: int := 0
  const CAPTURE: int := 1

  const NORMAL: int := 0
  const EN_PASSANT: int := 1
  const CASTLE: int := 2
  const PROMOTION_BISHOP: int := 3
  const PROMOTION_KNIGHT: int := 4
  const PROMOTION_ROOK: int := 5
  const PROMOTION_QUEEN: int := 6

  const MOVE_TYPES: seq<int> := [QUIET, CAPTURE]
  const MOVE_FLAGS: seq<int> :=
    [NORMAL, EN_PASSANT, CASTLE, PROMOTION_BISHOP, PROMOTION_KNIGHT, PROMOTION_ROOK, PROMOTION_QUEEN]

  /** Every move type fits the 1-bit field and every flag the 3-bit field. */
  lemma EnumsFitMoveFields()
    ensures forall i :: 0 <= i < |MOVE_TYPES| ==> 0 <= MOVE_TYPES[i] < 2
    ensures forall i :: 0 <= i < |MOVE_FLAGS| ==> 0 <= MOVE_FLAGS[i] < 8
  {
  }

  /** True of the four promotion flags. */
  predicate IsPromotionFlag(flag: int)
  {
    PROMOTION_BISHOP <= flag <= PROMOTION_QUEEN
  }

  /** The piece a promotion flag turns the pawn into. */
  function PromotedPiece(flag: int): (p: PieceKind)
    requires IsPromotionFlag(flag)
    ensures p != PAWN && p != KING
  {
    if flag == PROMOTION_BISHOP then BISHOP
    else if flag == PROMOTION_KNIGHT then KNIGHT
    else if flag == PROMOTION_ROOK then ROOK
    else QUEEN
  }

  // ---------------------------------------------------------------------------
  // Sentinels.

  /** NO_SQUARE is -1 stored in a uint8_t. */
  const NO_SQUARE: int := ToU8(-1)

  /** NO_SQUARE is 255, which is not a square of the board. */
  lemma NoSquareIsOffBoard()
    ensures NO_SQUARE == 255
    ensures !(0 <= NO_SQUARE < 64)
  {
  }
}

=== FILE: versions.dfy ===
/** save_version.py: copies the current build into the versions directory,
    either as a new version v<latest + 1>_<name> or over the latest one. The
    directory listing is an input (empty when the directory is missing); the
    copy itself and the directory creation are left out. */
module SaveVersion {
  import opened Outcomes
  import opened Numbers
  import opened Replies

  /** re.match(r'v(\d+)_(.+)', name): a 'v', a run of digits, '_' and at
      least one more character that is not a newline; the version is the
      digits' value. The digits are the whole run, since a shorter run would
      be followed by a digit rather than '_'. */
  function VersionOf(name: string): (r: Option<nat>)
    ensures r.Some? ==> |name| >= 4 && name[0] == 'v'
  {
    if |name| == 0 || name[0] != 'v' then None
    else
      var k := DigitRun(name[1..]);
      if k == 0 || |name| < k + 3 || name[k + 1] != '_' || name[k + 2] == '\n' then None
      else Some(DigitsValue(name[1..][..k]))
  }

  /** Every name of the shape v<digits>_<text> carries the digits' value. */
  lemma VersionOfName(d: string, rest: string)
    requires |d| > 0 && AllDigits(d)
    requires |rest| > 0 && rest[0] != '\n'
    ensures VersionOf("v" + d + "_" + rest) == Some(DigitsValue(d))
  {
    var name := "v" + d + "_" + rest;
    assert name[1..] == d + ("_" + rest);
    DigitRunPrefix(d, "_" + rest);
    assert name[|d| + 1] == '_' && name[|d| + 2] == rest[0];
  }

  /** Names the pattern ignores. */
  lemma IgnoredNames()
    ensures VersionOf("enigma") == None && VersionOf("v_x") == None
    ensures VersionOf("v1") == None && VersionOf("v1_") == None && VersionOf("v1x_y") == None
    ensures VersionOf("v1_\n") == None && VersionOf("xv1_y") == None
  {
    assert DigitRun("_x") == 0;
    assert DigitRun("1") == 1 by { assert DigitRun("") == 0; }
    assert DigitRun("1_") == 1 by { assert DigitRun("_") == 0; }
    assert DigitRun("1x_y") == 1 by { assert DigitRun("x_y") == 0; }
    assert DigitRun("1_\n") == 1 by { assert DigitRun("_\n") == 0; }
  }

  /** The scan over the first n listed names: the greatest version seen and
      the first name carrying it, starting from -1 and None; a name replaces
      the latest only if its version is strictly greater. */
  function LatestUpTo(names: seq<string>, n: nat): (r: (int, Option<string>))
    requires n <= |names|
    ensures r.0 >= -1 && (r.1.None? <==> r.0 == -1)
    ensures r.0 == -1 <==> forall i :: 0 <= i < n ==> VersionOf(names[i]).None?
    ensures forall i :: 0 <= i < n && VersionOf(names[i]).Some? ==> VersionOf(names[i]).value <= r.0
    ensures r.1.Some? ==> exists i :: 0 <= i < n && names[i] == r.1.value && VersionOf(names[i]) == Some(r.0 as nat)
                                  && forall j :: 0 <= j < i && VersionOf(names[j]).Some? ==> VersionOf(names[j]).value < r.0
  {
    if n == 0 then (-1, None)
    else
      var prev := LatestUpTo(names, n - 1);
      var v := VersionOf(names[n - 1]);
      if v.Some? && v.value > prev.0 then (v.value, Some(names[n - 1])) else prev
  }

  /** get_latest_version over the whole listing: -1 and None when no name
      carries a version, otherwise the greatest version and the first name in
      listing order that carries it. */
  function Latest(names: seq<string>): (r: (int, Option<string>))
    ensures r.0 >= -1 && (r.1.None? <==> r.0 == -1)
    ensures r.0 == -1 <==> forall i :: 0 <= i < |names| ==> VersionOf(names[i]).None?
    ensures forall i :: 0 <= i < |names| && VersionOf(names[i]).Some? ==> VersionOf(names[i]).value <= r.0
    ensures r.1.Some? ==> exists i :: 0 <= i < |names| && names[i] == r.1.value && VersionOf(names[i]) == Some(r.0 as nat)
                                  && forall j :: 0 <= j < i && VersionOf(names[j]).Some? ==> VersionOf(names[j]).value < r.0
  {
    LatestUpTo(names, |names|)
  }

  /** What the script does: copy the build to a file of that name, or exit
      with a status and no copy. */
  datatype SaveOutcome = CopyTo(file: string) | Exit(code: int)

  /** The script on a listing, a name argument ("" when none is given, which
      argparse's None and an explicit empty name both amount to) and the
      reply to the overwrite prompt. */
  function Save(names: seq<string>, name: string, reply: string): (r: SaveOutcome)
    ensures name != "" ==> r == CopyTo("v" + Decimal(Latest(names).0 + 1) + "_" + name)
    ensures name == "" && Latest(names).1.None? ==> r == Exit(1)
    ensures name == "" && Latest(names).1.Some? ==>
              r == (if IsYes(reply) then CopyTo(Latest(names).1.value) else Exit(0))
  {
    var (latest, latestName) := Latest(names);
    if name != "" then CopyTo("v" + Decimal(latest + 1) + "_" + name)
    else if latestName.None? then Exit(1)
    else if !IsYes(reply) then Exit(0)
    else CopyTo(latestName.value)
  }

  /** A new version's file is recognised by the pattern, with the number one
      above the latest (0 in an empty or missing directory). */
  lemma NewFileCarriesNextVersion(names: seq<string>, name: string)
    requires name != "" && name[0] != '\n'
    ensures Save(names, name, "").CopyTo?
    ensures VersionOf(Save(names, name, "").file) == Some(Latest(names).0 + 1)
  {
    var n: nat := Latest(names).0 + 1;
    DecimalValue(n);
    VersionOfName(Decimal(n), name);
  }

  /** Wherever the new file shows up in the next listing, the next scan finds
      it as the latest: its version is above every other. */
  lemma NewFileIsNextLatest(names: seq<string>, name: string, k: nat)
    requires name != "" && name[0] != '\n' && k <= |names|
    ensures var file := Save(names, name, "").file;
            Latest(names[..k] + [file] + names[k..]) == (Latest(names).0 + 1, Some(file))
  {
    NewFileCarriesNextVersion(names, name);
    var file := Save(names, name, "").file;
    var top := Latest(names).0 + 1;
    var next := names[..k] + [file] + names[k..];
    assert forall i :: 0 <= i < |next| && i != k ==> next[i] in names;
    assert forall i :: 0 <= i < |names| && VersionOf(names[i]).Some? ==> VersionOf(names[i]).value < top;
    var r := Latest(next);
    assert next[k] == file;
    assert r.0 == top;
    var i :| 0 <= i < |next| && next[i] == r.1.value && VersionOf(next[i]) == Some(r.0 as nat);
    assert i == k;
  }

  /** The example listing v0_a, v2_b, v1_c: v2_b is the latest. */
  lemma LatestOfExample()
    ensures Latest(["v0_a", "v2_b", "v1_c"]) == (2, Some("v2_b"))
  {
    var names := ["v0_a", "v2_b", "v1_c"];
    VersionOfName("0", "a");
    VersionOfName("2", "b");
    VersionOfName("1", "c");
    assert names[0] == "v" + "0" + "_" + "a";
    assert names[1] == "v" + "2" + "_" + "b";
    assert names[2] == "v" + "1" + "_" + "c";
    assert DigitsValue("0") == 0 && DigitsValue("1") == 1 && DigitsValue("2") == 2;
    assert LatestUpTo(names, 1) == (0, Some("v0_a"));
    assert LatestUpTo(names, 2) == (2, Some("v2_b"));
  }

  /** Between two names of the same version the first listed is kept. */
  lemma TieKeepsFirst()
    ensures Latest(["v2_x", "v2_y"]) == (2, Some("v2_x"))
  {
    var names := ["v2_x", "v2_y"];
    VersionOfName("2", "x");
    VersionOfName("2", "y");
    assert names[0] == "v" + "2" + "_" + "x";
    assert names[1] == "v" + "2" + "_" + "y";
    assert DigitsValue("2") == 2;
    assert LatestUpTo(names, 1) == (2, Some("v2_x"));
  }

  /** In an empty or missing directory the first version is v0, and there is
      nothing to overwrite. */
  lemma EmptyDirectory(name: string, reply: string)
    requires name != ""
    ensures Save([], name, reply) == CopyTo("v0_" + name)
    ensures Save([], "", reply) == Exit(1)
  {
    assert Decimal(0) == "0";
  }
}
